=== FILE: README.md ===
# Tetra core, modelled in Dafny

Tetra is a small 2D game framework in Rust. This project models its
deterministic core as pure Dafny functions over immutable datatypes, and proves
what the code and its tests promise about that core.

- **Batchers.**
  - The quad batchers of `src/graphics.rs` (`QuadBatcher`) and
    `src/graphics/mod.rs` (`VertexBatcher`).
  - The sprite batches of `src/spritebatch.rs` (`SpriteBatch`) and
    `src/graphics/spritebatch.rs` (`GraphicsSpriteBatch`).
  - The static quad index pattern they share (`QuadIndices`).
  - Each batcher queues vertices and flushes when it is full or when the
    texture, shader, canvas or framebuffer changes. The model proves the
    counting invariants and that every queued quad is drawn.
- **GL wrappers and their bind caches.** There are three:
  `src/platform/device_gl.rs` (`DeviceGl`), `src/graphics/opengl.rs`
  (`GlDevice`) and `src/opengl.rs` (`OpenGLDevice`). GL is a log of issued
  calls, and `GlModel` replays that log to say what is bound. "Sound" means
  the cache equals what GL has bound.
- **Screen scaling and letterboxing.**
  - `Scaling` models every `ScalingMode`, with the project/unproject inverse
    pair and the mouse mapping.
  - `VertexBatcher` models `letterbox`.
- **Time and the game loop.**
  - `Time` models the timestep, the blend factor and the FPS ring buffer.
  - `Context` models the builder and the `run`/`tick` ordering with error
    propagation. It runs over scripted outcomes of the parts it cannot see.
- **Input.** `Keyboard`, `Mouse`, `Gamepad`, `Input` and the shared
  down/pressed/released sets of `Held`.
- **Images and textures.**
  - `ImageData` covers the byte buffer: size checks, pixel indexing, channel
    reads and writes, `transform`, `premultiply` and `region`.
  - `Textures` covers strides, the nine-slice layout, `draw_region` and the
    data uploads.
  - `Ui` covers the older nine-slice panel.
- **Small value types.** `Rectangles`, `Animation`, the two `DrawParams`
  types (`Drawable`, `DrawParams`), `Mesh` and the `Shader` sampler units.
- **Text.**
  - `BmFont` is the BMFont text-format parser and rasterizer, over the
    string helpers in `Strings`.
  - `Packer` is the shelf packer of the glyph atlas.
  - `FontCache` is the glyph cache, with its cursor layout and atlas growth.
  - `Text` covers the geometry invalidation of text objects.
- **`Tetras`.** The board logic of the Tetris example: rotation, collision,
  locking, line clears and game over.

`Wrappers` (`Option`, `Result`), `Numeric` (truncating integer division,
floor/ceil/round of reals, saturating casts) and `Basics` (`Vec2`, `Color`,
extent ordering) are shared helpers.

**Conventions.**
- `f32` and `f64` are exact reals. Integer types are unbounded, and the
  source's truncating division is written out.
- A panic the source reaches on some input becomes an error value. An
  `assert!` on the caller's use of an API becomes a precondition.
- Where the source has a defect (see Findings), the code as written is a
  member of its own with a counterexample, and the rest of the model builds
  on the corrected member. Every member that therefore differs from the
  source is named under Left out.
- Calls into code this model cannot see are parameters of the model: the
  rasterizer, `HashMap` iteration order, the device's refusals, and the
  outcomes of `time::tick`, `is_fixed_update_ready`, update and draw.

## Model

| member | source | states |
|---|---|---|
| Animation.New | src/graphics/animation.rs:23-32 | a new animation starts on frame 0 with its tick count at 0 and keeps the texture, frames and frame length it was given |
| Animation.Tick | src/graphics/animation.rs:35-41 | a tick panics exactly when the count reaches the frame length and there are no frames; otherwise it either only counts or moves to the next frame, wrapping, with the count reset; a valid frame index stays valid |
| Animation.TicksBeforeAdvance | src/graphics/animation.rs:35-41 | from a fresh count, fewer than frame-length ticks leave the frame where it is and only raise the count |
| Animation.AdvanceAfterFrameLength | src/graphics/animation.rs:35-41 | from a fresh count, exactly frame-length ticks move to the next frame (wrapping to the first) with the count back at 0 |
| Animation.Restart | src/graphics/animation.rs:44-47 | restarting goes back to the first frame with the count at 0 and keeps texture, frames and frame length |
| Animation.SetFrames | src/graphics/animation.rs:71-75 | new frames also restart playback from frame 0 |
| Animation.SetTexture | src/graphics/animation.rs:59-61 | swapping the texture changes nothing else: frames and playback state are kept |
| Animation.SetFrameLength | src/graphics/animation.rs:83-85 | only the frame length changes |
| Animation.Draw | src/graphics/animation.rs:89-110 | drawing panics exactly when the frame index is out of range; otherwise it binds the texture and pushes one quad whose clip is the current frame, or the caller's clip moved and grown by it, with every other parameter untouched |
| Animation.ValidDraws | src/graphics/animation.rs:93 | an animation whose frame index is valid and which has frames never panics when drawn |
| Rectangles.IntersectsIffCommonPoint | src/graphics/rectangle.rs:75-80 | for rectangles of positive size, `intersects` holds exactly when some point lies in both (by `contains_point`'s half-open edges) (`Intersects`, `ContainsPoint`) |
| Rectangles.IntersectsSymmetric | src/graphics/rectangle.rs:75-80 | `intersects` does not depend on the order of its arguments |
| Rectangles.SelfIntersectsAndContains | src/graphics/rectangle.rs:75-88 | a rectangle of positive size intersects and contains itself |
| Rectangles.ContainsIffAllPoints | src/graphics/rectangle.rs:83-96 | for a rectangle of positive size, `contains` holds exactly when every point of it is a point of the outer one (`Contains`, `ContainsPoint`) |
| Rectangles.ContainsImpliesIntersects | src/graphics/rectangle.rs:75-88 | containing a rectangle of positive size implies intersecting it |
| Rectangles.TestVectors | src/graphics/rectangle.rs:133-185 | the outcomes the unit tests assert for `intersects`, `contains` and `contains_point` on the base rectangle (2,2,4,4) |
| Rectangles.RowNext | src/graphics/rectangle.rs:107-111 | each step yields the current rectangle and moves the next one right by exactly its width, keeping y and size |
| Rectangles.ColumnNext | src/graphics/rectangle.rs:122-126 | each step yields the current rectangle and moves the next one down by exactly its height, keeping x and size |
| Rectangles.RowItems | src/graphics/rectangle.rs:34-52 | the k-th rectangle of `row(x, y, w, h)` is at x + k·w, y, with size w by h (the doc example's 0, 16, 32 is the case w = 16) |
| Rectangles.ColumnItems | src/graphics/rectangle.rs:54-72 | the k-th rectangle of `column(x, y, w, h)` is at x, y + k·h, with size w by h |
| Strings.TrimStart | src/graphics/text/bmfont.rs:389 | `trim_start` returns a suffix of its input that does not start with whitespace, and everything it drops is whitespace (Unicode White_Space, as `char::is_whitespace`) |
| Strings.TrimStartSpace | src/graphics/text/bmfont.rs:418-428 | one separating space before a value that does not start with whitespace is exactly what `trim_start` removes |
| Strings.Find | src/graphics/text/bmfont.rs:390 | `find` of a character is `None` exactly when the character is absent; otherwise it is the index of its first occurrence |
| Strings.FindAfter | src/graphics/text/bmfont.rs:400 | in a + c + b with no c in a, `find(c)` is the length of a |
| Strings.SplitAt | src/graphics/text/bmfont.rs:390-391 | splitting at the first occurrence of c (or at the end) gives two parts that concatenate back to the input, the first free of c and the second empty or starting with c |
| Strings.SplitAtOf | src/graphics/text/bmfont.rs:390-391 | splitting a + b, where a has no c and b is empty or starts with c, gives back exactly (a, b) |
| Strings.Lines | src/graphics/text/bmfont.rs:244 | no line that `lines` yields holds a newline |
| Strings.LinesUnlines | src/graphics/text/bmfont.rs:244 | text written as newline-terminated lines (none ending in a carriage return) is split by `lines` back into exactly those lines |
| Strings.DecimalRoundTrip | src/graphics/text/bmfont.rs:384 | reading back the decimal digits of n gives n |
| Strings.ParseU32 | src/graphics/text/bmfont.rs:384 | a successful `u32` parse is at most 2^32 - 1 and came from a non-empty string without a minus sign |
| Strings.ParseI32 | src/graphics/text/bmfont.rs:384 | a successful `i32` parse lies in the `i32` range |
| Strings.ParseRoundTrip | src/graphics/text/bmfont.rs:384 | every `u32` and every `i32` printed in decimal parses back to itself |
| BmFont.ParseTag | src/graphics/text/bmfont.rs:388-392 | the tag and the rest together are the line without its leading whitespace; the tag holds no space and the rest is empty or starts with the space that ended the tag |
| BmFont.ParseTagOf | src/graphics/text/bmfont.rs:388-392 | a line written as a tag followed by space-led attributes splits back into exactly that tag and those attributes |
| BmFont.Insert | src/graphics/text/bmfont.rs:415-425 | inserting an attribute adds its key; when the same key comes again later in the line, the later value is the one kept |
| BmFont.Take | src/graphics/text/bmfont.rs:399-404 | input with no `=` left is an invalid font; otherwise each pass consumes input, so the loop ends |
| BmFont.ParseFrom | src/graphics/text/bmfont.rs:398-430 | non-empty input with no `=` is rejected as an invalid font |
| BmFont.ParseAttributes | src/graphics/text/bmfont.rs:394-433 | blank input has no attributes; non-blank input without an `=` is an invalid font |
| BmFont.ParseRender | src/graphics/text/bmfont.rs:394-433 | any list of attributes written as ` key=value` or ` key="value"` parses back to the map of those attributes, later keys winning |
| BmFont.TakeQuoted | src/graphics/text/bmfont.rs:407-418 | a quoted value runs to the next double quote; both quotes are dropped |
| BmFont.TakeBare | src/graphics/text/bmfont.rs:419-428 | a bare value runs to the next space or to the end of the line |
| BmFont.MissingEqualsIsInvalid | src/graphics/text/bmfont.rs:400 | a key with no `=` after it makes the line an invalid font |
| BmFont.UnclosedQuoteIsInvalid | src/graphics/text/bmfont.rs:412 | a quoted value that is never closed makes the line an invalid font |
| BmFont.Get | src/graphics/text/bmfont.rs:372-377 | a key is found exactly when the line has it, and a missing key is an invalid font |
| BmFont.GetU32 | src/graphics/text/bmfont.rs:379-385 | an unsigned field is read exactly when the key is present and its text parses as a `u32`; anything else is an invalid font |
| BmFont.GetI32 | src/graphics/text/bmfont.rs:379-385 | a signed field is read exactly when the key is present and its text parses as an `i32`; anything else is an invalid font |
| BmFont.ParseGlyph | src/graphics/text/bmfont.rs:277-286 | a glyph is read exactly when all eight of its fields parse, and each field of the glyph is the value parsed from its own key |
| BmFont.Common | src/graphics/text/bmfont.rs:248-253 | a `common` line sets the line height and base to `u32` values and leaves pages, glyphs and kerning alone |
| BmFont.Page | src/graphics/text/bmfont.rs:255-270 | a `page` line keeps every page already known and touches nothing but the pages |
| BmFont.PageWithoutDirIsInvalid | src/graphics/text/bmfont.rs:260-266 | a page that was not supplied up front, in a font with no image directory, is an invalid font |
| BmFont.Char | src/graphics/text/bmfont.rs:272-289 | a `char` line adds or replaces one glyph, keeps every other glyph id, and touches nothing else |
| BmFont.KerningLine | src/graphics/text/bmfont.rs:291-299 | a `kerning` line adds or replaces the amount for one pair and touches nothing else |
| BmFont.ProcessLine | src/graphics/text/bmfont.rs:245-302 | a line is handled by the branch its tag names, and a line with any other tag changes nothing |
| BmFont.ProcessLines | src/graphics/text/bmfont.rs:244-303 | the loop over the lines stops at the first failing line, and a finished loop keeps every page already known |
| BmFont.NoCommonKeepsMetrics | src/graphics/text/bmfont.rs:244-303 | lines that are not `common` lines never set the line height or base |
| BmFont.NoCommonIsInvalid | src/graphics/text/bmfont.rs:305-311 | a font without a `common` line is rejected |
| BmFont.New | src/graphics/text/bmfont.rs:234-312 | every page supplied before building is still a page of the built font |
| BmFont.NewFitsU32 | src/graphics/text/bmfont.rs:234-312 | a built font's base line and every glyph's cell hold values that fit in `u32` |
| BmFont.Advance | src/graphics/text/bmfont.rs:344-349 | the advance is the glyph's x advance, and 0 for a character the font lacks |
| BmFont.Kerning | src/graphics/text/bmfont.rs:359-364 | the kerning is the amount listed for the pair, and 0 for a pair the font does not list |
| BmFont.AsI32 | src/graphics/text/bmfont.rs:321-324 | a `u32` cast to `i32` keeps values up to `i32::MAX` and wraps larger ones to negative |
| BmFont.GlyphBounds | src/graphics/text/bmfont.rs:329-337 | the glyph box is offset from the pen by the x offset and by the y offset less the base line, and has the glyph's size |
| BmFont.Rasterize | src/graphics/text/bmfont.rs:316-342 | no glyph for a missing character or page; a panic exactly when the cell lies outside its page; otherwise the pixels of that cell of the page, placed at the glyph box |
| Context.UpdateLoop | src/context.rs:132-135 | the fixed-step loop succeeds exactly when every update it runs succeeds, and then clears the input once after each update |
| Context.UpdateLoopError | src/context.rs:132-135 | when some update fails, the fixed-step loop returns the first failure unchanged |
| Context.Tick | src/context.rs:122-150 | a tick always starts with the time tick and event handling, an event error ends it at once, and a tick that succeeds ends with the draw and the present |
| Context.TickPropagatesFirstError | src/context.rs:122-150 | a tick fails exactly when one of its steps fails, with the first such error; a successful variable-step tick runs exactly one update and one input clear |
| Context.Run | src/context.rs:96-101 | an error from `init` is returned before the clock is reset or the window is shown |
| Context.LoopEndsAtFirstStop | src/context.rs:108-119 | the loop ends at the first tick that fails or asks to quit, and returns `Ok` exactly when that tick did not fail, else that tick's first error |
| Context.Default | src/context.rs:339-359 | the default builder is titled "Tetra", 1280 by 720, with vsync on, a fixed 60-ticks-per-second timestep and every other flag off |
| Context.New | src/context.rs:190-201 | `new` sets the title and size and keeps every other default |
| Context.SettersCommute | src/context.rs:206-329 | each setter changes only its own field, so setters of different fields can be called in either order |
| Context.LaterSetterWins | src/context.rs:206-329 | calling a setter of a field a second time overrides the first call |
| GlModel.CachedBind | src/platform/device_gl.rs:507-550 | a bind reaches GL only when the cached object differs from the requested one; either way GL and the cache then both hold the requested object |
| GlModel.CachedTextureBind | src/platform/device_gl.rs:529-539 | a texture bind selects texture unit 0 and binds only when the cached texture differs; GL and the cache then agree on the requested texture |
| GlModel.Fresh | src/platform/device_gl.rs:67-73 | a new device caches nothing bound, which is what GL starts with |
| GlModel.ApplySound | src/platform/device_gl.rs:26-33 | after any step that keeps its cache sound, the device's cached bindings still equal what its call log has bound in GL, with no redundant bind ever issued |
| GlModel.DeleteClears | src/platform/device_gl.rs:623-742 | deleting an object bound at only one binding point of its kind clears that point and nothing else |
| DeviceGl.AttributeLayout | src/platform/device_gl.rs:462-494 | the vertex attribute set-up neither binds nor deletes anything |
| DeviceGl.BindVertexBuffer | src/platform/device_gl.rs:453-505 | a vertex buffer is bound only when it is not the cached one, and then the three attributes are laid out for its stride (or disabled when unbinding); the cache stays coherent |
| DeviceGl.BindPlain | src/platform/device_gl.rs:507-550 | index buffers, programs and framebuffers are bound only on a change, keeping the cache coherent |
| DeviceGl.BindTexture | src/platform/device_gl.rs:529-539 | a texture is bound on unit 0 only on a change, keeping the cache coherent |
| DeviceGl.DropObject | src/platform/device_gl.rs:623-742 | dropping a wrapper object clears its cache slot exactly when it was the cached object, touches no other slot, and always ends with the delete |
| DeviceGl.DropObjectSound | src/platform/device_gl.rs:623-742 | dropping keeps the cache equal to what GL has bound, as long as the object is not also bound at another point of its kind |
| DeviceGl.NewFramebuffer | src/platform/device_gl.rs:387-425 | the new framebuffer is bound and gets the texture attached; with `rebind_previous` the previous framebuffer is bound again and the cache is as before, otherwise the new one stays bound |
| DeviceGl.DrawElementsStep | src/platform/device_gl.rs:433-451 | drawing leaves the requested vertex buffer, index buffer, program and texture cached, issues the draw last, and keeps the cache coherent up to the draw |
| DeviceGl.DrawUsesRequestedObjects | src/platform/device_gl.rs:433-451 | from a coherent device, GL has exactly the requested objects bound when the draw call is issued |
| DeviceGl.SetUniform | src/platform/device_gl.rs:277-286 | the program is bound before its uniform is set |
| DeviceGl.NewProgram | src/platform/device_gl.rs:204-275 | the three attribute locations are bound first; the program is returned exactly when both stages compile and it links, else `InvalidShader` with the cache unchanged |
| DeviceGl.NewVertexBuffer | src/platform/device_gl.rs:115-143 | the new buffer is bound and then sized for `count` floats |
| DeviceGl.SetVertexBufferData | src/platform/device_gl.rs:145-162 | the buffer is bound before its data is written at the float offset given |
| DeviceGl.NewIndexBuffer | src/platform/device_gl.rs:164-188 | the new index buffer is bound and then sized for `count` 32-bit indices |
| DeviceGl.SetIndexBufferData | src/platform/device_gl.rs:190-202 | the index buffer is bound before its data is written at the index offset given |
| DeviceGl.NewTexture | src/platform/device_gl.rs:288-341 | the new texture is bound, then its parameters are set and its storage allocated |
| DeviceGl.SetTextureData | src/platform/device_gl.rs:343-367 | the texture is bound before a region of it is replaced |
| DeviceGl.SetTextureFilterMode | src/platform/device_gl.rs:369-385 | the texture is bound before its filter mode is set |
| DeviceGl.SameHandleBindsOnce | src/platform/device_gl.rs:604-612 | two vertex buffer handles compare equal exactly when binding one right after the other issues nothing |
| GlDevice.BindVertexBuffer | src/graphics/opengl.rs:321-328 | a vertex buffer bind issues nothing exactly when the buffer is already the cached one, and keeps the cache coherent |
| GlDevice.BindIndexBuffer | src/graphics/opengl.rs:330-337 | an index buffer bind issues nothing exactly when the buffer is already the cached one, and keeps the cache coherent |
| GlDevice.BindProgram | src/graphics/opengl.rs:339-346 | a program bind issues nothing exactly when the program is already the cached one, and keeps the cache coherent |
| GlDevice.BindTexture | src/graphics/opengl.rs:348-356 | a texture bind issues nothing exactly when the texture is already cached, and otherwise selects unit 0 and binds it |
| GlDevice.NewVertexBuffer | src/graphics/opengl.rs:86-109 | the new buffer is bound and then sized for `count` floats |
| GlDevice.SetVertexBufferAttribute | src/graphics/opengl.rs:111-134 | the buffer is bound, then the attribute is pointed at its float offset within the stride and enabled |
| GlDevice.SetVertexBufferData | src/graphics/opengl.rs:136-156 | an upload panics exactly when it would run past the buffer's end; otherwise the buffer is bound before the data is written at the float offset |
| GlDevice.NewIndexBuffer | src/graphics/opengl.rs:158-176 | the new index buffer is bound and then sized for `count` 32-bit indices |
| GlDevice.SetIndexBufferData | src/graphics/opengl.rs:178-198 | an upload panics exactly when it would run past the buffer's end; otherwise the buffer is bound before the indices are written |
| GlDevice.SetUniform | src/graphics/opengl.rs:226-237 | the program is bound before its uniform is set |
| GlDevice.NewTexture | src/graphics/opengl.rs:239-270 | the new texture is bound, then its parameters are set and its storage allocated |
| GlDevice.SetTextureData | src/graphics/opengl.rs:272-296 | the texture is bound before a region of it is replaced |
| GlDevice.Draw | src/graphics/opengl.rs:298-319 | drawing leaves the requested program, buffers and texture cached, issues the draw last, and keeps the cache coherent up to the draw |
| GlDevice.DrawUsesRequestedObjects | src/graphics/opengl.rs:298-319 | from a coherent device, GL has exactly the requested objects bound when the draw call is issued |
| GlDevice.DropAsWritten | src/graphics/opengl.rs:389-459 | dropping an object deletes it and leaves the device's cache as it was |
| GlDevice.DropAsWrittenLosesBind | src/graphics/opengl.rs:389-395 | after a bound vertex buffer is dropped and GL reuses its name, the next new buffer's storage is allocated with no buffer bound, and the cache no longer matches GL |
| GlDevice.Drop | src/graphics/opengl.rs:389-459 | the corrected drop clears the cache slot exactly when it holds the object and leaves every other slot alone |
| GlDevice.DropSound | src/graphics/opengl.rs:389-459 | the corrected drop keeps the cache equal to what GL has bound |
| GlDevice.DropKeepsBind | src/graphics/opengl.rs:86-109 | with the corrected drop, the same sequence binds the new buffer before allocating its storage |
| OpenGLDevice.Size | src/opengl.rs:370-374 | a buffer's size in elements is a whole number of `stride`-sized groups, `count` of them, and is 0 exactly when the stride or the count is 0 |
| OpenGLDevice.BindVertexBuffer | src/opengl.rs:302-309 | a vertex buffer bind issues nothing exactly when the buffer is already the cached one, and keeps the cache coherent |
| OpenGLDevice.BindIndexBuffer | src/opengl.rs:311-318 | an index buffer bind issues nothing exactly when the buffer is already the cached one, and keeps the cache coherent |
| OpenGLDevice.BindProgram | src/opengl.rs:320-327 | a program bind issues nothing exactly when the program is already the cached one, and keeps the cache coherent |
| OpenGLDevice.BindTexture | src/opengl.rs:329-338 | a texture bind issues nothing exactly when the texture is already the cached one, and keeps the cache coherent |
| OpenGLDevice.NewVertexBuffer | src/opengl.rs:85-103 | the new buffer is bound and then sized for `count * stride` floats |
| OpenGLDevice.SetVertexBufferAttribute | src/opengl.rs:105-129 | the buffer is bound, then the attribute is pointed at its float offset within the stride given and enabled |
| OpenGLDevice.SetVertexBufferData | src/opengl.rs:131-146 | an upload panics exactly when it would run past `count * stride` floats; otherwise the buffer is bound before the data is written |
| OpenGLDevice.NewIndexBuffer | src/opengl.rs:148-166 | the new index buffer is bound and then sized for `count * stride` indices |
| OpenGLDevice.SetIndexBufferData | src/opengl.rs:168-181 | the index buffer is bound before the indices are written, with no range check |
| OpenGLDevice.SetUniform | src/opengl.rs:207-218 | the program is bound before its uniform is set |
| OpenGLDevice.NewTexture | src/opengl.rs:220-251 | the new texture is bound, then its parameters are set and its storage allocated |
| OpenGLDevice.SetTextureData | src/opengl.rs:253-277 | the texture is bound before a region of it is replaced |
| OpenGLDevice.Draw | src/opengl.rs:279-300 | drawing leaves the requested objects cached and draws `count` whole groups of the index buffer's stride, last |
| OpenGLDevice.DrawUsesRequestedObjects | src/opengl.rs:279-300 | from a coherent device, GL has exactly the requested objects bound when the draw call is issued |
| Drawable.Default | src/graphics/drawable.rs:84-95 | the default parameters draw a graphic at the origin, unscaled, unrotated, untinted (white) and unclipped |
| Drawable.Position | src/graphics/drawable.rs:48-51 | `position` sets the position and changes nothing else |
| Drawable.Scale | src/graphics/drawable.rs:54-57 | `scale` sets the scale and changes nothing else |
| Drawable.Origin | src/graphics/drawable.rs:60-63 | `origin` sets the origin and changes nothing else |
| Drawable.Rotation | src/graphics/drawable.rs:66-69 | `rotation` sets the rotation and changes nothing else |
| Drawable.SetColor | src/graphics/drawable.rs:72-75 | `color` sets the colour and changes nothing else |
| Drawable.Clip | src/graphics/drawable.rs:78-81 | `clip` always turns clipping on with the given rectangle and changes nothing else |
| Drawable.FromVec2 | src/graphics/drawable.rs:97-103 | a bare position converts to the defaults with only the position replaced |
| Drawable.BuilderCallsCommute | src/graphics/drawable.rs:48-81 | builder calls on different fields can be made in either order, and a later call on a field overrides an earlier one |
| DrawParams.Default | src/graphics/drawparams.rs:81-91 | the default parameters draw a graphic at the origin, unscaled, unrotated and untinted (white) |
| DrawParams.Position | src/graphics/drawparams.rs:39-42 | `position` sets the position and changes nothing else |
| DrawParams.Scale | src/graphics/drawparams.rs:45-48 | `scale` sets the scale and changes nothing else |
| DrawParams.Origin | src/graphics/drawparams.rs:51-54 | `origin` sets the origin and changes nothing else |
| DrawParams.Rotation | src/graphics/drawparams.rs:57-60 | `rotation` sets the rotation and changes nothing else |
| DrawParams.SetColor | src/graphics/drawparams.rs:63-66 | `color` sets the colour and changes nothing else |
| DrawParams.FromVec2 | src/graphics/drawparams.rs:93-99 | a bare position converts to the defaults with only the position replaced |
| DrawParams.MatrixMapsPoint | src/graphics/drawparams.rs:72-78 | the transform moves a point so the origin lands on the position, scaling the offset from the origin and then rotating it (`ToMatrix`; `IntoMatrix` is the `From` conversion to the same matrix) |
| DrawParams.DefaultIsIdentity | src/graphics/drawparams.rs:72-91 | the default parameters transform every point to itself |
| DrawParams.MatrixIgnoresColor | src/graphics/drawparams.rs:102-106 | the matrix a set of parameters converts to does not depend on the colour |
| FontCache.New | src/graphics/text/cache.rs:101-108 | a new cache has a fresh 128 by 128 atlas, nothing cached and no resizes yet |
| FontCache.SubpixelComponent | src/graphics/text/cache.rs:277-294 | each component of the subpixel offset lies in [-0.5, 0.5] and differs from the coordinate by a whole number of pixels |
| FontCache.SubpixelOffset | src/graphics/text/cache.rs:277-294 | the subpixel offset of a point lies in [-0.5, 0.5] on each axis and differs from the point by whole pixels |
| FontCache.SubpixelComponentUnique | src/graphics/text/cache.rs:277-294 | the subpixel offset is the only value in [-0.5, 0.5] a whole number of pixels away, except for a point exactly halfway between pixels |
| FontCache.SubpixelKeyAsWritten | src/graphics/text/cache.rs:164-165 | the key component as written is a `u32`: negative tenths saturate to 0 |
| FontCache.SubpixelKey | src/graphics/text/cache.rs:164-165 | the corrected, signed key component is the offset in tenths of a pixel rounded to the nearest, within -5..5 for an offset in range |
| FontCache.SubpixelKeyIsClose | src/graphics/text/cache.rs:162-166 | two offsets share a corrected key only when they are at most a tenth of a pixel apart; `KeyFor` builds the cache key from this corrected component |
| FontCache.NegativeOffsetsShareKey | src/graphics/text/cache.rs:164-165 | as written, offsets of -0.3 and 0 pixels share a key, so a glyph rasterized at one is drawn at the other |
| FontCache.AddGlyph | src/graphics/text/cache.rs:248-273 | over the corrected packer insert: a glyph is out of space exactly when that packer cannot fit its size cut to whole texels; otherwise its entry records where it was packed, in texture coordinates, and its box |
| FontCache.Entry | src/graphics/text/cache.rs:262-272 | a cached glyph's texture coordinates, scaled back by the atlas size, are the packed position and the glyph's size |
| FontCache.Lookup | src/graphics/text/cache.rs:168-178 | with the corrected signed key: a cached key is returned without asking the rasterizer; a missing key is rasterized once and remembered, even when there is no glyph, and nothing else in the cache changes |
| FontCache.Union | src/graphics/text/cache.rs:188-209 | the merged bounds hold both rectangles |
| FontCache.UnionIsSmallest | src/graphics/text/cache.rs:188-209 | every rectangle holding both also holds their union, so it is the smallest bounds |
| FontCache.MergeBounds | src/graphics/text/cache.rs:188-209 | corrected merge: the text bounds after a glyph hold the glyph and the earlier bounds, which the source's merge does not always do |
| FontCache.MergeAsWrittenLosesTallerGlyph | src/graphics/text/cache.rs:194-196 | as written, a glyph that rises above the text moves the top edge to the glyph's x position, and the bounds no longer hold the glyph |
| FontCache.MergeAsWrittenLosesEarlierText | src/graphics/text/cache.rs:190-192 | as written, a glyph left of the text moves the left edge without widening, and the bounds no longer hold the earlier text |
| FontCache.MergeAsWrittenAgreesGoingRightAndDown | src/graphics/text/cache.rs:188-209 | while glyphs only extend the text right and down, the merge as written gives the union (`MergeBoundsAsWritten` is the merge as written) |
| FontCache.Kerned | src/graphics/text/cache.rs:180-182 | the pen moves right by the kerning of the previous and current glyph, and not at all after a newline or at the start |
| FontCache.Step | src/graphics/text/cache.rs:149-220 | with the corrected key and merge: a newline moves the pen to the start of the next line, other control characters are skipped; any other character is looked up at the pen position before kerning, adds a quad at the kerned pen when it has an image, and advances the pen |
| FontCache.Run | src/graphics/text/cache.rs:149-220 | the loop over the characters, stopped by the first `OutOfSpace`: a finished run leaves an atlas of positive size, the same rasterizer and the same resize count |
| FontCache.Sent | src/graphics/text/cache.rs:149-176 | the uploads a run of the layout loop sends extend what was sent before it, and are exactly the run's own uploads when it finishes; when a character runs out of space, those of the characters before it are kept, since they have reached the device |
| FontCache.Attempted | src/graphics/text/cache.rs:137-176 | the uploads one attempt at `try_render` sends are exactly its logged uploads when it succeeds |
| FontCache.Start | src/graphics/text/cache.rs:142-147 | layout starts at x 0 on the ascent line, with no previous glyph, no bounds and no quads |
| FontCache.GeometryBoundsCoverQuads | src/graphics/text/cache.rs:137-227 | with the corrected merge: the text bounds hold every quad of the text, and there are bounds exactly when there is a quad |
| FontCache.TryRender | src/graphics/text/cache.rs:137-227 | with the corrected key, merge and packer: a successful render does not resize the atlas and is stamped with the current resize count |
| FontCache.Resize | src/graphics/text/cache.rs:230-242 | resizing doubles both sides of the atlas, empties it and the cache, and counts one more resize |
| FontCache.Render | src/graphics/text/cache.rs:124-133 | with the corrected key, merge and packer: a render that fits needs no resize; otherwise each retry follows one resize and a resized result is stamped with the new count; the log begins with every upload the first attempt sent, including those a failed attempt made to the old atlas before running out of space |
| Gamepad.NewState | src/input/gamepad.rs:15-23 | a newly connected pad has no buttons held, pressed or released and no axis reported |
| Gamepad.SetButtonDown | src/input/gamepad.rs:25-33 | the button is then held; it counts as pressed this frame exactly when it was up before (or was already pressed), and the result says whether it was up |
| Gamepad.SetButtonUp | src/input/gamepad.rs:35-43 | the button is then up; it counts as released this frame exactly when it was held before (or was already released), and the result says whether it was held |
| Gamepad.SetAxisPosition | src/input/gamepad.rs:45-47 | the axis takes the new value; other axes and the buttons keep theirs |
| Gamepad.GetGamepad | src/input/gamepad.rs:333-339 | a pad is found exactly when its ID is a slot in range that holds a pad |
| Gamepad.ButtonQueriesAgree | src/input/gamepad.rs:138-181 | a button is up exactly when it is not down, and a missing pad has nothing pressed or released |
| Gamepad.ButtonsDown | src/input/gamepad.rs:208-217 | the buttons listed as down are exactly those for which the down query holds; a missing pad lists none (`IsButtonDown`) |
| Gamepad.ButtonsPressed | src/input/gamepad.rs:222-231 | the buttons listed as pressed are exactly those for which the pressed query holds |
| Gamepad.ButtonsReleased | src/input/gamepad.rs:236-245 | the buttons listed as released are exactly those for which the released query holds |
| Gamepad.AxisPosition | src/input/gamepad.rs:250-260 | an axis reads as the last value reported for it, and 0 for a missing pad or an axis never reported |
| Gamepad.StickPosition | src/input/gamepad.rs:265-279 | a stick's position is its own X and Y axis positions |
| Gamepad.AxisRoundTrip | src/input/gamepad.rs:45-47 | a reported axis value is what the next axis query on that pad returns |
| Gamepad.FirstEmpty | src/input/gamepad.rs:316-323 | the slot chosen is empty (or just past the end) and every slot before it is taken |
| Gamepad.AddGamepad | src/input/gamepad.rs:315-327 | a new pad goes into the first empty slot, or a new slot at the end, with a fresh state; no other slot changes |
| Gamepad.RemoveGamepad | src/input/gamepad.rs:329-331 | removing a pad empties its slot without shifting any other pad |
| Gamepad.ReconnectKeepsId | src/input/gamepad.rs:315-331 | a pad unplugged and plugged back in gets its old ID back, when no earlier slot was free |
| Held.Empty | src/input.rs:42-58 | at start nothing is held, pressed or released |
| Held.SetDown | src/input/keyboard.rs:179-187 | the key is held afterwards; the flag says whether it was up before, and exactly then it is added to the pressed set; released is untouched |
| Held.SetUp | src/input/keyboard.rs:189-197 | the key is up afterwards; the flag says whether it was held before, and exactly then it is added to the released set; pressed is untouched |
| Held.ClearChanges | src/input.rs:61-75 | clearing forgets what was pressed and released and keeps what is held |
| Held.RepeatIsNoOp | src/input/keyboard.rs:179-197 | a second down for a held key (or up for a released one) reports nothing new and changes nothing |
| Held.PressRelease | src/input/keyboard.rs:179-197 | pressing a key that was up and letting it go restores the held set and leaves both changes on record until the next clear |
| Held.OthersUntouched | src/input/keyboard.rs:179-197 | a change to one key leaves every other key's state alone |
| GraphicsSpriteBatch.WithCapacity | src/graphics/spritebatch.rs:26-63 | a batch of at most 8191 sprites starts empty and not drawing, uses the texture's own shader program, and its indices fit in 16 bits |
| GraphicsSpriteBatch.New | src/graphics/spritebatch.rs:22-24 | `new` gives a batch of the default capacity 1024 |
| GraphicsSpriteBatch.FlushUsesTextureShader | src/graphics/spritebatch.rs:112-143 | ending a batch sets the projection on the texture's shader, uploads every sprite's vertices, and draws with that shader and texture; the sprite count is passed to the draw, taken as six indices per sprite as `src/opengl.rs` draws count times the index stride of 6 |
| Keyboard.KeysDown | src/input/keyboard.rs:165-167 | the keys listed as down are exactly those for which `is_key_down` holds (`IsKeyDown`) |
| Keyboard.KeysPressed | src/input/keyboard.rs:170-172 | the keys listed as pressed are exactly those for which `is_key_pressed` holds |
| Keyboard.KeysReleased | src/input/keyboard.rs:175-177 | the keys listed as released are exactly those for which `is_key_released` holds |
| Keyboard.SetKeyDown | src/input/keyboard.rs:179-187 | the key is down afterwards; the result is whether it was up, and the key counts as pressed exactly when it was already pressed or was up |
| Keyboard.SetKeyUp | src/input/keyboard.rs:189-197 | the key is up afterwards; the result is whether it was down, and the key counts as released exactly when it was already released or was down |
| Keyboard.KeyQueriesAgree | src/input/keyboard.rs:145-197 | `is_key_up` is the negation of `is_key_down`; pressing an up key makes it pressed, and letting go of a held key makes it released |
| Mouse.ButtonQueriesAgree | src/input/mouse.rs:16-35 | a button is never pressed and released at once, is up exactly when not down, and changed state exactly when it is pressed or released (`IsDown`) |
| Mouse.SetButtonDown | src/input/mouse.rs:52-54 | the button is down afterwards, every other button and the previous state are unchanged |
| Mouse.SetButtonUp | src/input/mouse.rs:56-58 | the button is up afterwards, every other button and the previous state are unchanged |
| Mouse.SetButtonDerivesTransitions | src/input/mouse.rs:26-58 | holding a button that was up in the previous state makes it pressed; letting go of one that was down makes it released |
| Mouse.SetPosition | src/input/mouse.rs:60-62 | moving the mouse leaves the button states alone |
| Mouse.PositionRoundTrip | src/input/mouse.rs:38-62 | the position read back is the last position set (`MouseX`, `MouseY`) |
| Input.New | src/input.rs:42-58 | a new input context has nothing held, pressed or released, no text, no pads and the mouse at the origin |
| Input.Clear | src/input.rs:61-75 | clearing forgets pressed and released keys, mouse buttons and pad buttons and the text, and keeps what is held, the mouse position and every pad slot |
| Input.ClearPadQueries | src/input.rs:61-75 | after a clear every pad is connected and every button held exactly as before, with nothing pressed or released |
| Input.ClearIdempotent | src/input.rs:61-75 | clearing twice is the same as clearing once |
| Input.PushTextInput | src/input.rs:83-88 | pushed text is appended to the pending text, or starts it |
| Input.PushTextConcatenates | src/input.rs:83-88 | two pushes equal one push of the two texts joined |
| Input.TextSinceClear | src/input.rs:61-88 | after a clear, the text read back is exactly the pieces pushed since, joined, or nothing if none were |
| ImageData.FromData | src/graphics/image_data.rs:81-109 | fails with `NotEnoughData(expected, actual)` exactly when the buffer is shorter than width × height × stride; otherwise the image is well-formed, has the requested size and format, and its bytes are a prefix of the input |
| ImageData.FromDataRoundTrip | src/graphics/image_data.rs:81-109 | an image's own bytes, followed by any extra bytes, rebuild exactly that image |
| ImageData.FromI32 | src/graphics/image_data.rs:81-109 | with the source's `i32` sizes: each side is cast to `usize` with negative sides wrapping; the call panics with an overflow exactly when width × height × stride of the cast sizes exceeds `usize::MAX`, and otherwise behaves as `from_data` on the cast sizes |
| Numeric.I32AsUsize | src/graphics/image_data.rs:91-92 | an `i32` cast to `usize` lands in `0..=usize::MAX` and agrees with the original value modulo 2^64: non-negative values are kept, negative ones become larger than any `i32` |
| ImageData.FromI32NonNegative | src/graphics/image_data.rs:81-96 | non-negative sizes whose byte count fits in a `usize` reach the length check unchanged |
| ImageData.FromI32OverflowsOnlyWide | src/graphics/image_data.rs:81-96 | non-negative `i32` sizes never overflow the byte count at up to four bytes a pixel, while `i32::MAX` × `i32::MAX` at eight bytes a pixel does |
| ImageData.FromI32NegativeSide | src/graphics/image_data.rs:81-96 | `from_data(-1, 0, Rgba8, [])` succeeds with an empty image `usize::MAX` pixels wide; `from_data(-1, 2, Rgba8, [])` overflows |
| ImageData.ReadColor | src/graphics/image_data.rs:307-322 | red always comes from byte 0; green comes from byte 1 unless the format is R8; blue and alpha come from bytes 2 and 3 only for Rgba8; otherwise they read as 0 and opaque |
| ImageData.ColorRoundTrip | src/graphics/image_data.rs:307-352 | reading back a written colour gives exactly the channels the format stores; writing back a colour just read leaves the bytes unchanged |
| ImageData.GetPixelAsWritten | src/graphics/image_data.rs:239-250 | the original read succeeds exactly when the coordinates are non-negative and the pixel's bytes end inside the buffer, whatever the row width |
| ImageData.PastRowEndAliasesNextRow | src/graphics/image_data.rs:239-250 | on a 2×2 image, the original read accepts (2, 0) and returns pixel (0, 1), while the bounded read rejects (2, 0) |
| ImageData.GetPixel | src/graphics/image_data.rs:237-250 | the read panics exactly for positions outside the image, as its documentation promises |
| ImageData.GetPixelAgreesInside | src/graphics/image_data.rs:239-250 | inside the image, the bounded read and the original read return the same colour |
| ImageData.PixelIsChunk | src/graphics/image_data.rs:240-241 | the bytes of pixel (x, y) are chunk x + y × width of the buffer |
| ImageData.SetPixel | src/graphics/image_data.rs:258-272 | corrected write: it panics exactly outside the image, as its documentation promises; otherwise it keeps the size and format, rewrites only the pixel's own bytes, and leaves every byte before and after them as it was |
| ImageData.SetPixelAsWritten | src/graphics/image_data.rs:261-272 | the original write succeeds exactly when the coordinates are non-negative and the pixel's bytes end inside the buffer, whatever the row width, and then changes only those bytes |
| ImageData.PastRowEndWriteAliasesNextRow | src/graphics/image_data.rs:261-272 | on a 2×2 image, the original write accepts (2, 0) and overwrites pixel (0, 1) of the next row, while the bounded write rejects (2, 0) |
| ImageData.SetPixelAgreesInside | src/graphics/image_data.rs:261-272 | inside the image, the bounded write and the original write give the same image |
| ImageData.SetThenGet | src/graphics/image_data.rs:252-272 | a pixel that was set reads back as the part of the colour the format stores |
| ImageData.SetLeavesOthers | src/graphics/image_data.rs:261-272 | setting one pixel leaves the colour of every other pixel unchanged |
| ImageData.Transform | src/graphics/image_data.rs:281-293 | keeps the image's size, format and well-formedness |
| ImageData.TransformPixel | src/graphics/image_data.rs:274-293 | after a transform, pixel (x, y) holds the stored part of what the function makes of position (x, y) and that pixel's old colour |
| ImageData.PremultiplyChannel | src/graphics/image_data.rs:302-304 | a premultiplied channel never exceeds the original, and an opaque alpha leaves it unchanged |
| ImageData.PremultiplyVectors | src/graphics/image_data.rs:772-789 | the four Rgba8 pixels of the premultiply unit test map to the expected bytes |
| ImageData.Premultiply | src/graphics/image_data.rs:302-304 | keeps the image's size, format and well-formedness |
| ImageData.PremultiplyWithoutAlphaIsIdentity | src/graphics/image_data.rs:295-304 | on formats without an alpha channel, premultiplying leaves the image unchanged |
| ImageData.Region | src/graphics/image_data.rs:187-218 | panics exactly when the rectangle is not inside the image; otherwise it returns a well-formed image of the rectangle's size and format, built row by row from the source rows |
| ImageData.RegionImage | src/graphics/image_data.rs:196-217 | a region that fits is a well-formed image of the requested size and the source's format |
| ImageData.RegionPixel | src/graphics/image_data.rs:187-218 | every pixel of a region equals the source pixel offset by the region's corner |
| ImageData.RegionHalves | src/graphics/image_data.rs:373-394 | the left, right, top and bottom halves of a 2×2 R8 image have the bytes the region unit tests expect |
| Mesh.Flipped | src/graphics/mesh.rs:94-102 | the flipped winding always differs from the original |
| Mesh.FlippedInvolution | src/graphics/mesh.rs:94-102 | flipping twice gives back the original winding |
| Mesh.New | src/graphics/mesh.rs:310-320 | a new mesh draws its own vertex buffer with no index buffer, no texture, no draw range, counter-clockwise winding and backface culling on |
| Mesh.Indexed | src/graphics/mesh.rs:322-332 | an indexed mesh has the same fresh settings and draws through the given index buffer |
| Mesh.Range | src/graphics/mesh.rs:391-395 | an explicit draw range wins; otherwise the draw covers every index of the index buffer, or every vertex when there is none |
| Mesh.FreshDrawsEverything | src/graphics/mesh.rs:310-332 | a mesh that was just built draws all of its vertices, or all of its indices when it is indexed |
| Mesh.FrontFaceFor | src/graphics/mesh.rs:384-389 | the winding sent to the device differs from the mesh's own exactly when a canvas is active |
| Mesh.DrawInstancedSteps | src/graphics/mesh.rs:354-406 | the sprite batch is flushed first; culling and winding are set next; then one instanced draw is issued over `Range`, with the mesh's buffers, its texture or the default texture, the current shader or the default shader, and the requested instance count |
| Mesh.DrawSteps | src/graphics/mesh.rs:335-340 | a plain draw is one instance over `Range`, with the same preparation as an instanced draw |
| Mesh.SetVertexBuffer | src/graphics/mesh.rs:414-416 | replaces the vertex buffer and nothing else |
| Mesh.SetIndexBuffer | src/graphics/mesh.rs:426-428 | installs the index buffer and nothing else changes |
| Mesh.ResetIndexBuffer | src/graphics/mesh.rs:431-433 | removes the index buffer and nothing else changes |
| Mesh.SetTexture | src/graphics/mesh.rs:443-445 | installs the texture and nothing else changes |
| Mesh.ResetTexture | src/graphics/mesh.rs:448-450 | removes the texture, so draws fall back to the default, and nothing else changes |
| Mesh.SetFrontFaceWinding | src/graphics/mesh.rs:468-470 | sets the winding and nothing else changes |
| Mesh.SetBackfaceCulling | src/graphics/mesh.rs:487-489 | sets the culling flag and nothing else changes |
| Mesh.SetDrawRange | src/graphics/mesh.rs:496-498 | afterwards the draw covers exactly the given start and count, and nothing else changes |
| Mesh.ResetDrawRange | src/graphics/mesh.rs:501-503 | removes the draw range and nothing else changes |
| Mesh.ResetUndoesSet | src/graphics/mesh.rs:426-503 | on a mesh without an index buffer, texture or range, setting any of these and then resetting it gives back the original mesh |
| Mesh.NewBuilder | src/graphics/mesh.rs:682-687 | a new builder holds no geometry and draws in white |
| Mesh.SetColor | src/graphics/mesh.rs:940-943 | changes the colour for later shapes and keeps the geometry already built |
| Mesh.Clear | src/graphics/mesh.rs:946-951 | drops every vertex and index and keeps the colour |
| Mesh.ClearIdempotent | src/graphics/mesh.rs:946-951 | clearing twice is the same as clearing once, and clearing a new builder changes nothing |
| Mesh.BuildMesh | src/graphics/mesh.rs:976-995 | builds a fresh indexed mesh whose vertex buffer holds the builder's vertices and whose draw covers all of its indices |
| Packer.New | src/graphics/text/packer.rs:24-40 | a new packer has no shelves, starts its first shelf one padding texel down, and owns an empty RGBA8 atlas of the requested size created with nearest filtering |
| Packer.Resize | src/graphics/text/packer.rs:47-61 | a resized packer owns a new empty atlas of the new size, forgets every shelf, and packs again from the very top row |
| Packer.FirstFit | src/graphics/text/packer.rs:90-95 | finds the first shelf tall enough for the glyph and with room for it plus padding before the atlas edge; if none is found, no shelf has room |
| Packer.FindSpaceAsWritten | src/graphics/text/packer.rs:86-121 | the original search leaves the packer unchanged when it finds no room |
| Packer.WideGlyphOverflows | src/graphics/text/packer.rs:102-115 | on a fresh 128×128 atlas, the original search places a 200-texel-wide glyph at (1, 1), past the right edge; the corrected search refuses it |
| Packer.FindSpace | src/graphics/text/packer.rs:86-121 | corrected search: uses the first shelf that fits, returning its cursor and advancing that cursor by the width plus padding; otherwise it opens a shelf at `next_y` when the glyph fits below and, unlike the source, across; otherwise it finds no room and changes nothing; the atlas itself never changes |
| Packer.Insert | src/graphics/text/packer.rs:63-80 | corrected insert, over the corrected search: finds the same place as that search, uploads the glyph's data straight to the device at exactly that place, and issues no upload when there is no room |
| Packer.InsertAsWritten | src/graphics/text/packer.rs:63-80 | the original insert finds the place the original search finds, uploads the glyph's data straight to the device there, and uploads nothing when there is no room |
| Packer.InsertAgreesWhenNarrow | src/graphics/text/packer.rs:63-121 | for any glyph that fits across the atlas, the corrected insert and the original one give the same place, packer and upload |
| Packer.WideGlyphUploadedOutside | src/graphics/text/packer.rs:63-115 | on a fresh 128×128 atlas, the original insert uploads a 200-texel-wide glyph at (1, 1), past the right edge, where the corrected one uploads nothing |
| Packer.NewInv | src/graphics/text/packer.rs:24-40 | a new packer, of height at least one, satisfies the packing invariant with nothing placed |
| Packer.ResizeInv | src/graphics/text/packer.rs:47-61 | a resized packer satisfies the packing invariant with nothing placed |
| Packer.InvSound | src/graphics/text/packer.rs:5-19 | under the packing invariant, every glyph placed so far lies inside the atlas and apart from every other |
| Packer.UseShelfInv | src/graphics/text/packer.rs:96-101 | placing a glyph on an existing shelf that fits keeps the invariant |
| Packer.NewShelfInv | src/graphics/text/packer.rs:103-115 | opening a new shelf that fits across and below keeps the invariant |
| Packer.Placement | src/graphics/text/packer.rs:86-121 | a request is recorded exactly when it found room, at the position handed out and with the requested size |
| Packer.FindSpaceInv | src/graphics/text/packer.rs:86-121 | every request keeps the invariant, whether it found room or not |
| Packer.RecordedApart | src/graphics/text/packer.rs:63-121 | whatever holds of the recorded placements holds of the positions handed out |
| Packer.PackAll | src/graphics/text/packer.rs:63-121 | packing a sequence of glyphs gives one answer per glyph and keeps the atlas |
| Packer.PackAllRecords | src/graphics/text/packer.rs:63-121 | the placements record exactly the positions handed out, each with its glyph's size |
| Packer.PackAllInv | src/graphics/text/packer.rs:63-121 | packing any sequence of glyphs with non-negative sizes keeps the invariant |
| Packer.PackedGlyphsApart | src/graphics/text/packer.rs:24-121 | whatever glyph sizes arrive, every glyph placed in a fresh atlas lies inside it, and no two placed glyphs overlap |
| QuadBatcher.New | src/graphics.rs:86-150 | a new renderer satisfies the batch invariant, has nothing queued or logged, and holds `MAX_INDICES` indices, each addressing one of its `MAX_VERTICES` vertices |
| QuadBatcher.Flatten | src/graphics.rs:222-259 | vertices are laid out as eight floats each |
| QuadBatcher.Flush | src/graphics.rs:344-382 | with nothing queued, a flush changes nothing; otherwise it logs the projection uniform, the upload of exactly the queued data and one draw of exactly the queued elements, and then empties the queue while keeping the invariant |
| QuadBatcher.PushQuad | src/graphics.rs:160-262 | a full batch is flushed first; then one quad's four vertices are appended to the queue and the element count grows by six; texture, shader and canvas are unchanged, and a batch that was not full logs nothing |
| QuadBatcher.SetTexture | src/graphics.rs:273-287 | the same texture changes nothing; a different texture flushes the batch first and is then installed |
| QuadBatcher.SetShader | src/graphics.rs:289-308 | the same shader changes nothing; a different shader flushes the batch first and is then installed |
| QuadBatcher.SetCanvas | src/graphics.rs:310-342 | the same canvas changes nothing; a different canvas flushes the batch, and then binds the canvas, sets its front face and sets a viewport of its size |
| QuadBatcher.Present | src/graphics.rs:384-395 | presenting flushes the batch and then swaps buffers |
| QuadBatcher.SetWindowProjection | src/graphics.rs:436-442 | stores the new window size, and sets the viewport only while drawing to the window; the queue and canvas are unchanged |
| QuadBatcher.UprightQuadCorners | src/graphics.rs:180-206 | without rotation, the four corners form an axis-aligned box in the order top-left, bottom-left, bottom-right, top-right; every corner carries the draw colour and the texture coordinates of its own edge, even when the extents were reversed |
| QuadBatcher.ZeroRotationAgrees | src/graphics.rs:195-220 | the rotated formula with sine 0 and cosine 1 produces the same quad as the unrotated branch |
| QuadBatcher.CornerAgrees | src/graphics.rs:207-219 | a single rotated corner with sine 0 and cosine 1 is the unrotated corner |
| QuadBatcher.UploadedAppend | src/graphics.rs:366-377 | the uploaded data and the drawn element counts of two concatenated logs add up |
| QuadBatcher.DrawsMatchAppend | src/graphics.rs:366-377 | concatenating two logs in which each draw draws the upload just before it keeps that property, when the second log does not start with a draw |
| QuadBatcher.NoUploads | src/graphics.rs:323-342 | a log with no uploads or draws uploads and draws nothing |
| QuadBatcher.FlushLog | src/graphics.rs:349-382 | a flush of a valid batch adds exactly the queued data to the uploads and the queued elements to the draw count, and each draw still draws the upload just before it |
| QuadBatcher.PushConserves | src/graphics.rs:160-262 | pushing a quad keeps the invariant and loses no vertex data: the uploaded data and the queue together grow by exactly the pushed quad |
| QuadBatcher.AppendCalls | src/graphics.rs:323-342 | appending calls that neither upload nor draw keeps the uploads, the draw count and the draw-after-upload property |
| QuadBatcher.PushedNonPush | src/graphics.rs:273-442 | a single operation other than a push queues no vertex data |
| QuadBatcher.NonPushConserves | src/graphics.rs:273-442 | every operation other than a push keeps the invariant and moves queued data to the log without losing or adding any |
| QuadBatcher.PresentConserves | src/graphics.rs:391-395 | presenting moves the queue to the log and adds nothing |
| QuadBatcher.StepConserves | src/graphics.rs:160-442 | every renderer operation keeps the invariant and loses no vertex data |
| QuadBatcher.PushedAppend | src/graphics.rs:160-262 | the data queued by two sequences of operations, and their push counts, add up |
| QuadBatcher.RunConserves | src/graphics.rs:160-442 | over any sequence of operations the renderer keeps its invariant, and every pushed quad is either uploaded or still queued, in push order |
| QuadBatcher.ComposeNothing | src/graphics.rs:160-442 | a step that pushes nothing, after a run, keeps what the run conserved |
| QuadBatcher.PresentDrawsEverything | src/graphics.rs:384-395 | from a fresh renderer, after any operations followed by a present, exactly the pushed quads have been uploaded in order, six elements per quad have been drawn, and each draw draws the upload just before it |
| QuadBatcher.FreshConserves | src/graphics.rs:86-150 | from a fresh renderer, a conserving run that ends with an empty queue has uploaded exactly the pushed data and drawn six elements per quad |
| QuadIndices.CycleTake | src/graphics.rs:92-95 | taking `n` items of a cycled sequence gives item `i mod length` at position `i` |
| QuadIndices.Generate | src/graphics.rs:92-98 | index `i` is entry `i mod 6` of the template plus four per whole quad before it |
| QuadIndices.QuadTriangles | src/graphics.rs:44 | the six indices of quad `k` are the two triangles `4k, 4k+1, 4k+2` and `4k+2, 4k+3, 4k` over that quad's own four vertices |
| QuadIndices.PatternQuad | src/graphics/spritebatch.rs:32-38 | any sequence in the generated closed form has those two triangles at every quad |
| QuadIndices.IndicesBounded | src/graphics.rs:41-42 | every index of a pattern for `q` quads addresses one of its first `4q` vertices |
| Scaling.WiderIffCross | src/graphics/scaling.rs:205-206 | the `f32` aspect comparison holds exactly when the canvas width times the window height exceeds the window width times the canvas height, also for a window of height 0, where the screen ratio is infinite or NaN and the comparison is false |
| Scaling.Centre | src/graphics/scaling.rs:210-211 | the integer centring offset leaves the same space on both sides, to within one pixel |
| Scaling.CentreCeil | src/graphics/scaling.rs:232-233 | the real-valued centring offset is half the spare space rounded up |
| Scaling.ShowAllScale | src/graphics/scaling.rs:224-228 | the `ShowAll` scale is the window-to-canvas ratio of the width when the canvas is relatively wider and of the height otherwise; it is never negative and is 0 exactly when a window side is 0 |
| Scaling.CropScale | src/graphics/scaling.rs:261-263 | the `Crop` scale is the larger of the two window-to-canvas ratios: at least each, equal to one of them, and 0 only for a 0 by 0 window |
| Scaling.PixelScale | src/graphics/scaling.rs:238-246 | the `ShowAllPixelPerfect` scale is the truncated window-to-canvas ratio of the constraining axis, raised to 1 when that is 0, for any window size including 0 by 0 |
| Scaling.CropPixelScale | src/graphics/scaling.rs:273-282 | the `CropPixelPerfect` scale is a whole number, at least one, for any window size including 0 by 0 |
| Scaling.Scaled | src/graphics/scaling.rs:230-231 | a scaled size is the exact product rounded up, never negative, and 0 exactly when the scale is 0 |
| Scaling.ScreenRect | src/graphics/scaling.rs:193-297 | for any canvas and any window size the window reports, 0 by 0 included, every mode gives a rectangle of non-negative size; it has no area only in `Stretch` and `ShowAll` when a window side is 0, and in `Crop` when both are |
| Scaling.MinimisedWindow | src/graphics/scaling.rs:193-297 | for a minimised 0 by 0 window, `ShowAll`, `Crop` and `Stretch` give the rectangle (0, 0, 0, 0), and both pixel-perfect modes fall back to scale 1, drawing the canvas at its own size centred on the origin |
| Scaling.FixedCentresStretchFills | src/graphics/scaling.rs:209-222 | `Fixed` draws the canvas at its own size, centred to within a pixel; `Stretch` covers exactly the window |
| Scaling.ShowAllFits | src/graphics/scaling.rs:223-236 | `ShowAll` shows the whole canvas: the rectangle fits inside the window and fills it along one axis, for every window size including 0 |
| Scaling.FillsAxis | src/graphics/scaling.rs:224-231 | scaling by the constraining axis's ratio makes that axis exactly fill the window and keeps the other axis inside it |
| Scaling.CropCovers | src/graphics/scaling.rs:260-271 | `Crop` covers the whole window on both axes, for every window size including 0 |
| Scaling.CoversAxis | src/graphics/scaling.rs:261-266 | a scale at least an axis's ratio makes that axis cover the window |
| Scaling.PixelPerfectFits | src/graphics/scaling.rs:237-259 | when the canvas fits in the window, `ShowAllPixelPerfect` uses the largest whole scale that still fits on both axes |
| Scaling.LargestWholeScale | src/graphics/scaling.rs:238-242 | the truncated ratio of the constraining axis is the largest whole scale that fits that axis, and it fits the other one too |
| Scaling.CropPixelPerfectCovers | src/graphics/scaling.rs:272-295 | `CropPixelPerfect` covers the whole window on both axes, for every window size including 0 |
| Scaling.SmallestWholeCover | src/graphics/scaling.rs:273-278 | the rounded-up ratio of the other axis covers both axes with a whole scale, which is at least one unless the window side is 0 |
| Scaling.ProjectRoundTrip | src/graphics/scaling.rs:135-141 | in exact arithmetic, projecting a window coordinate and unprojecting it gives it back, and the other way round (`Project` and `Unproject` are the two maps) |
| Scaling.New | src/graphics/scaling.rs:20-38 | a new scaler, for any window size the window reports (0 by 0 included), holds the screen rectangle its mode gives for the canvas and window sizes |
| Scaling.Update | src/graphics/scaling.rs:40-50 | an update stores the window's new size, whatever it is (0 by 0 included), and recomputes the rectangle, keeping the mode and canvas size |
| Scaling.SetMode | src/graphics/scaling.rs:60-68 | switching mode recomputes the rectangle for the stored window size and keeps everything else |
| Scaling.ScalerRoundTrip | src/graphics/scaling.rs:70-106 | a valid scaler whose screen rectangle has an area has `project` and `unproject` undoing each other on both axes |
| Scaling.MouseAgreesWithProject | src/graphics/scaling.rs:108-132 | `mouse_x` and `mouse_y` give the same point as `project` of the mouse position, and unprojecting it gives the mouse position back (`MouseX` and `MouseY`) |
| Shader.New | src/graphics/shader.rs:211-225 | a new shader wraps the compiled program, has no samplers, and will give its first sampler unit 1, which leaves unit 0 to the batch's own texture |
| Shader.ColorValue | src/graphics/shader.rs:304-310 | a colour is sent as the `vec4` of its red, green, blue and alpha channels |
| Shader.SetSimpleUniform | src/graphics/shader.rs:271-301 | a plain value becomes exactly one uniform call, on this shader's program, under the given name |
| Shader.SetTextureUniform | src/graphics/shader.rs:313-339 | a known sampler name keeps its unit, only swaps the texture, and makes no device call; a new name gets the next unit, which the device is told as an `i32` uniform; the program and every other sampler are unchanged |
| Shader.SetTextureKeepsValid | src/graphics/shader.rs:313-339 | binding textures keeps every sampler on a unit of its own, between 1 and the next unit to give out |
| Shader.UnitIsStable | src/graphics/shader.rs:318-321 | a sampler's unit never changes, whatever texture is bound to it or to another name later |
| Shader.Attach | src/graphics/shader.rs:244-248 | the attach loop succeeds exactly when the device accepts every sampler's unit; then it attaches each sampler's texture to that sampler's unit, in visiting order; on failure it stops early |
| Shader.SetDefaultUniforms | src/graphics/shader.rs:238-259 | succeeds exactly when every attachment succeeds; it then attaches every sampler and sets the projection matrix and the diffuse colour, in that order; a failed attachment stops before the uniforms are set |
| Shader.DefaultUniformsBindEverySampler | src/graphics/shader.rs:244-248 | when every sampler is visited once, a successful draw setup attaches every sampler's texture to its unit, and no two attachments share a unit |
| SpriteBatch.WithCapacity | src/spritebatch.rs:26-79 | a batch of at most 8191 sprites starts empty, not drawing and with nothing logged, keeps the given program and texture, and every index addresses one of its `4 × capacity` vertices, which stays below 32767 |
| SpriteBatch.New | src/spritebatch.rs:22-24 | `new` is a batch of the default capacity 1024 |
| SpriteBatch.Begin | src/spritebatch.rs:81-85 | `begin` starts drawing and changes nothing else |
| SpriteBatch.Draw | src/spritebatch.rs:87-126 | `draw` appends one sprite's 28 floats after the queued ones, counts one more sprite, keeps drawing and logs nothing; it never flushes on its own |
| SpriteBatch.UploadFitsIffWithinCapacity | src/spritebatch.rs:48-50 | the queued data fits the vertex buffer exactly when no more sprites are queued than the capacity |
| SpriteBatch.Flush | src/spritebatch.rs:138-157 | a flush logs the projection uniform, the upload of exactly the queued data, and one draw of six indices per queued sprite with the batch's program and texture, then empties the queue and changes nothing else; the device's `draw` (src/opengl.rs 279-298) draws the count times the index stride of 6 |
| SpriteBatch.End | src/spritebatch.rs:128-136 | `end` stops drawing with an empty queue; it flushes only when sprites are queued and otherwise logs nothing |
| SpriteBatch.LogAppend | src/spritebatch.rs:138-157 | the uploaded data and drawn counts of two concatenated logs add up |
| SpriteBatch.DrawAll | src/spritebatch.rs:87-126 | drawing a list of sprites keeps drawing and logs nothing |
| SpriteBatch.DrawAllQueues | src/spritebatch.rs:87-126 | drawing a list of sprites queues exactly their vertices, in order, after what was queued, and counts them; program, texture and capacity are unchanged |
| SpriteBatch.FrameDrawsAll | src/spritebatch.rs:81-157 | a frame of `begin`, at most `capacity` sprites and `end` uploads exactly the sprites' vertices in order and draws six indices per sprite in one flush; an empty frame logs nothing |
| Tetras.EmptyBoardWellFormed | examples/tetras.rs:106-114 | the starting board has 22 rows of 10 cells, all empty |
| Tetras.Cw | examples/tetras.rs:52-59 | a clockwise turn is one more quarter turn, modulo four |
| Tetras.Ccw | examples/tetras.rs:61-68 | a counter-clockwise turn is three more quarter turns, modulo four |
| Tetras.RotateCw | examples/tetras.rs:52-59 | `rotate_cw` turns the block one quarter clockwise and moves nothing else |
| Tetras.RotateCcw | examples/tetras.rs:61-68 | `rotate_ccw` turns the block one quarter counter-clockwise and moves nothing else |
| Tetras.TurnsInjective | examples/tetras.rs:15-20 | a rotation is determined by its number of quarter turns |
| Tetras.RotationsInverse | examples/tetras.rs:52-68 | the two rotations undo each other |
| Tetras.FourTurnsIdentity | examples/tetras.rs:52-68 | four quarter turns in either direction give back the original block |
| Tetras.Data | examples/tetras.rs:70-85 | every shape table is four rows of four cells |
| Tetras.SameTable | examples/tetras.rs:70-85 | a table that agrees with the cell description everywhere is the table `data` returns |
| Tetras.DataIsStaticTables | examples/tetras.rs:289-343 | the tables `data` returns are exactly the eight static tables of the two shapes in four rotations |
| Tetras.RowCells | examples/tetras.rs:89-92 | the cells of one table row are exactly its set columns, offset by the block's position |
| Tetras.TableCells | examples/tetras.rs:88-93 | the cells of a table are exactly its set cells, offset by the block's position |
| Tetras.Segments | examples/tetras.rs:87-94 | a block's segments are exactly the board cells under the set cells of its shape table |
| Tetras.CollidesAt | examples/tetras.rs:116-135 | the collision loop reports a collision exactly when some moved segment is blocked: outside the side or bottom walls, or on an occupied cell; cells above the board never block |
| Tetras.CollidesIffBlocked | examples/tetras.rs:116-135 | a list of segments collides exactly when one of its members is blocked after the move |
| Tetras.SegmentsMoved | examples/tetras.rs:87-94 | moving a block moves each of its segments by the same amount |
| Tetras.BlockedMoved | examples/tetras.rs:116-135 | a blocked segment after a move is a blocked segment of the block already moved there |
| Tetras.BlockedUnmoved | examples/tetras.rs:116-135 | a blocked segment of the block moved there is a blocked segment of the move |
| Tetras.CollidesMoved | examples/tetras.rs:116-135 | testing a move is the same as testing the block already moved there (`Collides`) |
| Tetras.Lock | examples/tetras.rs:137-143 | locking writes the block's colour into every board cell under one of its segments and leaves every other cell as it was; the result is the cell-by-cell reference `Locked` |
| Tetras.Kept | examples/tetras.rs:145-161 | the rows a clear keeps are rows of the board that are not full, and no more of them than there were rows |
| Tetras.ClearedHasNoFullRow | examples/tetras.rs:145-161 | clearing keeps the board's shape and leaves no full row |
| Tetras.ShiftDown | examples/tetras.rs:153-159 | the shift moves every row above `y` down by one, drops row `y`, and puts an empty row at the top |
| Tetras.RowFull | examples/tetras.rs:147-151 | the scan finds a row full exactly when every cell of it is occupied |
| Tetras.ClearRow | examples/tetras.rs:146-160 | one pass of the outer loop keeps the number of rows |
| Tetras.ClearStart | examples/tetras.rs:146 | before the loop, no row has been looked at and the board is unchanged |
| Tetras.ClearEnd | examples/tetras.rs:160-161 | after the loop has looked at every row, the board is the reference clearing |
| Tetras.KeptStep | examples/tetras.rs:146-151 | looking at one more row keeps it exactly when it is not full |
| Tetras.ClearStep | examples/tetras.rs:146-160 | each pass of the outer loop keeps the board equal to the empty rows for the clears so far, then the kept rows looked at so far, then the rows not yet looked at |
| Tetras.ClearRows | examples/tetras.rs:146-160 | the loop keeps the number of rows |
| Tetras.ClearRowsCleared | examples/tetras.rs:146-160 | row by row, the loop computes the reference clearing |
| Tetras.CheckForClears | examples/tetras.rs:145-161 | `check_for_clears` removes every full row, moves the others down in their order, and fills the top with empty rows; the result has no full row |
| Tetras.Any | examples/tetras.rs:164-165 | `any(is_some)` holds exactly when some cell of the row is occupied |
| Tetras.GameOver | examples/tetras.rs:163-166 | the game is over exactly when some cell of the top two rows is occupied |
| Tetras.Fall | examples/tetras.rs:183-199 | a block that can move down moves one row and nothing else changes; a block that cannot is locked and the full rows are cleared, so the new board is the reference clearing of the locked board, with no full row, the next block takes its place, and the game is over exactly when the top two rows of that board hold a cell |
| Text.New | src/graphics/text.rs:97-106 | a new text holds the content and font, with nothing laid out yet |
| Text.SetContent | src/graphics/text.rs:117-123 | replaces the content, keeps the font, and drops the cached layout |
| Text.SetFont | src/graphics/text.rs:134-137 | replaces the font, keeps the content, and drops the cached layout |
| Text.Push | src/graphics/text.rs:143-146 | appends one character, keeps the font, and drops the cached layout |
| Text.PushStr | src/graphics/text.rs:152-155 | appends the string, keeps the font, and drops the cached layout |
| Text.Pop | src/graphics/text.rs:163-166 | removes and returns the last character, or returns nothing for empty content; the remaining content followed by the returned character is the old content; the layout is dropped either way |
| Text.PopUndoesPush | src/graphics/text.rs:143-166 | popping right after pushing a character returns that character and gives back the text, minus its cached layout |
| Text.PushEachIsPushStr | src/graphics/text.rs:143-155 | pushing the characters of a string one by one is the same as pushing the string |
| Text.LatestGeometry | src/graphics/text.rs:179-197 | a current layout is reused with no device work; a missing one, or one made before the atlas was last rebuilt, is rendered again and cached; afterwards the cached layout is the one returned, it is current, and the content and font are unchanged (`NeedsRender` says when a layout is stale) |
| Text.LatestGeometryIsStable | src/graphics/text.rs:179-197 | asking again straight away returns the same layout and does no device work |
| Text.GetBounds | src/graphics/text.rs:173-177 | the bounds are those of the current layout, which is left cached |
| Text.Draw | src/graphics/text.rs:200-227 | drawing sets the font's atlas texture once and then pushes one quad per glyph of the current layout, in order, spanning the glyph's screen box and atlas box |
| Textures.Stride | src/graphics/texture.rs:443-452 | a format's stride is its channel count times its bytes per channel: 4 for RGBA8, 1 for R8, 2 for RG8 and 8 for RGBA16F |
| Textures.StrideInjective | src/graphics/texture.rs:443-452 | no two formats share a stride |
| Textures.Draw | src/graphics/texture.rs:210-229 | drawing a texture sets it and pushes one quad of its own size that samples the whole texture |
| Textures.DrawRegion | src/graphics/texture.rs:232-254 | drawing a region pushes a quad the size of the region whose texture coordinates, scaled back by the texture's size, are the region's edges |
| Textures.FullRegionIsDraw | src/graphics/texture.rs:210-254 | drawing the whole texture as a region is the same as drawing the texture |
| Textures.NewNineSlice | src/graphics/texture.rs:499-507 | a nine-slice keeps the region and the four borders it was given |
| Textures.WithBorder | src/graphics/texture.rs:510-518 | `with_border` is a nine-slice with the same border on all four sides |
| Textures.Grid | src/graphics/texture.rs:293-318 | the grid has nine cells |
| Textures.GridCellsShareEdges | src/graphics/texture.rs:293-318 | neighbouring cells share their edges, both on screen and in the texture, so the nine quads tile without gaps |
| Textures.NineSliceXs | src/graphics/texture.rs:273-280 | the screen columns start at 0, end at the drawn width, and leave the left and right borders at their configured sizes |
| Textures.NineSliceYs | src/graphics/texture.rs:273-280 | the screen rows start at 0, end at the drawn height, and leave the top and bottom borders at their configured sizes |
| Textures.NineSliceUs | src/graphics/texture.rs:282-289 | the texture columns, scaled back by the texture width, are the region's left edge, the left border, the right border and the region's right edge |
| Textures.NineSliceVs | src/graphics/texture.rs:282-289 | the texture rows, scaled back by the texture height, are the region's top edge, the top border, the bottom border and the region's bottom edge |
| Textures.DrawNineSlice | src/graphics/texture.rs:258-319 | a nine-slice draw sets the texture once and then pushes nine quads with the draw parameters |
| Textures.NineSliceIsGrid | src/graphics/texture.rs:258-319 | the nine quads are, in order from top left to bottom right, the grid cells over the screen and texture breakpoints |
| Textures.WithDevice | src/graphics/texture.rs:169-187 | creating a texture makes it and then uploads the data over its whole area; with too little data the upload's `NotEnoughData` error, naming the bytes needed and given, is passed on and nothing is returned |
| Textures.WithDeviceEmpty | src/graphics/texture.rs:189-207 | an empty texture is RGBA8, always has enough data, and starts with four zero bytes per pixel |
| Textures.Upload | src/graphics/texture.rs:371-389 | an upload fails with `NotEnoughData` exactly when the data is shorter than the block's width times height times stride; otherwise it sends a prefix of the data exactly that long, to the requested block |
| Textures.UploadIgnoresExtra | src/graphics/texture.rs:375-377 | data beyond what the block needs never changes the upload: it is truncated |
| Textures.SetData | src/graphics/texture.rs:371-402 | a block outside the texture panics; inside it, too little data is `NotEnoughData` with the bytes needed and given, and otherwise exactly the block's bytes are uploaded to exactly that block, extra data being cut off |
| Textures.ReplaceData | src/graphics/texture.rs:404-421 | `replace_data` is `set_data` over the whole texture from the origin: it never leaves the texture and fails, with `NotEnoughData`, exactly when the data is shorter than the texture's bytes |
| Time.New | src/time.rs:82-100 | a new time context reports back the timestep it was made with, keeps the tick rate as the reciprocal of the ticks per second, and starts with no frame times, zero delta time and an empty accumulator |
| Time.Reset | src/time.rs:103-106 | `reset` zeroes the delta time and the accumulator and keeps the timestep and frame times |
| Time.SetTimestep | src/time.rs:177-187 | setting the timestep keeps the tick rate consistent with it, and keeps the frame times, delta time and accumulator |
| Time.TimestepRoundTrip | src/time.rs:169-187 | `get_timestep` returns what `set_timestep` set; a fixed timestep of `tps` ticks a second gives a tick of `1 / tps` seconds, and a variable one gives none (`GetTimestep`) |
| Time.BlendFactor | src/time.rs:143-166 | without a fixed timestep the blend factor is zero; otherwise it is the accumulator as a fraction of one tick |
| Time.BlendFactorInUnitRange | src/time.rs:143-166 | while the accumulator holds less than one tick, the blend factor lies in [0, 1) |
| Time.Push | src/time.rs:60-66 | pushing a frame time makes it the newest one and keeps the 200 newest times, dropping the oldest when 200 are already held |
| Time.Last | src/time.rs:60-66 | the newest `n` times are `n` long, or all of them when there are fewer |
| Time.PushAllKeepsLatest | src/time.rs:60-66 | however many frames are pushed, the tracker holds exactly the 200 newest frame times, in order |
| Time.LastAppend | src/time.rs:60-66 | trimming to the newest `n` before appending more and trimming again is the same as trimming once at the end |
| Time.GetFps | src/time.rs:68-70 | there is a rate exactly when some frame time is held and their sum is not zero; the rate times the mean frame time is one |
| Ui.New | src/graphics/ui.rs:22-29 | a panel keeps the texture, the size and the fill rectangle it was given |
| Ui.BuildMatrix | src/graphics/ui.rs:38 | the transform is built from the position, rotation, scale and origin of the draw parameters |
| Ui.Xs | src/graphics/ui.rs:43-50 | the screen columns start at 0, end at the panel width, and keep a right border as wide as the fill rectangle's left offset |
| Ui.Ys | src/graphics/ui.rs:43-50 | the screen rows start at 0, end at the panel height, and keep a bottom border as tall as the fill rectangle's top offset |
| Ui.Us | src/graphics/ui.rs:52-59 | the texture columns run from 0 to 1 and, scaled back by the texture width, break at the fill rectangle's left and right edges |
| Ui.Vs | src/graphics/ui.rs:52-59 | the texture rows run from 0 to 1 and, scaled back by the texture height, break at the fill rectangle's top and bottom edges |
| Ui.Draw | src/graphics/ui.rs:33-197 | drawing a panel sets its texture once and then pushes nine quads, each with the transform of the draw parameters and their colour |
| Ui.DrawIsGrid | src/graphics/ui.rs:63-196 | the nine quads are, from top left to bottom right, the grid cells over the panel's screen and texture breakpoints |
| Ui.TransformIgnoresColorAndClip | src/graphics/ui.rs:38 | the transform depends only on the placement, not on the colour or the clip rectangle |
| VertexBatcher.New | src/graphics/mod.rs:100-178 | a new context draws into the back buffer at the internal size with the default shader and no texture, its queue is empty and valid, its letterbox is the corrected one (`Letterbox`) for the window rather than the source's, and every generated index addresses a vertex below the 32767 a signed 16-bit index allows |
| VertexBatcher.PushVerticesRoom | src/graphics/mod.rs:451-468 | while the vertex buffer has room, pushing vertices appends them to the queue and changes nothing else: no flush happens |
| VertexBatcher.RoomValid | src/graphics/mod.rs:451-454 | with a texture bound, flushing a full buffer before a push leaves a valid batch with room for a whole quad |
| VertexBatcher.QuadVerticesNormalised | src/graphics/mod.rs:483-496 | the quad runs from its smaller to its larger corner, each corner keeps the texture coordinates given with it, and naming the corners in the other order queues the same quad |
| VertexBatcher.PushQuadWhole | src/graphics/mod.rs:470-499 | a quad is never split across a flush: the batch stays valid and gains exactly the quad's four vertices and six elements after at most one flush (`PushQuad` is that push) |
| VertexBatcher.FlushNeedsTexture | src/graphics/mod.rs:571-578 | without a texture a flush returns early and leaves the queue and the log untouched; with a texture, `Flush` sets the projection, uploads the queue, draws its elements and empties it, as the `SetTexture`, `SetShader` and `SetProjection` rows state |
| VertexBatcher.SetTexture | src/graphics/mod.rs:519-526 | a different texture first flushes the queue under the old texture, drawing what was queued with the old texture and shader, then selects the new one; asking for the current texture changes nothing, not even by flushing |
| VertexBatcher.SetShader | src/graphics/mod.rs:528-533 | a different shader first flushes the queue under the old shader, drawing what was queued with it, then selects the new one; asking for the current shader changes nothing |
| VertexBatcher.SetProjection | src/graphics/mod.rs:535-540 | a different projection first flushes the queue, setting the old projection's uniform for what was queued, then selects the new one; asking for the current projection changes nothing |
| VertexBatcher.SetFramebuffer | src/graphics/mod.rs:542-564 | afterwards the target is the requested one; a change flushes first, then binds the back buffer with the internal viewport or the window with the window viewport |
| VertexBatcher.SwitchKeepsScreen | src/graphics/mod.rs:515-608 | flushing and every state switch keep the batch valid and leave the sizes and the letterbox alone |
| VertexBatcher.PresentSetup | src/graphics/mod.rs:614-618 | before the letterbox quad is queued, the context targets the window with the window projection, the back buffer's texture and the default shader |
| VertexBatcher.PresentSetupValid | src/graphics/mod.rs:614-618 | the switches `present` makes keep the batch valid and the screen as it was |
| VertexBatcher.PushLetterboxWhole | src/graphics/mod.rs:622-636 | queuing the letterbox quad keeps the batch valid and the state, and the last four queued vertices are the letterbox with the texture flipped vertically, in white |
| VertexBatcher.FinishEndsPresenting | src/graphics/mod.rs:638-641 | leaving the window after the letterbox quad uploads and draws that quad with the window projection, returns to the back buffer and swaps the window |
| VertexBatcher.PresentFinishFlushes | src/graphics/mod.rs:638-641 | leaving the window with a non-empty queue logs exactly the projection uniform, the upload, the draw, the back buffer bind, its viewport and the swap |
| VertexBatcher.WindowPassDrawsLetterbox | src/graphics/mod.rs:620-641 | from the window state, queuing the letterbox and leaving the window ends the frame with the letterbox drawn and the context back on the back buffer |
| VertexBatcher.PresentDrawsLetterbox | src/graphics/mod.rs:614-642 | after `present` the queue is empty, the context is back on the back buffer with the internal projection, and the log ends by drawing the letterbox quad into the window and swapping (`Present`) |
| VertexBatcher.SetWindowSize | src/graphics/mod.rs:644-654 | the window size is stored, the corrected letterbox (`Letterbox`) is computed for it in place of the source's, and nothing else in the context changes |
| VertexBatcher.LetterboxAsWritten | src/graphics/mod.rs:656-679 | the source's letterbox: the scale is the truncated ratio of the window width to the canvas width in a portrait or square window, and of the heights otherwise, and only the canvas side that branch divides by may not be 0; the letterbox is the canvas scaled by it, centred |
| VertexBatcher.LetterboxAsWrittenOverflows | src/graphics/mod.rs:662-669 | a 100x300 canvas in a 400x500 window gets scale 4 from the width and a letterbox 1200 tall, taller than the window |
| VertexBatcher.LetterboxAsWrittenZeroHeight | src/graphics/mod.rs:656-679 | a 100 by 0 canvas in a 400 by 500 window is accepted: the width alone gives scale 4, and the letterbox is (0, 250, 400, 0) |
| VertexBatcher.LetterboxScaleLargest | src/graphics/mod.rs:656-679 | the corrected scale is the largest non-negative integer at which the internal size fits the window on both axes; `Letterbox` is this corrected computation |
| VertexBatcher.LetterboxFits | src/graphics/mod.rs:656-679 | the corrected letterbox is the internal size at that scale, lies inside the window and is centred to within a pixel |

## Left out

- The windowing, platform and audio layers (SDL, the browser, rodio) are I/O with no deterministic core of their own.
- GL itself, lyon tessellation, ab_glyph and image decoding are foreign libraries. GL is reduced to the log of calls the wrappers issue.
- `ortho`, `to_matrix` and `build_matrix`, the camera, and sine and cosine are float maths that exact reals cannot express. `DrawParams` matrices are kept as the symbolic list of transforms they compose, and the projections are named by their size.
- Rgba16F data (image_data.rs 312-315, 341-349) needs f16 conversion, so its channels are not read or written. Conversions between 8-bit and float colours are not modelled either.
- ImageData.PremultiplyChannel: exact integer arithmetic, the floor of value times alpha over 255, stands in for the f32 colour round trip. It agrees with the unit-test vectors.
- ImageData.FromData: takes the sizes as natural numbers, i.e. after the `as usize` casts. The `i32` entry point with its wrapping casts is ImageData.FromI32.
- ImageData.FromI32: models a build with overflow checks, where a byte count past `usize::MAX` panics. A release build wraps the product instead and then checks the buffer against the wrapped count.
- ImageData.Region: a rectangle of negative width or height is an out-of-bounds error here. The source's assert (image_data.rs 188-194) lets it through when its far corner is inside the image, and the `as usize` casts then wrap. With the other side 0 the source returns an empty image whose width or height is `usize::MAX`, for example `(1, 0, -1, 0)` on a 2x2 image. Otherwise its size arithmetic or its slicing panics.
- ImageData.GetPixel and ImageData.SetPixel: a negative coordinate cast to `usize` overflows the offset, which debug builds trap. It is modelled as the out-of-bounds panic.
- Textures.Stride and the texture coordinates of `draw_region` and the nine-slice: dividing by the texture size requires a positive size.
- FontCache.Run: the NFC normalisation of the input (cache.rs 149) is not modelled. The characters are taken as given.
- FontCache.AddGlyph: the `f32` to `i32` truncation of glyph sizes is modelled on exact reals. Values out of `i32` range are not modelled.
- FontCache.Render: the retry loop is bounded by a sequence of texture handles the device would hand out. Running out of handles gives `None`, because termination is not provable for an arbitrary rasterizer.
- Shader.SetTextureUniform: `next_unit` is a `u32` and is not modelled wrapping past `u32::MAX`.
- Shader.Attach: the device's refusal of a unit is a parameter, and so is the `HashMap` iteration order.
- BmFont.Rasterize: the `u32` to `i32` casts of the glyph rectangle are modelled as wrapping. The `i32` overflow of `base - y_offset` (bmfont.rs 334) is not modelled.
- BmFont: `BmFontBuilder` (bmfont.rs 76-221) reads files and joins paths. Only its preset-image case is a parameter of the parser. A page image that fails to decode is an error value. `line_height` and `ascent` (351-357) are field reads.
- Text: a font is identified by a natural number, and the font cache behind it is a parameter.
- VertexBatcher.PushQuad: `push_vertex` receives vertices already transformed by the affine transform. `Floats` records the eight-float layout of a vertex, and the other vertex records are likewise kept as datatypes rather than float buffers.
- VertexBatcher.Letterbox: the `i32` products are unbounded integers.
- `GraphicsContext::new` compiles shaders and builds the font cache (mod.rs 143-158). Those are foreign calls, so only the buffers, the indices and the viewport are modelled.
- Shader compilation (`new_program`, `compile_program`, `ProgramBuilder` in opengl.rs 400-430) is a foreign call. `DeviceGl` models only its attribute bindings and error result.
- `OpenGLDevice` drops delete without touching the cache, with the same stale-cache behaviour as `GlDevice`. Only the `GlDevice` version is recorded as a finding.
- DeviceGl.DropObject: the `RawTexture` drop (device_gl.rs 709-721) passes `TEXTURE0` as the bind target, where `TEXTURE_2D` is meant. The model treats the call as the intended unbind of the texture binding.
- The device constructor, `clear`, `front_face`, `viewport` and `get_renderer` calls pass straight to GL.
- Gamepad: the pad name and vibration (gamepad.rs 129-136, 284-313) go to the platform layer.
- Gamepad.RemoveGamepad: requires an ID below the slot count, as the source indexes the vector directly.
- Mouse: `src/input/mouse.rs` and `src/input.rs` name the mouse fields differently. Each file is modelled in its own terms.
- Tetras: the random choice of the next block, the timers, keyboard input, the rotation nudge (tetras.rs 200-234), drawing and `board_blocks` are left out. `Block::new` becomes the `next` parameter of `Fall`.
- Context: `time::tick` and `is_fixed_update_ready` are not part of this model. Their outcomes are given by the script of the run.
- Mesh shape constructors (mesh.rs 506-625) and the GeometryBuilder shape methods: the tessellation is done by the lyon library, which is not part of this model.
- Mesh.DrawInstancedSteps: the model matrix passed to the default uniforms is left out; the step keeps only the shader and the colour.
- Mesh.SetVertexBuffer and the other mesh setters: the getters (`vertex_buffer`, `texture` and the others) are field reads and have no rows.
- QuadBatcher.PushQuad: the sine and cosine of the rotation are parameters, because reals have no trigonometry; the projection matrices are named by the window size or canvas rather than computed.
- The renderer's `clear`, default filter mode and device-info queries (graphics.rs 154-158, 397-434) pass straight through to the device and are not modelled.
- Scaling.ScreenRect: the i32 products `internal_width * scale_factor` are taken as unbounded integers, and `f32` is taken as exact reals.
- Scaling.ProjectPoint, Scaling.MouseX, Scaling.MouseY, Scaling.ScalerRoundTrip and Scaling.MouseAgreesWithProject: need a screen rectangle with an area. For a minimised window in `Stretch`, `ShowAll` or `Crop` the rectangle is empty, and the source's `f32` division by its zero size gives infinity or NaN, which exact reals do not represent.
- ScreenScaler's `draw` (scaling.rs 143-162) sets the canvas texture and pushes one quad over the screen rectangle; it is `QuadBatcher.SetTexture` followed by `QuadBatcher.PushQuad` and is not modelled separately.
- SpriteBatch.Begin, SpriteBatch.Draw, SpriteBatch.Flush and SpriteBatch.End: the `assert!`s on the drawing flag (spritebatch.rs 82, 88, 129, 139) are preconditions rather than modelled panics; the projection matrix and the texture file loading in `with_capacity` are left out.
- SpriteBatch.Flush: the upload of more sprites than the capacity is excluded by a precondition; what the device does with such an upload is not modelled.
- Texture loading (`new`, `from_data`, `from_encoded`, `from_image_data`, texture.rs 82-158) reads files or decodes images; `get_data` (361-369) reads back from the device. Neither is modelled.
- The texture's own record of its filter mode (texture.rs 342-352) is not modelled; the device side of `set_filter_mode` is `DeviceGl.SetTextureFilterMode`.
- Time.GetFps: with no frame times, or frame times that sum to zero, the source divides by zero and returns NaN or infinity; the model returns no rate.
- Time.New and Time.SetTimestep: `Duration::from_secs_f64` panics unless the rate is positive, so the ticks per second are required to be positive; `Duration`'s nanosecond rounding is not modelled.
- The delta-time and accumulator getters (time.rs 118-130) are field reads and are not modelled.
- VertexBatcher.New: stores the corrected `Letterbox` (see Findings) where `new` (mod.rs 202) stores the as-written computation of mod.rs 656-679, which `LetterboxAsWritten` models. For a 100x300 internal size in a 400x500 window the source's letterbox is 1200 tall and this member's is 300. The corrected letterbox divides by both internal sides, so both must be nonzero; the source divides only by the side its branch picks (`LetterboxAsWrittenZeroHeight`).
- VertexBatcher.SetWindowSize: recomputes the corrected `Letterbox`, where `set_window_size` (mod.rs 648-653) recomputes the as-written one. `VertexBatcher.Present` then draws the corrected letterbox. As for `New`, both internal sides must be nonzero here.
- Packer.Insert: searches with the corrected `FindSpace`, where `insert` (packer.rs 73) uses `find_space` as written. The as-written insert is `Packer.InsertAsWritten`; the two agree for every glyph that fits across the atlas (`Packer.InsertAgreesWhenNarrow`) and differ only for wider ones.
- FontCache.AddGlyph: packs with the corrected `Packer.Insert`, so a glyph wider than the atlas is out of space, and `FontCache.TryRender` and `FontCache.Render` grow the atlas for it, where the source places it past the edge.
- FontCache.KeyFor and FontCache.Lookup: key the cache with the corrected signed `SubpixelKey`, where cache.rs 164-165 casts with `as u32` (`SubpixelKeyAsWritten`). As written, every negative subpixel offset shares the key of offset 0.
- FontCache.Step, FontCache.Run, FontCache.TryRender and FontCache.Render: lay text out with the corrected key and the corrected `MergeBounds`, where the source uses the key above and the merge of cache.rs 188-209 (`MergeBoundsAsWritten`). The as-written behaviour is shown at the level of the key and the merge (the Findings rows), not for a whole run.
- FontCache.GeometryBoundsCoverQuads: holds of the corrected merge only; the source's merge can lose a glyph or the earlier text (`FontCache.MergeAsWrittenLosesTallerGlyph`, `FontCache.MergeAsWrittenLosesEarlierText`).
- ImageData.GetPixel and ImageData.SetPixel: panic for every position outside the image, as their documentation says, where the source checks only the byte offset (image_data.rs 243-246 and 265-268); the as-written versions are `ImageData.GetPixelAsWritten` and `ImageData.SetPixelAsWritten`.
- Textures.SetData and Textures.ReplaceData: the device behind `ctx.device` (texture.rs 400-401) is not part of this model. Its checks are modelled from the documentation of `set_data` and `replace_data` (texture.rs 371-390, 404-417): the bounds panic is taken before `NotEnoughData`, which the documentation leaves open. The `set_texture_data` of device_gl.rs (343-367) makes neither check.
- GraphicsSpriteBatch.FlushUsesTextureShader: `src/graphics/spritebatch.rs` imports a `GLBuffer` type that neither `src/opengl.rs` nor `src/graphics/opengl.rs` defines, so the `draw` it calls is not part of this model. It passes the sprite count; the model draws six indices per sprite, as the `draw` of `src/opengl.rs` (279-298) would with the index stride of 6 given at creation. The `draw` of `src/graphics/opengl.rs` (298-320) would draw only `count` elements.

## Findings

| source | as written | input that shows it | evidently intended | confidence | as-written member | corrected member |
|---|---|---|---|---|---|---|
| src/graphics/mod.rs:662-666 | the letterbox scale follows the window's shape (`window_width <= window_height`), not the aspect ratios, so the letterbox can be larger than the window | internal 100x300, window 400x500: the scale is 4 and the letterbox is 1200 tall | the largest integer scale at which the internal size fits on both axes, so the letterbox lies inside the window | not executed | VertexBatcher.LetterboxAsWrittenOverflows | VertexBatcher.LetterboxFits |
| src/graphics/opengl.rs:389-459 | dropping a GL object deletes it but leaves the device's bind cache naming it | drop the bound vertex buffer 5, then GL recycles name 5 for a new buffer: the bind is skipped and storage is allocated with no buffer bound | clear the cache slot when the dropped object is the cached one, as `src/platform/device_gl.rs` does | not executed | GlDevice.DropAsWrittenLosesBind | GlDevice.DropSound |
| src/graphics/image_data.rs:239-250 | the bounds check only tests the byte offset against the buffer length, so an x past the row end reads the next row | a 2x2 R8 image, position (2, 0): no panic, and pixel (0, 1) is returned | panic for any position outside the image, as the doc comment says | not executed | ImageData.PastRowEndAliasesNextRow | ImageData.GetPixel |
| src/graphics/image_data.rs:261-272 | `set_pixel_color` has the same byte-offset check as `get_pixel_color`, so an x past the row end writes into the next row | a 2x2 R8 image [10, 20, 30, 40], position (2, 0), red 99: no panic, and the image becomes [10, 20, 99, 40], changing pixel (0, 1) | panic for any position outside the image, as the doc comment says | not executed | ImageData.PastRowEndWriteAliasesNextRow | ImageData.SetPixel |
| src/graphics/text/packer.rs:102-115 | a new shelf is opened without checking the glyph's width against the texture width | a 200-texel-wide glyph on a fresh 128x128 atlas is placed at x = 1 | return `None`, so that `render` grows the atlas | not executed | Packer.WideGlyphOverflows | Packer.PackedGlyphsApart |
| src/graphics/text/cache.rs:194-196 | a glyph above the text bounds moves the top edge to the glyph's x coordinate | bounds (0, 10, 10, 10) and a glyph at (20, 5, 10, 10): the merged bounds start at y = 20 and miss the glyph | `existing.y = bounds.y`, growing the height to keep the bottom edge | not executed | FontCache.MergeAsWrittenLosesTallerGlyph | FontCache.MergeBounds |
| src/graphics/text/cache.rs:190-192 | a glyph left of the text bounds moves the left edge without widening, so the far edge moves in | bounds (10, 0, 10, 10) and a glyph at (0, 0, 5, 5): the merged bounds are (0, 0, 10, 10) and lose the earlier text | grow the width by the distance the left edge moved | not executed | FontCache.MergeAsWrittenLosesEarlierText | FontCache.MergeBounds |
| src/graphics/text/cache.rs:164-165 | the subpixel offset in tenths is cast with `as u32`, which saturates every negative value to 0 | offsets of -0.3 and 0.0 pixels share cache key 0, so one glyph image serves both | a signed key, so that glyphs with the same key have offsets within a tenth of a pixel | not executed | FontCache.NegativeOffsetsShareKey | FontCache.SubpixelKeyIsClose |

=== FILE: animation.dfy ===
/** `src/graphics/animation.rs`: a sprite-sheet animation that steps
    through a list of frame rectangles, one frame every `frameLength`
    ticks. */
module Animation {
  import opened Wrappers
  import opened Rectangles
  import opened Textures
  import opened Drawable

  datatype Animation = Animation(texture: Texture, frames: seq<Rect>, frameLength: int, currentFrame: nat, timer: int)

  /** `% frames.len()` on an empty frame list, or indexing past its end. */
  datatype Panic = DivideByZero | FrameOutOfRange

  /** The frame index stays a valid index (or 0 when there are no frames). */
  predicate Valid(a: Animation)
  {
    a.currentFrame == 0 || a.currentFrame < |a.frames|
  }

  function New(texture: Texture, frames: seq<Rect>, frameLength: int): (r: Animation)
    ensures Valid(r) && r.currentFrame == 0 && r.timer == 0
    ensures r.texture == texture && r.frames == frames && r.frameLength == frameLength
  {
    Animation(texture, frames, frameLength, 0, 0)
  }

  /** `tick`: counts one tick; when the count reaches the frame length the
      animation moves to the next frame, wrapping around, and the count
      starts again. With no frames, that step divides by zero. */
  function Tick(a: Animation): (r: Result<Animation, Panic>)
    ensures r.Err? <==> a.timer + 1 >= a.frameLength && |a.frames| == 0
    ensures r.Ok? ==> r.value.frames == a.frames && r.value.texture == a.texture
                      && r.value.frameLength == a.frameLength
    ensures r.Ok? && a.timer + 1 < a.frameLength ==> r.value == a.(timer := a.timer + 1)
    ensures r.Ok? && a.timer + 1 >= a.frameLength ==>
              && r.value.timer == 0 && r.value.currentFrame < |a.frames|
              && r.value.currentFrame == (a.currentFrame + 1) % |a.frames|
              && (0 <= a.currentFrame < |a.frames| - 1 ==> r.value.currentFrame == a.currentFrame + 1)
              && (a.currentFrame == |a.frames| - 1 ==> r.value.currentFrame == 0)
    ensures r.Ok? && Valid(a) ==> Valid(r.value)
  {
    var timer := a.timer + 1;
    if timer >= a.frameLength then
      if |a.frames| == 0 then Err(DivideByZero)
      else Ok(a.(currentFrame := (a.currentFrame + 1) % |a.frames|, timer := 0))
    else Ok(a.(timer := timer))
  }

  /** `n` ticks in a row, stopping at the first panic. */
  function Ticks(a: Animation, n: nat): Result<Animation, Panic>
    decreases n
  {
    if n == 0 then Ok(a)
    else match Tick(a)
      case Ok(next) => Ticks(next, n - 1)
      case Err(e) => Err(e)
  }

  /** Starting a frame with the count at 0, it takes exactly `frameLength`
      ticks to reach the next frame; the ticks before only count. */
  lemma {:induction false} TicksBeforeAdvance(a: Animation, j: nat)
    requires |a.frames| > 0 && a.timer == 0 && j < a.frameLength
    ensures Ticks(a, j) == Ok(a.(timer := j))
    decreases j
  {
    if j > 0 {
      TicksBeforeAdvance(a, j - 1);
      TicksSplit(a, j - 1);
    }
  }

  /** Ticking `j + 1` times is ticking `j` times and then once more. */
  lemma {:induction false} TicksSplit(a: Animation, j: nat)
    ensures Ticks(a, j + 1) == match Ticks(a, j) case Ok(b) => Tick(b) case Err(e) => Err(e)
    decreases j
  {
    if j > 0 {
      match Tick(a)
      case Ok(next) => TicksSplit(next, j - 1);
      case Err(_) =>
    }
  }

  lemma AdvanceAfterFrameLength(a: Animation, n: nat)
    requires |a.frames| > 0 && a.timer == 0 && n == a.frameLength && n >= 1
    ensures Ticks(a, n) == Ok(a.(currentFrame := (a.currentFrame + 1) % |a.frames|))
  {
    TicksBeforeAdvance(a, n - 1);
    TicksSplit(a, n - 1);
    var b := a.(timer := n - 1);
    assert Tick(b) == Ok(a.(currentFrame := (a.currentFrame + 1) % |a.frames|));
  }

  /** `restart`: back to the first frame with the count at 0. */
  function Restart(a: Animation): (r: Animation)
    ensures r.currentFrame == 0 && r.timer == 0 && Valid(r)
    ensures r.texture == a.texture && r.frames == a.frames && r.frameLength == a.frameLength
  {
    a.(currentFrame := 0, timer := 0)
  }

  /** `set_frames`: new frames, played from the start. */
  function SetFrames(a: Animation, frames: seq<Rect>): (r: Animation)
    ensures r == Restart(a).(frames := frames) && Valid(r)
  {
    Restart(a.(frames := frames))
  }

  /** `set_texture`: a new texture; frames and playback are untouched. */
  function SetTexture(a: Animation, texture: Texture): (r: Animation)
    ensures r.texture == texture && r.(texture := a.texture) == a
  {
    a.(texture := texture)
  }

  /** `set_frame_length`: a new frame length; the frames, the texture and
      the playback position are untouched. */
  function SetFrameLength(a: Animation, frameLength: int): (r: Animation)
    ensures r.frameLength == frameLength && r.(frameLength := a.frameLength) == a
  {
    a.(frameLength := frameLength)
  }

  /** The clip `draw` uses: the current frame's rectangle, or the caller's
      clip moved and grown by it component by component. */
  function MergeClip(clip: Option<Rect>, frame: Rect): (r: Rect)
    ensures clip.None? ==> r == frame
    ensures clip.Some? ==> r.x == clip.value.x + frame.x && r.y == clip.value.y + frame.y
                           && r.width == clip.value.width + frame.width && r.height == clip.value.height + frame.height
  {
    match clip
    case Some(c) => Rectangle(c.x + frame.x, c.y + frame.y, c.width + frame.width, c.height + frame.height)
    case None => frame
  }

  /** `draw`: the texture, clipped to the current frame; only the clip of
      the caller's parameters changes. */
  function Draw(a: Animation, params: DrawParams): (r: Result<seq<Command<DrawParams>>, Panic>)
    ensures r.Err? <==> a.currentFrame >= |a.frames|
    ensures r.Ok? ==> |r.value| == 2 && r.value[0] == Command.SetTexture(a.texture) && r.value[1].PushQuad?
    ensures r.Ok? ==> var p := r.value[1].params;
                      p.clip == Some(MergeClip(params.clip, a.frames[a.currentFrame]))
                      && p.(clip := params.clip) == params
  {
    if a.currentFrame >= |a.frames| then Err(FrameOutOfRange)
    else
      var frame := a.frames[a.currentFrame];
      Ok(Textures.Draw(a.texture, params.(clip := Some(MergeClip(params.clip, frame)))))
  }

  /** A valid animation with frames can always be drawn. */
  lemma ValidDraws(a: Animation, params: DrawParams)
    requires Valid(a) && |a.frames| > 0
    ensures Draw(a, params).Ok?
  {
  }
}

=== FILE: basics.dfy ===
/** Small value types shared by the graphics and input models: a 2D vector
    and an RGBA colour with real-valued channels (standing in for `f32`). */
module Basics {

  datatype Vec2 = Vec2(x: real, y: real)

  datatype Color = Color(r: real, g: real, b: real, a: real)

  const White: Color := Color(1.0, 1.0, 1.0, 1.0)

  const Zero: Vec2 := Vec2(0.0, 0.0)
  const One: Vec2 := Vec2(1.0, 1.0)

  /** One axis of a quad after the batchers normalise it: the lower and
      higher coordinate, each with the texture coordinate that belongs to it. */
  datatype Extent = Extent(lo: real, hi: real, tlo: real, thi: real)

  /** Order two coordinates, swapping their texture coordinates with them. */
  function Ordered(a: real, b: real, ta: real, tb: real): (e: Extent)
    ensures e.lo <= e.hi
    ensures (e.lo == a && e.tlo == ta && e.hi == b && e.thi == tb) || (e.lo == b && e.tlo == tb && e.hi == a && e.thi == ta)
  {
    if b < a then Extent(b, a, tb, ta) else Extent(a, b, ta, tb)
  }
}

=== FILE: bmfont.dfy ===
/** `src/graphics/text/bmfont.rs`: fonts in the AngelCode BMFont text
    format. Each line is a tag followed by `key=value` attributes; the
    `common`, `page`, `char` and `kerning` lines build a rasterizer that
    cuts glyphs out of page images. */
module BmFont {
  import opened Wrappers
  import opened Numeric
  import opened Strings
  import opened Rectangles
  import opened ImageData
  import FontCache

  /** Everything that goes wrong while reading a font is `InvalidFont`,
      except a page image that cannot be loaded. */
  datatype FontError = InvalidFont | FailedToLoadAsset

  // ---------------------------------------------------------------------
  // Lines and attributes

  /** `parse_tag`: skip leading whitespace, then split at the first space.
      The tag holds no space and the rest keeps its leading space. */
  function ParseTag(line: string): (r: (string, string))
    ensures r.0 + r.1 == TrimStart(line)
    ensures ' ' !in r.0
    ensures r.1 == [] || r.1[0] == ' '
  {
    SplitAt(TrimStart(line), ' ')
  }

  /** The tag of a line. */
  function Tag(line: string): string { ParseTag(line).0 }

  /** `attributes.insert`: a later key replaces an earlier one. */
  function Insert(key: string, value: string, rest: Result<map<string, string>, FontError>): (r: Result<map<string, string>, FontError>)
    ensures r.Ok? <==> rest.Ok?
    ensures r.Ok? ==> key in r.value && r.value.Keys == rest.value.Keys + {key}
    ensures r.Ok? ==> r.value[key] == if key in rest.value then rest.value[key] else value
  {
    match rest
    case Err(e) => Err(e)
    case Ok(m) => Ok(map[key := value] + m)
  }

  /** One pass of the `parse_attributes` loop: the key up to the first
      `=`, then the value, and what is left after it. */
  function Take(s: string): (r: Result<(string, string, string), FontError>)
    ensures '=' !in s ==> r == Err(InvalidFont)
    ensures r.Ok? ==> |r.value.2| < |s|
  {
    match Find(s, '=')
    case None => Err(InvalidFont)
    case Some(k) =>
      var (value, rest) :- Value(s[k + 1..]);
      Ok((s[..k], value, rest))
  }

  /** A value in double quotes (which are dropped, as is the closing one),
      or a bare value up to the next space or the end. */
  function Value(s: string): (r: Result<(string, string), FontError>)
    ensures r.Ok? ==> |r.value.1| <= |s|
  {
    if |s| > 0 && s[0] == '"' then
      var quoted := s[1..];
      match Find(quoted, '"')
      case None => Err(InvalidFont)
      case Some(v) => Ok((quoted[..v], quoted[v + 1..]))
    else
      var v := match Find(s, ' ') case Some(i) => i case None => |s|;
      Ok((s[..v], s[v..]))
  }

  /** The loop of `parse_attributes`, from a point where leading whitespace
      has been skipped. */
  function ParseFrom(s: string): (r: Result<map<string, string>, FontError>)
    ensures s != [] && '=' !in s ==> r == Err(InvalidFont)
    decreases |s|
  {
    if s == [] then Ok(map[])
    else
      var (key, value, rest) :- Take(s);
      Insert(key, value, ParseFrom(TrimStart(rest)))
  }

  /** `parse_attributes`. Blank input has no attributes; input with no `=`
      at all is not a font line. */
  function ParseAttributes(input: string): (r: Result<map<string, string>, FontError>)
    ensures (forall i :: 0 <= i < |input| ==> IsWhitespace(input[i])) ==> r == Ok(map[])
    ensures TrimStart(input) != [] && '=' !in input ==> r == Err(InvalidFont)
  {
    var t := TrimStart(input);
    assert t == input[|input| - |t|..];
    assert forall c :: c in t ==> c in input;
    ParseFrom(t)
  }

  /** One attribute as a font file writes it; `quoted` values are written
      inside double quotes. */
  datatype Attr = Attr(key: string, value: string, quoted: bool)

  /** An attribute that reads back as written: the key holds no `=` and
      does not start with whitespace; a quoted value holds no quote; a bare
      value holds no space and does not start with a quote. */
  predicate Writable(a: Attr)
  {
    && '=' !in a.key
    && (a.key == [] || !IsWhitespace(a.key[0]))
    && if a.quoted then '"' !in a.value
       else ' ' !in a.value && (a.value == [] || a.value[0] != '"')
  }

  function RenderAttr(a: Attr): string
  {
    a.key + "=" + if a.quoted then "\"" + a.value + "\"" else a.value
  }

  /** The attribute part of a line: each attribute after one space. */
  function Render(attrs: seq<Attr>): string
  {
    if attrs == [] then [] else [' '] + (RenderAttr(attrs[0]) + Render(attrs[1..]))
  }

  /** The attributes as a map, later keys winning. */
  function MapOf(attrs: seq<Attr>): map<string, string>
  {
    if attrs == [] then map[] else map[attrs[0].key := attrs[0].value] + MapOf(attrs[1..])
  }

  lemma TrimRender(attrs: seq<Attr>)
    requires attrs != [] && Writable(attrs[0])
    ensures TrimStart(Render(attrs)) == RenderAttr(attrs[0]) + Render(attrs[1..])
  {
    var a := attrs[0];
    var ra := RenderAttr(a);
    assert ra[0] == if a.key == [] then '=' else a.key[0];
    var body := ra + Render(attrs[1..]);
    assert body[0] == ra[0];
    TrimStartSpace(body);
  }

  /** A line splits into the tag and the rest it was written with. */
  lemma ParseTagOf(tag: string, rest: string)
    requires tag != [] && !IsWhitespace(tag[0]) && ' ' !in tag
    requires rest == [] || rest[0] == ' '
    ensures ParseTag(tag + rest) == (tag, rest)
  {
    assert (tag + rest)[0] == tag[0];
    TrimStartKeeps(tag + rest);
    SplitAtOf(tag, ' ', rest);
  }

  /** One quoted attribute is read off the front of the input. */
  lemma TakeQuoted(key: string, value: string, tail: string)
    requires '=' !in key && '"' !in value
    ensures Take(key + "=" + ("\"" + value + "\"") + tail) == Ok((key, value, tail))
  {
    var rest := ['"'] + (value + ['"'] + tail);
    assert key + "=" + ("\"" + value + "\"") + tail == key + ['='] + rest;
    FindAfter(key, '=', rest);
    QuotedValue(value, tail);
  }

  lemma QuotedValue(value: string, tail: string)
    requires '"' !in value
    ensures Value(['"'] + (value + ['"'] + tail)) == Ok((value, tail))
  {
    var inner := value + ['"'] + tail;
    assert (['"'] + inner)[1..] == inner;
    FindAfter(value, '"', tail);
  }

  /** One bare attribute is read off the front of the input, up to the
      next space. */
  lemma TakeBare(key: string, value: string, tail: string)
    requires '=' !in key && ' ' !in value && (value == [] || value[0] != '"')
    requires tail == [] || tail[0] == ' '
    ensures Take(key + "=" + value + tail) == Ok((key, value, tail))
  {
    var rest := value + tail;
    assert key + "=" + value + tail == key + ['='] + rest;
    FindAfter(key, '=', rest);
    BareValue(value, tail);
  }

  /** A bare value ends at the first space, or at the end of the input. */
  lemma BareValue(value: string, tail: string)
    requires ' ' !in value && (value == [] || value[0] != '"')
    requires tail == [] || tail[0] == ' '
    ensures Value(value + tail) == Ok((value, tail))
  {
    var rest := value + tail;
    assert rest == [] || rest[0] == (if value == [] then ' ' else value[0]);
    if tail == [] {
      assert rest[..|value|] == value && rest[|value|..] == [];
    } else {
      var after := tail[1..];
      assert rest == value + [' '] + after;
      FindAfter(value, ' ', after);
    }
  }

  /** Attributes written out by `Render` parse back to the same map: the
      partner of `parse_attributes`. */
  lemma {:induction false} ParseRender(attrs: seq<Attr>)
    requires forall i :: 0 <= i < |attrs| ==> Writable(attrs[i])
    ensures ParseAttributes(Render(attrs)) == Ok(MapOf(attrs))
  {
    if attrs != [] {
      var a, more := attrs[0], attrs[1..];
      assert forall i :: 0 <= i < |more| ==> more[i] == attrs[i + 1];
      TrimRender(attrs);
      var tail := Render(more);
      assert tail == [] || tail[0] == ' ';
      if a.quoted {
        TakeQuoted(a.key, a.value, tail);
        assert RenderAttr(a) + tail == a.key + "=" + ("\"" + a.value + "\"") + tail;
      } else {
        TakeBare(a.key, a.value, tail);
        assert RenderAttr(a) + tail == a.key + "=" + a.value + tail;
      }
      ParseRender(more);
    }
  }

  /** A key with no `=` after it is rejected. */
  lemma MissingEqualsIsInvalid(key: string)
    requires key != [] && !IsWhitespace(key[0]) && '=' !in key
    ensures ParseAttributes([' '] + key) == Err(InvalidFont)
  {
    TrimStartSpace(key);
  }

  /** A quoted value that is never closed is rejected. */
  lemma UnclosedQuoteIsInvalid(key: string, value: string)
    requires key != [] && !IsWhitespace(key[0]) && '=' !in key && '"' !in value
    ensures ParseAttributes([' '] + key + ['=', '"'] + value) == Err(InvalidFont)
  {
    var rest := ['"'] + value;
    var s := key + ['='] + rest;
    assert [' '] + key + ['=', '"'] + value == [' '] + s;
    assert s[0] == key[0];
    TrimStartSpace(s);
    FindAfter(key, '=', rest);
    UnclosedValue(value);
  }

  lemma UnclosedValue(value: string)
    requires '"' !in value
    ensures Value(['"'] + value) == Err(InvalidFont)
  {
    assert (['"'] + value)[1..] == value;
  }

  /** `BmFontAttributes::get`. */
  function Get(attrs: map<string, string>, key: string): (r: Result<string, FontError>)
    ensures r.Ok? <==> key in attrs
    ensures r.Ok? ==> r.value == attrs[key]
    ensures r.Err? ==> r.error == InvalidFont
  {
    if key in attrs then Ok(attrs[key]) else Err(InvalidFont)
  }

  /** `BmFontAttributes::parse` at `u32`. */
  function GetU32(attrs: map<string, string>, key: string): (r: Result<nat, FontError>)
    ensures r.Ok? <==> key in attrs && ParseU32(attrs[key]).Some?
    ensures r.Ok? ==> r.value == ParseU32(attrs[key]).value && r.value <= U32_MAX
    ensures r.Err? ==> r.error == InvalidFont
  {
    var text :- Get(attrs, key);
    match ParseU32(text) case Some(n) => Ok(n) case None => Err(InvalidFont)
  }

  /** `BmFontAttributes::parse` at `i32`. */
  function GetI32(attrs: map<string, string>, key: string): (r: Result<int, FontError>)
    ensures r.Ok? <==> key in attrs && ParseI32(attrs[key]).Some?
    ensures r.Ok? ==> r.value == ParseI32(attrs[key]).value
    ensures r.Err? ==> r.error == InvalidFont
  {
    var text :- Get(attrs, key);
    match ParseI32(text) case Some(n) => Ok(n) case None => Err(InvalidFont)
  }

  // ---------------------------------------------------------------------
  // The rasterizer

  datatype Glyph = Glyph(x: nat, y: nat, width: nat, height: nat,
                         xOffset: int, yOffset: int, xAdvance: int, page: nat)

  datatype Rasterizer = Rasterizer(
    lineHeight: nat,
    base: nat,
    pages: map<nat, Image>,
    glyphs: map<nat, Glyph>,
    kerning: map<(nat, nat), int>)

  /** The state `BmFontRasterizer::new` builds up line by line. */
  datatype Partial = Partial(
    lineHeight: Option<nat>,
    base: Option<nat>,
    pages: map<nat, Image>,
    glyphs: map<nat, Glyph>,
    kerning: map<(nat, nat), int>)

  /** Where page images come from: the image directory, if any, and the
      images that can be loaded from it by file name. */
  datatype Source = Source(imageDir: Option<string>, files: map<(string, string), Image>)

  function ParseGlyph(attrs: map<string, string>): (r: Result<Glyph, FontError>)
    ensures r.Ok? <==> && GetU32(attrs, "x").Ok? && GetU32(attrs, "y").Ok?
                       && GetU32(attrs, "width").Ok? && GetU32(attrs, "height").Ok?
                       && GetI32(attrs, "xoffset").Ok? && GetI32(attrs, "yoffset").Ok?
                       && GetI32(attrs, "xadvance").Ok? && GetU32(attrs, "page").Ok?
    ensures r.Ok? ==> && GetU32(attrs, "x") == Ok(r.value.x) && GetU32(attrs, "y") == Ok(r.value.y)
                      && GetU32(attrs, "width") == Ok(r.value.width) && GetU32(attrs, "height") == Ok(r.value.height)
                      && GetI32(attrs, "xoffset") == Ok(r.value.xOffset) && GetI32(attrs, "yoffset") == Ok(r.value.yOffset)
                      && GetI32(attrs, "xadvance") == Ok(r.value.xAdvance) && GetU32(attrs, "page") == Ok(r.value.page)
    ensures r.Ok? ==> InU32(r.value)
    ensures r.Err? ==> r.error == InvalidFont
  {
    var x :- GetU32(attrs, "x");
    var y :- GetU32(attrs, "y");
    var width :- GetU32(attrs, "width");
    var height :- GetU32(attrs, "height");
    var xOffset :- GetI32(attrs, "xoffset");
    var yOffset :- GetI32(attrs, "yoffset");
    var xAdvance :- GetI32(attrs, "xadvance");
    var page :- GetU32(attrs, "page");
    Ok(Glyph(x, y, width, height, xOffset, yOffset, xAdvance, page))
  }

  /** A `common` line: the line height and the base line. */
  function Common(p: Partial, rest: string): (r: Result<Partial, FontError>)
    ensures r.Ok? ==> r.value.pages == p.pages && r.value.glyphs == p.glyphs && r.value.kerning == p.kerning
    ensures r.Ok? ==> r.value.lineHeight.Some? && r.value.lineHeight.value <= U32_MAX
                      && r.value.base.Some? && r.value.base.value <= U32_MAX
  {
    var attrs :- ParseAttributes(rest);
    var lineHeight :- GetU32(attrs, "lineHeight");
    var base :- GetU32(attrs, "base");
    Ok(p.(lineHeight := Some(lineHeight), base := Some(base)))
  }

  /** A `page` line. A page supplied up front is kept; any other is loaded
      from the image directory, which must exist. */
  function Page(p: Partial, rest: string, src: Source): (r: Result<Partial, FontError>)
    ensures r.Ok? ==> r.value.lineHeight == p.lineHeight && r.value.base == p.base
    ensures r.Ok? ==> r.value.glyphs == p.glyphs && r.value.kerning == p.kerning && p.pages.Keys <= r.value.pages.Keys
  {
    var attrs :- ParseAttributes(rest);
    var id :- GetU32(attrs, "id");
    if id in p.pages then Ok(p)
    else
      var file :- Get(attrs, "file");
      match src.imageDir
      case None => Err(InvalidFont)
      case Some(dir) =>
        if (dir, file) in src.files then Ok(p.(pages := p.pages[id := src.files[(dir, file)]]))
        else Err(FailedToLoadAsset)
  }

  /** A `char` line: one glyph, replacing any earlier one with its id. */
  function Char(p: Partial, rest: string): (r: Result<Partial, FontError>)
    ensures r.Ok? ==> r.value.lineHeight == p.lineHeight && r.value.base == p.base
    ensures r.Ok? ==> r.value.pages == p.pages && r.value.kerning == p.kerning && p.glyphs.Keys <= r.value.glyphs.Keys
    ensures r.Ok? && (forall id :: id in p.glyphs ==> InU32(p.glyphs[id])) ==>
              forall id :: id in r.value.glyphs ==> InU32(r.value.glyphs[id])
  {
    var attrs :- ParseAttributes(rest);
    var id :- GetU32(attrs, "id");
    var glyph :- ParseGlyph(attrs);
    Ok(p.(glyphs := p.glyphs[id := glyph]))
  }

  /** A `kerning` line: the amount for one pair. */
  function KerningLine(p: Partial, rest: string): (r: Result<Partial, FontError>)
    ensures r.Ok? ==> r.value.lineHeight == p.lineHeight && r.value.base == p.base
    ensures r.Ok? ==> r.value.pages == p.pages && r.value.glyphs == p.glyphs && p.kerning.Keys <= r.value.kerning.Keys
  {
    var attrs :- ParseAttributes(rest);
    var first :- GetU32(attrs, "first");
    var second :- GetU32(attrs, "second");
    var amount :- GetI32(attrs, "amount");
    Ok(p.(kerning := p.kerning[(first, second) := amount]))
  }

  /** One line of the font file; lines with other tags are skipped. */
  function ProcessLine(p: Partial, line: string, src: Source): (r: Result<Partial, FontError>)
    ensures Tag(line) !in {"common", "page", "char", "kerning"} ==> r == Ok(p)
    ensures Tag(line) != "common" && r.Ok? ==> r.value.lineHeight == p.lineHeight && r.value.base == p.base
    ensures r.Ok? ==> p.pages.Keys <= r.value.pages.Keys && p.glyphs.Keys <= r.value.glyphs.Keys
    ensures var rest := ParseTag(line).1;
            r in {Common(p, rest), Page(p, rest, src), Char(p, rest), KerningLine(p, rest), Ok(p)}
  {
    var (tag, rest) := ParseTag(line);
    if tag == "common" then Common(p, rest)
    else if tag == "page" then Page(p, rest, src)
    else if tag == "char" then Char(p, rest)
    else if tag == "kerning" then KerningLine(p, rest)
    else Ok(p)
  }

  /** Every number read so far came from a `u32` field. */
  ghost predicate Fits(p: Partial)
  {
    && (p.lineHeight.Some? ==> p.lineHeight.value <= U32_MAX)
    && (p.base.Some? ==> p.base.value <= U32_MAX)
    && forall id :: id in p.glyphs ==> InU32(p.glyphs[id])
  }

  /** The loop over the lines; the first failing line ends it. */
  function ProcessLines(p: Partial, lines: seq<string>, src: Source): (r: Result<Partial, FontError>)
    ensures r.Ok? ==> p.pages.Keys <= r.value.pages.Keys
    decreases |lines|
  {
    if lines == [] then Ok(p)
    else
      var q :- ProcessLine(p, lines[0], src);
      ProcessLines(q, lines[1..], src)
  }

  /** `BmFontRasterizer::new`: `pages` are the images supplied before
      building. A font needs a `common` line for its line height and base. */
  function New(font: string, src: Source, pages: map<nat, Image>): (r: Result<Rasterizer, FontError>)
    ensures r.Ok? ==> pages.Keys <= r.value.pages.Keys
  {
    var p :- ProcessLines(Partial(None, None, pages, map[], map[]), Lines(font), src);
    match (p.lineHeight, p.base)
    case (Some(lineHeight), Some(base)) => Ok(Rasterizer(lineHeight, base, p.pages, p.glyphs, p.kerning))
    case _ => Err(InvalidFont)
  }

  /** Without a `common` line the metrics stay unknown. */
  lemma {:induction false} NoCommonKeepsMetrics(p: Partial, lines: seq<string>, src: Source)
    requires forall i :: 0 <= i < |lines| ==> Tag(lines[i]) != "common"
    ensures ProcessLines(p, lines, src).Ok? ==>
              ProcessLines(p, lines, src).value.lineHeight == p.lineHeight
              && ProcessLines(p, lines, src).value.base == p.base
    decreases |lines|
  {
    if lines != [] {
      assert Tag(lines[0]) != "common";
      var q := ProcessLine(p, lines[0], src);
      if q.Ok? {
        var rest := lines[1..];
        assert forall i :: 0 <= i < |rest| ==> rest[i] == lines[i + 1];
        NoCommonKeepsMetrics(q.value, rest, src);
        assert ProcessLines(p, lines, src) == ProcessLines(q.value, rest, src);
      }
    }
  }

  lemma ProcessLineFits(p: Partial, line: string, src: Source)
    requires Fits(p)
    ensures ProcessLine(p, line, src).Ok? ==> Fits(ProcessLine(p, line, src).value)
  {
    var r := ProcessLine(p, line, src);
    var rest := ParseTag(line).1;
    if r == Common(p, rest) {
      CommonFits(p, rest);
    } else if r == Char(p, rest) {
      CharFits(p, rest);
    } else if r == Page(p, rest, src) {
      SameFits(p, r);
    } else if r == KerningLine(p, rest) {
      SameFits(p, r);
    } else {
      assert r == Ok(p);
    }
  }

  lemma CommonFits(p: Partial, rest: string)
    requires Fits(p)
    ensures Common(p, rest).Ok? ==> Fits(Common(p, rest).value)
  {
  }

  lemma CharFits(p: Partial, rest: string)
    requires Fits(p)
    ensures Char(p, rest).Ok? ==> Fits(Char(p, rest).value)
  {
  }

  lemma SameFits(p: Partial, r: Result<Partial, FontError>)
    requires Fits(p)
    requires r.Ok? ==> r.value.lineHeight == p.lineHeight && r.value.base == p.base && r.value.glyphs == p.glyphs
    ensures r.Ok? ==> Fits(r.value)
  {
  }

  lemma {:induction false} ProcessLinesFits(p: Partial, lines: seq<string>, src: Source)
    requires Fits(p) && ProcessLines(p, lines, src).Ok?
    ensures Fits(ProcessLines(p, lines, src).value)
    decreases |lines|
  {
    if lines != [] {
      var q := ProcessLine(p, lines[0], src).value;
      ProcessLineFits(p, lines[0], src);
      ProcessLinesFits(q, lines[1..], src);
    }
  }

  /** A loaded font holds only what `u32` fields can: the base line and
      every glyph cell, which is what `Rasterize` asks of it. */
  lemma NewFitsU32(font: string, src: Source, pages: map<nat, Image>)
    requires New(font, src, pages).Ok?
    ensures New(font, src, pages).value.base <= U32_MAX
    ensures forall id :: id in New(font, src, pages).value.glyphs ==> InU32(New(font, src, pages).value.glyphs[id])
  {
    var start := Partial(None, None, pages, map[], map[]);
    ProcessLinesFits(start, Lines(font), src);
  }

  /** A font without a `common` line is rejected. */
  lemma NoCommonIsInvalid(font: string, src: Source, pages: map<nat, Image>)
    requires forall i :: 0 <= i < |Lines(font)| ==> Tag(Lines(font)[i]) != "common"
    ensures New(font, src, pages).Err?
  {
    NoCommonKeepsMetrics(Partial(None, None, pages, map[], map[]), Lines(font), src);
  }

  /** A `page` line for a page that was not supplied fails when there is no
      image directory to load it from. */
  lemma PageWithoutDirIsInvalid(p: Partial, line: string, src: Source)
    requires Tag(line) == "page" && src.imageDir.None?
    requires ParseAttributes(ParseTag(line).1).Ok?
    requires var attrs := ParseAttributes(ParseTag(line).1).value;
             GetU32(attrs, "id").Ok? && GetU32(attrs, "id").value !in p.pages && "file" in attrs
    ensures ProcessLine(p, line, src) == Err(InvalidFont)
  {
  }

  /** `advance`: the glyph's x advance, or 0 for a character the font lacks. */
  function Advance(r: Rasterizer, c: char): (a: real)
    ensures (c as nat) !in r.glyphs ==> a == 0.0
    ensures (c as nat) in r.glyphs ==> a == r.glyphs[c as nat].xAdvance as real
  {
    if c as nat in r.glyphs then r.glyphs[c as nat].xAdvance as real else 0.0
  }

  /** `kerning`: the amount for the pair, or 0 when the font lists none. */
  function Kerning(r: Rasterizer, previous: char, current: char): (k: real)
    ensures (previous as nat, current as nat) !in r.kerning ==> k == 0.0
    ensures (previous as nat, current as nat) in r.kerning ==> k == r.kerning[(previous as nat, current as nat)] as real
  {
    var key := (previous as nat, current as nat);
    if key in r.kerning then r.kerning[key] as real else 0.0
  }

  /** `u32 as i32`: values past `i32::MAX` wrap to negative. */
  function AsI32(n: nat): (r: int)
    ensures -(I32_MAX + 1) <= r <= I32_MAX
    ensures n <= I32_MAX ==> r == n
    ensures I32_MAX < n <= U32_MAX ==> r == n - 0x1_0000_0000
  {
    var low := n % 0x1_0000_0000;
    if low <= I32_MAX then low else low - 0x1_0000_0000
  }

  /** Every page image is well formed. */
  ghost predicate ValidPages(r: Rasterizer)
  {
    forall id :: id in r.pages ==> ImageData.Valid(r.pages[id])
  }

  /** The cell of a glyph fits the `u32` fields it is read into. */
  predicate InU32(g: Glyph)
  {
    g.x <= U32_MAX && g.y <= U32_MAX && g.width <= U32_MAX && g.height <= U32_MAX
  }

  /** The glyph box relative to the cursor: offsets measured from the
      baseline rather than from the top of the line. */
  function GlyphBounds(r: Rasterizer, g: Glyph): (b: Rect)
    requires r.base <= U32_MAX
    ensures b.x == g.xOffset as real && b.width == g.width as real && b.height == g.height as real
    ensures r.base <= I32_MAX ==> b.y == (g.yOffset - r.base) as real
  {
    Rectangle(g.xOffset as real, (-(AsI32(r.base) - g.yOffset)) as real, g.width as real, g.height as real)
  }

  /** `rasterize`: `None` for a missing glyph or page; otherwise the
      glyph's cell cut out of its page. A cell that lies outside the page
      panics in `region`. */
  function Rasterize(r: Rasterizer, c: char): (out: Result<Option<FontCache.RasterizedGlyph>, Panic>)
    requires ValidPages(r) && r.base <= U32_MAX
    requires forall id :: id in r.glyphs ==> InU32(r.glyphs[id])
    ensures (c as nat) !in r.glyphs ==> out == Ok(None)
    ensures (c as nat) in r.glyphs && r.glyphs[c as nat].page !in r.pages ==> out == Ok(None)
    ensures out.Err? <==> (c as nat) in r.glyphs && r.glyphs[c as nat].page in r.pages
                          && !RegionInside(r.pages[r.glyphs[c as nat].page], AsI32(r.glyphs[c as nat].x), AsI32(r.glyphs[c as nat].y),
                                           AsI32(r.glyphs[c as nat].width), AsI32(r.glyphs[c as nat].height))
    ensures out.Ok? && out.value.Some? ==>
              var g := r.glyphs[c as nat];
              && g.page in r.pages
              && RegionInside(r.pages[g.page], g.x, g.y, g.width, g.height)
              && out.value.value.bounds == GlyphBounds(r, g)
              && out.value.value.data == RegionImage(r.pages[g.page], g.x, g.y, g.width, g.height).data
  {
    if c as nat !in r.glyphs then Ok(None)
    else
      var g := r.glyphs[c as nat];
      assert InU32(g);
      if g.page !in r.pages then Ok(None)
      else
        var page := r.pages[g.page];
        var (x, y, w, h) := (AsI32(g.x), AsI32(g.y), AsI32(g.width), AsI32(g.height));
        if !RegionInside(page, x, y, w, h) then Err(OutOfBounds)
        else Ok(Some(FontCache.RasterizedGlyph(RegionImage(page, x, y, w, h).data, GlyphBounds(r, g))))
  }
}

=== FILE: context.dfy ===
/** `src/context.rs`: the game loop (`Context::run` and `tick`) and the
    `ContextBuilder` settings. The window, the platform event pump, the
    clock and the game's own `update`/`draw` are outside the model: each
    tick's outcomes are given as a script, and the loop records what it
    does as a trace of steps. */
module Context {
  import opened Wrappers
  import Time

  /** An error a callback or the platform returns, carried unchanged. */
  type Error = string

  datatype Step = ResetTime | ShowWindow | TimeTick | HandleEvents | Update | ClearInput | Draw | Present | HideWindow

  /** What the outside world does during one tick: whether event handling
      fails or asks to quit, the outcomes of the fixed updates the
      accumulator allows (one per `is_fixed_update_ready` that holds), the
      outcome of the single variable-mode update, and of `draw`. */
  datatype TickScript = TickScript(events: Result<bool, Error>, fixedUpdates: seq<Result<(), Error>>,
                                   variableUpdate: Result<(), Error>, draw: Result<(), Error>)

  /** `n` rounds of an update followed by clearing the input. */
  function UpdateRounds(n: nat): (r: seq<Step>)
    ensures |r| == 2 * n
  {
    if n == 0 then [] else [Update, ClearInput] + UpdateRounds(n - 1)
  }

  /** Updates until one fails, each followed by clearing the input. */
  function UpdateLoop(outcomes: seq<Result<(), Error>>): (r: (seq<Step>, Result<(), Error>))
    ensures r.1.Ok? <==> forall i :: 0 <= i < |outcomes| ==> outcomes[i].Ok?
    ensures r.1.Ok? ==> r.0 == UpdateRounds(|outcomes|)
    decreases |outcomes|
  {
    if outcomes == [] then ([], Ok(()))
    else if outcomes[0].Err? then ([Update], Err(outcomes[0].error))
    else
      var rest := UpdateLoop(outcomes[1..]);
      assert forall i :: 1 <= i < |outcomes| ==> outcomes[i] == outcomes[1..][i - 1];
      ([Update, ClearInput] + rest.0, rest.1)
  }

  /** `tick`: time tick, events, the updates the timestep calls for, one
      draw and the present; the first error ends the tick and is returned.
      The flag says whether event handling asked the loop to stop. */
  function Tick(timestep: Time.Timestep, s: TickScript): (r: (seq<Step>, Result<bool, Error>))
    ensures |r.0| >= 2 && r.0[..2] == [TimeTick, HandleEvents]
    ensures s.events.Err? ==> r == ([TimeTick, HandleEvents], Err(s.events.error))
    ensures r.1.Ok? ==> r.0[|r.0| - 2..] == [Draw, Present] && r.1.value == s.events.value
  {
    var head := [TimeTick, HandleEvents];
    if s.events.Err? then (head, Err(s.events.error))
    else
      var updates := if timestep.Fixed? then UpdateLoop(s.fixedUpdates)
                     else if s.variableUpdate.Err? then ([Update], Err(s.variableUpdate.error))
                     else ([Update, ClearInput], Ok(()));
      if updates.1.Err? then (head + updates.0, Err(updates.1.error))
      else if s.draw.Err? then (head + updates.0 + [Draw], Err(s.draw.error))
      else (head + updates.0 + [Draw, Present], Ok(s.events.value))
  }

  /** The first error among the tick's outcomes, in the order `tick` meets
      them; `None` when everything succeeds. */
  function FirstError(timestep: Time.Timestep, s: TickScript): Option<Error>
  {
    if s.events.Err? then Some(s.events.error)
    else if timestep.Fixed? && exists i :: 0 <= i < |s.fixedUpdates| && s.fixedUpdates[i].Err? then
      Some(s.fixedUpdates[FirstErr(s.fixedUpdates)].error)
    else if timestep.Variable? && s.variableUpdate.Err? then Some(s.variableUpdate.error)
    else if s.draw.Err? then Some(s.draw.error)
    else None
  }

  function FirstErr(outcomes: seq<Result<(), Error>>): (i: nat)
    requires exists i :: 0 <= i < |outcomes| && outcomes[i].Err?
    ensures i < |outcomes| && outcomes[i].Err? && forall j :: 0 <= j < i ==> outcomes[j].Ok?
    decreases |outcomes|
  {
    if outcomes[0].Err? then 0
    else
      assert exists i :: 0 <= i < |outcomes[1..]| && outcomes[1..][i].Err? by {
        var i :| 0 <= i < |outcomes| && outcomes[i].Err?;
        assert outcomes[1..][i - 1] == outcomes[i];
      }
      1 + FirstErr(outcomes[1..])
  }

  lemma {:induction false} UpdateLoopError(outcomes: seq<Result<(), Error>>)
    requires exists i :: 0 <= i < |outcomes| && outcomes[i].Err?
    ensures UpdateLoop(outcomes).1 == Err(outcomes[FirstErr(outcomes)].error)
    decreases |outcomes|
  {
    if outcomes[0].Ok? {
      var i := FirstErr(outcomes);
      assert outcomes[1..][i - 1] == outcomes[i];
      UpdateLoopError(outcomes[1..]);
    }
  }

  /** A tick fails exactly with the first error it meets, unchanged, and
      in variable mode runs exactly one update followed by one clear. */
  lemma TickPropagatesFirstError(timestep: Time.Timestep, s: TickScript)
    ensures Tick(timestep, s).1.Err? <==> FirstError(timestep, s).Some?
    ensures Tick(timestep, s).1.Err? ==> Tick(timestep, s).1.error == FirstError(timestep, s).value
    ensures timestep.Variable? && Tick(timestep, s).1.Ok? ==>
              Tick(timestep, s).0 == [TimeTick, HandleEvents, Update, ClearInput, Draw, Present]
  {
    if timestep.Fixed? && s.events.Ok? && exists i :: 0 <= i < |s.fixedUpdates| && s.fixedUpdates[i].Err? {
      UpdateLoopError(s.fixedUpdates);
    }
  }

  /** `run`: `init` first (its error is returned at once), then reset the
      clock, show the window and tick until a tick fails or event handling
      asks to stop; hide the window and return the first error, if any.
      The loop runs at most one tick per script entry; `None` means the
      script ran out with the game still running. */
  function Run(timestep: Time.Timestep, init: Result<(), Error>, ticks: seq<TickScript>): (r: Option<(seq<Step>, Result<(), Error>)>)
    ensures init.Err? ==> r == Some(([], Err(init.error)))
  {
    if init.Err? then Some(([], Err(init.error)))
    else
      match Loop(timestep, ticks)
      case None => None
      case Some(res) => Some(([ResetTime, ShowWindow] + res.0 + [HideWindow], res.1))
  }

  function Loop(timestep: Time.Timestep, ticks: seq<TickScript>): (r: Option<(seq<Step>, Result<(), Error>)>)
    decreases |ticks|
  {
    if ticks == [] then None
    else
      var t := Tick(timestep, ticks[0]);
      match t.1
      case Err(e) => Some((t.0, Err(e)))
      case Ok(quit) =>
        if quit then Some((t.0, Ok(())))
        else match Loop(timestep, ticks[1..])
             case None => None
             case Some(rest) => Some((t.0 + rest.0, rest.1))
  }

  /** The loop stops at tick `k` when that tick fails or asks to stop. */
  predicate Stops(timestep: Time.Timestep, s: TickScript)
  {
    FirstError(timestep, s).Some? || s.events == Ok(true)
  }

  /** `run` ends at the first tick that fails or asks to quit; it returns
      `Ok` exactly when that tick succeeded, and otherwise that tick's
      first error. */
  lemma {:induction false} LoopEndsAtFirstStop(timestep: Time.Timestep, ticks: seq<TickScript>, k: nat)
    requires k < |ticks| && Stops(timestep, ticks[k])
    requires forall j :: 0 <= j < k ==> !Stops(timestep, ticks[j])
    ensures Loop(timestep, ticks).Some?
    ensures Loop(timestep, ticks).value.1.Ok? <==> FirstError(timestep, ticks[k]).None?
    ensures Loop(timestep, ticks).value.1.Err? ==> Loop(timestep, ticks).value.1.error == FirstError(timestep, ticks[k]).value
    decreases k
  {
    TickPropagatesFirstError(timestep, ticks[0]);
    if k > 0 {
      assert !Stops(timestep, ticks[0]);
      assert forall j :: 0 <= j < k - 1 ==> ticks[1..][j] == ticks[j + 1];
      LoopEndsAtFirstStop(timestep, ticks[1..], k - 1);
    }
  }

  /** `ContextBuilder`. */
  datatype ContextBuilder = ContextBuilder(
    title: string, windowWidth: int, windowHeight: int, vsync: bool, timestep: Time.Timestep,
    fullscreen: bool, maximized: bool, minimized: bool, resizable: bool, borderless: bool,
    showMouse: bool, grabMouse: bool, relativeMouseMode: bool, quitOnEscape: bool, debugInfo: bool)

  /** Every flag of the builder other than vsync. */
  function Flags(b: ContextBuilder): seq<bool>
  {
    [b.fullscreen, b.maximized, b.minimized, b.resizable, b.borderless, b.showMouse,
     b.grabMouse, b.relativeMouseMode, b.quitOnEscape, b.debugInfo]
  }

  /** `ContextBuilder::default`. */
  function Default(): (b: ContextBuilder)
    ensures b.title == "Tetra" && b.windowWidth == 1280 && b.windowHeight == 720
    ensures b.vsync && b.timestep == Time.Fixed(60.0)
    ensures forall i :: 0 <= i < |Flags(b)| ==> !Flags(b)[i]
  {
    ContextBuilder("Tetra", 1280, 720, true, Time.Fixed(60.0),
                   false, false, false, false, false, false, false, false, false, false)
  }

  /** `ContextBuilder::new`: the defaults with a title and size. */
  function New(title: string, width: int, height: int): (b: ContextBuilder)
    ensures b.title == title && b.windowWidth == width && b.windowHeight == height
    ensures b.vsync == Default().vsync && b.timestep == Default().timestep && Flags(b) == Flags(Default())
  {
    Default().(title := title, windowWidth := width, windowHeight := height)
  }

  /** The builder's setters, by field. */
  datatype Setting =
    | Title(title: string) | Size(width: int, height: int) | Vsync(on: bool) | SetTimestep(t: Time.Timestep)
    | Fullscreen(on: bool) | Maximized(on: bool) | Minimized(on: bool) | Resizable(on: bool)
    | Borderless(on: bool) | ShowMouse(on: bool) | GrabMouse(on: bool) | RelativeMouseMode(on: bool)
    | QuitOnEscape(on: bool) | DebugInfo(on: bool)

  function Apply(b: ContextBuilder, s: Setting): ContextBuilder
  {
    match s
    case Title(t) => b.(title := t)
    case Size(w, h) => b.(windowWidth := w, windowHeight := h)
    case Vsync(on) => b.(vsync := on)
    case SetTimestep(t) => b.(timestep := t)
    case Fullscreen(on) => b.(fullscreen := on)
    case Maximized(on) => b.(maximized := on)
    case Minimized(on) => b.(minimized := on)
    case Resizable(on) => b.(resizable := on)
    case Borderless(on) => b.(borderless := on)
    case ShowMouse(on) => b.(showMouse := on)
    case GrabMouse(on) => b.(grabMouse := on)
    case RelativeMouseMode(on) => b.(relativeMouseMode := on)
    case QuitOnEscape(on) => b.(quitOnEscape := on)
    case DebugInfo(on) => b.(debugInfo := on)
  }

  /** Which field a setting writes (size writes both dimensions). */
  function FieldOf(s: Setting): nat
  {
    match s
    case Title(_) => 0 case Size(_, _) => 1 case Vsync(_) => 2 case SetTimestep(_) => 3
    case Fullscreen(_) => 4 case Maximized(_) => 5 case Minimized(_) => 6 case Resizable(_) => 7
    case Borderless(_) => 8 case ShowMouse(_) => 9 case GrabMouse(_) => 10 case RelativeMouseMode(_) => 11
    case QuitOnEscape(_) => 12 case DebugInfo(_) => 13
  }

  /** Each setter changes only its own field: setters of different fields
      commute. */
  lemma SettersCommute(b: ContextBuilder, s1: Setting, s2: Setting)
    requires FieldOf(s1) != FieldOf(s2)
    ensures Apply(Apply(b, s1), s2) == Apply(Apply(b, s2), s1)
  {
    match s1
    case Title(_) => CommuteTitle(b, s1, s2);
    case Size(_, _) => CommuteSize(b, s1, s2);
    case Vsync(_) => CommuteVsync(b, s1, s2);
    case SetTimestep(_) => CommuteSetTimestep(b, s1, s2);
    case Fullscreen(_) => CommuteFullscreen(b, s1, s2);
    case Maximized(_) => CommuteMaximized(b, s1, s2);
    case Minimized(_) => CommuteMinimized(b, s1, s2);
    case Resizable(_) => CommuteResizable(b, s1, s2);
    case Borderless(_) => CommuteBorderless(b, s1, s2);
    case ShowMouse(_) => CommuteShowMouse(b, s1, s2);
    case GrabMouse(_) => CommuteGrabMouse(b, s1, s2);
    case RelativeMouseMode(_) => CommuteRelativeMouseMode(b, s1, s2);
    case QuitOnEscape(_) => CommuteQuitOnEscape(b, s1, s2);
    case DebugInfo(_) => CommuteDebugInfo(b, s1, s2);
  }

  lemma CommuteTitle(b: ContextBuilder, s1: Setting, s2: Setting)
    requires s1.Title? && FieldOf(s1) != FieldOf(s2)
    ensures Apply(Apply(b, s1), s2) == Apply(Apply(b, s2), s1)
  {
  }

  lemma CommuteSize(b: ContextBuilder, s1: Setting, s2: Setting)
    requires s1.Size? && FieldOf(s1) != FieldOf(s2)
    ensures Apply(Apply(b, s1), s2) == Apply(Apply(b, s2), s1)
  {
  }

  lemma CommuteVsync(b: ContextBuilder, s1: Setting, s2: Setting)
    requires s1.Vsync? && FieldOf(s1) != FieldOf(s2)
    ensures Apply(Apply(b, s1), s2) == Apply(Apply(b, s2), s1)
  {
  }

  lemma CommuteSetTimestep(b: ContextBuilder, s1: Setting, s2: Setting)
    requires s1.SetTimestep? && FieldOf(s1) != FieldOf(s2)
    ensures Apply(Apply(b, s1), s2) == Apply(Apply(b, s2), s1)
  {
  }

  lemma CommuteFullscreen(b: ContextBuilder, s1: Setting, s2: Setting)
    requires s1.Fullscreen? && FieldOf(s1) != FieldOf(s2)
    ensures Apply(Apply(b, s1), s2) == Apply(Apply(b, s2), s1)
  {
  }

  lemma CommuteMaximized(b: ContextBuilder, s1: Setting, s2: Setting)
    requires s1.Maximized? && FieldOf(s1) != FieldOf(s2)
    ensures Apply(Apply(b, s1), s2) == Apply(Apply(b, s2), s1)
  {
  }

  lemma CommuteMinimized(b: ContextBuilder, s1: Setting, s2: Setting)
    requires s1.Minimized? && FieldOf(s1) != FieldOf(s2)
    ensures Apply(Apply(b, s1), s2) == Apply(Apply(b, s2), s1)
  {
  }

  lemma CommuteResizable(b: ContextBuilder, s1: Setting, s2: Setting)
    requires s1.Resizable? && FieldOf(s1) != FieldOf(s2)
    ensures Apply(Apply(b, s1), s2) == Apply(Apply(b, s2), s1)
  {
  }

  lemma CommuteBorderless(b: ContextBuilder, s1: Setting, s2: Setting)
    requires s1.Borderless? && FieldOf(s1) != FieldOf(s2)
    ensures Apply(Apply(b, s1), s2) == Apply(Apply(b, s2), s1)
  {
  }

  lemma CommuteShowMouse(b: ContextBuilder, s1: Setting, s2: Setting)
    requires s1.ShowMouse? && FieldOf(s1) != FieldOf(s2)
    ensures Apply(Apply(b, s1), s2) == Apply(Apply(b, s2), s1)
  {
  }

  lemma CommuteGrabMouse(b: ContextBuilder, s1: Setting, s2: Setting)
    requires s1.GrabMouse? && FieldOf(s1) != FieldOf(s2)
    ensures Apply(Apply(b, s1), s2) == Apply(Apply(b, s2), s1)
  {
  }

  lemma CommuteRelativeMouseMode(b: ContextBuilder, s1: Setting, s2: Setting)
    requires s1.RelativeMouseMode? && FieldOf(s1) != FieldOf(s2)
    ensures Apply(Apply(b, s1), s2) == Apply(Apply(b, s2), s1)
  {
  }

  lemma CommuteQuitOnEscape(b: ContextBuilder, s1: Setting, s2: Setting)
    requires s1.QuitOnEscape? && FieldOf(s1) != FieldOf(s2)
    ensures Apply(Apply(b, s1), s2) == Apply(Apply(b, s2), s1)
  {
  }

  lemma CommuteDebugInfo(b: ContextBuilder, s1: Setting, s2: Setting)
    requires s1.DebugInfo? && FieldOf(s1) != FieldOf(s2)
    ensures Apply(Apply(b, s1), s2) == Apply(Apply(b, s2), s1)
  {
  }

  /** A later setter of the same field wins. */
  lemma LaterSetterWins(b: ContextBuilder, s1: Setting, s2: Setting)
    requires FieldOf(s1) == FieldOf(s2)
    ensures Apply(Apply(b, s1), s2) == Apply(b, s2)
  {
    match s2
    case Title(_) => assert s1.Title?;
    case Size(_, _) => assert s1.Size?;
    case Vsync(_) => assert s1.Vsync?;
    case SetTimestep(_) => assert s1.SetTimestep?;
    case Fullscreen(_) => assert s1.Fullscreen?;
    case Maximized(_) => assert s1.Maximized?;
    case Minimized(_) => assert s1.Minimized?;
    case Resizable(_) => assert s1.Resizable?;
    case Borderless(_) => assert s1.Borderless?;
    case ShowMouse(_) => assert s1.ShowMouse?;
    case GrabMouse(_) => assert s1.GrabMouse?;
    case RelativeMouseMode(_) => assert s1.RelativeMouseMode?;
    case QuitOnEscape(_) => assert s1.QuitOnEscape?;
    case DebugInfo(_) => assert s1.DebugInfo?;
  }
}

=== FILE: device_gl.dfy ===
/** `GraphicsDevice` of `src/platform/device_gl.rs`: the newest GL wrapper.
    It caches what is bound at each binding point, skips binds of what is
    already bound, and resets a cache slot when the object in it is dropped.
    Object creation and shader compilation are foreign: their results (new
    object names, compile and link status) are parameters. */
module DeviceGl {
  import opened Wrappers
  import opened GlModel

  const FloatBytes: nat := 4

  datatype VertexBuffer = VertexBuffer(id: nat, count: nat, stride: nat)
  datatype IndexBuffer = IndexBuffer(id: nat, count: nat)

  datatype Error = InvalidShader

  /** Position (2 floats at 0), uv (2 floats at 2) and colour (4 floats at
      4), each with the buffer's stride, then all three enabled. */
  function AttributeLayout(stride: nat): (r: seq<Call>)
    ensures Plain(r)
  {
    [VertexAttribLayout(0, 2, stride * FloatBytes, 0),
     VertexAttribLayout(1, 2, stride * FloatBytes, 2 * FloatBytes),
     VertexAttribLayout(2, 4, stride * FloatBytes, 4 * FloatBytes),
     EnableAttrib(0), EnableAttrib(1), EnableAttrib(2)]
  }

  const DisableAttributes: seq<Call> := [DisableAttrib(0), DisableAttrib(1), DisableAttrib(2)]

  function IdOf(buffer: Option<VertexBuffer>): nat
  {
    match buffer
    case None => Unbound
    case Some(b) => b.id
  }

  /** `bind_vertex_buffer`: when the buffer differs from the cached one,
      bind it and set up (or, for `None`, disable) the vertex attributes. */
  function BindVertexBuffer(cache: Bindings, buffer: Option<VertexBuffer>): (r: (Bindings, seq<Call>))
    ensures Sound(cache, r)
    ensures Get(r.0, ArrayBuffer) == IdOf(buffer)
    ensures cache.arrayBuffer == IdOf(buffer) ==> r == (cache, [])
    ensures cache.arrayBuffer != IdOf(buffer) ==>
      r.1 == [Bind(ArrayBuffer, IdOf(buffer))] + (match buffer
                                                  case Some(b) => AttributeLayout(b.stride)
                                                  case None => DisableAttributes)
  {
    var bind := CachedBind(cache, ArrayBuffer, IdOf(buffer));
    if bind.1 == [] then bind
    else
      var attributes := match buffer
        case Some(b) => AttributeLayout(b.stride)
        case None => DisableAttributes;
      Then(cache, bind, attributes)
  }

  /** `bind_index_buffer`, `bind_program`, `bind_framebuffer`: the plain
      cached bind. */
  function BindPlain(cache: Bindings, t: Target, id: nat): (r: (Bindings, seq<Call>))
    requires t != ArrayBuffer && t != TextureTarget
    ensures Sound(cache, r) && Get(r.0, t) == id
    ensures Get(cache, t) == id ==> r == (cache, [])
    ensures Get(cache, t) != id ==> r == (Set(cache, t, id), [Bind(t, id)])
  {
    CachedBind(cache, t, id)
  }

  /** `bind_texture`: select texture unit 0, then bind, only on a change. */
  function BindTexture(cache: Bindings, id: nat): (r: (Bindings, seq<Call>))
    ensures Sound(cache, r) && r.0.texture == id
    ensures cache.texture == id ==> r == (cache, [])
    ensures cache.texture != id ==> r.1 == [ActiveTexture0, Bind(TextureTarget, id)]
  {
    CachedTextureBind(cache, id)
  }

  /** A wrapper object's `Drop`: if the object is the cached one, unbind it
      (for a vertex buffer, also disable the attributes) and clear the slot;
      then delete it. Object names are never 0. */
  function DropObject(cache: Bindings, t: Target, id: nat): (r: (Bindings, seq<Call>))
    requires id != Unbound
    ensures Get(r.0, t) == (if Get(cache, t) == id then Unbound else Get(cache, t))
    ensures forall t' :: t' != t ==> Get(r.0, t') == Get(cache, t')
    ensures |r.1| > 0 && r.1[|r.1| - 1] == Delete(KindOf(t), id)
  {
    var unbind := if Get(cache, t) == id then
                    (Set(cache, t, Unbound),
                     (if t == TextureTarget then [ActiveTexture0] else [])
                     + [Bind(t, Unbound)]
                     + (if t == ArrayBuffer then DisableAttributes else []))
                  else (cache, []);
    (unbind.0, unbind.1 + [Delete(KindOf(t), id)])
  }

  /** Dropping keeps the cache coherent with GL, provided no other binding
      point of the same kind holds the object (each buffer serves one
      purpose). */
  lemma DropObjectSound(cache: Bindings, t: Target, id: nat)
    requires id != Unbound
    requires forall t' :: t' != t && KindOf(t') == KindOf(t) ==> Get(cache, t') != id
    ensures Sound(cache, DropObject(cache, t, id))
  {
    var del := [Delete(KindOf(t), id)];
    if Get(cache, t) == id {
      var pre := if t == TextureTarget then [ActiveTexture0] else [];
      var post := if t == ArrayBuffer then DisableAttributes else [];
      var c1 := Set(cache, t, Unbound);
      SoundPlain(cache, pre);
      ReplayOne(cache, Bind(t, Unbound));
      assert [Bind(t, Unbound)][..0] == [];
      SoundThen(cache, (cache, pre), (c1, [Bind(t, Unbound)]));
      SoundPlain(c1, post);
      SoundThen(cache, (c1, pre + [Bind(t, Unbound)]), (c1, post));
      ReplayOne(c1, Delete(KindOf(t), id));
      DeleteClears(c1, t, id);
      SoundThen(cache, (c1, pre + [Bind(t, Unbound)] + post), (c1, del));
    } else {
      ReplayOne(cache, Delete(KindOf(t), id));
      DeleteClears(cache, t, id);
      assert DropObject(cache, t, id) == (cache, [] + del);
    }
  }

  /** `new_framebuffer`: bind the new framebuffer (named `id` by GL), attach
      the texture, and with `rebind_previous` bind the previously cached
      framebuffer again directly, restoring the cache slot. */
  function NewFramebuffer(cache: Bindings, id: nat, texture: nat, rebindPrevious: bool): (r: (Bindings, seq<Call>))
    requires id != cache.framebuffer
    ensures Sound(cache, r)
    ensures rebindPrevious ==> r.0 == cache
    ensures !rebindPrevious ==> r.0 == cache.(framebuffer := id)
    ensures |r.1| >= 2 && r.1[..2] == [Bind(FramebufferTarget, id), AttachTexture(texture)]
  {
    var previous := cache.framebuffer;
    var attached := Then(cache, BindPlain(cache, FramebufferTarget, id), [AttachTexture(texture)]);
    if rebindPrevious then
      ReplayOne(attached.0, Bind(FramebufferTarget, previous));
      assert [Bind(FramebufferTarget, previous)][..0] == [];
      SoundThen(cache, attached, (cache, [Bind(FramebufferTarget, previous)]));
      (cache, attached.1 + [Bind(FramebufferTarget, previous)])
    else attached
  }

  /** `draw_elements`: bind vertex buffer, index buffer, texture and
      program (each only if needed), then draw `count` elements. */
  function DrawElementsStep(cache: Bindings, vb: VertexBuffer, ib: IndexBuffer, texture: nat, program: nat, count: int)
    : (r: (Bindings, seq<Call>))
    ensures Sound(cache, r)
    ensures r.0 == Bindings(vb.id, ib.id, program, texture, cache.framebuffer)
    ensures |r.1| > 0 && r.1[|r.1| - 1] == DrawElements(count)
    ensures Sound(cache, (r.0, r.1[..|r.1| - 1]))
  {
    var s1 := BindVertexBuffer(cache, Some(vb));
    var s2 := BindPlain(s1.0, ElementArrayBuffer, ib.id);
    var s3 := BindTexture(s2.0, texture);
    var s4 := BindPlain(s3.0, ProgramTarget, program);
    SoundThen(cache, s1, s2);
    SoundThen(cache, (s2.0, s1.1 + s2.1), s3);
    SoundThen(cache, (s3.0, s1.1 + s2.1 + s3.1), s4);
    var binds := s1.1 + s2.1 + s3.1 + s4.1;
    assert (binds + [DrawElements(count)])[..|binds|] == binds;
    Then(cache, (s4.0, binds), [DrawElements(count)])
  }

  /** `set_uniform`: bind the program, then set the uniform. */
  function SetUniform(cache: Bindings, program: nat, name: string): (r: (Bindings, seq<Call>))
    ensures Sound(cache, r) && r.0.program == program
    ensures |r.1| > 0 && r.1[|r.1| - 1] == Uniform(program, name)
  {
    Then(cache, BindPlain(cache, ProgramTarget, program), [Uniform(program, name)])
  }

  /** `new_program`: bind the three attribute locations, then fail with
      `InvalidShader` if either stage fails to compile or the program fails
      to link; on success point `u_texture` at unit 0. */
  function NewProgram(cache: Bindings, program: nat, vertexCompiles: bool, fragmentCompiles: bool, links: bool)
    : (r: ((Bindings, seq<Call>), Result<nat, Error>))
    ensures Sound(cache, r.0)
    ensures r.1.Ok? <==> vertexCompiles && fragmentCompiles && links
    ensures r.1.Ok? ==> r.1.value == program && r.0.0.program == program
    ensures r.1.Err? ==> r.0.0 == cache
    ensures |r.0.1| >= 3
    ensures r.0.1[..3] == [BindAttribLocation(program, 0, "a_position"),
                           BindAttribLocation(program, 1, "a_uv"),
                           BindAttribLocation(program, 2, "a_color")]
  {
    var attribs := [BindAttribLocation(program, 0, "a_position"),
                    BindAttribLocation(program, 1, "a_uv"),
                    BindAttribLocation(program, 2, "a_color")];
    SoundPlain(cache, attribs);
    if !vertexCompiles || !fragmentCompiles || !links then ((cache, attribs), Err(InvalidShader))
    else
      var u := SetUniform(cache, program, "u_texture");
      SoundThen(cache, (cache, attribs), u);
      assert (attribs + u.1)[..3] == attribs;
      ((u.0, attribs + u.1), Ok(program))
  }

  /** `new_vertex_buffer`: bind the new buffer (named `id` by GL) and
      allocate `count` floats. */
  function NewVertexBuffer(cache: Bindings, id: nat, count: nat, stride: nat): (r: (Bindings, seq<Call>))
    ensures Sound(cache, r) && r.0.arrayBuffer == id
    ensures |r.1| > 0 && r.1[|r.1| - 1] == BufferData(ArrayBuffer, count * FloatBytes)
  {
    Then(cache, BindVertexBuffer(cache, Some(VertexBuffer(id, count, stride))),
             [BufferData(ArrayBuffer, count * FloatBytes)])
  }

  /** `set_vertex_buffer_data`: bind, then write `data` at float `offset`.
      This wrapper does not check the range. */
  function SetVertexBufferData(cache: Bindings, buffer: VertexBuffer, data: seq<real>, offset: nat): (r: (Bindings, seq<Call>))
    ensures Sound(cache, r) && r.0.arrayBuffer == buffer.id
    ensures |r.1| > 0 && r.1[|r.1| - 1] == BufferSubData(ArrayBuffer, offset * FloatBytes, data)
  {
    Then(cache, BindVertexBuffer(cache, Some(buffer)),
             [BufferSubData(ArrayBuffer, offset * FloatBytes, data)])
  }

  /** `new_index_buffer`: bind and allocate `count` 4-byte indices. */
  function NewIndexBuffer(cache: Bindings, id: nat, count: nat): (r: (Bindings, seq<Call>))
    ensures Sound(cache, r) && r.0.elementBuffer == id
    ensures |r.1| > 0 && r.1[|r.1| - 1] == BufferData(ElementArrayBuffer, count * 4)
  {
    Then(cache, BindPlain(cache, ElementArrayBuffer, id), [BufferData(ElementArrayBuffer, count * 4)])
  }

  /** `set_index_buffer_data`: bind, then write `data` at index `offset`. */
  function SetIndexBufferData(cache: Bindings, buffer: IndexBuffer, data: seq<nat>, offset: nat): (r: (Bindings, seq<Call>))
    ensures Sound(cache, r) && r.0.elementBuffer == buffer.id
    ensures |r.1| > 0 && r.1[|r.1| - 1] == IndexSubData(offset * 4, data)
  {
    Then(cache, BindPlain(cache, ElementArrayBuffer, buffer.id), [IndexSubData(offset * 4, data)])
  }

  /** `new_texture`: bind the new texture, set clamping and a single mip
      level, and allocate `width` x `height` RGBA texels. */
  function NewTexture(cache: Bindings, id: nat, width: int, height: int): (r: (Bindings, seq<Call>))
    ensures Sound(cache, r) && r.0.texture == id
    ensures |r.1| > 0 && r.1[|r.1| - 1] == TextureImage(width, height)
  {
    Then(cache, BindTexture(cache, id), [TextureParameters, TextureImage(width, height)])
  }

  /** `set_texture_data`: bind, then replace a region of texels. */
  function SetTextureData(cache: Bindings, id: nat, data: seq<nat>, x: int, y: int, width: int, height: int)
    : (r: (Bindings, seq<Call>))
    ensures Sound(cache, r) && r.0.texture == id
    ensures |r.1| > 0 && r.1[|r.1| - 1] == TextureSubImage(x, y, width, height, data)
  {
    Then(cache, BindTexture(cache, id), [TextureSubImage(x, y, width, height, data)])
  }

  /** `set_texture_filter_mode`: bind the texture, then set how it is
      sampled when scaled down and up. */
  function SetTextureFilterMode(cache: Bindings, id: nat, nearest: bool): (r: (Bindings, seq<Call>))
    ensures Sound(cache, r) && r.0.texture == id
    ensures |r.1| > 0 && r.1[|r.1| - 1] == TextureFilter(nearest)
  {
    Then(cache, BindTexture(cache, id), [TextureFilter(nearest)])
  }

  /** Raw handles compare equal by object name alone. */
  predicate SameVertexBuffer(a: VertexBuffer, b: VertexBuffer)
  {
    a.id == b.id
  }

  /** Handles that compare equal are the same object to the cache: binding
      one right after the other issues nothing. */
  lemma SameHandleBindsOnce(cache: Bindings, a: VertexBuffer, b: VertexBuffer)
    ensures SameVertexBuffer(a, b) <==> BindVertexBuffer(BindVertexBuffer(cache, Some(a)).0, Some(b)).1 == []
  {
  }

  /** Starting from a coherent device, GL has exactly the requested vertex
      buffer, index buffer, texture and program bound when `draw_elements`
      issues its draw call. */
  lemma DrawUsesRequestedObjects(d: Device, vb: VertexBuffer, ib: IndexBuffer, texture: nat, program: nat, count: int)
    requires Valid(d)
    ensures var r := DrawElementsStep(d.cache, vb, ib, texture, program, count);
            Replay(d.start, d.log + r.1[..|r.1| - 1]) == Bindings(vb.id, ib.id, program, texture, d.cache.framebuffer)
  {
    var r := DrawElementsStep(d.cache, vb, ib, texture, program, count);
    CoherentAppend(d.cache, d.start, d.log, r.1[..|r.1| - 1], r.0);
  }
}

=== FILE: drawable.dfy ===
/** `DrawParams` as the quad batcher of `src/graphics.rs` consumes it: a
    builder over position, scale, origin, rotation, colour and an optional
    clip rectangle. Each builder method replaces one field of a copy. */
module Drawable {
  import opened Basics
  import opened Wrappers
  import opened Rectangles

  datatype DrawParams = DrawParams(
    position: Vec2,
    scale: Vec2,
    origin: Vec2,
    rotation: real,
    color: Color,
    clip: Option<Rect>)

  /** `DrawParams::default()` (also `DrawParams::new()`): draws a graphic
      unmoved, unscaled, unrotated, untinted and unclipped. */
  function Default(): (d: DrawParams)
    ensures d.position == Vec2(0.0, 0.0) && d.scale == Vec2(1.0, 1.0) && d.origin == Vec2(0.0, 0.0)
    ensures d.rotation == 0.0 && d.color == White && d.clip == None
  {
    DrawParams(Zero, One, Zero, 0.0, White, None)
  }

  function Position(d: DrawParams, position: Vec2): (r: DrawParams)
    ensures r.position == position && r.(position := d.position) == d
  {
    d.(position := position)
  }

  function Scale(d: DrawParams, scale: Vec2): (r: DrawParams)
    ensures r.scale == scale && r.(scale := d.scale) == d
  {
    d.(scale := scale)
  }

  function Origin(d: DrawParams, origin: Vec2): (r: DrawParams)
    ensures r.origin == origin && r.(origin := d.origin) == d
  {
    d.(origin := origin)
  }

  function Rotation(d: DrawParams, rotation: real): (r: DrawParams)
    ensures r.rotation == rotation && r.(rotation := d.rotation) == d
  {
    d.(rotation := rotation)
  }

  function SetColor(d: DrawParams, color: Color): (r: DrawParams)
    ensures r.color == color && r.(color := d.color) == d
  {
    d.(color := color)
  }

  /** `clip(r)` always stores `Some(r)`; no builder method resets the clip. */
  function Clip(d: DrawParams, clip: Rect): (r: DrawParams)
    ensures r.clip == Some(clip) && r.(clip := d.clip) == d
  {
    d.(clip := Some(clip))
  }

  /** `From<Vec2<f32>>`: the defaults with only the position replaced. */
  function FromVec2(position: Vec2): (r: DrawParams)
    ensures r == Position(Default(), position)
    ensures r.(position := Default().position) == Default()
  {
    DrawParams(position, One, Zero, 0.0, White, None)
  }

  /** Builder calls on different fields commute, and a later call on the same
      field overrides an earlier one. */
  lemma BuilderCallsCommute(d: DrawParams, p: Vec2, s: Vec2, o: Vec2, rot: real, c: Color, clip: Rect)
    ensures Scale(Position(d, p), s) == Position(Scale(d, s), p)
    ensures Clip(SetColor(Rotation(Origin(d, o), rot), c), clip)
         == Origin(Rotation(SetColor(Clip(d, clip), c), rot), o)
    ensures Position(Position(d, o), p) == Position(d, p)
    ensures Clip(Clip(d, Rectangle(0.0, 0.0, 0.0, 0.0)), clip) == Clip(d, clip)
  {
  }
}

=== FILE: drawparams.dfy ===
/** The later `DrawParams` (no clip field) with its conversion to a transform
    matrix. The matrix is kept symbolic: the list of elementary transforms
    `to_matrix` composes, in the order it composes them. Rotation is applied
    with caller-supplied sine and cosine values of the angle. */
module DrawParams {
  import opened Basics

  datatype DrawParams = DrawParams(
    position: Vec2,
    scale: Vec2,
    origin: Vec2,
    rotation: real,
    color: Color)

  /** The elementary transforms a `Mat4` is built from here. */
  datatype Step = Translate(offset: Vec2) | ScaleBy(factor: Vec2) | RotateZ(angle: real)

  /** A transform matrix, as the steps applied to a point first-to-last. */
  type Matrix = seq<Step>

  function Default(): (d: DrawParams)
    ensures d.position == Vec2(0.0, 0.0) && d.scale == Vec2(1.0, 1.0) && d.origin == Vec2(0.0, 0.0)
    ensures d.rotation == 0.0 && d.color == White
  {
    DrawParams(Zero, One, Zero, 0.0, White)
  }

  function Position(d: DrawParams, position: Vec2): (r: DrawParams)
    ensures r.position == position && r.(position := d.position) == d
  {
    d.(position := position)
  }

  function Scale(d: DrawParams, scale: Vec2): (r: DrawParams)
    ensures r.scale == scale && r.(scale := d.scale) == d
  {
    d.(scale := scale)
  }

  function Origin(d: DrawParams, origin: Vec2): (r: DrawParams)
    ensures r.origin == origin && r.(origin := d.origin) == d
  {
    d.(origin := origin)
  }

  function Rotation(d: DrawParams, rotation: real): (r: DrawParams)
    ensures r.rotation == rotation && r.(rotation := d.rotation) == d
  {
    d.(rotation := rotation)
  }

  function SetColor(d: DrawParams, color: Color): (r: DrawParams)
    ensures r.color == color && r.(color := d.color) == d
  {
    d.(color := color)
  }

  /** `From<Vec2<f32>>`: the defaults with only the position replaced. */
  function FromVec2(position: Vec2): (r: DrawParams)
    ensures r == Position(Default(), position)
  {
    DrawParams(position, One, Zero, 0.0, White)
  }

  /** `to_matrix`: translate by `-origin`, scale, rotate about z, translate by
      `position`. */
  function ToMatrix(d: DrawParams): Matrix
  {
    [Translate(Vec2(-d.origin.x, -d.origin.y)), ScaleBy(d.scale), RotateZ(d.rotation), Translate(d.position)]
  }

  /** `From<DrawParams> for Mat4<f32>`. */
  function IntoMatrix(d: DrawParams): (m: Matrix)
    ensures m == ToMatrix(d)
  {
    ToMatrix(d)
  }

  /** Applies one elementary transform; `sin` and `cos` are the sine and
      cosine of a rotation step's angle. */
  function ApplyStep(step: Step, p: Vec2, sin: real, cos: real): Vec2
  {
    match step
    case Translate(v) => Vec2(p.x + v.x, p.y + v.y)
    case ScaleBy(f) => Vec2(p.x * f.x, p.y * f.y)
    case RotateZ(_) => Vec2(cos * p.x - sin * p.y, sin * p.x + cos * p.y)
  }

  /** Applies a symbolic matrix to a point, first step first. */
  function Apply(m: Matrix, p: Vec2, sin: real, cos: real): Vec2
    decreases |m|
  {
    if m == [] then p else Apply(m[1..], ApplyStep(m[0], p, sin, cos), sin, cos)
  }

  /** The matrix ignores the colour: params differing only in colour give the
      same matrix. */
  lemma MatrixIgnoresColor(d: DrawParams, c: Color)
    ensures IntoMatrix(SetColor(d, c)) == IntoMatrix(d)
  {
  }

  /** What the matrix does to a point: scale the offset from the origin,
      rotate it, then place it at the position. */
  lemma MatrixMapsPoint(d: DrawParams, p: Vec2, sin: real, cos: real)
    ensures var fx := (p.x - d.origin.x) * d.scale.x;
      var fy := (p.y - d.origin.y) * d.scale.y;
      Apply(ToMatrix(d), p, sin, cos)
        == Vec2(d.position.x + cos * fx - sin * fy, d.position.y + sin * fx + cos * fy)
  {
    var m := ToMatrix(d);
    var p1 := ApplyStep(m[0], p, sin, cos);
    var p2 := ApplyStep(m[1], p1, sin, cos);
    var p3 := ApplyStep(m[2], p2, sin, cos);
    var p4 := ApplyStep(m[3], p3, sin, cos);
    assert m[1..] == [m[1], m[2], m[3]];
    assert m[1..][1..] == [m[2], m[3]];
    assert m[1..][1..][1..] == [m[3]];
    assert m[1..][1..][1..][1..] == [];
    assert Apply(m, p, sin, cos) == Apply(m[1..], p1, sin, cos);
    assert Apply(m[1..], p1, sin, cos) == Apply(m[1..][1..], p2, sin, cos);
    assert Apply(m[1..][1..], p2, sin, cos) == Apply(m[1..][1..][1..], p3, sin, cos);
    assert Apply(m[1..][1..][1..], p3, sin, cos) == p4;
  }

  /** The default params give the identity transform (rotation 0 has sine 0
      and cosine 1). */
  lemma DefaultIsIdentity(p: Vec2)
    ensures Apply(ToMatrix(Default()), p, 0.0, 1.0) == p
  {
    MatrixMapsPoint(Default(), p, 0.0, 1.0);
  }
}

=== FILE: font_cache.dfy ===
/** `src/graphics/text/cache.rs`: lays text out glyph by glyph, caching
    each rasterized glyph in a texture atlas keyed by character and
    subpixel offset, and grows the atlas when it runs out of room. */
module FontCache {
  import opened Wrappers
  import opened Numeric
  import opened Basics
  import opened Rectangles
  import opened ImageData
  import opened Textures
  import opened Packer

  /** A glyph image and its box relative to the pen position. */
  datatype RasterizedGlyph = RasterizedGlyph(data: seq<Byte>, bounds: Rect)

  /** A glyph in the atlas: where it is (in texture coordinates) and its box. */
  datatype CachedGlyph = CachedGlyph(uv: Rect, bounds: Rect)

  datatype CacheError = OutOfSpace

  /** The subpixel offsets are kept in tenths of a pixel. */
  datatype CacheKey = CacheKey(glyph: char, subpixelX: int, subpixelY: int)

  /** What a font offers the cache: rasterizing, advances, kerning and
      line metrics. */
  datatype Rasterizer = Rasterizer(
    rasterize: (char, Vec2) -> Option<RasterizedGlyph>,
    advance: char -> real,
    lineHeight: real,
    ascent: real,
    kerning: (char, char) -> real)

  datatype TextQuad = TextQuad(position: Rect, uv: Rect)

  /** The geometry of a string, stamped with the atlas generation it
      refers to. */
  datatype TextGeometry = TextGeometry(quads: seq<TextQuad>, bounds: Option<Rect>, resizeCount: nat)

  datatype FontCache = FontCache(
    rasterizer: Rasterizer,
    packer: ShelfPacker,
    glyphs: map<CacheKey, Option<CachedGlyph>>,
    resizeCount: nat)

  const InitialSize: nat := 128

  /** `new`: an empty 128x128 atlas and nothing cached. */
  function New(rasterizer: Rasterizer, handle: nat): (r: (FontCache, seq<DeviceCall>))
    ensures r.0.glyphs == map[] && r.0.resizeCount == 0 && r.0.rasterizer == rasterizer
    ensures r.0.packer == Packer.New(handle, InitialSize, InitialSize).0
    ensures r.1 == Packer.New(handle, InitialSize, InitialSize).1
  {
    var (packer, calls) := Packer.New(handle, InitialSize, InitialSize);
    (FontCache(rasterizer, packer, map[], 0), calls)
  }

  // ---------------------------------------------------------------------
  // Subpixel offsets

  predicate IsInteger(v: real) { v.Floor as real == v }

  lemma ShiftInteger(v: real, k: int)
    requires IsInteger(v)
    ensures IsInteger(v + k as real)
  {
    var n := v.Floor;
    assert v + k as real == (n + k) as real;
  }

  /** One component of `subpixel_offset`. */
  function SubpixelComponent(v: real): (r: real)
    ensures -0.5 <= r <= 0.5
    ensures IsInteger(v - r)
  {
    var f := Fract(v);
    if f > 0.5 then
      ShiftInteger(v - f, 1);
      f - 1.0
    else if f < -0.5 then
      ShiftInteger(v - f, -1);
      f + 1.0
    else f
  }

  /** `subpixel_offset`: how far a point is from the nearest whole pixel,
      each component in `[-0.5, 0.5]`. */
  function SubpixelOffset(p: Vec2): (r: Vec2)
    ensures -0.5 <= r.x <= 0.5 && -0.5 <= r.y <= 0.5
    ensures IsInteger(p.x - r.x) && IsInteger(p.y - r.y)
  {
    Vec2(SubpixelComponent(p.x), SubpixelComponent(p.y))
  }

  /** The offset is the only one in range: any other value in `[-0.5, 0.5]`
      that differs from `v` by a whole number is the same, or `v` lies
      exactly halfway between two pixels. */
  lemma SubpixelComponentUnique(v: real, o: real)
    requires -0.5 <= o <= 0.5 && IsInteger(v - o)
    ensures o == SubpixelComponent(v) || (o == 0.5 && SubpixelComponent(v) == -0.5)
                                       || (o == -0.5 && SubpixelComponent(v) == 0.5)
  {
    var r := SubpixelComponent(v);
    var n := (v - o).Floor;
    var m := (v - r).Floor;
    assert o - r == (m - n) as real;
  }

  /** The cache key component as written: rounded tenths cast to `u32`,
      which turns every negative value into 0. */
  function SubpixelKeyAsWritten(o: real): (k: nat)
    ensures k <= U32_MAX
  {
    SaturateU32(Round(o * 10.0))
  }

  /** The cache key component with its sign kept: rounded tenths. */
  function SubpixelKey(o: real): (k: int)
    ensures -0.5 <= o <= 0.5 ==> -5 <= k <= 5
    ensures o * 10.0 - 0.5 <= k as real <= o * 10.0 + 0.5
  {
    Round(o * 10.0)
  }

  /** The key pins the offset down to a twentieth of a pixel, so glyphs
      are only shared between offsets that close together. */
  lemma SubpixelKeyIsClose(o1: real, o2: real)
    requires SubpixelKey(o1) == SubpixelKey(o2)
    ensures -0.1 <= o1 - o2 <= 0.1
  {
  }

  /** Offsets of -0.3 and 0.0 pixels get the same key as written, so a
      glyph rasterized for one is drawn for the other. */
  lemma NegativeOffsetsShareKey()
    ensures SubpixelKeyAsWritten(-0.3) == SubpixelKeyAsWritten(0.0) == 0
    ensures SubpixelKey(-0.3) == -3 && SubpixelKey(0.0) == 0
  {
  }

  function KeyFor(ch: char, cursor: Vec2): CacheKey
  {
    var offset := SubpixelOffset(cursor);
    CacheKey(ch, SubpixelKey(offset.x), SubpixelKey(offset.y))
  }

  // ---------------------------------------------------------------------
  // The atlas

  /** `add_glyph_to_texture`: pack the glyph (its size cut to whole
      texels) and record where it went in texture coordinates. */
  function AddGlyph(packer: ShelfPacker, g: RasterizedGlyph): (r: Result<(CachedGlyph, ShelfPacker, seq<DeviceCall>), CacheError>)
    requires packer.texture.width > 0 && packer.texture.height > 0
    ensures var ins := Insert(packer, g.data, Trunc(g.bounds.width), Trunc(g.bounds.height));
      && (r.Err? <==> ins.0.None?)
      && (r.Ok? ==> r.value == (Entry(ins.0.value, g.bounds, packer.texture.width as real, packer.texture.height as real),
                                ins.1, ins.2))
    ensures r.Ok? ==> r.value.1.texture == packer.texture
  {
    var (pos, packer', calls) := Insert(packer, g.data, Trunc(g.bounds.width), Trunc(g.bounds.height));
    match pos
    case None => Err(OutOfSpace)
    case Some((x, y)) =>
      Ok((Entry((x, y), g.bounds, packer.texture.width as real, packer.texture.height as real), packer', calls))
  }

  /** The cache entry for a glyph packed at `pos` in a `tw` by `th` atlas:
      its position and size in texture coordinates. */
  function Entry(pos: (int, int), bounds: Rect, tw: real, th: real): (r: CachedGlyph)
    requires tw > 0.0 && th > 0.0
    ensures r.bounds == bounds
    ensures r.uv.x * tw == pos.0 as real && r.uv.y * th == pos.1 as real
    ensures r.uv.width * tw == bounds.width && r.uv.height * th == bounds.height
  {
    CachedGlyph(Rectangle(pos.0 as real / tw, pos.1 as real / th, bounds.width / tw, bounds.height / th), bounds)
  }

  /** The atlas has a size to divide by. */
  predicate Sized(c: FontCache) { c.packer.texture.width > 0 && c.packer.texture.height > 0 }

  /** The cached entry for a character at a pen position. The rasterizer
      is asked only on a miss, and what it answers, even "no glyph", is
      remembered. */
  function Lookup(c: FontCache, ch: char, cursor: Vec2): (r: Result<(Option<CachedGlyph>, FontCache, seq<DeviceCall>), CacheError>)
    requires Sized(c)
    ensures KeyFor(ch, cursor) in c.glyphs ==> r == Ok((c.glyphs[KeyFor(ch, cursor)], c, []))
    ensures r.Ok? ==> KeyFor(ch, cursor) in r.value.1.glyphs && r.value.1.glyphs[KeyFor(ch, cursor)] == r.value.0
    ensures r.Ok? ==> r.value.1.glyphs == c.glyphs[KeyFor(ch, cursor) := r.value.0]
    ensures r.Ok? ==> r.value.1.rasterizer == c.rasterizer && r.value.1.resizeCount == c.resizeCount
                      && r.value.1.packer.texture == c.packer.texture
    ensures r.Ok? && KeyFor(ch, cursor) !in c.glyphs ==>
              (r.value.0.None? <==> c.rasterizer.rasterize(ch, cursor).None?)
  {
    var key := KeyFor(ch, cursor);
    if key in c.glyphs then
      assert c.glyphs[key := c.glyphs[key]] == c.glyphs;
      Ok((c.glyphs[key], c, []))
    else match c.rasterizer.rasterize(ch, cursor)
      case None => Ok((None, c.(glyphs := c.glyphs[key := None]), []))
      case Some(raster) =>
        var (cached, packer', calls) :- AddGlyph(c.packer, raster);
        Ok((Some(cached), c.(packer := packer', glyphs := c.glyphs[key := Some(cached)]), calls))
  }

  // ---------------------------------------------------------------------
  // Text bounds

  function Offset(r: Rect, d: Vec2): (o: Rect)
    ensures o.width == r.width && o.height == r.height && o.x == r.x + d.x && o.y == r.y + d.y
  {
    r.(x := r.x + d.x, y := r.y + d.y)
  }

  /** The merge of a glyph box into the text bounds as written: the y
      edge takes the glyph's x, and moving the left or top edge keeps the
      width or height, pulling the far edge in. */
  function MergeBoundsAsWritten(existing: Rect, b: Rect): Rect
  {
    var e1 := if b.x < existing.x then existing.(x := b.x) else existing;
    var e2 := if b.y < e1.y then e1.(y := b.x) else e1;
    var e3 := if Right(b) > Right(e2) then e2.(width := e2.width + (Right(b) - Right(e2))) else e2;
    if Bottom(b) > Bottom(e3) then e3.(height := e3.height + (Bottom(b) - Bottom(e3))) else e3
  }

  /** The smallest rectangle holding both. */
  function Union(a: Rect, b: Rect): (r: Rect)
    ensures Contains(r, a) && Contains(r, b)
  {
    var x := if b.x < a.x then b.x else a.x;
    var y := if b.y < a.y then b.y else a.y;
    var right := if Right(b) > Right(a) then Right(b) else Right(a);
    var bottom := if Bottom(b) > Bottom(a) then Bottom(b) else Bottom(a);
    Rectangle(x, y, right - x, bottom - y)
  }

  /** No rectangle holds both without holding their union. */
  lemma UnionIsSmallest(a: Rect, b: Rect, outer: Rect)
    requires Contains(outer, a) && Contains(outer, b)
    ensures Contains(outer, Union(a, b))
  {
  }

  /** The text bounds after one more glyph. */
  function MergeBounds(existing: Option<Rect>, b: Rect): (r: Rect)
    ensures Contains(r, b)
    ensures existing.Some? ==> Contains(r, existing.value)
  {
    match existing
    case None => b
    case Some(e) => Union(e, b)
  }

  /** As written, a glyph that rises above the text moves the top edge to
      its x position: here the bounds lose the glyph. */
  lemma MergeAsWrittenLosesTallerGlyph()
    ensures var existing, b := Rectangle(0.0, 10.0, 10.0, 10.0), Rectangle(20.0, 5.0, 10.0, 10.0);
            && MergeBoundsAsWritten(existing, b) == Rectangle(0.0, 20.0, 30.0, 10.0)
            && !Contains(MergeBoundsAsWritten(existing, b), b)
            && MergeBounds(Some(existing), b) == Rectangle(0.0, 5.0, 30.0, 15.0)
  {
    var existing, b := Rectangle(0.0, 10.0, 10.0, 10.0), Rectangle(20.0, 5.0, 10.0, 10.0);
    var e2 := Rectangle(0.0, 20.0, 10.0, 10.0);
    assert Right(b) == 30.0 && Right(e2) == 10.0 && Bottom(b) == 15.0;
    var e3 := Rectangle(0.0, 20.0, 30.0, 10.0);
    assert Bottom(e3) == 30.0;
    assert MergeBoundsAsWritten(existing, b) == e3;
  }

  /** As written, a glyph left of the text moves the left edge without
      widening the bounds, so the earlier text falls outside. */
  lemma MergeAsWrittenLosesEarlierText()
    ensures var existing, b := Rectangle(10.0, 0.0, 10.0, 10.0), Rectangle(0.0, 0.0, 5.0, 5.0);
            && MergeBoundsAsWritten(existing, b) == Rectangle(0.0, 0.0, 10.0, 10.0)
            && !Contains(MergeBoundsAsWritten(existing, b), existing)
            && MergeBounds(Some(existing), b) == Rectangle(0.0, 0.0, 20.0, 10.0)
  {
  }

  /** As long as no glyph reaches further left or up than the text so far,
      the merge as written is the union. */
  lemma MergeAsWrittenAgreesGoingRightAndDown(existing: Rect, b: Rect)
    requires b.x >= existing.x && b.y >= existing.y
    ensures MergeBoundsAsWritten(existing, b) == MergeBounds(Some(existing), b)
  {
  }

  // ---------------------------------------------------------------------
  // Layout

  /** The state of the layout loop: the pen, the previous glyph (for
      kerning), the bounds and quads so far, and the uploads made. */
  datatype Layout = Layout(cursor: Vec2, last: Option<char>, bounds: Option<Rect>, quads: seq<TextQuad>, calls: seq<DeviceCall>)

  /** `char::is_control`: the Unicode Cc category. */
  predicate IsControl(c: char) { c <= '\U{1F}' || ('\U{7F}' <= c <= '\U{9F}') }

  /** The pen position after kerning against the previous glyph, if any. */
  function Kerned(c: FontCache, s: Layout, ch: char): (p: Vec2)
    ensures p.y == s.cursor.y
    ensures s.last.None? ==> p == s.cursor
    ensures s.last.Some? ==> p.x == s.cursor.x + c.rasterizer.kerning(s.last.value, ch)
  {
    match s.last
    case None => s.cursor
    case Some(prev) => Vec2(s.cursor.x + c.rasterizer.kerning(prev, ch), s.cursor.y)
  }

  /** One character of `try_render`. A newline returns the pen to the
      left edge of the next line and forgets the previous glyph; other
      control characters are skipped. Anything else is looked up at the
      pen position, kerned, drawn if it has an image, and advances the pen. */
  function Step(c: FontCache, s: Layout, ch: char): (r: Result<(FontCache, Layout), CacheError>)
    requires Sized(c)
    ensures ch == '\n' ==> r == Ok((c, s.(cursor := Vec2(0.0, s.cursor.y + c.rasterizer.lineHeight), last := None)))
    ensures IsControl(ch) && ch != '\n' ==> r == Ok((c, s))
    ensures r.Ok? ==> Sized(r.value.0) && r.value.0.rasterizer == c.rasterizer && r.value.0.resizeCount == c.resizeCount
    ensures r.Ok? ==> s.calls <= r.value.1.calls
    ensures r.Ok? && !IsControl(ch) ==>
              var (c', s') := r.value;
              var key := KeyFor(ch, s.cursor);
              var pen := Kerned(c, s, ch);
              && key in c'.glyphs
              && (key in c.glyphs ==> c' == c)
              && s'.last == Some(ch)
              && s'.cursor == Vec2(pen.x + c.rasterizer.advance(ch), s.cursor.y)
              && (c'.glyphs[key].None? ==> s'.quads == s.quads)
              && (c'.glyphs[key].Some? ==>
                    s'.quads == s.quads + [TextQuad(Offset(c'.glyphs[key].value.bounds, pen), c'.glyphs[key].value.uv)])
  {
    if IsControl(ch) then
      if ch == '\n' then Ok((c, s.(cursor := Vec2(0.0, s.cursor.y + c.rasterizer.lineHeight), last := None)))
      else Ok((c, s))
    else
      var (cached, c', calls) :- Lookup(c, ch, s.cursor);
      var pen := Kerned(c, s, ch);
      var s' := match cached
        case None => s
        case Some(g) =>
          var b := Offset(g.bounds, pen);
          s.(bounds := Some(MergeBounds(s.bounds, b)), quads := s.quads + [TextQuad(b, g.uv)]);
      Ok((c', s'.(cursor := Vec2(pen.x + c.rasterizer.advance(ch), s.cursor.y), last := Some(ch), calls := s.calls + calls)))
  }

  /** The loop over the characters; the first `OutOfSpace` ends it. The
      input is taken as already in Unicode normal form C. */
  function Run(c: FontCache, s: Layout, input: string): (r: Result<(FontCache, Layout), CacheError>)
    requires Sized(c)
    ensures r.Ok? ==> Sized(r.value.0) && r.value.0.rasterizer == c.rasterizer && r.value.0.resizeCount == c.resizeCount
    decreases |input|
  {
    if input == [] then Ok((c, s))
    else
      var (c', s') :- Step(c, s, input[0]);
      Run(c', s', input[1..])
  }

  /** The uploads a run of the loop sends to the device: all of them when
      it finishes, and, when a character runs out of space, those made for
      the characters before it, which have already reached the device. */
  function Sent(c: FontCache, s: Layout, input: string): (r: seq<DeviceCall>)
    requires Sized(c)
    ensures s.calls <= r
    ensures Run(c, s, input).Ok? ==> r == Run(c, s, input).value.1.calls
    decreases |input|
  {
    if input == [] then s.calls
    else match Step(c, s, input[0])
      case Err(_) => s.calls
      case Ok((c', s')) => Sent(c', s', input[1..])
  }

  /** `try_render`: lay the text out from the pen at `(0, ascent)`. */
  function TryRender(c: FontCache, input: string): (r: Result<(TextGeometry, FontCache, seq<DeviceCall>), CacheError>)
    requires Sized(c)
    ensures r.Ok? ==> r.value.0.resizeCount == c.resizeCount == r.value.1.resizeCount
    ensures r.Ok? ==> Sized(r.value.1) && r.value.1.rasterizer == c.rasterizer
  {
    var (c', s) :- Run(c, Start(c), input);
    Ok((TextGeometry(s.quads, s.bounds, c'.resizeCount), c', s.calls))
  }

  /** The uploads one attempt at `try_render` sends, whether it finishes
      or runs out of space. */
  function Attempted(c: FontCache, input: string): (r: seq<DeviceCall>)
    requires Sized(c)
    ensures TryRender(c, input).Ok? ==> r == TryRender(c, input).value.2
  {
    Sent(c, Start(c), input)
  }

  function Start(c: FontCache): (s: Layout)
    ensures s.cursor == Vec2(0.0, c.rasterizer.ascent) && s.last.None? && s.bounds.None? && s.quads == []
  {
    Layout(Vec2(0.0, c.rasterizer.ascent), None, None, [], [])
  }

  /** The bounds hold every quad, and there are bounds exactly when there
      are quads. */
  predicate Covered(s: Layout)
  {
    && (s.bounds.None? <==> s.quads == [])
    && forall i :: 0 <= i < |s.quads| ==> Contains(s.bounds.value, s.quads[i].position)
  }

  lemma ContainsTransitive(a: Rect, b: Rect, c: Rect)
    requires Contains(a, b) && Contains(b, c)
    ensures Contains(a, c)
  {
  }

  lemma StepCovered(c: FontCache, s: Layout, ch: char)
    requires Sized(c) && Covered(s) && Step(c, s, ch).Ok?
    ensures Covered(Step(c, s, ch).value.1)
  {
    var s' := Step(c, s, ch).value.1;
    if !IsControl(ch) && s'.quads != s.quads {
      var n := |s.quads|;
      forall i | 0 <= i < |s'.quads|
        ensures Contains(s'.bounds.value, s'.quads[i].position)
      {
        if i < n {
          ContainsTransitive(s'.bounds.value, s.bounds.value, s.quads[i].position);
        }
      }
    }
  }

  lemma {:induction false} RunCovered(c: FontCache, s: Layout, input: string)
    requires Sized(c) && Covered(s) && Run(c, s, input).Ok?
    ensures Covered(Run(c, s, input).value.1)
    decreases |input|
  {
    if input != [] {
      var (c', s') := Step(c, s, input[0]).value;
      StepCovered(c, s, input[0]);
      RunCovered(c', s', input[1..]);
    }
  }

  /** The text bounds hold every quad of the text. */
  lemma GeometryBoundsCoverQuads(c: FontCache, input: string)
    requires Sized(c) && TryRender(c, input).Ok?
    ensures var g := TryRender(c, input).value.0;
            && (g.bounds.None? <==> g.quads == [])
            && forall i :: 0 <= i < |g.quads| ==> Contains(g.bounds.value, g.quads[i].position)
  {
    RunCovered(c, Start(c), input);
  }

  // ---------------------------------------------------------------------
  // Growing the atlas

  /** `resize`: a new atlas twice as wide and twice as tall; everything
      cached is dropped and the generation counter moves on. */
  function Resize(c: FontCache, handle: nat): (r: (FontCache, seq<DeviceCall>))
    ensures r.0.packer.texture.width == 2 * c.packer.texture.width
    ensures r.0.packer.texture.height == 2 * c.packer.texture.height
    ensures r.0.packer.shelves == [] && r.0.glyphs == map[]
    ensures r.0.resizeCount == c.resizeCount + 1 && r.0.rasterizer == c.rasterizer
    ensures Sized(c) ==> Sized(r.0)
  {
    var (packer, calls) := Packer.Resize(c.packer, handle, 2 * c.packer.texture.width, 2 * c.packer.texture.height);
    (c.(packer := packer, glyphs := map[], resizeCount := c.resizeCount + 1), calls)
  }

  /** `render`: try, and on `OutOfSpace` grow the atlas and try again.
      Each growth needs a texture handle from the device; `None` means the
      handles ran out first. The log keeps the uploads a failed attempt
      sent to the old atlas before the resize, since they were made. */
  function Render(c: FontCache, input: string, handles: seq<nat>): (r: Option<(TextGeometry, FontCache, seq<DeviceCall>)>)
    requires Sized(c)
    ensures r.Some? ==> r.value.0.resizeCount == r.value.1.resizeCount && Sized(r.value.1)
    ensures r.Some? ==> c.resizeCount <= r.value.1.resizeCount <= c.resizeCount + |handles|
    ensures TryRender(c, input).Ok? ==> r == Some(TryRender(c, input).value)
    ensures r.Some? && r.value.1.resizeCount > c.resizeCount ==> TryRender(c, input).Err?
    ensures r.Some? ==> Attempted(c, input) <= r.value.2
    decreases |handles|
  {
    match TryRender(c, input)
    case Ok(out) => Some(out)
    case Err(_) =>
      if handles == [] then None
      else
        var (c', calls) := Resize(c, handles[0]);
        match Render(c', input, handles[1..])
        case None => None
        case Some((g, c'', more)) => Some((g, c'', Attempted(c, input) + calls + more))
  }
}

=== FILE: gamepad.dfy ===
/** `src/input/gamepad.rs`: per-pad button and axis state, and the slot
    table that hands out gamepad IDs (a disconnected pad's ID is reused by
    the next pad to connect). */
module Gamepad {
  import opened Wrappers
  import opened Basics
  import opened Held

  datatype GamepadButton =
      A | B | X | Y | Up | Down | Left | Right
    | LeftShoulder | LeftTrigger | LeftStick
    | RightShoulder | RightTrigger | RightStick
    | Start | Back | Guide

  datatype GamepadAxis = LeftStickX | LeftStickY | LeftTrigger | RightStickX | RightStickY | RightTrigger

  datatype GamepadStick = LeftStick | RightStick

  datatype GamepadState = GamepadState(platformId: nat, buttons: Held<GamepadButton>, axes: map<GamepadAxis, real>)

  type Pads = seq<Option<GamepadState>>

  function NewState(platformId: nat): (r: GamepadState)
    ensures r.platformId == platformId && r.buttons == Empty() && r.axes == map[]
  {
    GamepadState(platformId, Empty(), map[])
  }

  function SetButtonDown(pad: GamepadState, b: GamepadButton): (r: (GamepadState, bool))
    ensures r.1 <==> b !in pad.buttons.down
    ensures b in r.0.buttons.down && (b in r.0.buttons.pressed <==> b in pad.buttons.pressed || r.1)
    ensures r.0.platformId == pad.platformId && r.0.axes == pad.axes
  {
    var (h, wasUp) := SetDown(pad.buttons, b);
    (pad.(buttons := h), wasUp)
  }

  function SetButtonUp(pad: GamepadState, b: GamepadButton): (r: (GamepadState, bool))
    ensures r.1 <==> b in pad.buttons.down
    ensures b !in r.0.buttons.down && (b in r.0.buttons.released <==> b in pad.buttons.released || r.1)
    ensures r.0.platformId == pad.platformId && r.0.axes == pad.axes
  {
    var (h, wasDown) := SetUp(pad.buttons, b);
    (pad.(buttons := h), wasDown)
  }

  function SetAxisPosition(pad: GamepadState, axis: GamepadAxis, value: real): (r: GamepadState)
    ensures axis in r.axes && r.axes[axis] == value
    ensures forall other :: other in pad.axes && other != axis ==> other in r.axes && r.axes[other] == pad.axes[other]
    ensures r.buttons == pad.buttons
  {
    pad.(axes := pad.axes[axis := value])
  }

  /** `get_gamepad`: the pad in slot `id`, or nothing when the slot is out
      of range or empty. */
  function GetGamepad(pads: Pads, id: nat): (r: Option<GamepadState>)
    ensures r.Some? <==> id < |pads| && pads[id].Some?
    ensures r.Some? ==> pads[id] == r
  {
    if id < |pads| then pads[id] else None
  }

  predicate IsConnected(pads: Pads, id: nat) { GetGamepad(pads, id).Some? }

  /** Button queries: a missing pad has every button up and nothing pressed
      or released. */
  predicate IsButtonDown(pads: Pads, id: nat, b: GamepadButton)
  {
    match GetGamepad(pads, id)
    case Some(pad) => b in pad.buttons.down
    case None => false
  }

  predicate IsButtonUp(pads: Pads, id: nat, b: GamepadButton)
  {
    match GetGamepad(pads, id)
    case Some(pad) => b !in pad.buttons.down
    case None => true
  }

  predicate IsButtonPressed(pads: Pads, id: nat, b: GamepadButton)
  {
    match GetGamepad(pads, id)
    case Some(pad) => b in pad.buttons.pressed
    case None => false
  }

  predicate IsButtonReleased(pads: Pads, id: nat, b: GamepadButton)
  {
    match GetGamepad(pads, id)
    case Some(pad) => b in pad.buttons.released
    case None => false
  }

  /** `get_gamepad_buttons_down`: every button held on the pad; none for
      a missing pad. */
  function ButtonsDown(pads: Pads, id: nat): (r: set<GamepadButton>)
    ensures forall b :: b in r <==> IsButtonDown(pads, id, b)
  {
    match GetGamepad(pads, id)
    case Some(pad) => pad.buttons.down
    case None => {}
  }

  /** `get_gamepad_buttons_pressed`. */
  function ButtonsPressed(pads: Pads, id: nat): (r: set<GamepadButton>)
    ensures forall b :: b in r <==> IsButtonPressed(pads, id, b)
  {
    match GetGamepad(pads, id)
    case Some(pad) => pad.buttons.pressed
    case None => {}
  }

  /** `get_gamepad_buttons_released`. */
  function ButtonsReleased(pads: Pads, id: nat): (r: set<GamepadButton>)
    ensures forall b :: b in r <==> IsButtonReleased(pads, id, b)
  {
    match GetGamepad(pads, id)
    case Some(pad) => pad.buttons.released
    case None => {}
  }

  /** Up is exactly not-down, connected or not, and a missing pad reports no
      change. */
  lemma ButtonQueriesAgree(pads: Pads, id: nat, b: GamepadButton)
    ensures IsButtonUp(pads, id, b) <==> !IsButtonDown(pads, id, b)
    ensures !IsConnected(pads, id) ==> !IsButtonPressed(pads, id, b) && !IsButtonReleased(pads, id, b)
  {
  }

  /** `get_gamepad_axis_position`: the last value reported for the axis, or
      0 for a missing pad or an axis never reported. */
  function AxisPosition(pads: Pads, id: nat, axis: GamepadAxis): (r: real)
    ensures !IsConnected(pads, id) ==> r == 0.0
    ensures IsConnected(pads, id) && axis in pads[id].value.axes ==> r == pads[id].value.axes[axis]
    ensures IsConnected(pads, id) && axis !in pads[id].value.axes ==> r == 0.0
  {
    match GetGamepad(pads, id)
    case Some(pad) => if axis in pad.axes then pad.axes[axis] else 0.0
    case None => 0.0
  }

  function StickAxes(stick: GamepadStick): (GamepadAxis, GamepadAxis)
  {
    match stick
    case LeftStick => (LeftStickX, LeftStickY)
    case RightStick => (RightStickX, RightStickY)
  }

  /** `get_gamepad_stick_position`: the stick's X and Y axes as a vector. */
  function StickPosition(pads: Pads, id: nat, stick: GamepadStick): (r: Vec2)
    ensures r.x == AxisPosition(pads, id, StickAxes(stick).0)
    ensures r.y == AxisPosition(pads, id, StickAxes(stick).1)
  {
    var (xAxis, yAxis) := StickAxes(stick);
    Vec2(AxisPosition(pads, id, xAxis), AxisPosition(pads, id, yAxis))
  }

  /** Reporting an axis value is seen by the next axis query on that pad. */
  lemma AxisRoundTrip(pads: Pads, id: nat, axis: GamepadAxis, value: real)
    requires IsConnected(pads, id)
    ensures AxisPosition(pads[id := Some(SetAxisPosition(pads[id].value, axis, value))], id, axis) == value
  {
  }

  /** The slot `add_gamepad` picks: the first empty one, or a new slot at the
      end. */
  function FirstEmpty(pads: Pads): (r: nat)
    ensures r <= |pads|
    ensures r < |pads| ==> pads[r].None?
    ensures forall j :: 0 <= j < r ==> pads[j].Some?
  {
    if |pads| == 0 then 0
    else if pads[0].None? then 0
    else 1 + FirstEmpty(pads[1..])
  }

  /** `add_gamepad`: scans the slots for the first empty one and fills it,
      or appends a slot; returns the pad's ID. */
  method AddGamepad(pads: Pads, platformId: nat) returns (r: Pads, id: nat)
    ensures id == FirstEmpty(pads)
    ensures |r| == if id < |pads| then |pads| else |pads| + 1
    ensures r[id] == Some(NewState(platformId))
    ensures forall j :: 0 <= j < |pads| && j != id ==> r[j] == pads[j]
  {
    var i := 0;
    while i < |pads|
      invariant i <= |pads|
      invariant forall j :: 0 <= j < i ==> pads[j].Some?
    {
      if pads[i].None? {
        FirstEmptyIsFirst(pads, i);
        return pads[i := Some(NewState(platformId))], i;
      }
      i := i + 1;
    }
    FirstEmptyIsFirst(pads, i);
    return pads + [Some(NewState(platformId))], |pads|;
  }

  /** `FirstEmpty` is characterised by its ensures: a slot with every
      earlier slot full is the first empty one. */
  lemma {:induction false} FirstEmptyIsFirst(pads: Pads, i: nat)
    requires i <= |pads|
    requires i < |pads| ==> pads[i].None?
    requires forall j :: 0 <= j < i ==> pads[j].Some?
    ensures FirstEmpty(pads) == i
  {
    if i > 0 {
      assert pads[0].Some?;
      FirstEmptyIsFirst(pads[1..], i - 1);
    }
  }

  /** `remove_gamepad`: empties the slot; the ID stays reserved for the
      next pad to connect. */
  function RemoveGamepad(pads: Pads, id: nat): (r: Pads)
    requires id < |pads|
    ensures |r| == |pads| && !IsConnected(r, id)
    ensures forall j :: 0 <= j < |pads| && j != id ==> r[j] == pads[j]
  {
    pads[id := None]
  }

  /** Unplugging a pad and plugging one in again gives it back its ID, when
      no earlier slot was free. */
  method ReconnectKeepsId(pads: Pads, id: nat, platformId: nat) returns (r: Pads, newId: nat)
    requires id < |pads| && IsConnected(pads, id)
    requires forall j :: 0 <= j < id ==> pads[j].Some?
    ensures newId == id && IsConnected(r, id) && |r| == |pads|
  {
    var removed := RemoveGamepad(pads, id);
    r, newId := AddGamepad(removed, platformId);
    FirstEmptyIsFirst(removed, id);
  }
}

=== FILE: gl_device.dfy ===
/** `GLDevice` of `src/graphics/opengl.rs`: the older GL wrapper. Like the
    newer one it caches the bound vertex buffer, index buffer, program and
    texture (0 meaning nothing) and skips redundant binds; unlike it, its
    objects' `Drop` only deletes the object and leaves the cache alone. */
module GlDevice {
  import opened Wrappers
  import opened GlModel

  const FloatBytes: nat := 4
  const IndexBytes: nat := 4

  datatype VertexBuffer = VertexBuffer(id: nat, count: nat, stride: nat)
  datatype IndexBuffer = IndexBuffer(id: nat, count: nat)

  /** The `assert!` that stops an upload running past the buffer's end. */
  datatype Panic = UploadOutOfRange

  function BindVertexBuffer(cache: Bindings, buffer: VertexBuffer): (r: (Bindings, seq<Call>))
    ensures Sound(cache, r) && r.0.arrayBuffer == buffer.id
    ensures cache.arrayBuffer == buffer.id <==> r.1 == []
  {
    CachedBind(cache, ArrayBuffer, buffer.id)
  }

  function BindIndexBuffer(cache: Bindings, buffer: IndexBuffer): (r: (Bindings, seq<Call>))
    ensures Sound(cache, r) && r.0.elementBuffer == buffer.id
    ensures cache.elementBuffer == buffer.id <==> r.1 == []
  {
    CachedBind(cache, ElementArrayBuffer, buffer.id)
  }

  function BindProgram(cache: Bindings, program: nat): (r: (Bindings, seq<Call>))
    ensures Sound(cache, r) && r.0.program == program
    ensures cache.program == program <==> r.1 == []
  {
    CachedBind(cache, ProgramTarget, program)
  }

  /** Selects texture unit 0 before binding, only when the bind happens. */
  function BindTexture(cache: Bindings, texture: nat): (r: (Bindings, seq<Call>))
    ensures Sound(cache, r) && r.0.texture == texture
    ensures cache.texture == texture <==> r.1 == []
    ensures cache.texture != texture ==> r.1 == [ActiveTexture0, Bind(TextureTarget, texture)]
  {
    CachedTextureBind(cache, texture)
  }

  /** `new_vertex_buffer`: bind the buffer GL named `id`, allocate `count`
      floats. */
  function NewVertexBuffer(cache: Bindings, id: nat, count: nat, stride: nat): (r: (Bindings, seq<Call>))
    ensures Sound(cache, r) && r.0.arrayBuffer == id
    ensures |r.1| > 0 && r.1[|r.1| - 1] == BufferData(ArrayBuffer, count * FloatBytes)
  {
    Then(cache, BindVertexBuffer(cache, VertexBuffer(id, count, stride)), [BufferData(ArrayBuffer, count * FloatBytes)])
  }

  /** `set_vertex_buffer_attribute`: attribute `index` reads `size` floats
      at float `offset` of every `stride`-float vertex. */
  function SetVertexBufferAttribute(cache: Bindings, buffer: VertexBuffer, index: nat, size: nat, offset: nat)
    : (r: (Bindings, seq<Call>))
    ensures Sound(cache, r) && r.0.arrayBuffer == buffer.id
    ensures |r.1| >= 2 && r.1[|r.1| - 2..] == [VertexAttribLayout(index, size, buffer.stride * FloatBytes, offset * FloatBytes), EnableAttrib(index)]
  {
    var calls := [VertexAttribLayout(index, size, buffer.stride * FloatBytes, offset * FloatBytes), EnableAttrib(index)];
    var r := Then(cache, BindVertexBuffer(cache, buffer), calls);
    assert r.1[|r.1| - 2..] == calls;
    r
  }

  /** `set_vertex_buffer_data`: panics unless `data` fits at float `offset`;
      otherwise binds and writes. */
  function SetVertexBufferData(cache: Bindings, buffer: VertexBuffer, data: seq<real>, offset: nat)
    : (r: Result<(Bindings, seq<Call>), Panic>)
    ensures r.Ok? <==> offset + |data| <= buffer.count
    ensures r.Ok? ==> Sound(cache, r.value) && r.value.0.arrayBuffer == buffer.id
    ensures r.Ok? ==> |r.value.1| > 0 && r.value.1[|r.value.1| - 1] == BufferSubData(ArrayBuffer, offset * FloatBytes, data)
  {
    if offset + |data| > buffer.count then Err(UploadOutOfRange)
    else Ok(Then(cache, BindVertexBuffer(cache, buffer), [BufferSubData(ArrayBuffer, offset * FloatBytes, data)]))
  }

  function NewIndexBuffer(cache: Bindings, id: nat, count: nat): (r: (Bindings, seq<Call>))
    ensures Sound(cache, r) && r.0.elementBuffer == id
    ensures |r.1| > 0 && r.1[|r.1| - 1] == BufferData(ElementArrayBuffer, count * IndexBytes)
  {
    Then(cache, BindIndexBuffer(cache, IndexBuffer(id, count)), [BufferData(ElementArrayBuffer, count * IndexBytes)])
  }

  /** `set_index_buffer_data`: panics unless `data` fits at `offset`. */
  function SetIndexBufferData(cache: Bindings, buffer: IndexBuffer, data: seq<nat>, offset: nat)
    : (r: Result<(Bindings, seq<Call>), Panic>)
    ensures r.Ok? <==> offset + |data| <= buffer.count
    ensures r.Ok? ==> Sound(cache, r.value) && r.value.0.elementBuffer == buffer.id
    ensures r.Ok? ==> |r.value.1| > 0 && r.value.1[|r.value.1| - 1] == IndexSubData(offset * IndexBytes, data)
  {
    if offset + |data| > buffer.count then Err(UploadOutOfRange)
    else Ok(Then(cache, BindIndexBuffer(cache, buffer), [IndexSubData(offset * IndexBytes, data)]))
  }

  function SetUniform(cache: Bindings, program: nat, name: string): (r: (Bindings, seq<Call>))
    ensures Sound(cache, r) && r.0.program == program
    ensures |r.1| > 0 && r.1[|r.1| - 1] == Uniform(program, name)
  {
    Then(cache, BindProgram(cache, program), [Uniform(program, name)])
  }

  function NewTexture(cache: Bindings, id: nat, width: int, height: int): (r: (Bindings, seq<Call>))
    ensures Sound(cache, r) && r.0.texture == id
    ensures |r.1| > 0 && r.1[|r.1| - 1] == TextureImage(width, height)
  {
    Then(cache, BindTexture(cache, id), [TextureParameters, TextureImage(width, height)])
  }

  function SetTextureData(cache: Bindings, texture: nat, data: seq<nat>, x: int, y: int, width: int, height: int)
    : (r: (Bindings, seq<Call>))
    ensures Sound(cache, r) && r.0.texture == texture
    ensures |r.1| > 0 && r.1[|r.1| - 1] == TextureSubImage(x, y, width, height, data)
  {
    Then(cache, BindTexture(cache, texture), [TextureSubImage(x, y, width, height, data)])
  }

  /** `draw`: bind program, vertex buffer, index buffer and texture (each
      only if needed), then draw `count` indices. */
  function Draw(cache: Bindings, vb: VertexBuffer, ib: IndexBuffer, program: nat, texture: nat, count: nat)
    : (r: (Bindings, seq<Call>))
    ensures Sound(cache, r)
    ensures r.0 == Bindings(vb.id, ib.id, program, texture, cache.framebuffer)
    ensures |r.1| > 0 && r.1[|r.1| - 1] == DrawElements(count)
    ensures Sound(cache, (r.0, r.1[..|r.1| - 1]))
  {
    var s1 := BindProgram(cache, program);
    var s2 := BindVertexBuffer(s1.0, vb);
    var s3 := BindIndexBuffer(s2.0, ib);
    var s4 := BindTexture(s3.0, texture);
    SoundThen(cache, s1, s2);
    SoundThen(cache, (s2.0, s1.1 + s2.1), s3);
    SoundThen(cache, (s3.0, s1.1 + s2.1 + s3.1), s4);
    var binds := s1.1 + s2.1 + s3.1 + s4.1;
    assert (binds + [DrawElements(count)])[..|binds|] == binds;
    Then(cache, (s4.0, binds), [DrawElements(count)])
  }

  /** The buffers', program's and texture's `Drop` as written: delete the
      object and keep the cache. */
  function DropAsWritten(cache: Bindings, t: Target, id: nat): (r: (Bindings, seq<Call>))
    ensures r.0 == cache && r.1 == [Delete(KindOf(t), id)]
  {
    (cache, [Delete(KindOf(t), id)])
  }

  /** A vertex buffer dropped while bound and a new buffer that GL gives
      the recycled name: the cache still names the buffer, so
      `new_vertex_buffer` skips the bind and allocates storage while GL has
      no array buffer bound. */
  lemma DropAsWrittenLosesBind()
    ensures var d0 := Apply(Fresh(), NewVertexBuffer(NothingBound, 5, 8, 8));
            var d1 := Apply(d0, DropAsWritten(d0.cache, ArrayBuffer, 5));
            var step := NewVertexBuffer(d1.cache, 5, 8, 8);
            && step.1 == [BufferData(ArrayBuffer, 32)]
            && Replay(d1.start, d1.log).arrayBuffer == Unbound
            && !Valid(d1)
  {
    var s0 := NewVertexBuffer(NothingBound, 5, 8, 8);
    assert s0.1 == [Bind(ArrayBuffer, 5), BufferData(ArrayBuffer, 32)];
    var d0 := Apply(Fresh(), s0);
    var d1 := Apply(d0, DropAsWritten(d0.cache, ArrayBuffer, 5));
    var log := [Bind(ArrayBuffer, 5), BufferData(ArrayBuffer, 32), Delete(BufferObject, 5)];
    assert d1.log == log;
    assert log[1..] == [BufferData(ArrayBuffer, 32), Delete(BufferObject, 5)];
    assert log[1..][1..] == [Delete(BufferObject, 5)];
    assert log[1..][1..][1..] == [];
    assert Replay(d1.start, d1.log) == NothingBound;
  }

  /** The corrected `Drop`: also clear the cache slot if it holds the
      object, as the newer wrapper does; GL unbinds it on deletion. */
  function Drop(cache: Bindings, t: Target, id: nat): (r: (Bindings, seq<Call>))
    ensures Get(r.0, t) == (if Get(cache, t) == id then Unbound else Get(cache, t))
    ensures forall t' :: t' != t ==> Get(r.0, t') == Get(cache, t')
    ensures r.1 == [Delete(KindOf(t), id)]
  {
    (if Get(cache, t) == id then Set(cache, t, Unbound) else cache, [Delete(KindOf(t), id)])
  }

  /** The corrected `Drop` keeps the cache coherent, provided no other
      binding point of the same kind holds the object. */
  lemma DropSound(cache: Bindings, t: Target, id: nat)
    requires forall t' :: t' != t && KindOf(t') == KindOf(t) ==> Get(cache, t') != id
    ensures Sound(cache, Drop(cache, t, id))
  {
    ReplayOne(cache, Delete(KindOf(t), id));
    DeleteClears(cache, t, id);
  }

  /** With the corrected `Drop`, the same sequence binds the new buffer
      before allocating its storage. */
  lemma DropKeepsBind()
    ensures var d0 := Apply(Fresh(), NewVertexBuffer(NothingBound, 5, 8, 8));
            var d1 := Apply(d0, Drop(d0.cache, ArrayBuffer, 5));
            var step := NewVertexBuffer(d1.cache, 5, 8, 8);
            && step.1 == [Bind(ArrayBuffer, 5), BufferData(ArrayBuffer, 32)]
            && Valid(d1)
  {
    var s0 := NewVertexBuffer(NothingBound, 5, 8, 8);
    var d0 := Apply(Fresh(), s0);
    ApplySound(Fresh(), s0);
    DropSound(d0.cache, ArrayBuffer, 5);
    ApplySound(d0, Drop(d0.cache, ArrayBuffer, 5));
  }

  /** Starting from a coherent device, GL has exactly the requested objects
      bound when `draw` issues its draw call. */
  lemma DrawUsesRequestedObjects(d: Device, vb: VertexBuffer, ib: IndexBuffer, program: nat, texture: nat, count: nat)
    requires Valid(d)
    ensures var r := Draw(d.cache, vb, ib, program, texture, count);
            Replay(d.start, d.log + r.1[..|r.1| - 1]) == Bindings(vb.id, ib.id, program, texture, d.cache.framebuffer)
  {
    var r := Draw(d.cache, vb, ib, program, texture, count);
    CoherentAppend(d.cache, d.start, d.log, r.1[..|r.1| - 1], r.0);
  }
}

=== FILE: gl_model.dfy ===
/** OpenGL as the device wrappers see it: five binding points, the calls
    the wrappers issue, and what replaying a log of those calls leaves bound.
    Object name 0 stands for "nothing bound", as in GL itself (`None` in the
    newer wrapper). Deleting an object that is bound unbinds it, as GL does. */
module GlModel {

  datatype Target = ArrayBuffer | ElementArrayBuffer | ProgramTarget | TextureTarget | FramebufferTarget

  datatype Kind = BufferObject | ProgramObject | TextureObject | FramebufferObject

  function KindOf(t: Target): Kind
  {
    match t
    case ArrayBuffer => BufferObject
    case ElementArrayBuffer => BufferObject
    case ProgramTarget => ProgramObject
    case TextureTarget => TextureObject
    case FramebufferTarget => FramebufferObject
  }

  /** The object bound at each binding point. */
  datatype Bindings = Bindings(arrayBuffer: nat, elementBuffer: nat, program: nat, texture: nat, framebuffer: nat)

  const Unbound: nat := 0
  const NothingBound := Bindings(0, 0, 0, 0, 0)

  function Get(b: Bindings, t: Target): nat
  {
    match t
    case ArrayBuffer => b.arrayBuffer
    case ElementArrayBuffer => b.elementBuffer
    case ProgramTarget => b.program
    case TextureTarget => b.texture
    case FramebufferTarget => b.framebuffer
  }

  function Set(b: Bindings, t: Target, id: nat): (r: Bindings)
    ensures Get(r, t) == id
    ensures forall t' :: t' != t ==> Get(r, t') == Get(b, t')
  {
    match t
    case ArrayBuffer => b.(arrayBuffer := id)
    case ElementArrayBuffer => b.(elementBuffer := id)
    case ProgramTarget => b.(program := id)
    case TextureTarget => b.(texture := id)
    case FramebufferTarget => b.(framebuffer := id)
  }

  /** The GL calls the wrappers issue. `Bind` covers `glBindBuffer`,
      `glUseProgram`, `glBindTexture` and `glBindFramebuffer`. */
  datatype Call =
    | Bind(target: Target, id: nat)
    | Delete(kind: Kind, id: nat)
    | ActiveTexture0
    | VertexAttribLayout(index: nat, size: nat, strideBytes: nat, offsetBytes: nat)
    | EnableAttrib(index: nat)
    | DisableAttrib(index: nat)
    | BufferData(target: Target, bytes: nat)
    | BufferSubData(target: Target, offsetBytes: nat, data: seq<real>)
    | IndexSubData(offsetBytes: nat, indices: seq<nat>)
    | DrawElements(count: int)
    | BindAttribLocation(program: nat, index: nat, name: string)
    | AttachTexture(texture: nat)
    | TextureParameters
    | TextureFilter(nearest: bool)
    | TextureImage(width: int, height: int)
    | TextureSubImage(x: int, y: int, width: int, height: int, texels: seq<nat>)
    | Uniform(program: nat, name: string)

  /** What a call does to the bindings. */
  function ReplayCall(b: Bindings, c: Call): Bindings
  {
    match c
    case Bind(t, id) => Set(b, t, id)
    case Delete(k, id) => DeleteFrom(b, k, id)
    case _ => b
  }

  /** Deleting an object unbinds it from every binding point of its kind. */
  function DeleteFrom(b: Bindings, k: Kind, id: nat): (r: Bindings)
    ensures forall t :: Get(r, t) == (if KindOf(t) == k && Get(b, t) == id then Unbound else Get(b, t))
  {
    Bindings(
      if k == BufferObject && b.arrayBuffer == id then Unbound else b.arrayBuffer,
      if k == BufferObject && b.elementBuffer == id then Unbound else b.elementBuffer,
      if k == ProgramObject && b.program == id then Unbound else b.program,
      if k == TextureObject && b.texture == id then Unbound else b.texture,
      if k == FramebufferObject && b.framebuffer == id then Unbound else b.framebuffer)
  }

  lemma BindingsEqual(a: Bindings, b: Bindings)
    requires Get(a, ArrayBuffer) == Get(b, ArrayBuffer) && Get(a, ElementArrayBuffer) == Get(b, ElementArrayBuffer)
    requires Get(a, ProgramTarget) == Get(b, ProgramTarget) && Get(a, TextureTarget) == Get(b, TextureTarget)
    requires Get(a, FramebufferTarget) == Get(b, FramebufferTarget)
    ensures a == b
  {
  }

  /** Deleting an object bound at no other point of its kind than `t`
      amounts to clearing `t` if it holds the object. */
  lemma DeleteClears(b: Bindings, t: Target, id: nat)
    requires forall t' :: t' != t && KindOf(t') == KindOf(t) ==> Get(b, t') != id
    ensures DeleteFrom(b, KindOf(t), id) == (if Get(b, t) == id then Set(b, t, Unbound) else b)
  {
    var r := DeleteFrom(b, KindOf(t), id);
    var e := if Get(b, t) == id then Set(b, t, Unbound) else b;
    assert Get(r, ArrayBuffer) == Get(e, ArrayBuffer);
    assert Get(r, ElementArrayBuffer) == Get(e, ElementArrayBuffer);
    assert Get(r, ProgramTarget) == Get(e, ProgramTarget);
    assert Get(r, TextureTarget) == Get(e, TextureTarget);
    assert Get(r, FramebufferTarget) == Get(e, FramebufferTarget);
    BindingsEqual(r, e);
  }

  /** The bindings after replaying a log from `b`. */
  function Replay(b: Bindings, log: seq<Call>): Bindings
    decreases |log|
  {
    if log == [] then b else Replay(ReplayCall(b, log[0]), log[1..])
  }

  lemma {:induction false} ReplayAppend(b: Bindings, a: seq<Call>, c: seq<Call>)
    ensures Replay(b, a + c) == Replay(Replay(b, a), c)
    decreases |a|
  {
    if a == [] {
      assert a + c == c;
    } else {
      assert (a + c)[1..] == a[1..] + c;
      ReplayAppend(ReplayCall(b, a[0]), a[1..], c);
    }
  }

  lemma ReplayOne(b: Bindings, c: Call)
    ensures Replay(b, [c]) == ReplayCall(b, c)
  {
    assert [c][1..] == [];
  }

  /** No bind in the log re-binds what is already bound at that point. */
  ghost predicate NoRedundantBinds(b: Bindings, log: seq<Call>)
  {
    forall i :: 0 <= i < |log| && log[i].Bind? ==> Get(Replay(b, log[..i]), log[i].target) != log[i].id
  }

  lemma NoRedundantAppend(b: Bindings, a: seq<Call>, c: seq<Call>)
    requires NoRedundantBinds(b, a) && NoRedundantBinds(Replay(b, a), c)
    ensures NoRedundantBinds(b, a + c)
  {
    var ac := a + c;
    forall i | 0 <= i < |ac| && ac[i].Bind?
      ensures Get(Replay(b, ac[..i]), ac[i].target) != ac[i].id
    {
      if i < |a| {
        assert ac[..i] == a[..i];
      } else {
        var j := i - |a|;
        assert ac[..i] == a + c[..j];
        ReplayAppend(b, a, c[..j]);
      }
    }
  }

  /** A device's cached bindings agree with what its log has GL bind. */
  ghost predicate Coherent(cache: Bindings, start: Bindings, log: seq<Call>)
  {
    cache == Replay(start, log) && NoRedundantBinds(start, log)
  }

  /** Appending calls that take the replayed state to the new cache, without
      redundant binds, keeps a device coherent. */
  lemma CoherentAppend(cache: Bindings, start: Bindings, log: seq<Call>, calls: seq<Call>, cache': Bindings)
    requires Coherent(cache, start, log)
    requires Replay(cache, calls) == cache' && NoRedundantBinds(cache, calls)
    ensures Coherent(cache', start, log + calls)
  {
    ReplayAppend(start, log, calls);
    NoRedundantAppend(start, log, calls);
  }

  /** The bind-elision step every wrapper shares: issue the bind only when
      the cached object differs, then cache the requested one. */
  function CachedBind(cache: Bindings, t: Target, id: nat): (r: (Bindings, seq<Call>))
    ensures Sound(cache, r)
    ensures Get(r.0, t) == id
    ensures Get(cache, t) == id ==> r == (cache, [])
    ensures Get(cache, t) != id ==> r == (Set(cache, t, id), [Bind(t, id)])
  {
    if Get(cache, t) != id then
      ReplayOne(cache, Bind(t, id));
      assert [Bind(t, id)][..0] == [];
      (Set(cache, t, id), [Bind(t, id)])
    else
      (cache, [])
  }

  /** A step of a wrapper (new cached bindings, calls issued) is sound from
      `cache` when the calls take GL from `cache` to the new cache without a
      redundant bind. */
  ghost predicate Sound(cache: Bindings, step: (Bindings, seq<Call>))
  {
    Replay(cache, step.1) == step.0 && NoRedundantBinds(cache, step.1)
  }

  lemma SoundThen(cache: Bindings, s1: (Bindings, seq<Call>), s2: (Bindings, seq<Call>))
    requires Sound(cache, s1) && Sound(s1.0, s2)
    ensures Sound(cache, (s2.0, s1.1 + s2.1))
  {
    ReplayAppend(cache, s1.1, s2.1);
    NoRedundantAppend(cache, s1.1, s2.1);
  }

  /** Calls that neither bind nor delete leave the bindings alone. */
  predicate Plain(calls: seq<Call>)
  {
    forall i :: 0 <= i < |calls| ==> !calls[i].Bind? && !calls[i].Delete?
  }

  lemma {:induction false} SoundPlain(cache: Bindings, calls: seq<Call>)
    requires Plain(calls)
    ensures Sound(cache, (cache, calls))
    decreases |calls|
  {
    if calls != [] {
      SoundPlain(cache, calls[1..]);
      assert ReplayCall(cache, calls[0]) == cache;
    }
  }

  /** What a wrapper knows (its cache) next to what it has done: the
      bindings GL had when the log started and the calls issued since. */
  datatype Device = Device(cache: Bindings, start: Bindings, log: seq<Call>)

  ghost predicate Valid(d: Device)
  {
    Coherent(d.cache, d.start, d.log)
  }

  /** A freshly created wrapper: nothing bound, nothing issued. */
  function Fresh(): (d: Device)
    ensures Valid(d) && d.cache == NothingBound && d.log == []
  {
    Device(NothingBound, NothingBound, [])
  }

  function Apply(d: Device, step: (Bindings, seq<Call>)): (r: Device)
    ensures r.log == d.log + step.1 && r.cache == step.0 && r.start == d.start
  {
    d.(cache := step.0, log := d.log + step.1)
  }

  /** Applying a sound step keeps a device valid. */
  lemma ApplySound(d: Device, step: (Bindings, seq<Call>))
    requires Valid(d) && Sound(d.cache, step)
    ensures Valid(Apply(d, step))
  {
    CoherentAppend(d.cache, d.start, d.log, step.1, step.0);
  }

  /** The texture bind every wrapper shares: on a change, select texture
      unit 0 and bind; otherwise issue nothing. */
  function CachedTextureBind(cache: Bindings, id: nat): (r: (Bindings, seq<Call>))
    ensures Sound(cache, r) && r.0.texture == id
    ensures cache.texture == id ==> r == (cache, [])
    ensures cache.texture != id ==> r == (Set(cache, TextureTarget, id), [ActiveTexture0, Bind(TextureTarget, id)])
  {
    var bind := CachedBind(cache, TextureTarget, id);
    assert Get(cache, TextureTarget) == cache.texture;
    if bind.1 == [] then bind
    else
      SoundPlain(cache, [ActiveTexture0]);
      SoundThen(cache, (cache, [ActiveTexture0]), bind);
      assert [ActiveTexture0] + bind.1 == [ActiveTexture0, Bind(TextureTarget, id)];
      (bind.0, [ActiveTexture0] + bind.1)
  }

  /** A sound step followed by calls that neither bind nor delete. */
  function Then(cache: Bindings, step: (Bindings, seq<Call>), calls: seq<Call>): (r: (Bindings, seq<Call>))
    requires Sound(cache, step) && Plain(calls)
    ensures Sound(cache, r) && r.0 == step.0 && r.1 == step.1 + calls
  {
    SoundPlain(step.0, calls);
    SoundThen(cache, step, (step.0, calls));
    (step.0, step.1 + calls)
  }

}

=== FILE: graphics_sprite_batch.dfy ===
/** `SpriteBatch` of `src/graphics/spritebatch.rs`: the same batch as
    `SpriteBatch`, but it is given a texture, and draws with that texture's
    own shader program. */
module GraphicsSpriteBatch {
  import SB = SpriteBatch

  datatype Shader = Shader(handle: nat)
  datatype Texture = Texture(handle: nat, shader: Shader)

  /** `with_capacity`: at most 8191 sprites; the program is the texture's
      shader. */
  function WithCapacity(capacity: nat, texture: Texture): (b: SB.Batch)
    requires capacity <= SB.MaxCapacity
    ensures SB.Valid(b) && !b.drawing && b.spriteCount == 0 && b.log == []
    ensures b.program == texture.shader.handle && b.texture == texture.handle
    ensures forall i :: 0 <= i < |b.indices| ==> b.indices[i] < 4 * capacity <= 32764
  {
    SB.WithCapacity(capacity, texture.shader.handle, texture.handle)
  }

  /** `new`: the default capacity of 1024. */
  function New(texture: Texture): (b: SB.Batch)
    ensures b.capacity == SB.DefaultCapacity
    ensures b == WithCapacity(SB.DefaultCapacity, texture)
  {
    WithCapacity(SB.DefaultCapacity, texture)
  }

  /** Every flush sets the projection on, and draws with, the texture's
      shader and the texture's handle. */
  lemma FlushUsesTextureShader(capacity: nat, texture: Texture, sprites: seq<SB.Sprite>)
    requires capacity <= SB.MaxCapacity && 0 < |sprites| <= capacity
    ensures var b := SB.DrawAll(SB.Begin(WithCapacity(capacity, texture)), sprites);
      SB.UploadFits(b) &&
      SB.End(b).log == [SB.SetProjectionUniform(texture.shader.handle), SB.UploadVertices(SB.AllVertices(sprites)),
                        SB.DrawElements(texture.shader.handle, texture.handle, 6 * |sprites|)]
  {
    var b0 := WithCapacity(capacity, texture);
    var b1 := SB.Begin(b0);
    SB.DrawAllQueues(b1, sprites);
    var b := SB.DrawAll(b1, sprites);
    SB.UploadFitsIffWithinCapacity(b);
    assert b.vertices == SB.AllVertices(sprites) && b.spriteCount == |sprites| && b.log == [];
    assert SB.End(b) == SB.Flush(b).(drawing := false);
  }
}

=== FILE: held.dfy ===
/** The held/pressed/released bookkeeping shared by keyboard keys
    (`src/input/keyboard.rs`) and gamepad buttons (`src/input/gamepad.rs`):
    `down` is what is held now, `pressed` and `released` what changed since
    the input was last cleared. */
module Held {

  datatype Held<T> = Held(down: set<T>, pressed: set<T>, released: set<T>)

  function Empty<T>(): (r: Held<T>)
    ensures r.down == {} && r.pressed == {} && r.released == {}
  {
    Held({}, {}, {})
  }

  /** Records `b` as held; the flag says whether it was up before, and only
      then is it recorded as pressed. */
  function SetDown<T>(h: Held<T>, b: T): (r: (Held<T>, bool))
    ensures r.1 <==> b !in h.down
    ensures b in r.0.down && r.0.down == h.down + {b}
    ensures r.0.pressed == (if r.1 then h.pressed + {b} else h.pressed)
    ensures r.0.released == h.released
  {
    var wasUp := b !in h.down;
    (h.(down := h.down + {b}, pressed := if wasUp then h.pressed + {b} else h.pressed), wasUp)
  }

  /** Records `b` as up; the flag says whether it was held before, and only
      then is it recorded as released. */
  function SetUp<T>(h: Held<T>, b: T): (r: (Held<T>, bool))
    ensures r.1 <==> b in h.down
    ensures b !in r.0.down && r.0.down == h.down - {b}
    ensures r.0.released == (if r.1 then h.released + {b} else h.released)
    ensures r.0.pressed == h.pressed
  {
    var wasDown := b in h.down;
    (h.(down := h.down - {b}, released := if wasDown then h.released + {b} else h.released), wasDown)
  }

  /** Forgets what changed, keeping what is held. */
  function ClearChanges<T>(h: Held<T>): (r: Held<T>)
    ensures r.down == h.down && r.pressed == {} && r.released == {}
  {
    h.(pressed := {}, released := {})
  }

  /** A repeated down (a key's auto-repeat) reports nothing new and changes
      nothing; so does a repeated up. */
  lemma RepeatIsNoOp<T>(h: Held<T>, b: T)
    ensures var once := SetDown(h, b).0; SetDown(once, b) == (once, false)
    ensures var once := SetUp(h, b).0; SetUp(once, b) == (once, false)
  {
    var d := SetDown(h, b).0;
    assert d.down + {b} == d.down;
    var u := SetUp(h, b).0;
    assert u.down - {b} == u.down;
  }

  /** Pressing something that was up and letting it go restores the held
      set, and both changes are on record until the next clear. */
  lemma PressRelease<T>(h: Held<T>, b: T)
    requires b !in h.down
    ensures var d := SetDown(h, b); var u := SetUp(d.0, b);
            d.1 && u.1 && u.0.down == h.down && b in u.0.pressed && b in u.0.released
  {
    var d := SetDown(h, b);
    assert (h.down + {b}) - {b} == h.down;
  }

  /** Nothing is pressed or released that was not recorded through
      `SetDown` or `SetUp`: a change to `b` leaves every other entry alone. */
  lemma OthersUntouched<T>(h: Held<T>, b: T, c: T)
    requires c != b
    ensures var d := SetDown(h, b).0;
            (c in d.down <==> c in h.down) && (c in d.pressed <==> c in h.pressed)
    ensures var u := SetUp(h, b).0;
            (c in u.down <==> c in h.down) && (c in u.released <==> c in h.released)
  {
  }
}

=== FILE: image_data.dfy ===
/** `src/graphics/image_data.rs`: a CPU-side image as a byte buffer of
    `width * height` pixels, `Stride(format)` bytes each, row by row. */
module ImageData {
  import opened Wrappers
  import opened Numeric
  import opened Textures

  type Byte = x: int | 0 <= x < 256

  datatype Image = Image(data: seq<Byte>, width: nat, height: nat, format: TextureFormat)

  /** The buffer holds exactly the image's pixels. */
  ghost predicate Valid(img: Image)
  {
    |img.data| == img.width * img.height * Stride(img.format)
  }

  /** An `assert!` that fails, or an index out of range. */
  datatype Panic = OutOfBounds | Overflow

  /** `from_data`: fails when the buffer is too short for the size, and
      otherwise keeps exactly the bytes the image needs. */
  function FromData(width: nat, height: nat, format: TextureFormat, data: seq<Byte>): (r: Result<Image, TetraError>)
    ensures r.Err? <==> |data| < width * height * Stride(format)
    ensures r.Err? ==> r.error == NotEnoughData(width * height * Stride(format), |data|)
    ensures r.Ok? ==> Valid(r.value) && r.value.width == width && r.value.height == height
                      && r.value.format == format && r.value.data <= data
  {
    var expected := width * height * Stride(format);
    if |data| < expected then Err(NotEnoughData(expected, |data|))
    else Ok(Image(data[..expected], width, height, format))
  }

  /** An image's own bytes rebuild it, and any extra bytes are dropped. */
  lemma FromDataRoundTrip(img: Image, extra: seq<Byte>)
    requires Valid(img)
    ensures FromData(img.width, img.height, img.format, img.data + extra) == Ok(img)
  {
    assert (img.data + extra)[..|img.data|] == img.data;
  }

  /** `from_data` with the source's own `i32` sizes, as built with overflow
      checks: each side is cast to `usize` (a negative side wraps to a huge
      one), a byte count past `usize::MAX` panics, and otherwise it is
      `FromData` on the cast sizes. */
  function FromI32(width: int, height: int, format: TextureFormat, data: seq<Byte>)
    : (r: Result<Result<Image, TetraError>, Panic>)
    requires -(I32_MAX + 1) <= width <= I32_MAX && -(I32_MAX + 1) <= height <= I32_MAX
    ensures r.Err? <==> I32AsUsize(width) * I32AsUsize(height) * Stride(format) > USIZE_MAX
    ensures r.Err? ==> r.error == Overflow
    ensures r.Ok? ==> r.value == FromData(I32AsUsize(width), I32AsUsize(height), format, data)
  {
    var w, h := I32AsUsize(width), I32AsUsize(height);
    if w * h > USIZE_MAX then
      MulMono(1, Stride(format), w * h);
      Err(Overflow)
    else if w * h * Stride(format) > USIZE_MAX then Err(Overflow)
    else Ok(FromData(w, h, format, data))
  }

  /** Non-negative sizes whose byte count fits in a `usize` are passed
      through unchanged. */
  lemma FromI32NonNegative(width: int, height: int, format: TextureFormat, data: seq<Byte>)
    requires 0 <= width <= I32_MAX && 0 <= height <= I32_MAX
    requires width * height * Stride(format) <= USIZE_MAX
    ensures FromI32(width, height, format, data) == Ok(FromData(width, height, format, data))
  {
  }

  /** With at most four bytes a pixel, no pair of non-negative `i32` sizes
      overflows; at eight bytes a pixel (`Rgba16F`) the largest ones do. */
  lemma FromI32OverflowsOnlyWide(width: int, height: int, format: TextureFormat, data: seq<Byte>)
    requires 0 <= width <= I32_MAX && 0 <= height <= I32_MAX
    ensures Stride(format) <= 4 ==> FromI32(width, height, format, data).Ok?
    ensures FromI32(I32_MAX, I32_MAX, Rgba16F, data) == Err(Overflow)
  {
    MulMono(width, I32_MAX, height);
    MulMono(height, I32_MAX, I32_MAX);
    MulMono(width * height, I32_MAX * I32_MAX, Stride(format));
  }

  /** A negative side wraps: `from_data(-1, 0, Rgba8, [])` succeeds with an
      empty image `usize::MAX` pixels wide, and `from_data(-1, 2, Rgba8, [])`
      overflows the byte count. */
  lemma FromI32NegativeSide()
    ensures FromI32(-1, 0, Rgba8, []) == Ok(Ok(Image([], USIZE_MAX, 0, Rgba8)))
    ensures FromI32(-1, 2, Rgba8, []) == Err(Overflow)
  {
  }

  // ---------------------------------------------------------------------
  // Index arithmetic

  lemma MulMono(a: nat, b: nat, s: nat)
    requires a <= b
    ensures a * s <= b * s
  {
  }

  lemma ChunkEnd(k: nat, n: nat, s: nat)
    requires k < n
    ensures k * s + s <= n * s
  {
    MulMono(k + 1, n, s);
  }

  /** A pixel inside the image has an index below the pixel count. */
  lemma PixelIndexBound(x: nat, y: nat, w: nat, h: nat)
    requires x < w && y < h
    ensures x + y * w < w * h
  {
    MulMono(y + 1, h, w);
  }

  /** The pixel index determines the position. */
  lemma PixelIndexUnique(x: nat, y: nat, w: nat)
    requires x < w
    ensures (x + y * w) % w == x && (x + y * w) / w == y
  {
    DivModUnique(x + y * w, w, y, x);
  }

  /** Two different chunks of width `s` do not overlap. */
  lemma ChunksDisjoint(k1: nat, k2: nat, s: nat)
    requires k1 < k2
    ensures k1 * s + s <= k2 * s
  {
    MulMono(k1 + 1, k2, s);
  }

  // ---------------------------------------------------------------------
  // The buffer as a sequence of pixels

  function Chunks(d: seq<Byte>, s: nat, n: nat): (r: seq<seq<Byte>>)
    requires |d| == n * s
    ensures |r| == n
    ensures forall i :: 0 <= i < n ==> |r[i]| == s
    decreases n
  {
    if n == 0 then []
    else
      assert (n - 1) * s == n * s - s;
      [d[..s]] + Chunks(d[s..], s, n - 1)
  }

  function Flatten(cs: seq<seq<Byte>>): seq<Byte>
  {
    if |cs| == 0 then [] else cs[0] + Flatten(cs[1..])
  }

  /** Chunk `k` is the `s` bytes from `k * s`. */
  lemma {:induction false} ChunkAt(d: seq<Byte>, s: nat, n: nat, k: nat)
    requires |d| == n * s && k < n
    ensures k * s + s <= |d| && Chunks(d, s, n)[k] == d[k * s..k * s + s]
    decreases k
  {
    ChunkEnd(k, n, s);
    if k > 0 {
      assert (n - 1) * s == n * s - s;
      ChunkAt(d[s..], s, n - 1, k - 1);
      assert (k - 1) * s + s == k * s;
    }
  }

  /** Cutting a buffer into chunks and joining them gives it back. */
  lemma {:induction false} FlattenChunks(d: seq<Byte>, s: nat, n: nat)
    requires |d| == n * s
    ensures Flatten(Chunks(d, s, n)) == d
    decreases n
  {
    if n > 0 {
      assert (n - 1) * s == n * s - s;
      FlattenChunks(d[s..], s, n - 1);
      assert d == d[..s] + d[s..];
    }
  }

  /** Joining chunks of width `s` and cutting them again gives them back. */
  lemma {:induction false} ChunksFlatten(cs: seq<seq<Byte>>, s: nat)
    requires forall i :: 0 <= i < |cs| ==> |cs[i]| == s
    ensures |Flatten(cs)| == |cs| * s
    ensures Chunks(Flatten(cs), s, |cs|) == cs
    decreases |cs|
  {
    if |cs| > 0 {
      ChunksFlatten(cs[1..], s);
      var f := Flatten(cs);
      assert f == cs[0] + Flatten(cs[1..]);
      assert |cs| * s == s + (|cs| - 1) * s;
      assert f[..s] == cs[0] && f[s..] == Flatten(cs[1..]);
      assert cs == [cs[0]] + cs[1..];
    }
  }

  // ---------------------------------------------------------------------
  // Colours of the 8-bit formats

  predicate Is8Bit(format: TextureFormat) { format != Rgba16F }

  datatype Rgba = Rgba(r: Byte, g: Byte, b: Byte, a: Byte)

  /** `read_color`: channels the format lacks read as 0, and a missing
      alpha reads as opaque. */
  function ReadColor(format: TextureFormat, chunk: seq<Byte>): (c: Rgba)
    requires Is8Bit(format) && |chunk| == Stride(format)
    ensures c.r == chunk[0]
    ensures c.g == (if format == R8 then 0 else chunk[1])
    ensures c.b == (if format == Rgba8 then chunk[2] else 0)
    ensures c.a == (if format == Rgba8 then chunk[3] else 255)
  {
    match format
    case Rgba8 => Rgba(chunk[0], chunk[1], chunk[2], chunk[3])
    case R8 => Rgba(chunk[0], 0, 0, 255)
    case Rg8 => Rgba(chunk[0], chunk[1], 0, 255)
  }

  /** `write_color`: stores the channels the format has and ignores the
      rest. */
  function WriteColor(format: TextureFormat, c: Rgba, chunk: seq<Byte>): (r: seq<Byte>)
    requires Is8Bit(format) && |chunk| == Stride(format)
    ensures |r| == |chunk|
  {
    match format
    case Rgba8 => [c.r, c.g, c.b, c.a]
    case R8 => chunk[0 := c.r]
    case Rg8 => [c.r, c.g]
  }

  /** What of a colour a format keeps. */
  function Stored(format: TextureFormat, c: Rgba): Rgba
  {
    match format
    case Rgba8 => c
    case R8 => Rgba(c.r, 0, 0, 255)
    case Rg8 => Rgba(c.r, c.g, 0, 255)
    case Rgba16F => c
  }

  /** Reading back a written colour gives the part of it the format keeps;
      writing back a colour just read changes nothing. */
  lemma ColorRoundTrip(format: TextureFormat, c: Rgba, chunk: seq<Byte>)
    requires Is8Bit(format) && |chunk| == Stride(format)
    ensures ReadColor(format, WriteColor(format, c, chunk)) == Stored(format, c)
    ensures WriteColor(format, ReadColor(format, chunk), chunk) == chunk
  {
  }

  // ---------------------------------------------------------------------
  // Pixel access

  function PixelOffset(img: Image, x: nat, y: nat): nat
  {
    (x + y * img.width) * Stride(img.format)
  }

  /** `get_pixel_color` as written: the only check is that the pixel's
      bytes lie inside the buffer, so an `x` past the end of a row reads a
      pixel of a later row. A negative coordinate is taken to panic (the
      cast to `usize` makes the offset overflow). */
  function GetPixelAsWritten(img: Image, x: int, y: int): (r: Result<Rgba, Panic>)
    requires Is8Bit(img.format)
    ensures r.Ok? <==> x >= 0 && y >= 0 && PixelOffset(img, x, y) + Stride(img.format) <= |img.data|
  {
    if x < 0 || y < 0 then Err(OutOfBounds)
    else
      var idx := PixelOffset(img, x, y);
      var s := Stride(img.format);
      if idx + s - 1 < |img.data| then Ok(ReadColor(img.format, img.data[idx..idx + s]))
      else Err(OutOfBounds)
  }

  /** A 2x2 R8 image: position (2, 0) is outside it, but the as-written
      check lets it through and returns pixel (0, 1). */
  lemma PastRowEndAliasesNextRow()
    ensures var img := Image([10, 20, 30, 40], 2, 2, R8);
            Valid(img)
            && GetPixelAsWritten(img, 2, 0) == Ok(Rgba(30, 0, 0, 255))
            && GetPixelAsWritten(img, 2, 0) == GetPixelAsWritten(img, 0, 1)
            && GetPixel(img, 2, 0) == Err(OutOfBounds)
  {
    var img := Image([10, 20, 30, 40], 2, 2, R8);
    assert img.data[2..3] == [30];
  }

  predicate InImage(img: Image, x: int, y: int)
  {
    0 <= x < img.width && 0 <= y < img.height
  }

  /** The pixel's place in the buffer lies inside it. */
  lemma PixelInBuffer(img: Image, x: nat, y: nat)
    requires Valid(img) && InImage(img, x, y)
    ensures x + y * img.width < img.width * img.height
    ensures PixelOffset(img, x, y) + Stride(img.format) <= |img.data|
  {
    PixelIndexBound(x, y, img.width, img.height);
    ChunkEnd(x + y * img.width, img.width * img.height, Stride(img.format));
  }

  /** The bytes of the pixel at `(x, y)`. */
  function PixelBytes(img: Image, x: nat, y: nat): (r: seq<Byte>)
    requires Valid(img) && InImage(img, x, y)
    ensures |r| == Stride(img.format)
  {
    PixelInBuffer(img, x, y);
    img.data[PixelOffset(img, x, y)..PixelOffset(img, x, y) + Stride(img.format)]
  }

  /** `get_pixel_color` with the bounds check its documentation promises:
      it panics exactly for positions outside the image. */
  function GetPixel(img: Image, x: int, y: int): (r: Result<Rgba, Panic>)
    requires Valid(img) && Is8Bit(img.format)
    ensures r.Ok? <==> InImage(img, x, y)
  {
    if InImage(img, x, y) then Ok(ReadColor(img.format, PixelBytes(img, x, y)))
    else Err(OutOfBounds)
  }

  /** Inside the image the corrected read agrees with the original one. */
  lemma GetPixelAgreesInside(img: Image, x: int, y: int)
    requires Valid(img) && Is8Bit(img.format) && InImage(img, x, y)
    ensures GetPixel(img, x, y) == GetPixelAsWritten(img, x, y)
  {
    PixelInBuffer(img, x, y);
  }

  /** The pixel at `(x, y)` is chunk `x + y * width` of the buffer. */
  lemma PixelIsChunk(img: Image, x: nat, y: nat)
    requires Valid(img) && InImage(img, x, y)
    ensures var n, s := img.width * img.height, Stride(img.format);
            x + y * img.width < n && PixelBytes(img, x, y) == Chunks(img.data, s, n)[x + y * img.width]
  {
    PixelInBuffer(img, x, y);
    ChunkAt(img.data, Stride(img.format), img.width * img.height, x + y * img.width);
  }

  /** `set_pixel_color` as written: the same byte-offset check as
      `GetPixelAsWritten`, so an `x` past the end of a row overwrites a
      pixel of a later row. */
  function SetPixelAsWritten(img: Image, x: int, y: int, c: Rgba): (r: Result<Image, Panic>)
    requires Is8Bit(img.format)
    ensures r.Ok? <==> x >= 0 && y >= 0 && PixelOffset(img, x, y) + Stride(img.format) <= |img.data|
    ensures r.Ok? ==> var idx, s := PixelOffset(img, x, y), Stride(img.format);
                      |r.value.data| == |img.data|
                      && r.value.data[..idx] == img.data[..idx]
                      && r.value.data[idx + s..] == img.data[idx + s..]
  {
    if x < 0 || y < 0 then Err(OutOfBounds)
    else
      var idx := PixelOffset(img, x, y);
      var s := Stride(img.format);
      if idx + s - 1 < |img.data| then
        var data := img.data[..idx] + WriteColor(img.format, c, img.data[idx..idx + s]) + img.data[idx + s..];
        assert data[..idx] == img.data[..idx] && data[idx + s..] == img.data[idx + s..];
        Ok(img.(data := data))
      else Err(OutOfBounds)
  }

  /** A 2x2 R8 image: writing at (2, 0), outside it, is let through and
      overwrites pixel (0, 1) of the next row. */
  lemma PastRowEndWriteAliasesNextRow()
    ensures var img := Image([10, 20, 30, 40], 2, 2, R8);
            Valid(img)
            && SetPixelAsWritten(img, 2, 0, Rgba(99, 0, 0, 255)) == Ok(Image([10, 20, 99, 40], 2, 2, R8))
            && SetPixel(img, 2, 0, Rgba(99, 0, 0, 255)) == Err(OutOfBounds)
  {
    var img := Image([10, 20, 30, 40], 2, 2, R8);
    assert PixelOffset(img, 2, 0) == 2;
    assert img.data[2..3] == [30];
    assert WriteColor(R8, Rgba(99, 0, 0, 255), [30]) == [99];
    assert img.data[..2] + [99] + img.data[3..] == [10, 20, 99, 40];
  }

  /** Inside the image the corrected write agrees with the original one. */
  lemma SetPixelAgreesInside(img: Image, x: int, y: int, c: Rgba)
    requires Valid(img) && Is8Bit(img.format) && InImage(img, x, y)
    ensures SetPixel(img, x, y, c) == SetPixelAsWritten(img, x, y, c)
  {
    PixelInBuffer(img, x, y);
  }

  /** `set_pixel_color` with the bounds check its documentation promises
      (corrected like `GetPixel`): rewrites the pixel's own bytes and no
      others. */
  function SetPixel(img: Image, x: int, y: int, c: Rgba): (r: Result<Image, Panic>)
    requires Valid(img) && Is8Bit(img.format)
    ensures r.Ok? <==> InImage(img, x, y)
    ensures r.Ok? ==> Valid(r.value) && r.value.width == img.width && r.value.height == img.height
                      && r.value.format == img.format
    ensures r.Ok? ==> var idx, s := PixelOffset(img, x, y), Stride(img.format);
                      idx + s <= |img.data|
                      && r.value.data[..idx] == img.data[..idx]
                      && r.value.data[idx + s..] == img.data[idx + s..]
  {
    if InImage(img, x, y) then
      var idx := PixelOffset(img, x, y);
      var s := Stride(img.format);
      PixelInBuffer(img, x, y);
      var written := WriteColor(img.format, c, img.data[idx..idx + s]);
      var data := img.data[..idx] + written + img.data[idx + s..];
      assert data[..idx] == img.data[..idx] && data[idx + s..] == img.data[idx + s..];
      Ok(img.(data := data))
    else Err(OutOfBounds)
  }

  /** A pixel that was set reads back as the part of the colour the format
      keeps. */
  lemma SetThenGet(img: Image, x: int, y: int, c: Rgba)
    requires Valid(img) && Is8Bit(img.format) && InImage(img, x, y)
    ensures GetPixel(SetPixel(img, x, y, c).value, x, y) == Ok(Stored(img.format, c))
  {
    var idx, s := PixelOffset(img, x, y), Stride(img.format);
    PixelInBuffer(img, x, y);
    var r := SetPixel(img, x, y, c).value;
    var old_ := img.data[idx..idx + s];
    var written := WriteColor(img.format, c, old_);
    assert r.data == img.data[..idx] + written + img.data[idx + s..];
    assert PixelBytes(r, x, y) == written;
    ColorRoundTrip(img.format, c, old_);
  }

  /** Different pixels occupy disjoint byte ranges. */
  lemma PixelsDisjoint(img: Image, x: nat, y: nat, x2: nat, y2: nat)
    requires Valid(img) && InImage(img, x, y) && InImage(img, x2, y2)
    requires x != x2 || y != y2
    ensures var a, b, s := PixelOffset(img, x, y), PixelOffset(img, x2, y2), Stride(img.format);
            a + s <= b || b + s <= a
  {
    var w, s := img.width, Stride(img.format);
    PixelIndexUnique(x, y, w);
    PixelIndexUnique(x2, y2, w);
    var k1, k2 := x + y * w, x2 + y2 * w;
    assert k1 != k2;
    if k1 < k2 {
      ChunksDisjoint(k1, k2, s);
    } else {
      ChunksDisjoint(k2, k1, s);
    }
  }

  /** Bytes outside a rewritten span keep their values. */
  lemma OutsideKept(d: seq<Byte>, d': seq<Byte>, idx: nat, s: nat, other: nat)
    requires |d'| == |d| && idx + s <= |d| && other + s <= |d|
    requires other + s <= idx || idx + s <= other
    requires d'[..idx] == d[..idx] && d'[idx + s..] == d[idx + s..]
    ensures d'[other..other + s] == d[other..other + s]
  {
    if other + s <= idx {
      assert d'[other..other + s] == d'[..idx][other..other + s];
      assert d[other..other + s] == d[..idx][other..other + s];
    } else {
      forall k | other <= k < other + s
        ensures d'[k] == d[k]
      {
        assert d'[k] == d'[idx + s..][k - (idx + s)];
      }
    }
  }

  /** Setting one pixel leaves every other pixel as it was. */
  lemma SetLeavesOthers(img: Image, x: int, y: int, c: Rgba, x2: int, y2: int)
    requires Valid(img) && Is8Bit(img.format) && InImage(img, x, y) && InImage(img, x2, y2)
    requires x != x2 || y != y2
    ensures GetPixel(SetPixel(img, x, y, c).value, x2, y2) == GetPixel(img, x2, y2)
  {
    var r := SetPixel(img, x, y, c).value;
    var s, idx, other := Stride(img.format), PixelOffset(img, x, y), PixelOffset(img, x2, y2);
    PixelInBuffer(img, x2, y2);
    PixelsDisjoint(img, x, y, x2, y2);
    OutsideKept(img.data, r.data, idx, s, other);
    assert PixelBytes(r, x2, y2) == r.data[other..other + s];
  }

  // ---------------------------------------------------------------------
  // Whole-image transforms

  /** The chunks `transform` writes back: chunk `i` becomes what `f` makes
      of its colour at `(i % width, i / width)`. */
  function MapPixels(format: TextureFormat, w: nat, f: (nat, nat, Rgba) -> Rgba, cs: seq<seq<Byte>>): (r: seq<seq<Byte>>)
    requires Is8Bit(format) && forall i :: 0 <= i < |cs| ==> |cs[i]| == Stride(format)
    ensures |r| == |cs| && forall i :: 0 <= i < |r| ==> |r[i]| == Stride(format)
  {
    seq(|cs|, i requires 0 <= i < |cs| =>
      WriteColor(format, f(if w == 0 then 0 else i % w, if w == 0 then 0 else i / w, ReadColor(format, cs[i])), cs[i]))
  }

  /** `transform`: applies `f` to every pixel, passing the pixel's position
      `(i % width, i / width)` and colour, and writes the result back. */
  function Transform(img: Image, f: (nat, nat, Rgba) -> Rgba): (r: Image)
    requires Valid(img) && Is8Bit(img.format)
    ensures Valid(r) && r.width == img.width && r.height == img.height && r.format == img.format
  {
    var n, s := img.width * img.height, Stride(img.format);
    var out := MapPixels(img.format, img.width, f, Chunks(img.data, s, n));
    ChunksFlatten(out, s);
    img.(data := Flatten(out))
  }

  /** After a transform, each pixel holds what `f` made of that pixel at
      that position, as far as the format keeps it. */
  lemma TransformPixel(img: Image, f: (nat, nat, Rgba) -> Rgba, x: nat, y: nat)
    requires Valid(img) && Is8Bit(img.format) && InImage(img, x, y)
    ensures GetPixel(Transform(img, f), x, y) == Ok(Stored(img.format, f(x, y, GetPixel(img, x, y).value)))
  {
    var n, s, w := img.width * img.height, Stride(img.format), img.width;
    var cs := Chunks(img.data, s, n);
    var out := MapPixels(img.format, w, f, cs);
    ChunksFlatten(out, s);
    var r := Transform(img, f);
    var k := x + y * w;
    PixelIndexUnique(x, y, w);
    PixelIsChunk(img, x, y);
    PixelIsChunk(r, x, y);
    assert PixelBytes(r, x, y) == out[k];
    ColorRoundTrip(img.format, f(x, y, ReadColor(img.format, cs[k])), cs[k]);
  }

  /** `to_premultiplied` on 8-bit channels: each colour channel scaled by
      alpha / 255, truncated; alpha itself is kept. */
  function PremultiplyChannel(v: Byte, a: Byte): (r: Byte)
    ensures r <= v
    ensures a == 255 ==> r == v
  {
    ScaleBounds(v, a);
    (v * a) / 255
  }

  lemma ScaleBounds(v: Byte, a: Byte)
    ensures 0 <= (v * a) / 255 <= v
    ensures a == 255 ==> (v * a) / 255 == v
  {
    var n := v * a;
    assert n <= 255 * v by { MulMono(a, 255, v); }
    var q := n / 255;
    DivBounds(n, 255);
    if a == 255 {
      DivModUnique(v * 255, 255, v, 0);
    }
  }

  function PremultiplyColor(c: Rgba): (r: Rgba)
    ensures r.a == c.a
    ensures c.a == 255 ==> r == c
  {
    Rgba(PremultiplyChannel(c.r, c.a), PremultiplyChannel(c.g, c.a), PremultiplyChannel(c.b, c.a), c.a)
  }

  /** The Rgba8 pixels of the `premultiply_rgba8` unit test. */
  lemma PremultiplyVectors()
    ensures PremultiplyColor(Rgba(0x00, 0x66, 0xCC, 0x00)) == Rgba(0x00, 0x00, 0x00, 0x00)
    ensures PremultiplyColor(Rgba(0x00, 0x66, 0xCC, 0x66)) == Rgba(0x00, 0x28, 0x51, 0x66)
    ensures PremultiplyColor(Rgba(0x00, 0x66, 0xCC, 0xCC)) == Rgba(0x00, 0x51, 0xA3, 0xCC)
    ensures PremultiplyColor(Rgba(0x00, 0x66, 0xCC, 0xFF)) == Rgba(0x00, 0x66, 0xCC, 0xFF)
  {
  }

  /** `premultiply`: `transform` with `to_premultiplied`. */
  function Premultiply(img: Image): (r: Image)
    requires Valid(img) && Is8Bit(img.format)
    ensures Valid(r) && r.width == img.width && r.height == img.height && r.format == img.format
  {
    Transform(img, (_, _, c) => PremultiplyColor(c))
  }

  /** Formats without alpha read as opaque, so premultiplying them leaves
      the bytes untouched. */
  lemma PremultiplyWithoutAlphaIsIdentity(img: Image)
    requires Valid(img) && (img.format == R8 || img.format == Rg8)
    ensures Premultiply(img) == img
  {
    var n, s := img.width * img.height, Stride(img.format);
    var cs := Chunks(img.data, s, n);
    var out := MapPixels(img.format, img.width, (_, _, c) => PremultiplyColor(c), cs);
    forall i | 0 <= i < n
      ensures out[i] == cs[i]
    {
      ColorRoundTrip(img.format, ReadColor(img.format, cs[i]), cs[i]);
    }
    assert out == cs;
    FlattenChunks(img.data, s, n);
  }

  // ---------------------------------------------------------------------
  // Regions

  predicate RegionInside(img: Image, rx: int, ry: int, rw: int, rh: int)
  {
    rx >= 0 && ry >= 0 && rw >= 0 && rh >= 0 && rx + rw <= img.width && ry + rh <= img.height
  }

  lemma RowEnd(img: Image, rx: nat, row: nat, rw: nat)
    requires Valid(img) && rx + rw <= img.width && row < img.height
    ensures (rx + row * img.width) * Stride(img.format) + rw * Stride(img.format) <= |img.data|
  {
    var s, w := Stride(img.format), img.width;
    MulMono(row + 1, img.height, w);
    assert rx + row * w + rw <= (row + 1) * w;
    MulMono(rx + row * w + rw, w * img.height, s);
  }

  /** Row `y` of a region: `rw` pixels of source row `ry + y` from `rx`. */
  function RegionRow(img: Image, rx: nat, ry: nat, rw: nat, y: nat): (r: seq<Byte>)
    requires Valid(img) && rx + rw <= img.width && ry + y < img.height
    ensures |r| == rw * Stride(img.format)
  {
    var s := Stride(img.format);
    var start := (rx + (ry + y) * img.width) * s;
    RowEnd(img, rx, ry + y, rw);
    img.data[start..start + rw * s]
  }

  lemma RegionRowAt(img: Image, rx: nat, ry: nat, rw: nat, y: nat, o: nat)
    requires Valid(img) && rx + rw <= img.width && ry + y < img.height && o < rw * Stride(img.format)
    ensures var start := (rx + (ry + y) * img.width) * Stride(img.format);
            start + o < |img.data| && RegionRow(img, rx, ry, rw, y)[o] == img.data[start + o]
  {
    RowEnd(img, rx, ry + y, rw);
  }

  /** The first `n` rows of a region, one after the other: the reference
      for what `region` copies. */
  function RegionRows(img: Image, rx: nat, ry: nat, rw: nat, n: nat): (r: seq<Byte>)
    requires Valid(img) && rx + rw <= img.width && ry + n <= img.height
    ensures |r| == n * (rw * Stride(img.format))
  {
    if n == 0 then []
    else RegionRows(img, rx, ry, rw, n - 1) + RegionRow(img, rx, ry, rw, n - 1)
  }

  lemma RegionSize(rw: nat, rh: nat, s: nat)
    ensures rh * (rw * s) == rw * rh * s
  {
  }

  /** `region`: panics unless the rectangle lies inside the image, and
      otherwise copies it out row by row. */
  method Region(img: Image, rx: int, ry: int, rw: int, rh: int) returns (r: Result<Image, Panic>)
    requires Valid(img)
    ensures r.Err? <==> !RegionInside(img, rx, ry, rw, rh)
    ensures r.Ok? ==> Valid(r.value) && r.value.width == rw && r.value.height == rh
                      && r.value.format == img.format
                      && r.value.data == RegionRows(img, rx, ry, rw, rh)
  {
    if !RegionInside(img, rx, ry, rw, rh) {
      return Err(OutOfBounds);
    }
    var s := Stride(img.format);
    var buffer: seq<Byte> := [];
    var scanY := ry;
    while scanY < ry + rh
      invariant ry <= scanY <= ry + rh
      invariant buffer == RegionRows(img, rx, ry, rw, scanY - ry)
    {
      var xStart := (rx + scanY * img.width) * s;
      var xEnd := xStart + rw * s;
      RowEnd(img, rx, scanY, rw);
      ghost var y := scanY - ry;
      assert ry + y == scanY;
      assert img.data[xStart..xEnd] == RegionRow(img, rx, ry, rw, y);
      assert RegionRows(img, rx, ry, rw, y + 1) == RegionRows(img, rx, ry, rw, y) + RegionRow(img, rx, ry, rw, y);
      buffer := buffer + img.data[xStart..xEnd];
      scanY := scanY + 1;
    }
    RegionSize(rw, rh, s);
    return Ok(Image(buffer, rw, rh, img.format));
  }

  /** Byte `o` of row `y` among the first `n` rows. */
  lemma {:induction false} RegionRowsAt(img: Image, rx: nat, ry: nat, rw: nat, n: nat, y: nat, o: nat)
    requires Valid(img) && rx + rw <= img.width && ry + n <= img.height
    requires y < n && o < rw * Stride(img.format)
    ensures y * (rw * Stride(img.format)) + o < |RegionRows(img, rx, ry, rw, n)|
    ensures RegionRows(img, rx, ry, rw, n)[y * (rw * Stride(img.format)) + o] == RegionRow(img, rx, ry, rw, y)[o]
    decreases n
  {
    var l := rw * Stride(img.format);
    ChunkEnd(y, n, l);
    if y < n - 1 {
      RegionRowsAt(img, rx, ry, rw, n - 1, y, o);
      ChunkEnd(y, n - 1, l);
    } else {
      assert y * l == (n - 1) * l;
    }
  }

  lemma OffsetSplit(x: nat, y: nat, rw: nat, s: nat, t: nat)
    ensures (x + y * rw) * s + t == y * (rw * s) + (x * s + t)
  {
    assert (x + y * rw) * s == x * s + (y * rw) * s;
    assert (y * rw) * s == y * (rw * s);
  }

  lemma OffsetShift(rx: nat, x: nat, row: nat, w: nat, s: nat, t: nat)
    ensures ((rx + x) + row * w) * s + t == (rx + row * w) * s + (x * s + t)
  {
    assert ((rx + x) + row * w) * s == (rx + row * w) * s + x * s;
  }

  lemma InRow(x: nat, rw: nat, s: nat, t: nat)
    requires x < rw && t < s
    ensures x * s + t < rw * s
  {
    MulMono(x + 1, rw, s);
  }

  /** The image a successful `region` returns. */
  function RegionImage(img: Image, rx: nat, ry: nat, rw: nat, rh: nat): (r: Image)
    requires Valid(img) && RegionInside(img, rx, ry, rw, rh)
    ensures Valid(r) && r.width == rw && r.height == rh && r.format == img.format
  {
    RegionSize(rw, rh, Stride(img.format));
    Image(RegionRows(img, rx, ry, rw, rh), rw, rh, img.format)
  }

  /** Byte `t` of a pixel is byte `k` of the buffer, for `k` its offset
      plus `t`. */
  lemma PixelByteAt(img: Image, x: nat, y: nat, t: nat, k: int)
    requires Valid(img) && InImage(img, x, y) && t < Stride(img.format)
    requires k == PixelOffset(img, x, y) + t
    ensures 0 <= k < |img.data|
    ensures PixelBytes(img, x, y)[t] == img.data[k]
  {
    PixelInBuffer(img, x, y);
  }

  /** Byte `o` of row `y` of a region is the byte `o` after the start of
      that row in the source. */
  lemma RegionDataAt(img: Image, rx: nat, ry: nat, rw: nat, rh: nat, y: nat, o: nat)
    requires Valid(img) && RegionInside(img, rx, ry, rw, rh)
    requires y < rh && o < rw * Stride(img.format)
    ensures y * (rw * Stride(img.format)) + o < |RegionRows(img, rx, ry, rw, rh)|
    ensures PixelOffset(img, rx, ry + y) + o < |img.data|
    ensures RegionRows(img, rx, ry, rw, rh)[y * (rw * Stride(img.format)) + o] == img.data[PixelOffset(img, rx, ry + y) + o]
  {
    RegionRowsAt(img, rx, ry, rw, rh, y, o);
    RegionRowAt(img, rx, ry, rw, y, o);
  }

  /** Where byte `t` of pixel `(x, y)` of a region sits: in the region's
      buffer, in row `y` at `x * stride + t`; in the image's, the same
      distance after the start of that row. */
  lemma RegionOffsets(img: Image, rx: nat, ry: nat, rw: nat, rh: nat, x: nat, y: nat, t: nat)
    requires Valid(img) && RegionInside(img, rx, ry, rw, rh)
    requires x < rw && y < rh && t < Stride(img.format)
    ensures x * Stride(img.format) + t < rw * Stride(img.format)
    ensures PixelOffset(RegionImage(img, rx, ry, rw, rh), x, y) + t == y * (rw * Stride(img.format)) + (x * Stride(img.format) + t)
    ensures PixelOffset(img, rx + x, ry + y) + t == PixelOffset(img, rx, ry + y) + (x * Stride(img.format) + t)
  {
    var s := Stride(img.format);
    InRow(x, rw, s, t);
    OffsetSplit(x, y, rw, s, t);
    OffsetShift(rx, x, ry + y, img.width, s, t);
  }

  /** One byte of a region's pixel is the same byte of the source pixel. */
  lemma RegionByte(img: Image, rx: nat, ry: nat, rw: nat, rh: nat, x: nat, y: nat, t: nat)
    requires Valid(img) && RegionInside(img, rx, ry, rw, rh)
    requires x < rw && y < rh && t < Stride(img.format)
    ensures PixelBytes(RegionImage(img, rx, ry, rw, rh), x, y)[t] == PixelBytes(img, rx + x, ry + y)[t]
  {
    var region := RegionImage(img, rx, ry, rw, rh);
    var s := Stride(img.format);
    var o := x * s + t;
    RegionOffsets(img, rx, ry, rw, rh, x, y, t);
    var i, j := y * (rw * s) + o, PixelOffset(img, rx, ry + y) + o;
    RegionDataAt(img, rx, ry, rw, rh, y, o);
    assert region.data[i] == img.data[j];
    PixelByteAt(region, x, y, t, i);
    PixelByteAt(img, rx + x, ry + y, t, j);
  }

  /** Each pixel of a region is the pixel of the image it was cut from,
      offset by the region's corner. */
  lemma RegionPixel(img: Image, rx: nat, ry: nat, rw: nat, rh: nat, x: nat, y: nat)
    requires Valid(img) && Is8Bit(img.format) && RegionInside(img, rx, ry, rw, rh)
    requires x < rw && y < rh
    ensures GetPixel(RegionImage(img, rx, ry, rw, rh), x, y) == GetPixel(img, rx + x, ry + y)
  {
    var region := RegionImage(img, rx, ry, rw, rh);
    forall t | 0 <= t < Stride(img.format)
      ensures PixelBytes(region, x, y)[t] == PixelBytes(img, rx + x, ry + y)[t]
    {
      RegionByte(img, rx, ry, rw, rh, x, y, t);
    }
    assert PixelBytes(region, x, y) == PixelBytes(img, rx + x, ry + y);
  }

  /** The halves of a 2x2 R8 image, as the unit tests pin them. */
  lemma RegionHalves()
    ensures var img := Image([0x00, 0x04, 0x08, 0x0C], 2, 2, R8);
            Valid(img)
            && RegionImage(img, 0, 0, 1, 2).data == [0x00, 0x08]
            && RegionImage(img, 1, 0, 1, 2).data == [0x04, 0x0C]
            && RegionImage(img, 0, 0, 2, 1).data == [0x00, 0x04]
            && RegionImage(img, 0, 1, 2, 1).data == [0x08, 0x0C]
  {
    var img := Image([0x00, 0x04, 0x08, 0x0C], 2, 2, R8);
    assert img.data[0..1] == [0x00] && img.data[1..2] == [0x04] && img.data[2..3] == [0x08] && img.data[3..4] == [0x0C];
    assert img.data[0..2] == [0x00, 0x04] && img.data[2..4] == [0x08, 0x0C];
  }
}

=== FILE: input.dfy ===
/** `src/input.rs`: the input context that the event loop fills and clears
    once per update, and the text typed since the last update. */
module Input {
  import opened Wrappers
  import opened Basics
  import opened Held
  import opened Keyboard
  import opened Mouse
  import opened Gamepad

  /** The context's own mouse fields are a held/pressed/released triple
      like the keys'; the queries in `src/input/mouse.rs` read a
      previous/current pair instead, which `Mouse` models on its own. */
  datatype InputContext = InputContext(
    keys: Keys,
    mouseButtons: Held<MouseButton>,
    mousePosition: Vec2,
    textInput: Option<string>,
    pads: Pads,
    platformIdMappings: map<int, nat>)

  /** `InputContext::new`: nothing held, no text, no pads, the mouse at the
      origin. */
  function New(): (r: InputContext)
    ensures r.keys.down == {} && r.keys.pressed == {} && r.keys.released == {}
    ensures r.mouseButtons == Empty() && r.mousePosition == Zero
    ensures r.textInput == None && r.pads == [] && r.platformIdMappings == map[]
  {
    InputContext(Empty(), Empty(), Zero, None, [], map[])
  }

  function ClearPad(slot: Option<GamepadState>): (r: Option<GamepadState>)
    ensures r.Some? <==> slot.Some?
    ensures r.Some? ==> r.value.buttons.down == slot.value.buttons.down
                        && r.value.buttons.pressed == {} && r.value.buttons.released == {}
                        && r.value.axes == slot.value.axes && r.value.platformId == slot.value.platformId
  {
    match slot
    case Some(pad) => Some(pad.(buttons := ClearChanges(pad.buttons)))
    case None => None
  }

  /** `clear`: forgets pressed and released keys, mouse buttons and pad
      buttons and the text input; what is held, the mouse position, the pad
      slots and the axes stay. */
  function Clear(c: InputContext): (r: InputContext)
    ensures r.keys.down == c.keys.down && r.keys.pressed == {} && r.keys.released == {}
    ensures r.mouseButtons.down == c.mouseButtons.down && r.mouseButtons.pressed == {} && r.mouseButtons.released == {}
    ensures r.textInput == None && r.mousePosition == c.mousePosition && r.platformIdMappings == c.platformIdMappings
    ensures |r.pads| == |c.pads|
    ensures forall id: nat :: id < |c.pads| ==> GetGamepad(r.pads, id) == ClearPad(GetGamepad(c.pads, id))
  {
    var pads := seq(|c.pads|, i requires 0 <= i < |c.pads| => ClearPad(c.pads[i]));
    c.(keys := ClearChanges(c.keys), mouseButtons := ClearChanges(c.mouseButtons), textInput := None, pads := pads)
  }

  /** Seen through the gamepad queries, `clear` keeps every pad connected
      or not as it was and every button held or not, and leaves nothing
      pressed or released. */
  lemma ClearPadQueries(c: InputContext, id: nat, b: GamepadButton)
    ensures IsConnected(Clear(c).pads, id) <==> IsConnected(c.pads, id)
    ensures IsButtonDown(Clear(c).pads, id, b) <==> IsButtonDown(c.pads, id, b)
    ensures !IsButtonPressed(Clear(c).pads, id, b) && !IsButtonReleased(Clear(c).pads, id, b)
  {
  }

  /** Clearing twice is clearing once. */
  lemma ClearIdempotent(c: InputContext)
    ensures Clear(Clear(c)) == Clear(c)
  {
    var once := Clear(c);
    assert forall i :: 0 <= i < |once.pads| ==> ClearPad(once.pads[i]) == once.pads[i];
  }

  /** `get_text_input`. */
  function TextInput(c: InputContext): (r: Option<string>)
    ensures r == c.textInput
  {
    c.textInput
  }

  /** `push_text_input`: appends to the pending text, or starts it. */
  function PushTextInput(c: InputContext, text: string): (r: InputContext)
    ensures r.textInput.Some?
    ensures r.textInput.value == (if c.textInput.Some? then c.textInput.value else "") + text
    ensures r.keys == c.keys && r.mouseButtons == c.mouseButtons && r.pads == c.pads
  {
    match c.textInput
    case Some(existing) => c.(textInput := Some(existing + text))
    case None => c.(textInput := Some(text))
  }

  /** Text pushed in pieces during one update reads back as one string: two
      pushes equal one push of the concatenation. */
  lemma PushTextConcatenates(c: InputContext, a: string, b: string)
    ensures PushTextInput(PushTextInput(c, a), b) == PushTextInput(c, a + b)
  {
    if c.textInput.Some? {
      assert c.textInput.value + a + b == c.textInput.value + (a + b);
    }
  }

  /** After a clear, the text read back is exactly what was pushed since. */
  lemma TextSinceClear(c: InputContext, pieces: seq<string>)
    ensures TextInput(PushAllText(Clear(c), pieces)) == if |pieces| == 0 then None else Some(Concat(pieces))
  {
    PushAllTextFrom(Clear(c), pieces);
  }

  function PushAllText(c: InputContext, pieces: seq<string>): (r: InputContext)
    ensures r.keys == c.keys && r.pads == c.pads
    decreases |pieces|
  {
    if |pieces| == 0 then c else PushAllText(PushTextInput(c, pieces[0]), pieces[1..])
  }

  function Concat(pieces: seq<string>): string
    decreases |pieces|
  {
    if |pieces| == 0 then "" else pieces[0] + Concat(pieces[1..])
  }

  lemma {:induction false} PushAllTextFrom(c: InputContext, pieces: seq<string>)
    requires c.textInput == None
    ensures TextInput(PushAllText(c, pieces)) == if |pieces| == 0 then None else Some(Concat(pieces))
    decreases |pieces|
  {
    if |pieces| > 0 {
      PushAllTextOnto(PushTextInput(c, pieces[0]), pieces[1..]);
    }
  }

  lemma {:induction false} PushAllTextOnto(c: InputContext, pieces: seq<string>)
    requires c.textInput.Some?
    ensures TextInput(PushAllText(c, pieces)) == Some(c.textInput.value + Concat(pieces))
    decreases |pieces|
  {
    if |pieces| == 0 {
      assert c.textInput.value + "" == c.textInput.value;
    } else {
      var next := PushTextInput(c, pieces[0]);
      PushAllTextOnto(next, pieces[1..]);
      assert c.textInput.value + pieces[0] + Concat(pieces[1..]) == c.textInput.value + (pieces[0] + Concat(pieces[1..]));
    }
  }
}

=== FILE: keyboard.dfy ===
/** `src/input/keyboard.rs`: the keyboard's keys and the queries on them.
    The bookkeeping itself is shared with gamepads and lives in `Held`. */
module Keyboard {
  import opened Held

  datatype Key =
      A | B | C | D | E | F | G | H | I | J | K | L | M | N | O | P | Q | R | S | T | U | V | W | X
    | Y | Z | Num0 | Num1 | Num2 | Num3 | Num4 | Num5 | Num6 | Num7 | Num8 | Num9 | F1 | F2 | F3
    | F4 | F5 | F6 | F7 | F8 | F9 | F10 | F11 | F12 | F13 | F14 | F15 | F16 | F17 | F18 | F19 | F20
    | F21 | F22 | F23 | F24 | NumLock | NumPad1 | NumPad2 | NumPad3 | NumPad4 | NumPad5 | NumPad6
    | NumPad7 | NumPad8 | NumPad9 | NumPad0 | NumPadPlus | NumPadMinus | NumPadMultiply
    | NumPadDivide | NumPadEnter | LeftCtrl | LeftShift | LeftAlt | RightCtrl | RightShift
    | RightAlt | Up | Down | Left | Right | Ampersand | Asterisk | At | Backquote | Backslash
    | Backspace | CapsLock | Caret | Colon | Comma | Delete | Dollar | DoubleQuote | End | Enter
    | Equals | Escape | Exclaim | GreaterThan | Hash | Home | Insert | LeftBracket | LeftParen
    | LessThan | Minus | PageDown | PageUp | Pause | Percent | Period | Plus | PrintScreen
    | Question | Quote | RightBracket | RightParen | ScrollLock | Semicolon | Slash | Space | Tab
    | Underscore

  type Keys = Held<Key>

  predicate IsKeyDown(k: Keys, key: Key) { key in k.down }

  predicate IsKeyUp(k: Keys, key: Key) { key !in k.down }

  predicate IsKeyPressed(k: Keys, key: Key) { key in k.pressed }

  predicate IsKeyReleased(k: Keys, key: Key) { key in k.released }

  /** `get_keys_down`, `get_keys_pressed`, `get_keys_released`: the keys
      for which the matching query holds. */
  function KeysDown(k: Keys): (r: set<Key>)
    ensures forall key :: key in r <==> IsKeyDown(k, key)
  {
    k.down
  }

  function KeysPressed(k: Keys): (r: set<Key>)
    ensures forall key :: key in r <==> IsKeyPressed(k, key)
  {
    k.pressed
  }

  function KeysReleased(k: Keys): (r: set<Key>)
    ensures forall key :: key in r <==> IsKeyReleased(k, key)
  {
    k.released
  }

  /** `set_key_down`: returns whether the key was up; only then is it
      recorded as pressed. */
  function SetKeyDown(k: Keys, key: Key): (r: (Keys, bool))
    ensures r.1 <==> IsKeyUp(k, key)
    ensures IsKeyDown(r.0, key)
    ensures IsKeyPressed(r.0, key) <==> IsKeyPressed(k, key) || r.1
    ensures r.0.released == k.released
  {
    SetDown(k, key)
  }

  /** `set_key_up`: returns whether the key was down; only then is it
      recorded as released. */
  function SetKeyUp(k: Keys, key: Key): (r: (Keys, bool))
    ensures r.1 <==> IsKeyDown(k, key)
    ensures IsKeyUp(r.0, key)
    ensures IsKeyReleased(r.0, key) <==> IsKeyReleased(k, key) || r.1
    ensures r.0.pressed == k.pressed
  {
    SetUp(k, key)
  }

  /** `is_key_up` is the negation of `is_key_down`, and a key goes from up
      to pressed-and-down through `set_key_down`. */
  lemma KeyQueriesAgree(k: Keys, key: Key)
    ensures IsKeyUp(k, key) <==> !IsKeyDown(k, key)
    ensures IsKeyUp(k, key) ==> IsKeyPressed(SetKeyDown(k, key).0, key)
    ensures IsKeyDown(k, key) ==> IsKeyReleased(SetKeyUp(k, key).0, key)
  {
  }
}

=== FILE: mesh.dfy ===
/** `src/graphics/mesh.rs`: a mesh is a vertex buffer, an optional index
    buffer, an optional texture and draw range, a front-face winding and a
    culling flag. Drawing issues one instanced draw call; the tessellation
    of shapes happens in a foreign library and is not part of the model. */
module Mesh {
  import opened Wrappers
  import opened Basics
  import opened Textures

  datatype VertexWinding = Clockwise | CounterClockwise

  /** `flipped`: the other winding. */
  function Flipped(w: VertexWinding): (r: VertexWinding)
    ensures r != w
  {
    match w
    case Clockwise => CounterClockwise
    case CounterClockwise => Clockwise
  }

  /** Flipping twice is no flip at all. */
  lemma FlippedInvolution(w: VertexWinding)
    ensures Flipped(Flipped(w)) == w
  {
  }

  datatype Vertex = Vertex(position: Vec2, uv: Vec2, color: Color)

  /** Device buffers, seen through their handle and element count. */
  datatype VertexBuffer = VertexBuffer(handle: nat, count: nat)
  datatype IndexBuffer = IndexBuffer(handle: nat, count: nat)

  datatype DrawRange = DrawRange(start: nat, count: nat)

  datatype Mesh = Mesh(
    vertexBuffer: VertexBuffer,
    indexBuffer: Option<IndexBuffer>,
    texture: Option<Texture>,
    drawRange: Option<DrawRange>,
    winding: VertexWinding,
    backfaceCulling: bool)

  /** The settings every new mesh starts with. */
  predicate Fresh(m: Mesh)
  {
    m.texture == None && m.drawRange == None && m.winding == CounterClockwise && m.backfaceCulling
  }

  function New(vb: VertexBuffer): (r: Mesh)
    ensures Fresh(r) && r.vertexBuffer == vb && r.indexBuffer == None
  {
    Mesh(vb, None, None, None, CounterClockwise, true)
  }

  function Indexed(vb: VertexBuffer, ib: IndexBuffer): (r: Mesh)
    ensures Fresh(r) && r.vertexBuffer == vb && r.indexBuffer == Some(ib)
  {
    Mesh(vb, Some(ib), None, None, CounterClockwise, true)
  }

  /** The elements a draw covers: an explicit range wins; otherwise every
      index of the index buffer, or every vertex when there is none. */
  function Range(m: Mesh): (r: (nat, nat))
    ensures m.drawRange.Some? ==> r == (m.drawRange.value.start, m.drawRange.value.count)
    ensures m.drawRange.None? && m.indexBuffer.Some? ==> r == (0, m.indexBuffer.value.count)
    ensures m.drawRange.None? && m.indexBuffer.None? ==> r == (0, m.vertexBuffer.count)
  {
    match (m.drawRange, m.indexBuffer)
    case (Some(d), _) => (d.start, d.count)
    case (None, Some(i)) => (0, i.count)
    case (None, None) => (0, m.vertexBuffer.count)
  }

  /** A fresh mesh draws all of its geometry. */
  lemma FreshDrawsEverything(vb: VertexBuffer, ib: IndexBuffer)
    ensures Range(New(vb)) == (0, vb.count)
    ensures Range(Indexed(vb, ib)) == (0, ib.count)
  {
  }

  /** What drawing a mesh asks of the renderer and the device, in order. */
  datatype Step =
    | FlushBatch
    | SetDefaultUniforms(shader: nat, color: Color)
    | CullFace(enabled: bool)
    | FrontFace(winding: VertexWinding)
    | DrawInstanced(vertexBuffer: VertexBuffer, indexBuffer: Option<IndexBuffer>, texture: Texture,
                    shader: nat, start: nat, count: nat, instances: nat)

  /** The renderer state a draw reads: whether a canvas is bound, the
      current shader if any, and the defaults. */
  datatype Renderer = Renderer(canvasActive: bool, shader: Option<nat>, defaultShader: nat, defaultTexture: Texture)

  /** Rendering to a canvas is upside down, so the front face flips. */
  function FrontFaceFor(m: Mesh, g: Renderer): (r: VertexWinding)
    ensures g.canvasActive <==> r != m.winding
  {
    if g.canvasActive then Flipped(m.winding) else m.winding
  }

  /** `draw_instanced`: flush the sprite batch first, then set uniforms,
      culling and winding, then one instanced draw over `Range`. */
  function DrawInstancedSteps(m: Mesh, g: Renderer, instances: nat, color: Color): (r: seq<Step>)
    ensures |r| == 5 && r[0] == FlushBatch
    ensures r[4].DrawInstanced? && r[4].instances == instances
            && (r[4].start, r[4].count) == Range(m)
            && r[4].texture == (if m.texture.Some? then m.texture.value else g.defaultTexture)
            && r[4].shader == (if g.shader.Some? then g.shader.value else g.defaultShader)
            && r[4].vertexBuffer == m.vertexBuffer && r[4].indexBuffer == m.indexBuffer
    ensures r[2] == CullFace(m.backfaceCulling) && r[3] == FrontFace(FrontFaceFor(m, g))
  {
    var texture := match m.texture case Some(t) => t case None => g.defaultTexture;
    var shader := match g.shader case Some(s) => s case None => g.defaultShader;
    var (start, count) := Range(m);
    [FlushBatch, SetDefaultUniforms(shader, color), CullFace(m.backfaceCulling), FrontFace(FrontFaceFor(m, g)),
     DrawInstanced(m.vertexBuffer, m.indexBuffer, texture, shader, start, count, instances)]
  }

  /** `draw` is one instance. */
  function DrawSteps(m: Mesh, g: Renderer, color: Color): (r: seq<Step>)
    ensures |r| == 5 && r[0] == FlushBatch
    ensures r[4].DrawInstanced? && r[4].instances == 1 && (r[4].start, r[4].count) == Range(m)
    ensures forall n: nat :: r[..4] == DrawInstancedSteps(m, g, n, color)[..4]
  {
    DrawInstancedSteps(m, g, 1, color)
  }

  // Setters: each touches one field.

  function SetVertexBuffer(m: Mesh, vb: VertexBuffer): (r: Mesh)
    ensures r.vertexBuffer == vb && r.(vertexBuffer := m.vertexBuffer) == m
  {
    m.(vertexBuffer := vb)
  }

  function SetIndexBuffer(m: Mesh, ib: IndexBuffer): (r: Mesh)
    ensures r.indexBuffer == Some(ib) && r.(indexBuffer := m.indexBuffer) == m
  {
    m.(indexBuffer := Some(ib))
  }

  function ResetIndexBuffer(m: Mesh): (r: Mesh)
    ensures r.indexBuffer == None && r.(indexBuffer := m.indexBuffer) == m
  {
    m.(indexBuffer := None)
  }

  function SetTexture(m: Mesh, t: Texture): (r: Mesh)
    ensures r.texture == Some(t) && r.(texture := m.texture) == m
  {
    m.(texture := Some(t))
  }

  function ResetTexture(m: Mesh): (r: Mesh)
    ensures r.texture == None && r.(texture := m.texture) == m
  {
    m.(texture := None)
  }

  function SetFrontFaceWinding(m: Mesh, w: VertexWinding): (r: Mesh)
    ensures r.winding == w && r.(winding := m.winding) == m
  {
    m.(winding := w)
  }

  function SetBackfaceCulling(m: Mesh, enabled: bool): (r: Mesh)
    ensures r.backfaceCulling == enabled && r.(backfaceCulling := m.backfaceCulling) == m
  {
    m.(backfaceCulling := enabled)
  }

  function SetDrawRange(m: Mesh, start: nat, count: nat): (r: Mesh)
    ensures Range(r) == (start, count) && r.(drawRange := m.drawRange) == m
  {
    m.(drawRange := Some(DrawRange(start, count)))
  }

  function ResetDrawRange(m: Mesh): (r: Mesh)
    ensures r.drawRange == None && r.(drawRange := m.drawRange) == m
  {
    m.(drawRange := None)
  }

  /** A reset undoes a set: the mesh is back to drawing its whole geometry
      and the index buffer and texture return to the fallbacks. */
  lemma ResetUndoesSet(m: Mesh, ib: IndexBuffer, t: Texture, start: nat, count: nat)
    requires m.indexBuffer == None && m.texture == None && m.drawRange == None
    ensures ResetIndexBuffer(SetIndexBuffer(m, ib)) == m
    ensures ResetTexture(SetTexture(m, t)) == m
    ensures ResetDrawRange(SetDrawRange(m, start, count)) == m
  {
  }

  // ---------------------------------------------------------------------
  // GeometryBuilder

  datatype GeometryBuilder = GeometryBuilder(vertices: seq<Vertex>, indices: seq<nat>, color: Color)

  function NewBuilder(): (r: GeometryBuilder)
    ensures r.vertices == [] && r.indices == [] && r.color == White
  {
    GeometryBuilder([], [], White)
  }

  /** `set_color`: the colour for shapes added later; what is built stays. */
  function SetColor(b: GeometryBuilder, color: Color): (r: GeometryBuilder)
    ensures r.color == color && r.vertices == b.vertices && r.indices == b.indices
  {
    b.(color := color)
  }

  /** `clear`: drops the geometry but keeps the colour. */
  function Clear(b: GeometryBuilder): (r: GeometryBuilder)
    ensures r.vertices == [] && r.indices == [] && r.color == b.color
  {
    b.(vertices := [], indices := [])
  }

  /** Clearing is idempotent and, on a new builder, changes nothing. */
  lemma ClearIdempotent(b: GeometryBuilder)
    ensures Clear(Clear(b)) == Clear(b)
    ensures Clear(NewBuilder()) == NewBuilder()
  {
  }

  /** `build_mesh`: uploads the geometry into fresh buffers (whose handles
      the device picks) and wraps them in an indexed mesh. */
  function BuildMesh(b: GeometryBuilder, vbHandle: nat, ibHandle: nat): (r: Mesh)
    ensures Fresh(r) && r.indexBuffer.Some?
    ensures r.vertexBuffer == VertexBuffer(vbHandle, |b.vertices|)
    ensures Range(r) == (0, |b.indices|)
  {
    Indexed(VertexBuffer(vbHandle, |b.vertices|), IndexBuffer(ibHandle, |b.indices|))
  }
}

=== FILE: mouse.dfy ===
/** `src/input/mouse.rs`: mouse buttons as a previous and a current set of
    held buttons, from which pressed and released are derived, and the
    last known position. */
module Mouse {
  import opened Basics

  datatype MouseButton = Left | Middle | Right | X1 | X2

  datatype MouseState = MouseState(previous: set<MouseButton>, current: set<MouseButton>, position: Vec2)

  predicate IsDown(m: MouseState, b: MouseButton) { b in m.current }

  predicate IsUp(m: MouseState, b: MouseButton) { b !in m.current }

  /** Pressed: up in the previous state, down in the current one. */
  predicate IsPressed(m: MouseState, b: MouseButton) { b !in m.previous && b in m.current }

  /** Released: down in the previous state, up in the current one. */
  predicate IsReleased(m: MouseState, b: MouseButton) { b in m.previous && b !in m.current }

  /** A button is never pressed and released at once, is up exactly when
      it is not down, and changed state exactly when it is pressed or
      released. */
  lemma ButtonQueriesAgree(m: MouseState, b: MouseButton)
    ensures !(IsPressed(m, b) && IsReleased(m, b))
    ensures IsUp(m, b) <==> !IsDown(m, b)
    ensures IsPressed(m, b) || IsReleased(m, b) <==> ((b in m.previous) != IsDown(m, b))
  {
  }

  function SetButtonDown(m: MouseState, b: MouseButton): (r: MouseState)
    ensures IsDown(r, b) && r.previous == m.previous && r.position == m.position
    ensures forall c :: c != b ==> (IsDown(r, c) <==> IsDown(m, c))
  {
    m.(current := m.current + {b})
  }

  function SetButtonUp(m: MouseState, b: MouseButton): (r: MouseState)
    ensures IsUp(r, b) && r.previous == m.previous && r.position == m.position
    ensures forall c :: c != b ==> (IsDown(r, c) <==> IsDown(m, c))
  {
    m.(current := m.current - {b})
  }

  /** Holding a button that was up in the previous state makes it pressed;
      letting go of one that was down makes it released. */
  lemma SetButtonDerivesTransitions(m: MouseState, b: MouseButton)
    ensures b !in m.previous ==> IsPressed(SetButtonDown(m, b), b)
    ensures b in m.previous ==> IsReleased(SetButtonUp(m, b), b)
    ensures !IsPressed(SetButtonUp(m, b), b) && !IsReleased(SetButtonDown(m, b), b)
  {
  }

  function SetPosition(m: MouseState, position: Vec2): (r: MouseState)
    ensures r.previous == m.previous && r.current == m.current
  {
    m.(position := position)
  }

  function MouseX(m: MouseState): real { m.position.x }

  function MouseY(m: MouseState): real { m.position.y }

  /** `get_mouse_position` is `(get_mouse_x, get_mouse_y)`, and returns the
      last position set. */
  lemma PositionRoundTrip(m: MouseState, p: Vec2)
    ensures Vec2(MouseX(SetPosition(m, p)), MouseY(SetPosition(m, p))) == p
  {
  }
}

=== FILE: numeric.dfy ===
/** Integer and real helpers that spell out Rust's arithmetic where it differs
    from Dafny's: `/` on signed integers truncates toward zero, `f32::ceil`,
    `fract`, `round` and float-to-integer `as` casts (which saturate). */
module Numeric {

  const U32_MAX: int := 0xFFFF_FFFF
  const I32_MAX: int := 0x7FFF_FFFF
  const USIZE_MAX: int := 0xFFFF_FFFF_FFFF_FFFF

  /** Rust's `x as usize` for an `i32` on a 64-bit target: a negative value
      sign-extends, which is the same as wrapping it modulo 2^64. */
  function I32AsUsize(x: int): (u: nat)
    requires -(I32_MAX + 1) <= x <= I32_MAX
    ensures u <= USIZE_MAX && u % (USIZE_MAX + 1) == x % (USIZE_MAX + 1)
    ensures x >= 0 ==> u == x
    ensures x < 0 ==> u > I32_MAX
  {
    if x < 0 then x + USIZE_MAX + 1 else x
  }

  function Abs(a: int): (r: nat)
    ensures r == a || r == -a
  {
    if a < 0 then -a else a
  }

  /** Rust's `a / b` on signed integers: the quotient rounded toward zero. */
  function TruncDiv(a: int, b: int): (q: int)
    requires b != 0
    ensures Abs(q) * Abs(b) <= Abs(a) < (Abs(q) + 1) * Abs(b)
    ensures a >= 0 && b > 0 ==> q == a / b
    ensures (a >= 0) == (b > 0) ==> q >= 0
    ensures (a >= 0) != (b > 0) ==> q <= 0
  {
    var n, d := Abs(a), Abs(b);
    var m := n / d;
    DivBounds(n, d);
    var q := if (a >= 0) == (b > 0) then m else -m;
    assert Abs(q) == m && Abs(b) == d && Abs(a) == n;
    q
  }

  lemma DivBounds(n: nat, d: nat)
    requires d > 0
    ensures (n / d) * d <= n < (n / d + 1) * d
  {
    assert n == (n / d) * d + n % d;
  }

  /** `f32::floor`, as an integer. */
  function Floor(x: real): (r: int)
    ensures r as real <= x < r as real + 1.0
  {
    x.Floor
  }

  /** `f32::ceil`, as an integer. */
  function Ceil(x: real): (r: int)
    ensures x <= r as real < x + 1.0
  {
    -((-x).Floor)
  }

  /** `f32::trunc`: the integer part, rounded toward zero. */
  function Trunc(x: real): (r: int)
    ensures x >= 0.0 ==> r as real <= x < r as real + 1.0
    ensures x < 0.0 ==> r as real - 1.0 < x <= r as real
  {
    if x >= 0.0 then Floor(x) else Ceil(x)
  }

  /** `f32::fract`: what remains after removing the integer part; it keeps the
      sign of `x`. */
  function Fract(x: real): (r: real)
    ensures -1.0 < r < 1.0
    ensures x >= 0.0 ==> r >= 0.0
    ensures x < 0.0 ==> r <= 0.0
    ensures (x - r).Floor as real == x - r
  {
    x - Trunc(x) as real
  }

  /** `f32::round`: nearest integer, halfway cases away from zero. */
  function Round(x: real): (r: int)
    ensures x - 0.5 <= r as real <= x + 0.5
    ensures x >= 0.0 ==> x - 0.5 < r as real
    ensures x < 0.0 ==> r as real < x + 0.5
  {
    if x >= 0.0 then Floor(x + 0.5) else Ceil(x - 0.5)
  }

  /** A float-to-`u32` `as` cast applied to an integer value: negative values
      become 0 and values above the range become `u32::MAX`. */
  function SaturateU32(a: int): (r: nat)
    ensures r <= U32_MAX
    ensures 0 <= a <= U32_MAX ==> r == a
    ensures a < 0 ==> r == 0
    ensures a > U32_MAX ==> r == U32_MAX
  {
    if a < 0 then 0 else if a > U32_MAX then U32_MAX else a
  }

  function Max(a: int, b: int): (r: int)
    ensures r >= a && r >= b && (r == a || r == b)
  {
    if a >= b then a else b
  }

  function MaxReal(a: real, b: real): (r: real)
    ensures r >= a && r >= b && (r == a || r == b)
  {
    if a >= b then a else b
  }

  lemma MulAtLeast(d: int, m: int)
    requires d >= 1 && m > 0
    ensures d * m >= m
  {
  }

  /** Euclidean division is unique: any `q * m + r` with `0 <= r < m` is the
      quotient/remainder pair of its value. */
  lemma DivModUnique(a: int, m: int, q: int, r: int)
    requires m > 0 && 0 <= r < m && a == q * m + r
    ensures a % m == r && a / m == q
  {
    var q', r' := a / m, a % m;
    assert a == q' * m + r';
    var d := q - q';
    assert d * m == q * m - q' * m;
    assert d * m == r' - r;
    if d >= 1 {
      MulAtLeast(d, m);
    } else if d <= -1 {
      MulAtLeast(-d, m);
    }
  }

  /** Subtracting the modulus leaves the remainder unchanged. */
  lemma ModSubtract(i: int, m: int)
    requires m > 0 && i >= m
    ensures (i - m) % m == i % m
  {
    assert i == (i / m) * m + i % m;
    assert i - m == (i / m - 1) * m + i % m;
    DivModUnique(i - m, m, i / m - 1, i % m);
  }
}

=== FILE: opengl_device.dfy ===
/** `OpenGLDevice` of `src/opengl.rs`: the oldest GL wrapper. One `Buffer`
    type serves vertices and indices; its size in elements is
    `count * stride`, and `draw` counts in whole index groups of the index
    buffer's stride. Binds are elided when the cached name matches. */
module OpenGLDevice {
  import opened Wrappers
  import opened GlModel
  import Numeric

  const FloatBytes: nat := 4
  const IndexBytes: nat := 4

  datatype Buffer = Buffer(id: nat, count: nat, stride: nat)

  datatype Panic = UploadOutOfRange

  /** `Buffer::size`: the number of floats (or indices) the buffer holds. */
  function Size(b: Buffer): (n: nat)
    ensures b.stride > 0 ==> n % b.stride == 0 && n / b.stride == b.count
    ensures n == 0 <==> b.stride == 0 || b.count == 0
  {
    if b.stride > 0 then
      Numeric.DivModUnique(b.count * b.stride, b.stride, b.count, 0);
      b.count * b.stride
    else 0
  }

  function BindVertexBuffer(cache: Bindings, buffer: Buffer): (r: (Bindings, seq<Call>))
    ensures Sound(cache, r) && r.0.arrayBuffer == buffer.id
    ensures cache.arrayBuffer == buffer.id <==> r.1 == []
  {
    CachedBind(cache, ArrayBuffer, buffer.id)
  }

  function BindIndexBuffer(cache: Bindings, buffer: Buffer): (r: (Bindings, seq<Call>))
    ensures Sound(cache, r) && r.0.elementBuffer == buffer.id
    ensures cache.elementBuffer == buffer.id <==> r.1 == []
  {
    CachedBind(cache, ElementArrayBuffer, buffer.id)
  }

  function BindProgram(cache: Bindings, program: nat): (r: (Bindings, seq<Call>))
    ensures Sound(cache, r) && r.0.program == program
    ensures cache.program == program <==> r.1 == []
  {
    CachedBind(cache, ProgramTarget, program)
  }

  function BindTexture(cache: Bindings, texture: nat): (r: (Bindings, seq<Call>))
    ensures Sound(cache, r) && r.0.texture == texture
    ensures cache.texture == texture <==> r.1 == []
  {
    CachedTextureBind(cache, texture)
  }

  /** `new_vertex_buffer`: allocates `size()` floats. */
  function NewVertexBuffer(cache: Bindings, id: nat, count: nat, stride: nat): (r: (Bindings, seq<Call>))
    ensures Sound(cache, r) && r.0.arrayBuffer == id
    ensures |r.1| > 0 && r.1[|r.1| - 1] == BufferData(ArrayBuffer, count * stride * FloatBytes)
  {
    Then(cache, BindVertexBuffer(cache, Buffer(id, count, stride)),
         [BufferData(ArrayBuffer, Size(Buffer(id, count, stride)) * FloatBytes)])
  }

  /** `set_vertex_buffer_attribute`: here the stride is an argument rather
      than the buffer's. */
  function SetVertexBufferAttribute(cache: Bindings, buffer: Buffer, index: nat, size: nat, stride: nat, offset: nat)
    : (r: (Bindings, seq<Call>))
    ensures Sound(cache, r) && r.0.arrayBuffer == buffer.id
    ensures |r.1| >= 2 && r.1[|r.1| - 2..] == [VertexAttribLayout(index, size, stride * FloatBytes, offset * FloatBytes), EnableAttrib(index)]
  {
    var calls := [VertexAttribLayout(index, size, stride * FloatBytes, offset * FloatBytes), EnableAttrib(index)];
    var r := Then(cache, BindVertexBuffer(cache, buffer), calls);
    assert r.1[|r.1| - 2..] == calls;
    r
  }

  /** `set_vertex_buffer_data`: panics unless `data` fits at `offset`
      within `size()` floats. */
  function SetVertexBufferData(cache: Bindings, buffer: Buffer, data: seq<real>, offset: nat)
    : (r: Result<(Bindings, seq<Call>), Panic>)
    ensures r.Ok? <==> offset + |data| <= buffer.count * buffer.stride
    ensures r.Ok? ==> Sound(cache, r.value) && r.value.0.arrayBuffer == buffer.id
    ensures r.Ok? ==> |r.value.1| > 0 && r.value.1[|r.value.1| - 1] == BufferSubData(ArrayBuffer, offset * FloatBytes, data)
  {
    if offset + |data| > Size(buffer) then Err(UploadOutOfRange)
    else Ok(Then(cache, BindVertexBuffer(cache, buffer), [BufferSubData(ArrayBuffer, offset * FloatBytes, data)]))
  }

  function NewIndexBuffer(cache: Bindings, id: nat, count: nat, stride: nat): (r: (Bindings, seq<Call>))
    ensures Sound(cache, r) && r.0.elementBuffer == id
    ensures |r.1| > 0 && r.1[|r.1| - 1] == BufferData(ElementArrayBuffer, count * stride * IndexBytes)
  {
    Then(cache, BindIndexBuffer(cache, Buffer(id, count, stride)),
         [BufferData(ElementArrayBuffer, Size(Buffer(id, count, stride)) * IndexBytes)])
  }

  /** `set_index_buffer_data`: unlike the vertex upload, no range check. */
  function SetIndexBufferData(cache: Bindings, buffer: Buffer, data: seq<nat>, offset: nat): (r: (Bindings, seq<Call>))
    ensures Sound(cache, r) && r.0.elementBuffer == buffer.id
    ensures |r.1| > 0 && r.1[|r.1| - 1] == IndexSubData(offset * IndexBytes, data)
  {
    Then(cache, BindIndexBuffer(cache, buffer), [IndexSubData(offset * IndexBytes, data)])
  }

  function SetUniform(cache: Bindings, program: nat, name: string): (r: (Bindings, seq<Call>))
    ensures Sound(cache, r) && r.0.program == program
    ensures |r.1| > 0 && r.1[|r.1| - 1] == Uniform(program, name)
  {
    Then(cache, BindProgram(cache, program), [Uniform(program, name)])
  }

  function NewTexture(cache: Bindings, id: nat, width: int, height: int): (r: (Bindings, seq<Call>))
    ensures Sound(cache, r) && r.0.texture == id
    ensures |r.1| > 0 && r.1[|r.1| - 1] == TextureImage(width, height)
  {
    Then(cache, BindTexture(cache, id), [TextureParameters, TextureImage(width, height)])
  }

  function SetTextureData(cache: Bindings, texture: nat, data: seq<nat>, x: int, y: int, width: int, height: int)
    : (r: (Bindings, seq<Call>))
    ensures Sound(cache, r) && r.0.texture == texture
    ensures |r.1| > 0 && r.1[|r.1| - 1] == TextureSubImage(x, y, width, height, data)
  {
    Then(cache, BindTexture(cache, texture), [TextureSubImage(x, y, width, height, data)])
  }

  /** `draw`: bind program, vertex buffer, index buffer and texture, then
      draw `count` groups of the index buffer's stride. */
  function Draw(cache: Bindings, vb: Buffer, ib: Buffer, program: nat, texture: nat, count: nat)
    : (r: (Bindings, seq<Call>))
    ensures Sound(cache, r)
    ensures r.0 == Bindings(vb.id, ib.id, program, texture, cache.framebuffer)
    ensures |r.1| > 0 && r.1[|r.1| - 1] == DrawElements(count * ib.stride)
    ensures Sound(cache, (r.0, r.1[..|r.1| - 1]))
  {
    var s1 := BindProgram(cache, program);
    var s2 := BindVertexBuffer(s1.0, vb);
    var s3 := BindIndexBuffer(s2.0, ib);
    var s4 := BindTexture(s3.0, texture);
    SoundThen(cache, s1, s2);
    SoundThen(cache, (s2.0, s1.1 + s2.1), s3);
    SoundThen(cache, (s3.0, s1.1 + s2.1 + s3.1), s4);
    var binds := s1.1 + s2.1 + s3.1 + s4.1;
    assert (binds + [DrawElements(count * ib.stride)])[..|binds|] == binds;
    Then(cache, (s4.0, binds), [DrawElements(count * ib.stride)])
  }

  /** Starting from a coherent device, GL has exactly the requested objects
      bound when `draw` issues its draw call. */
  lemma DrawUsesRequestedObjects(d: Device, vb: Buffer, ib: Buffer, program: nat, texture: nat, count: nat)
    requires Valid(d)
    ensures var r := Draw(d.cache, vb, ib, program, texture, count);
            Replay(d.start, d.log + r.1[..|r.1| - 1]) == Bindings(vb.id, ib.id, program, texture, d.cache.framebuffer)
  {
    var r := Draw(d.cache, vb, ib, program, texture, count);
    CoherentAppend(d.cache, d.start, d.log, r.1[..|r.1| - 1], r.0);
  }
}

=== FILE: packer.dfy ===
/** `src/graphics/text/packer.rs`: a shelf packer for the glyph atlas.
    Glyphs are placed left to right on horizontal shelves; a glyph that
    fits on no shelf opens a new one below the last. One texel of padding
    separates neighbours. */
module Packer {
  import opened Wrappers
  import opened Textures

  const Padding: int := 1

  datatype Shelf = Shelf(currentX: int, startY: int, height: int)

  datatype ShelfPacker = ShelfPacker(texture: Texture, shelves: seq<Shelf>, nextY: int)

  /** `new`: an empty RGBA8 atlas of the given size, created on the device
      with nearest filtering; the first shelf will start one texel down. */
  function New(handle: nat, width: nat, height: nat): (r: (ShelfPacker, seq<DeviceCall>))
    ensures r.0.shelves == [] && r.0.nextY == Padding
    ensures r.0.texture == Texture(handle, width, height, Rgba8)
    ensures r.1 == WithDeviceEmpty(width, height, Nearest).value
  {
    (ShelfPacker(Texture(handle, width, height, Rgba8), [], Padding), WithDeviceEmpty(width, height, Nearest).value)
  }

  /** `resize`: a new, larger atlas; every shelf is forgotten and packing
      restarts at the very top. */
  function Resize(p: ShelfPacker, handle: nat, width: nat, height: nat): (r: (ShelfPacker, seq<DeviceCall>))
    ensures r.0.shelves == [] && r.0.nextY == 0
    ensures r.0.texture == Texture(handle, width, height, Rgba8)
    ensures r.1 == WithDeviceEmpty(width, height, Nearest).value
  {
    (ShelfPacker(Texture(handle, width, height, Rgba8), [], 0), WithDeviceEmpty(width, height, Nearest).value)
  }

  /** A shelf can take a glyph that is no taller than it and that leaves a
      texel of padding before the right edge. */
  predicate Fits(s: Shelf, textureWidth: int, w: int, h: int)
  {
    s.height >= h && textureWidth - s.currentX - Padding >= w
  }

  /** The first shelf that can take the glyph. */
  function FirstFit(shelves: seq<Shelf>, textureWidth: int, w: int, h: int): (r: Option<nat>)
    ensures r.Some? ==> r.value < |shelves| && Fits(shelves[r.value], textureWidth, w, h)
    ensures r.Some? ==> forall j :: 0 <= j < r.value ==> !Fits(shelves[j], textureWidth, w, h)
    ensures r.None? ==> forall j :: 0 <= j < |shelves| ==> !Fits(shelves[j], textureWidth, w, h)
  {
    if shelves == [] then None
    else if Fits(shelves[0], textureWidth, w, h) then Some(0)
    else match FirstFit(shelves[1..], textureWidth, w, h)
      case None => None
      case Some(i) => Some(i + 1)
  }

  /** Place on shelf `i`: the glyph goes at the shelf's cursor, which then
      moves past it and one texel of padding. */
  function UseShelf(p: ShelfPacker, i: nat, w: int): (r: (Option<(int, int)>, ShelfPacker))
    requires i < |p.shelves|
  {
    var s := p.shelves[i];
    (Some((s.currentX, s.startY)), p.(shelves := p.shelves[i := s.(currentX := s.currentX + w + Padding)]))
  }

  /** `find_space` as written: a new shelf is opened whenever the glyph
      fits vertically, whatever its width. */
  function FindSpaceAsWritten(p: ShelfPacker, w: int, h: int): (r: (Option<(int, int)>, ShelfPacker))
    ensures r.0.None? ==> r.1 == p
  {
    match FirstFit(p.shelves, p.texture.width, w, h)
    case Some(i) => UseShelf(p, i, w)
    case None =>
      if p.nextY + h < p.texture.height then
        (Some((Padding, p.nextY)),
         p.(shelves := p.shelves + [Shelf(w + Padding * 2, p.nextY, h)], nextY := p.nextY + h + Padding))
      else (None, p)
  }

  /** A glyph wider than a fresh 128-texel atlas is still given a place,
      running far past the right edge, where `find_space` should have
      reported that it does not fit. */
  lemma WideGlyphOverflows()
    ensures var p := New(0, 128, 128).0;
            && FindSpaceAsWritten(p, 200, 10).0 == Some((1, 1))
            && 1 + 200 > p.texture.width
            && FindSpace(p, 200, 10).0 == None
  {
  }

  /** `find_space`, with the width of a new shelf checked the way an
      existing shelf's is: the first shelf that fits, else a new shelf if
      there is room below and across, else nothing. */
  function FindSpace(p: ShelfPacker, w: int, h: int): (r: (Option<(int, int)>, ShelfPacker))
    ensures r.1.texture == p.texture
    ensures r.0.None? ==> r.1 == p
    ensures FirstFit(p.shelves, p.texture.width, w, h).Some? ==>
              var i := FirstFit(p.shelves, p.texture.width, w, h).value;
              && r.0 == Some((p.shelves[i].currentX, p.shelves[i].startY))
              && r.1.nextY == p.nextY && |r.1.shelves| == |p.shelves|
              && r.1.shelves[i].currentX == p.shelves[i].currentX + w + Padding
    ensures FirstFit(p.shelves, p.texture.width, w, h).None? ==>
              if p.nextY + h < p.texture.height && Padding + w + Padding <= p.texture.width then
                && r.0 == Some((Padding, p.nextY))
                && r.1.shelves == p.shelves + [Shelf(w + 2 * Padding, p.nextY, h)]
                && r.1.nextY == p.nextY + h + Padding
              else r.0 == None
  {
    match FirstFit(p.shelves, p.texture.width, w, h)
    case Some(i) => UseShelf(p, i, w)
    case None =>
      if p.nextY + h < p.texture.height && Padding + w + Padding <= p.texture.width then
        (Some((Padding, p.nextY)),
         p.(shelves := p.shelves + [Shelf(w + Padding * 2, p.nextY, h)], nextY := p.nextY + h + Padding))
      else (None, p)
  }

  /** `insert`: find a place and upload the glyph there; nothing is
      uploaded when there is no room. */
  function Insert(p: ShelfPacker, data: seq<int>, w: int, h: int): (r: (Option<(int, int)>, ShelfPacker, seq<DeviceCall>))
    ensures (r.0, r.1) == FindSpace(p, w, h)
    ensures r.0.None? ==> r.2 == []
    ensures r.0.Some? ==> r.2 == [SetTextureData(data, r.0.value.0, r.0.value.1, w, h)]
  {
    var (space, p') := FindSpace(p, w, h);
    match space
    case Some((x, y)) => (space, p', [SetTextureData(data, x, y, w, h)])
    case None => (space, p', [])
  }

  /** `insert` as written, over `FindSpaceAsWritten`. */
  function InsertAsWritten(p: ShelfPacker, data: seq<int>, w: int, h: int): (r: (Option<(int, int)>, ShelfPacker, seq<DeviceCall>))
    ensures (r.0, r.1) == FindSpaceAsWritten(p, w, h)
    ensures r.0.None? ==> r.2 == []
    ensures r.0.Some? ==> r.2 == [SetTextureData(data, r.0.value.0, r.0.value.1, w, h)]
  {
    var (space, p') := FindSpaceAsWritten(p, w, h);
    match space
    case Some((x, y)) => (space, p', [SetTextureData(data, x, y, w, h)])
    case None => (space, p', [])
  }

  /** The two searches differ only for glyphs wider than the atlas: for any
      glyph that fits across, the corrected insert is the original one. */
  lemma InsertAgreesWhenNarrow(p: ShelfPacker, data: seq<int>, w: int, h: int)
    requires Padding + w + Padding <= p.texture.width
    ensures Insert(p, data, w, h) == InsertAsWritten(p, data, w, h)
  {
  }

  /** The as-written insert uploads a 200-texel-wide glyph into a 128-texel
      atlas, where the corrected one uploads nothing. */
  lemma WideGlyphUploadedOutside(data: seq<int>)
    ensures var p := New(0, 128, 128).0;
            && InsertAsWritten(p, data, 200, 10).2 == [SetTextureData(data, 1, 1, 200, 10)]
            && Insert(p, data, 200, 10).2 == []
  {
    WideGlyphOverflows();
  }

  // ---------------------------------------------------------------------
  // Every glyph lands inside the atlas and no two glyphs overlap.

  /** A glyph's box at a position. */
  predicate Inside(pos: (int, int), size: (int, int), textureWidth: int, textureHeight: int)
  {
    0 <= pos.0 && pos.0 + size.0 <= textureWidth && 0 <= pos.1 && pos.1 + size.1 <= textureHeight
  }

  predicate Apart(a: (int, int), sa: (int, int), b: (int, int), sb: (int, int))
  {
    a.0 + sa.0 <= b.0 || b.0 + sb.0 <= a.0 || a.1 + sa.1 <= b.1 || b.1 + sb.1 <= a.1
  }

  /** A glyph already in the atlas, with the shelf it sits on. */
  datatype Placed = Placed(x: int, y: int, w: int, h: int, shelf: nat)

  /** A shelf lies above `nextY`, inside the atlas, its cursor past the
      left padding. */
  predicate ShelfOk(p: ShelfPacker, s: Shelf)
  {
    && 0 <= s.startY && 0 <= s.height && 1 <= s.currentX
    && s.startY + s.height < p.nextY && s.currentX <= p.texture.width
  }

  /** A glyph sits on its shelf, left of the shelf's cursor. */
  predicate PlacedOn(p: ShelfPacker, q: Placed)
  {
    && q.shelf < |p.shelves|
    && q.y == p.shelves[q.shelf].startY
    && 0 <= q.h <= p.shelves[q.shelf].height
    && 1 <= q.x && 0 <= q.w
    && q.x + q.w < p.shelves[q.shelf].currentX
  }

  predicate Stacked(shelves: seq<Shelf>)
  {
    forall i, j :: 0 <= i < j < |shelves| ==> shelves[i].startY + shelves[i].height < shelves[j].startY
  }

  /** Glyphs on one shelf were placed left to right. */
  predicate LeftToRight(placed: seq<Option<Placed>>)
  {
    forall a, b :: 0 <= a < b < |placed| && placed[a].Some? && placed[b].Some? && placed[a].value.shelf == placed[b].value.shelf ==>
      placed[a].value.x + placed[a].value.w < placed[b].value.x
  }

  /** Shelves are stacked top to bottom above `nextY` and each shelf's
      cursor lies past every glyph on it. `placed` has an entry per request,
      `None` for those that found no room. */
  ghost predicate Inv(p: ShelfPacker, placed: seq<Option<Placed>>)
  {
    && 0 <= p.nextY <= p.texture.height
    && (forall i :: 0 <= i < |p.shelves| ==> ShelfOk(p, p.shelves[i]))
    && Stacked(p.shelves)
    && (forall k :: 0 <= k < |placed| && placed[k].Some? ==> PlacedOn(p, placed[k].value))
    && LeftToRight(placed)
  }

  lemma NewInv(handle: nat, width: nat, height: nat)
    requires height >= 1
    ensures Inv(New(handle, width, height).0, [])
  {
  }

  lemma ResizeInv(p: ShelfPacker, handle: nat, width: nat, height: nat)
    ensures Inv(Resize(p, handle, width, height).0, [])
  {
  }

  function Pos(q: Placed): (int, int) { (q.x, q.y) }
  function Size(q: Placed): (int, int) { (q.w, q.h) }

  /** Every placed glyph is inside a `width` by `height` atlas and apart
      from every other. */
  ghost predicate PlacedApart(placed: seq<Option<Placed>>, width: int, height: int)
  {
    && (forall k :: 0 <= k < |placed| && placed[k].Some? ==>
          Inside(Pos(placed[k].value), Size(placed[k].value), width, height))
    && (forall a, b :: 0 <= a < b < |placed| && placed[a].Some? && placed[b].Some? ==>
          Apart(Pos(placed[a].value), Size(placed[a].value), Pos(placed[b].value), Size(placed[b].value)))
  }

  /** Under the invariant every glyph is inside the atlas and apart from
      every other. */
  lemma InvSound(p: ShelfPacker, placed: seq<Option<Placed>>)
    requires Inv(p, placed)
    ensures PlacedApart(placed, p.texture.width, p.texture.height)
  {
    forall k | 0 <= k < |placed| && placed[k].Some?
      ensures Inside(Pos(placed[k].value), Size(placed[k].value), p.texture.width, p.texture.height)
    {
      assert PlacedOn(p, placed[k].value) && ShelfOk(p, p.shelves[placed[k].value.shelf]);
    }
    forall a, b | 0 <= a < b < |placed| && placed[a].Some? && placed[b].Some?
      ensures Apart(Pos(placed[a].value), Size(placed[a].value), Pos(placed[b].value), Size(placed[b].value))
    {
      var qa, qb := placed[a].value, placed[b].value;
      assert PlacedOn(p, qa) && PlacedOn(p, qb);
      if qa.shelf < qb.shelf {
        assert qa.y + qa.h <= p.shelves[qa.shelf].startY + p.shelves[qa.shelf].height;
      } else if qb.shelf < qa.shelf {
        assert qb.y + qb.h <= p.shelves[qb.shelf].startY + p.shelves[qb.shelf].height;
      }
    }
  }

  /** Placing on an existing shelf keeps the invariant. */
  lemma UseShelfInv(p: ShelfPacker, placed: seq<Option<Placed>>, i: nat, w: int, h: int)
    requires Inv(p, placed) && 0 <= w && 0 <= h
    requires i < |p.shelves| && Fits(p.shelves[i], p.texture.width, w, h)
    ensures Inv(UseShelf(p, i, w).1, placed + [Some(Placed(p.shelves[i].currentX, p.shelves[i].startY, w, h, i))])
  {
    var s := p.shelves[i];
    var p' := UseShelf(p, i, w).1;
    var placed' := placed + [Some(Placed(s.currentX, s.startY, w, h, i))];
    assert p'.shelves[i] == s.(currentX := s.currentX + w + Padding);
    assert forall j :: 0 <= j < |p.shelves| && j != i ==> p'.shelves[j] == p.shelves[j];
    forall j | 0 <= j < |p'.shelves|
      ensures ShelfOk(p', p'.shelves[j])
    {
      assert ShelfOk(p, p.shelves[j]);
    }
    forall k | 0 <= k < |placed'| && placed'[k].Some?
      ensures PlacedOn(p', placed'[k].value)
    {
      if k < |placed| {
        assert placed'[k] == placed[k] && PlacedOn(p, placed[k].value);
      }
    }
    forall a, b | 0 <= a < b < |placed'| && placed'[a].Some? && placed'[b].Some? && placed'[a].value.shelf == placed'[b].value.shelf
      ensures placed'[a].value.x + placed'[a].value.w < placed'[b].value.x
    {
      assert placed'[a] == placed[a] && PlacedOn(p, placed[a].value);
      if b < |placed| {
        assert placed'[b] == placed[b];
      }
    }
  }

  /** Opening a new shelf keeps the invariant. */
  lemma NewShelfInv(p: ShelfPacker, placed: seq<Option<Placed>>, w: int, h: int)
    requires Inv(p, placed) && 0 <= w && 0 <= h
    requires p.nextY + h < p.texture.height && Padding + w + Padding <= p.texture.width
    ensures Inv(p.(shelves := p.shelves + [Shelf(w + Padding * 2, p.nextY, h)], nextY := p.nextY + h + Padding),
                placed + [Some(Placed(Padding, p.nextY, w, h, |p.shelves|))])
  {
    var p' := p.(shelves := p.shelves + [Shelf(w + Padding * 2, p.nextY, h)], nextY := p.nextY + h + Padding);
    var placed' := placed + [Some(Placed(Padding, p.nextY, w, h, |p.shelves|))];
    forall j | 0 <= j < |p'.shelves|
      ensures ShelfOk(p', p'.shelves[j])
    {
      if j < |p.shelves| {
        assert p'.shelves[j] == p.shelves[j] && ShelfOk(p, p.shelves[j]);
      }
    }
    forall a, b | 0 <= a < b < |p'.shelves|
      ensures p'.shelves[a].startY + p'.shelves[a].height < p'.shelves[b].startY
    {
      assert p'.shelves[a] == p.shelves[a] && ShelfOk(p, p.shelves[a]);
    }
    forall k | 0 <= k < |placed'| && placed'[k].Some?
      ensures PlacedOn(p', placed'[k].value)
    {
      if k < |placed| {
        assert placed'[k] == placed[k] && PlacedOn(p, placed[k].value);
        assert p'.shelves[placed[k].value.shelf] == p.shelves[placed[k].value.shelf];
      }
    }
    forall a, b | 0 <= a < b < |placed'| && placed'[a].Some? && placed'[b].Some? && placed'[a].value.shelf == placed'[b].value.shelf
      ensures placed'[a].value.x + placed'[a].value.w < placed'[b].value.x
    {
      assert placed'[a] == placed[a] && PlacedOn(p, placed[a].value);
      if b < |placed| {
        assert placed'[b] == placed[b];
      }
    }
  }

  /** The shelf a request lands on: the first that fits, else a new one. */
  function ShelfFor(p: ShelfPacker, w: int, h: int): nat
  {
    match FirstFit(p.shelves, p.texture.width, w, h) case Some(i) => i case None => |p.shelves|
  }

  /** What one request adds to the record of placements. */
  function Placement(p: ShelfPacker, w: int, h: int): (r: Option<Placed>)
    ensures r.Some? <==> FindSpace(p, w, h).0.Some?
    ensures r.Some? ==> Pos(r.value) == FindSpace(p, w, h).0.value && Size(r.value) == (w, h)
  {
    var pos := FindSpace(p, w, h).0;
    if pos.Some? then Some(Placed(pos.value.0, pos.value.1, w, h, ShelfFor(p, w, h))) else None
  }

  /** Each request keeps the invariant, whether it found room or not. */
  lemma FindSpaceInv(p: ShelfPacker, placed: seq<Option<Placed>>, w: int, h: int)
    requires Inv(p, placed) && 0 <= w && 0 <= h
    ensures Inv(FindSpace(p, w, h).1, placed + [Placement(p, w, h)])
  {
    if FindSpace(p, w, h).0.Some? {
      match FirstFit(p.shelves, p.texture.width, w, h)
      case Some(i) => UseShelfInv(p, placed, i, w, h);
      case None => NewShelfInv(p, placed, w, h);
    } else {
      var placed' := placed + [None];
      assert forall k :: 0 <= k < |placed| ==> placed'[k] == placed[k];
    }
  }

  /** `placed` records exactly the positions handed out, each with the
      size that was asked for. */
  ghost predicate Records(pos: seq<Option<(int, int)>>, placed: seq<Option<Placed>>, sizes: seq<(int, int)>)
  {
    && |pos| == |sizes| && |placed| == |sizes|
    && (forall k :: 0 <= k < |sizes| ==> (pos[k].Some? <==> placed[k].Some?))
    && (forall k :: 0 <= k < |sizes| && placed[k].Some? ==> Pos(placed[k].value) == pos[k].value && Size(placed[k].value) == sizes[k])
  }

  /** What holds of the placements holds of the positions they record. */
  lemma RecordedApart(pos: seq<Option<(int, int)>>, placed: seq<Option<Placed>>, sizes: seq<(int, int)>, width: int, height: int)
    requires Records(pos, placed, sizes) && PlacedApart(placed, width, height)
    ensures forall k :: 0 <= k < |sizes| && pos[k].Some? ==> Inside(pos[k].value, sizes[k], width, height)
    ensures forall a, b :: 0 <= a < b < |sizes| && pos[a].Some? && pos[b].Some? ==>
              Apart(pos[a].value, sizes[a], pos[b].value, sizes[b])
  {
    forall a, b | 0 <= a < b < |sizes| && pos[a].Some? && pos[b].Some?
      ensures Apart(pos[a].value, sizes[a], pos[b].value, sizes[b])
    {
      assert placed[a].Some? && placed[b].Some?;
    }
  }

  /** Packing a sequence of glyph sizes, as `FontCache` does one glyph at
      a time: a position or `None` for each, and what was placed. */
  function PackAll(p: ShelfPacker, sizes: seq<(int, int)>): (r: (seq<Option<(int, int)>>, ShelfPacker, seq<Option<Placed>>))
    ensures |r.0| == |sizes| && |r.2| == |sizes|
    ensures r.1.texture == p.texture
    decreases |sizes|
  {
    if sizes == [] then ([], p, [])
    else
      var (pos, p') := FindSpace(p, sizes[0].0, sizes[0].1);
      var (rest, p'', placed) := PackAll(p', sizes[1..]);
      ([pos] + rest, p'', [Placement(p, sizes[0].0, sizes[0].1)] + placed)
  }

  /** Each request gets one position, and the placements record exactly
      those positions with the sizes asked for. */
  lemma {:induction false} PackAllRecords(p: ShelfPacker, sizes: seq<(int, int)>)
    ensures Records(PackAll(p, sizes).0, PackAll(p, sizes).2, sizes)
    decreases |sizes|
  {
    if sizes != [] {
      var (w, h) := sizes[0];
      PackAllRecords(FindSpace(p, w, h).1, sizes[1..]);
    }
  }

  lemma {:induction false} PackAllInv(p: ShelfPacker, placed: seq<Option<Placed>>, sizes: seq<(int, int)>)
    requires Inv(p, placed)
    requires forall i :: 0 <= i < |sizes| ==> 0 <= sizes[i].0 && 0 <= sizes[i].1
    ensures Inv(PackAll(p, sizes).1, placed + PackAll(p, sizes).2)
    decreases |sizes|
  {
    if sizes != [] {
      var (w, h) := sizes[0];
      var p' := FindSpace(p, w, h).1;
      FindSpaceInv(p, placed, w, h);
      assert forall i :: 0 <= i < |sizes[1..]| ==> sizes[1..][i] == sizes[i + 1];
      var tail := PackAll(p', sizes[1..]);
      assert PackAll(p, sizes).1 == tail.1;
      assert PackAll(p, sizes).2 == [Placement(p, w, h)] + tail.2;
      PackAllInv(p', placed + [Placement(p, w, h)], sizes[1..]);
      assert placed + [Placement(p, w, h)] + tail.2 == placed + PackAll(p, sizes).2;
    }
  }

  /** Whatever glyph sizes arrive, a fresh atlas holds each placed glyph
      inside its bounds and no two placed glyphs overlap. */
  lemma {:induction false} PackedGlyphsApart(handle: nat, width: nat, height: nat, sizes: seq<(int, int)>)
    requires height >= 1
    requires forall i :: 0 <= i < |sizes| ==> 0 <= sizes[i].0 && 0 <= sizes[i].1
    ensures var pos := PackAll(New(handle, width, height).0, sizes).0;
            && (forall k :: 0 <= k < |sizes| && pos[k].Some? ==> Inside(pos[k].value, sizes[k], width, height))
            && (forall a, b :: 0 <= a < b < |sizes| && pos[a].Some? && pos[b].Some? ==>
                  Apart(pos[a].value, sizes[a], pos[b].value, sizes[b]))
  {
    var p := New(handle, width, height).0;
    var r := PackAll(p, sizes);
    NewInv(handle, width, height);
    PackAllInv(p, [], sizes);
    assert [] + r.2 == r.2;
    InvSound(r.1, r.2);
    PackAllRecords(p, sizes);
    RecordedApart(r.0, r.2, sizes, width, height);
  }
}

=== FILE: quad_batcher.dfy ===
/** The quad renderer of `src/graphics.rs`. Quads are queued as interleaved
    vertex data (x, y, u, v, r, g, b, a per vertex, four vertices per quad)
    and sent to the GPU in one draw call when the batch is full, when the
    texture, shader or canvas changes, or when the frame is presented. GL
    calls are recorded in a log instead of being issued. */
module QuadBatcher {
  import opened Basics
  import opened Wrappers
  import opened Drawable
  import QuadIndices

  const MaxSprites: nat := 2048
  const MaxVertices: nat := MaxSprites * 4
  const MaxIndices: nat := MaxSprites * 6
  const VertexStride: nat := 8
  /** Floats queued per quad: four vertices of `VertexStride` floats. */
  const QuadFloats: nat := 4 * VertexStride

  datatype ActiveTexture = FontCache | UserTexture(texture: nat)
  datatype ActiveShader = DefaultShader | UserShader(shader: nat)
  datatype ActiveCanvas = WindowCanvas | UserCanvas(canvas: nat, width: int, height: int)
  datatype FrontFace = Clockwise | CounterClockwise

  /** The projection a flush hands to the shader. */
  datatype Projection = WindowOrtho(width: int, height: int) | CanvasProjection(canvas: nat)

  datatype GlCall =
    | SetProjection(shader: ActiveShader, projection: Projection)
    | UploadVertices(data: seq<real>)
    | DrawElements(texture: ActiveTexture, shader: ActiveShader, count: int)
    | BindCanvas(target: Option<nat>)
    | SetFrontFace(face: FrontFace)
    | Viewport(x: int, y: int, width: int, height: int)
    | SwapBuffers

  datatype Graphics = Graphics(
    indices: seq<nat>,
    texture: ActiveTexture,
    shader: ActiveShader,
    canvas: ActiveCanvas,
    windowProjection: (int, int),
    vertexData: seq<real>,
    elementCapacity: int,
    elementCount: int,
    log: seq<GlCall>)

  /** The quad's corner coordinates and texture coordinates, as passed to
      `push_quad`. */
  datatype Quad = Quad(x1: real, y1: real, x2: real, y2: real, u1: real, v1: real, u2: real, v2: real)

  datatype Vertex = Vertex(x: real, y: real, u: real, v: real, color: Color)

  /** The batch invariant: the element count stays within capacity, counts
      whole quads, and matches the queued vertex data. */
  ghost predicate Valid(g: Graphics)
  {
    && g.elementCapacity == MaxIndices
    && 0 <= g.elementCount <= g.elementCapacity
    && g.elementCount % 6 == 0
    && |g.vertexData| == g.elementCount / 6 * QuadFloats
  }

  /** `GraphicsContext::new`: font-cache texture, default shader, window
      canvas, an empty queue and the generated index buffer. */
  function New(windowWidth: int, windowHeight: int): (g: Graphics)
    ensures Valid(g) && g.vertexData == [] && g.log == []
    ensures |g.indices| == MaxIndices
    ensures forall i :: 0 <= i < MaxIndices ==> g.indices[i] < MaxVertices
  {
    var indices := QuadIndices.Generate(6 * MaxSprites);
    QuadIndices.IndicesBounded(MaxSprites);
    Graphics(indices, FontCache, DefaultShader, WindowCanvas,
             (windowWidth, windowHeight), [], MaxIndices, 0, [])
  }

  function Flatten(vs: seq<Vertex>): (r: seq<real>)
    ensures |r| == VertexStride * |vs|
  {
    if vs == [] then []
    else
      var v := vs[0];
      [v.x, v.y, v.u, v.v, v.color.r, v.color.g, v.color.b, v.color.a] + Flatten(vs[1..])
  }

  /** `flush`: with queued data, set the projection uniform, upload the data
      and draw `element_count` elements, then empty the queue; with nothing
      queued, do nothing. */
  function Flush(g: Graphics): (r: Graphics)
    ensures r.vertexData == []
    ensures Valid(g) ==> Valid(r) && r.elementCount == 0
    ensures g.vertexData == [] ==> r == g
    ensures g.vertexData != [] ==>
      && r == g.(vertexData := [], elementCount := 0, log := r.log)
      && r.log == g.log + [SetProjection(g.shader, CurrentProjection(g)),
                           UploadVertices(g.vertexData),
                           DrawElements(g.texture, g.shader, g.elementCount)]
  {
    if g.vertexData == [] then g
    else
      g.(vertexData := [], elementCount := 0,
         log := g.log + [SetProjection(g.shader, CurrentProjection(g)),
                         UploadVertices(g.vertexData),
                         DrawElements(g.texture, g.shader, g.elementCount)])
  }

  function CurrentProjection(g: Graphics): Projection
  {
    match g.canvas
    case WindowCanvas => WindowOrtho(g.windowProjection.0, g.windowProjection.1)
    case UserCanvas(c, _, _) => CanvasProjection(c)
  }

  /** The four vertices `push_quad` queues. Reversed extents are normalised
      first, swapping the matching texture coordinates along with them. With
      a non-zero rotation the corners are rotated with `sin` and `cos`, the
      sine and cosine of `params.rotation`. */
  function QuadVertices(q: Quad, params: DrawParams, sin: real, cos: real): seq<Vertex>
  {
    var x := XExtent(q, params);
    var y := YExtent(q, params);
    [Corner(params, x.lo, y.lo, x.tlo, y.tlo, sin, cos), Corner(params, x.lo, y.hi, x.tlo, y.thi, sin, cos),
     Corner(params, x.hi, y.hi, x.thi, y.thi, sin, cos), Corner(params, x.hi, y.lo, x.thi, y.tlo, sin, cos)]
  }

  function XExtent(q: Quad, params: DrawParams): Extent
  {
    Ordered((q.x1 - params.origin.x) * params.scale.x, (q.x2 - params.origin.x) * params.scale.x, q.u1, q.u2)
  }

  function YExtent(q: Quad, params: DrawParams): Extent
  {
    Ordered((q.y1 - params.origin.y) * params.scale.y, (q.y2 - params.origin.y) * params.scale.y, q.v1, q.v2)
  }

  /** A vertex at offset `(fx, fy)` from the position, rotated when the
      rotation is non-zero. */
  function Corner(params: DrawParams, fx: real, fy: real, u: real, v: real, sin: real, cos: real): Vertex
  {
    var px, py := params.position.x, params.position.y;
    if params.rotation == 0.0 then Vertex(px + fx, py + fy, u, v, params.color)
    else Vertex(px + cos * fx - sin * fy, py + sin * fx + cos * fy, u, v, params.color)
  }

  /** `push_quad`: flush first if the batch is full, then queue one quad's 32
      floats and count its six indices. */
  function PushQuad(g: Graphics, q: Quad, params: DrawParams, sin: real, cos: real): (r: Graphics)
    ensures var pre := if g.elementCount >= g.elementCapacity then Flush(g) else g;
      && r.vertexData == pre.vertexData + Flatten(QuadVertices(q, params, sin, cos))
      && r.elementCount == pre.elementCount + 6
      && r.log == pre.log
    ensures |r.vertexData| == (if g.elementCount >= g.elementCapacity && g.vertexData != [] then 0 else |g.vertexData|) + QuadFloats
    ensures g.elementCount < g.elementCapacity ==> r.log == g.log
    ensures r.texture == g.texture && r.shader == g.shader && r.canvas == g.canvas
  {
    var pre := if g.elementCount >= g.elementCapacity then Flush(g) else g;
    pre.(vertexData := pre.vertexData + Flatten(QuadVertices(q, params, sin, cos)),
         elementCount := pre.elementCount + 6)
  }

  /** `set_texture_ex`: flush and switch only when the texture differs. */
  function SetTexture(g: Graphics, texture: ActiveTexture): (r: Graphics)
    ensures r.texture == texture
    ensures texture == g.texture ==> r == g
    ensures texture != g.texture ==> r == Flush(g).(texture := texture)
  {
    if texture != g.texture then Flush(g).(texture := texture) else g
  }

  /** `set_shader_ex`: flush and switch only when the shader differs. */
  function SetShader(g: Graphics, shader: ActiveShader): (r: Graphics)
    ensures r.shader == shader
    ensures shader == g.shader ==> r == g
    ensures shader != g.shader ==> r == Flush(g).(shader := shader)
  {
    if shader != g.shader then Flush(g).(shader := shader) else g
  }

  /** `set_canvas_ex`: on a change, flush, switch, and point GL at the new
      target: the window (counter-clockwise front faces, viewport of the
      window's size) or the canvas (clockwise, viewport of the canvas's size).
      `windowWidth`/`windowHeight` are the window's current size. */
  function SetCanvas(g: Graphics, canvas: ActiveCanvas, windowWidth: int, windowHeight: int): (r: Graphics)
    ensures r.canvas == canvas
    ensures canvas == g.canvas ==> r == g
    ensures canvas != g.canvas ==>
      && r.vertexData == [] && (Valid(g) ==> Valid(r) && r.elementCount == 0)
      && r.log == Flush(g).log + CanvasCalls(canvas, windowWidth, windowHeight)
  {
    if canvas != g.canvas then
      var f := Flush(g).(canvas := canvas);
      f.(log := f.log + CanvasCalls(canvas, windowWidth, windowHeight))
    else g
  }

  function CanvasCalls(canvas: ActiveCanvas, windowWidth: int, windowHeight: int): seq<GlCall>
  {
    match canvas
    case WindowCanvas => [BindCanvas(None), SetFrontFace(CounterClockwise), Viewport(0, 0, windowWidth, windowHeight)]
    case UserCanvas(c, w, h) => [BindCanvas(Some(c)), SetFrontFace(Clockwise), Viewport(0, 0, w, h)]
  }

  /** `present`: flush, then swap buffers. */
  function Present(g: Graphics): (r: Graphics)
    ensures r.vertexData == [] && (Valid(g) ==> Valid(r) && r.elementCount == 0)
    ensures r.log == Flush(g).log + [SwapBuffers]
  {
    var f := Flush(g);
    f.(log := f.log + [SwapBuffers])
  }

  /** `set_window_projection`: store the new projection size; touch the
      viewport only while drawing to the window. */
  function SetWindowProjection(g: Graphics, width: int, height: int): (r: Graphics)
    ensures r.windowProjection == (width, height)
    ensures g.canvas.WindowCanvas? ==> r.log == g.log + [Viewport(0, 0, width, height)]
    ensures !g.canvas.WindowCanvas? ==> r.log == g.log
    ensures r.vertexData == g.vertexData && r.canvas == g.canvas
  {
    var h := g.(windowProjection := (width, height));
    if g.canvas.WindowCanvas? then h.(log := h.log + [Viewport(0, 0, width, height)]) else h
  }

  /** Texture coordinates stay with their corner: after normalisation each
      upright vertex sits on one of the two transformed x extents together
      with that extent's `u`, and likewise for y and `v`; the four vertices
      run top-left, bottom-left, bottom-right, top-right. */
  lemma UprightQuadCorners(q: Quad, params: DrawParams, sin: real, cos: real)
    requires params.rotation == 0.0
    ensures var vs := QuadVertices(q, params, sin, cos);
      var px, py := params.position.x, params.position.y;
      var fx1 := (q.x1 - params.origin.x) * params.scale.x;
      var fx2 := (q.x2 - params.origin.x) * params.scale.x;
      var fy1 := (q.y1 - params.origin.y) * params.scale.y;
      var fy2 := (q.y2 - params.origin.y) * params.scale.y;
      && |vs| == 4
      && vs[0].x == vs[1].x <= vs[2].x == vs[3].x
      && vs[0].y == vs[3].y <= vs[1].y == vs[2].y
      && (forall k :: 0 <= k < 4 ==>
            && vs[k].color == params.color
            && ((vs[k].x == px + fx1 && vs[k].u == q.u1) || (vs[k].x == px + fx2 && vs[k].u == q.u2))
            && ((vs[k].y == py + fy1 && vs[k].v == q.v1) || (vs[k].y == py + fy2 && vs[k].v == q.v2)))
  {
  }

  /** The rotated formula generalises the upright one: at sine 0 and cosine 1
      it places every vertex where the upright branch does. */
  lemma ZeroRotationAgrees(q: Quad, params: DrawParams, sin: real, cos: real)
    requires params.rotation != 0.0
    ensures QuadVertices(q, params, 0.0, 1.0) == QuadVertices(q, params.(rotation := 0.0), sin, cos)
  {
    var upright := params.(rotation := 0.0);
    var x := XExtent(q, params);
    var y := YExtent(q, params);
    assert XExtent(q, upright) == x && YExtent(q, upright) == y;
    var rotated := QuadVertices(q, params, 0.0, 1.0);
    var plain := QuadVertices(q, upright, sin, cos);
    assert rotated == [Corner(params, x.lo, y.lo, x.tlo, y.tlo, 0.0, 1.0), Corner(params, x.lo, y.hi, x.tlo, y.thi, 0.0, 1.0),
                       Corner(params, x.hi, y.hi, x.thi, y.thi, 0.0, 1.0), Corner(params, x.hi, y.lo, x.thi, y.tlo, 0.0, 1.0)];
    assert plain == [Corner(upright, x.lo, y.lo, x.tlo, y.tlo, sin, cos), Corner(upright, x.lo, y.hi, x.tlo, y.thi, sin, cos),
                     Corner(upright, x.hi, y.hi, x.thi, y.thi, sin, cos), Corner(upright, x.hi, y.lo, x.thi, y.tlo, sin, cos)];
    CornerAgrees(params, x.lo, y.lo, x.tlo, y.tlo, sin, cos);
    CornerAgrees(params, x.lo, y.hi, x.tlo, y.thi, sin, cos);
    CornerAgrees(params, x.hi, y.hi, x.thi, y.thi, sin, cos);
    CornerAgrees(params, x.hi, y.lo, x.thi, y.tlo, sin, cos);
  }

  lemma CornerAgrees(params: DrawParams, fx: real, fy: real, u: real, v: real, sin: real, cos: real)
    requires params.rotation != 0.0
    ensures Corner(params, fx, fy, u, v, 0.0, 1.0) == Corner(params.(rotation := 0.0), fx, fy, u, v, sin, cos)
  {
  }

  /** The observable operations on the renderer. */
  datatype Op =
    | PushOp(q: Quad, params: DrawParams, sin: real, cos: real)
    | TextureOp(texture: ActiveTexture)
    | ShaderOp(shader: ActiveShader)
    | CanvasOp(canvas: ActiveCanvas, windowWidth: int, windowHeight: int)
    | FlushOp
    | PresentOp
    | ProjectionOp(width: int, height: int)

  function Step(g: Graphics, op: Op): Graphics
  {
    match op
    case PushOp(q, params, sin, cos) => PushQuad(g, q, params, sin, cos)
    case TextureOp(t) => SetTexture(g, t)
    case ShaderOp(sh) => SetShader(g, sh)
    case CanvasOp(c, w, h) => SetCanvas(g, c, w, h)
    case FlushOp => Flush(g)
    case PresentOp => Present(g)
    case ProjectionOp(w, h) => SetWindowProjection(g, w, h)
  }

  function Run(g: Graphics, ops: seq<Op>): Graphics
    decreases |ops|
  {
    if ops == [] then g else Run(Step(g, ops[0]), ops[1..])
  }

  /** The vertex floats the pushes in `ops` queue, in order. */
  function Pushed(ops: seq<Op>): seq<real>
  {
    if ops == [] then []
    else
      (match ops[0]
       case PushOp(q, params, sin, cos) => Flatten(QuadVertices(q, params, sin, cos))
       case _ => []) + Pushed(ops[1..])
  }

  function PushCount(ops: seq<Op>): nat
  {
    if ops == [] then 0 else (if ops[0].PushOp? then 1 else 0) + PushCount(ops[1..])
  }

  /** All vertex data uploaded in a log, in order. */
  function Uploaded(log: seq<GlCall>): seq<real>
  {
    if log == [] then []
    else (if log[0].UploadVertices? then log[0].data else []) + Uploaded(log[1..])
  }

  /** The total element count drawn in a log. */
  function Drawn(log: seq<GlCall>): int
  {
    if log == [] then 0
    else (if log[0].DrawElements? then log[0].count else 0) + Drawn(log[1..])
  }

  /** Every draw call in a log draws exactly the quads uploaded just before it. */
  ghost predicate DrawsMatchUploads(log: seq<GlCall>)
  {
    forall i :: 0 <= i < |log| && log[i].DrawElements? ==>
      && i > 0 && log[i - 1].UploadVertices?
      && log[i].count > 0 && log[i].count % 6 == 0
      && |log[i - 1].data| == log[i].count / 6 * QuadFloats
  }

  lemma {:induction false} UploadedAppend(a: seq<GlCall>, b: seq<GlCall>)
    ensures Uploaded(a + b) == Uploaded(a) + Uploaded(b)
    ensures Drawn(a + b) == Drawn(a) + Drawn(b)
    decreases |a|
  {
    if a == [] {
      assert a + b == b;
    } else {
      assert (a + b)[1..] == a[1..] + b;
      UploadedAppend(a[1..], b);
    }
  }

  lemma DrawsMatchAppend(a: seq<GlCall>, b: seq<GlCall>)
    requires DrawsMatchUploads(a) && DrawsMatchUploads(b)
    requires |b| > 0 ==> !b[0].DrawElements?
    ensures DrawsMatchUploads(a + b)
  {
    var ab := a + b;
    forall i | 0 <= i < |ab| && ab[i].DrawElements?
      ensures i > 0 && ab[i - 1].UploadVertices? && ab[i].count > 0 && ab[i].count % 6 == 0
      ensures |ab[i - 1].data| == ab[i].count / 6 * QuadFloats
    {
      if i >= |a| {
        assert ab[i] == b[i - |a|];
        assert ab[i - 1] == b[i - 1 - |a|];
      }
    }
  }

  lemma {:induction false} NoUploads(log: seq<GlCall>)
    requires forall i :: 0 <= i < |log| ==> !log[i].UploadVertices? && !log[i].DrawElements?
    ensures Uploaded(log) == [] && Drawn(log) == 0 && DrawsMatchUploads(log)
    decreases |log|
  {
    if log != [] {
      NoUploads(log[1..]);
    }
  }

  /** A flush of a valid, non-empty batch logs an upload-then-draw pair that
      agree with each other. */
  lemma FlushLog(g: Graphics)
    requires Valid(g) && DrawsMatchUploads(g.log)
    ensures DrawsMatchUploads(Flush(g).log)
    ensures Uploaded(Flush(g).log) == Uploaded(g.log) + g.vertexData
    ensures Drawn(Flush(g).log) == Drawn(g.log) + g.elementCount
  {
    if g.vertexData != [] {
      var tail := [SetProjection(g.shader, CurrentProjection(g)),
                   UploadVertices(g.vertexData),
                   DrawElements(g.texture, g.shader, g.elementCount)];
      assert g.elementCount != 0;
      assert Uploaded(tail[2..]) == [] + Uploaded(tail[3..]);
      assert Uploaded(tail[1..]) == g.vertexData + Uploaded(tail[2..]);
      assert Uploaded(tail) == [] + Uploaded(tail[1..]);
      assert Drawn(tail[2..]) == g.elementCount + Drawn(tail[3..]);
      assert Drawn(tail[1..]) == 0 + Drawn(tail[2..]);
      assert Drawn(tail) == 0 + Drawn(tail[1..]);
      DrawsMatchAppend(g.log, tail);
      UploadedAppend(g.log, tail);
    }
  }

  /** What `StepConserves` promises about one step from `g` to `r`. */
  ghost predicate Conserves(g: Graphics, r: Graphics, ops: seq<Op>)
  {
    && Valid(r) && DrawsMatchUploads(r.log)
    && Uploaded(r.log) + r.vertexData == Uploaded(g.log) + g.vertexData + Pushed(ops)
    && Drawn(r.log) + r.elementCount == Drawn(g.log) + g.elementCount + 6 * PushCount(ops)
  }

  lemma PushConserves(g: Graphics, q: Quad, params: DrawParams, sin: real, cos: real)
    requires Valid(g) && DrawsMatchUploads(g.log)
    ensures Conserves(g, PushQuad(g, q, params, sin, cos), [PushOp(q, params, sin, cos)])
  {
    var op := PushOp(q, params, sin, cos);
    assert Pushed([op]) == Flatten(QuadVertices(q, params, sin, cos)) + Pushed([]);
    assert PushCount([op]) == 1 + PushCount([]);
    FlushLog(g);
    var pre := if g.elementCount >= g.elementCapacity then Flush(g) else g;
    var r := PushQuad(g, q, params, sin, cos);
    assert Valid(pre);
    assert pre.elementCount <= MaxIndices - 6;
    assert r.elementCount / 6 == pre.elementCount / 6 + 1;
  }

  /** Appending calls that neither upload nor draw keeps the log's draws
      matched and adds nothing uploaded or drawn. */
  lemma AppendCalls(log: seq<GlCall>, calls: seq<GlCall>)
    requires DrawsMatchUploads(log)
    requires forall i :: 0 <= i < |calls| ==> !calls[i].UploadVertices? && !calls[i].DrawElements?
    ensures DrawsMatchUploads(log + calls)
    ensures Uploaded(log + calls) == Uploaded(log) && Drawn(log + calls) == Drawn(log)
  {
    NoUploads(calls);
    DrawsMatchAppend(log, calls);
    UploadedAppend(log, calls);
    assert Uploaded(log) + [] == Uploaded(log);
  }

  lemma PushedNonPush(op: Op)
    requires !op.PushOp?
    ensures Pushed([op]) == [] && PushCount([op]) == 0
  {
    assert Pushed([op]) == [] + Pushed([]);
    assert PushCount([op]) == 0 + PushCount([]);
  }

  /** Operations other than a push move data from the queue to the log
      without adding any. */
  lemma NonPushConserves(g: Graphics, op: Op)
    requires Valid(g) && DrawsMatchUploads(g.log) && !op.PushOp?
    ensures Conserves(g, Step(g, op), [op])
  {
    PushedNonPush(op);
    match op
    case TextureOp(t) => FlushLog(g);
    case ShaderOp(sh) => FlushLog(g);
    case CanvasOp(c, w, h) =>
      FlushLog(g);
      if c != g.canvas {
        AppendCalls(Flush(g).log, CanvasCalls(c, w, h));
      }
    case FlushOp => FlushLog(g);
    case PresentOp => PresentConserves(g);
    case ProjectionOp(w, h) =>
      if g.canvas.WindowCanvas? {
        AppendCalls(g.log, [Viewport(0, 0, w, h)]);
      }
  }

  /** `present` moves the queue to the log and adds nothing. */
  lemma PresentConserves(g: Graphics)
    requires Valid(g) && DrawsMatchUploads(g.log)
    ensures Conserves(g, Present(g), [])
  {
    FlushLog(g);
    AppendCalls(Flush(g).log, [SwapBuffers]);
  }

  /** One operation keeps the batch invariant and loses no vertex data: what
      was uploaded plus what is queued grows by exactly what the operation
      pushed, and likewise for element counts. */
  lemma StepConserves(g: Graphics, op: Op)
    requires Valid(g) && DrawsMatchUploads(g.log)
    ensures Conserves(g, Step(g, op), [op])
  {
    if op.PushOp? {
      PushConserves(g, op.q, op.params, op.sin, op.cos);
    } else {
      NonPushConserves(g, op);
    }
  }

  lemma {:induction false} PushedAppend(a: seq<Op>, b: seq<Op>)
    ensures Pushed(a + b) == Pushed(a) + Pushed(b)
    ensures PushCount(a + b) == PushCount(a) + PushCount(b)
    decreases |a|
  {
    if a == [] {
      assert a + b == b;
    } else {
      assert (a + b)[1..] == a[1..] + b;
      PushedAppend(a[1..], b);
    }
  }

  /** Over any sequence of operations the renderer keeps its invariant, every
      draw call draws what was uploaded just before it, and no quad is lost
      or duplicated: uploaded plus queued vertex data is exactly the pushed
      quads' data in push order, and drawn plus queued elements is six per
      push. */
  lemma {:induction false} RunConserves(g: Graphics, ops: seq<Op>)
    requires Valid(g) && DrawsMatchUploads(g.log)
    ensures Conserves(g, Run(g, ops), ops)
    decreases |ops|
  {
    if ops != [] {
      var g1 := Step(g, ops[0]);
      StepConserves(g, ops[0]);
      RunConserves(g1, ops[1..]);
      assert ops == [ops[0]] + ops[1..];
      PushedAppend([ops[0]], ops[1..]);
    }
  }

  /** A step that pushes nothing, after a run, pushes nothing more. */
  lemma ComposeNothing(g: Graphics, m: Graphics, r: Graphics, ops: seq<Op>)
    requires Conserves(g, m, ops) && Conserves(m, r, [])
    ensures Conserves(g, r, ops)
  {
    assert Uploaded(m.log) + m.vertexData + [] == Uploaded(m.log) + m.vertexData;
  }

  /** Starting from a fresh context (as `New` returns) and ending with a
      present, every pushed quad has been uploaded and drawn exactly once. */
  lemma PresentDrawsEverything(g: Graphics, ops: seq<Op>)
    requires Valid(g) && g.vertexData == [] && g.log == []
    ensures var r := Present(Run(g, ops));
      && Uploaded(r.log) == Pushed(ops)
      && Drawn(r.log) == 6 * PushCount(ops)
      && DrawsMatchUploads(r.log)
  {
    RunConserves(g, ops);
    var m := Run(g, ops);
    PresentConserves(m);
    ComposeNothing(g, m, Present(m), ops);
    FreshConserves(g, Present(m), ops);
  }

  /** From an empty context, conserving down to an empty queue means the log
      holds exactly what was pushed. */
  lemma FreshConserves(g: Graphics, r: Graphics, ops: seq<Op>)
    requires Valid(g) && g.vertexData == [] && g.log == []
    requires Conserves(g, r, ops) && r.vertexData == []
    ensures Uploaded(r.log) == Pushed(ops) && Drawn(r.log) == 6 * PushCount(ops)
  {
    var u := Uploaded(r.log);
    assert u + [] == [] + [] + Pushed(ops);
    assert u == u + [];
  }
}

=== FILE: quad_indices.dfy ===
/** The static index pattern shared by every quad batcher: the six-entry
    template `[0, 1, 2, 2, 3, 0]` is cycled, and entry `i` is offset by four
    vertices per completed quad, so quad `k` draws triangles
    `(4k, 4k+1, 4k+2)` and `(4k+2, 4k+3, 4k)`. */
module QuadIndices {
  import opened Numeric

  const Template: seq<nat> := [0, 1, 2, 2, 3, 0]

  /** `s.iter().cycle().take(n)`. */
  function CycleTake<T>(s: seq<T>, n: nat): (r: seq<T>)
    requires |s| > 0
    ensures |r| == n
    ensures forall i :: 0 <= i < n ==> r[i] == s[i % |s|]
    decreases n
  {
    if n <= |s| then s[..n]
    else
      var rest := CycleTake(s, n - |s|);
      var r := s + rest;
      assert forall i :: |s| <= i < n ==> r[i] == rest[i - |s|];
      forall i | |s| <= i < n
        ensures r[i] == s[i % |s|]
      {
        ModSubtract(i, |s|);
      }
      r
  }

  /** `Template.iter().cycle().take(n).enumerate().map(|(i, v)| v + i / 6 * 4)`. */
  function Generate(n: nat): (r: seq<nat>)
    ensures |r| == n
    ensures forall i :: 0 <= i < n ==> r[i] == Template[i % 6] + i / 6 * 4
  {
    var cycled := CycleTake(Template, n);
    seq(n, i requires 0 <= i < n => cycled[i] + i / 6 * 4)
  }

  /** The six indices of quad `k` name only that quad's four vertices, as the
      two triangles of a quad. */
  lemma QuadTriangles(quads: nat, k: nat)
    requires k < quads
    ensures var r := Generate(6 * quads);
      r[6 * k..6 * k + 6] == [4 * k, 4 * k + 1, 4 * k + 2, 4 * k + 2, 4 * k + 3, 4 * k]
  {
    PatternQuad(Generate(6 * quads), quads, k);
  }

  /** The closed form every generated pattern satisfies. */
  ghost predicate IsPattern(r: seq<nat>, n: nat)
  {
    |r| == n && forall i :: 0 <= i < n ==> r[i] == Template[i % 6] + i / 6 * 4
  }

  lemma PatternQuad(r: seq<nat>, quads: nat, k: nat)
    requires IsPattern(r, 6 * quads) && k < quads
    ensures r[6 * k..6 * k + 6] == [4 * k, 4 * k + 1, 4 * k + 2, 4 * k + 2, 4 * k + 3, 4 * k]
  {
    var s := r[6 * k..6 * k + 6];
    forall j | 0 <= j < 6
      ensures s[j] == Template[j] + 4 * k
    {
      var i := 6 * k + j;
      assert s[j] == r[i];
      DivModUnique(i, 6, k, j);
    }
  }

  /** Every index of a `quads`-quad pattern addresses one of its first
      `4 * quads` vertices. */
  lemma IndicesBounded(quads: nat)
    ensures forall i :: 0 <= i < 6 * quads ==> Generate(6 * quads)[i] < 4 * quads
  {
    var r := Generate(6 * quads);
    forall i | 0 <= i < 6 * quads
      ensures r[i] < 4 * quads
    {
      assert i / 6 < quads;
      assert Template[i % 6] <= 3;
    }
  }
}

=== FILE: rectangle.dfy ===
/** `Rectangle`: an axis-aligned box given by its top-left corner and size,
    with overlap and containment tests and the row/column iterators used to
    slice sprite sheets. */
module Rectangles {
  import opened Basics

  datatype Rect = Rectangle(x: real, y: real, width: real, height: real)

  function Right(r: Rect): real { r.x + r.width }
  function Bottom(r: Rect): real { r.y + r.height }

  /** Strict overlap on both axes: rectangles that only share an edge do not
      intersect. */
  predicate Intersects(a: Rect, b: Rect)
  {
    a.x < b.x + b.width && a.x + a.width > b.x
    && a.y < b.y + b.height && a.y + a.height > b.y
  }

  /** `other` lies within `self`; edges may coincide. */
  predicate Contains(a: Rect, b: Rect)
  {
    a.x <= b.x && b.x + b.width <= a.x + a.width
    && a.y <= b.y && b.y + b.height <= a.y + a.height
  }

  /** Half-open point test: the left and top edges are inside, the right and
      bottom edges are not. */
  predicate ContainsPoint(a: Rect, p: Vec2)
  {
    a.x <= p.x && p.x < a.x + a.width && a.y <= p.y && p.y < a.y + a.height
  }

  predicate NonEmpty(r: Rect) { r.width > 0.0 && r.height > 0.0 }

  /** Two rectangles with positive size intersect exactly when some point lies
      in both of them. */
  lemma IntersectsIffCommonPoint(a: Rect, b: Rect)
    requires NonEmpty(a) && NonEmpty(b)
    ensures Intersects(a, b) <==> exists p: Vec2 :: ContainsPoint(a, p) && ContainsPoint(b, p)
  {
    if Intersects(a, b) {
      var p := Vec2(if a.x >= b.x then a.x else b.x, if a.y >= b.y then a.y else b.y);
      assert ContainsPoint(a, p) && ContainsPoint(b, p);
    }
  }

  lemma IntersectsSymmetric(a: Rect, b: Rect)
    ensures Intersects(a, b) == Intersects(b, a)
  {
  }

  /** A rectangle of positive size intersects and contains itself. */
  lemma SelfIntersectsAndContains(a: Rect)
    requires NonEmpty(a)
    ensures Intersects(a, a) && Contains(a, a)
  {
  }

  /** For a rectangle `b` of positive size, `Contains(a, b)` holds exactly when
      every point of `b` is a point of `a`. */
  lemma ContainsIffAllPoints(a: Rect, b: Rect)
    requires NonEmpty(b)
    ensures Contains(a, b) <==> forall p: Vec2 :: ContainsPoint(b, p) ==> ContainsPoint(a, p)
  {
    if forall p: Vec2 :: ContainsPoint(b, p) ==> ContainsPoint(a, p) {
      var tl := Vec2(b.x, b.y);
      assert ContainsPoint(b, tl);
      if b.x + b.width > a.x + a.width {
        var p := Vec2(if b.x >= a.x + a.width then b.x else a.x + a.width, b.y);
        assert ContainsPoint(b, p);
        assert false;
      }
      if b.y + b.height > a.y + a.height {
        var p := Vec2(b.x, if b.y >= a.y + a.height then b.y else a.y + a.height);
        assert ContainsPoint(b, p);
        assert false;
      }
    }
  }

  /** Containment of a non-empty rectangle implies intersection. */
  lemma ContainsImpliesIntersects(a: Rect, b: Rect)
    requires NonEmpty(b) && Contains(a, b)
    ensures Intersects(a, b)
  {
  }

  /** The unit-test vectors: base (2,2,4,4) against a fully contained, an
      overlapping, a separate and an edge-adjacent rectangle, and seven points. */
  lemma TestVectors()
    ensures var base := Rectangle(2.0, 2.0, 4.0, 4.0);
      var inner := Rectangle(2.5, 2.5, 2.0, 2.0);
      var overlapping := Rectangle(3.0, 3.0, 4.0, 4.0);
      var separate := Rectangle(20.0, 20.0, 4.0, 4.0);
      var adjacent := Rectangle(6.0, 2.0, 4.0, 4.0);
      && Intersects(base, base) && Intersects(base, inner) && Intersects(base, overlapping)
      && !Intersects(base, separate) && !Intersects(base, adjacent)
      && Contains(base, base) && Contains(base, inner)
      && !Contains(base, overlapping) && !Contains(base, separate) && !Contains(base, adjacent)
      && ContainsPoint(base, Vec2(2.0, 2.0)) && ContainsPoint(base, Vec2(4.0, 4.0))
      && !ContainsPoint(base, Vec2(6.0, 2.0)) && !ContainsPoint(base, Vec2(2.0, 6.0))
      && !ContainsPoint(base, Vec2(6.0, 6.0)) && !ContainsPoint(base, Vec2(1.0, 1.0))
      && !ContainsPoint(base, Vec2(7.0, 7.0))
  {
  }

  /** One step of the `row` iterator: yield the current rectangle and move the
      next one right by its own width. */
  function RowNext(next: Rect): (step: (Rect, Rect))
    ensures step.0 == next
    ensures step.1.x == next.x + next.width
    ensures step.1.y == next.y && step.1.width == next.width && step.1.height == next.height
  {
    (next, next.(x := next.x + next.width))
  }

  /** One step of the `column` iterator: yield the current rectangle and move
      the next one down by its own height. */
  function ColumnNext(next: Rect): (step: (Rect, Rect))
    ensures step.0 == next
    ensures step.1.y == next.y + next.height
    ensures step.1.x == next.x && step.1.width == next.width && step.1.height == next.height
  {
    (next, next.(y := next.y + next.height))
  }

  /** The first `n` items of `Rectangle::row(x, y, w, h)`. */
  function RowTake(next: Rect, n: nat): seq<Rect>
    decreases n
  {
    if n == 0 then [] else
      var step := RowNext(next);
      [step.0] + RowTake(step.1, n - 1)
  }

  /** The first `n` items of `Rectangle::column(x, y, w, h)`. */
  function ColumnTake(next: Rect, n: nat): seq<Rect>
    decreases n
  {
    if n == 0 then [] else
      var step := ColumnNext(next);
      [step.0] + ColumnTake(step.1, n - 1)
  }

  /** The k-th rectangle of a row is the first one shifted right by k widths. */
  lemma {:induction false} RowItems(x: real, y: real, w: real, h: real, n: nat)
    ensures |RowTake(Rectangle(x, y, w, h), n)| == n
    ensures forall k :: 0 <= k < n ==> RowTake(Rectangle(x, y, w, h), n)[k] == Rectangle(x + k as real * w, y, w, h)
    decreases n
  {
    if n > 0 {
      RowItems(x + w, y, w, h, n - 1);
      var rest := RowTake(Rectangle(x + w, y, w, h), n - 1);
      assert RowTake(Rectangle(x, y, w, h), n) == [Rectangle(x, y, w, h)] + rest;
      forall k | 1 <= k < n
        ensures RowTake(Rectangle(x, y, w, h), n)[k] == Rectangle(x + k as real * w, y, w, h)
      {
        assert rest[k - 1] == Rectangle(x + w + (k - 1) as real * w, y, w, h);
        assert (k - 1) as real * w == k as real * w - w;
        assert RowTake(Rectangle(x, y, w, h), n)[k] == rest[k - 1];
        assert x + w + (k - 1) as real * w == x + k as real * w;
      }
    }
  }

  /** The k-th rectangle of a column is the first one shifted down by k heights. */
  lemma {:induction false} ColumnItems(x: real, y: real, w: real, h: real, n: nat)
    ensures |ColumnTake(Rectangle(x, y, w, h), n)| == n
    ensures forall k :: 0 <= k < n ==> ColumnTake(Rectangle(x, y, w, h), n)[k] == Rectangle(x, y + k as real * h, w, h)
    decreases n
  {
    if n > 0 {
      ColumnItems(x, y + h, w, h, n - 1);
      var rest := ColumnTake(Rectangle(x, y + h, w, h), n - 1);
      assert ColumnTake(Rectangle(x, y, w, h), n) == [Rectangle(x, y, w, h)] + rest;
      forall k | 1 <= k < n
        ensures ColumnTake(Rectangle(x, y, w, h), n)[k] == Rectangle(x, y + k as real * h, w, h)
      {
        assert rest[k - 1] == Rectangle(x, y + h + (k - 1) as real * h, w, h);
        assert (k - 1) as real * h == k as real * h - h;
        assert ColumnTake(Rectangle(x, y, w, h), n)[k] == rest[k - 1];
      }
    }
  }
}

=== FILE: scaling.dfy ===
/** `src/graphics/scaling.rs`: where a fixed-size canvas is drawn inside the
    window for each `ScalingMode`, and the projection of window positions
    onto the canvas and back. `f32` is modelled by exact reals; integer
    sizes and Rust's truncating integer division are kept. */
module Scaling {
  import opened Basics
  import opened Numeric
  import opened Rectangles

  datatype ScalingMode = Fixed | Stretch | ShowAll | ShowAllPixelPerfect | Crop | CropPixelPerfect

  /** Canvas and window sizes the scaler works with. The canvas has a
      positive size; the window reports 0 by 0 while it is minimised, and
      every mode copes with that. */
  predicate Sizes(iw: int, ih: int, ww: int, wh: int)
  {
    iw > 0 && ih > 0 && ww >= 0 && wh >= 0
  }

  /** The `f32` test `internal_aspect_ratio > screen_aspect_ratio`: the
      canvas is relatively wider than the window. A window of height 0
      makes the screen ratio infinite (or NaN when the width is 0 too),
      and the comparison is then false. */
  predicate Wider(iw: int, ih: int, ww: int, wh: int)
    requires Sizes(iw, ih, ww, wh)
  {
    wh > 0 && iw as real / ih as real > ww as real / wh as real
  }

  /** Comparing aspect ratios is comparing cross products, minimised
      window included. */
  lemma WiderIffCross(iw: int, ih: int, ww: int, wh: int)
    requires Sizes(iw, ih, ww, wh)
    ensures Wider(iw, ih, ww, wh) <==> iw * wh > ww * ih
    ensures Wider(iw, ih, ww, wh) <==> iw as real * wh as real > ww as real * ih as real
  {
    CastMul(iw, wh);
    CastMul(ww, ih);
    if wh > 0 {
      CrossReal(iw as real, ih as real, ww as real, wh as real);
    } else {
      MulLeftMono(ih, 0, ww);
    }
  }

  lemma CastMul(a: int, b: int)
    ensures (a * b) as real == a as real * b as real
  {
  }

  lemma CrossReal(a: real, b: real, c: real, d: real)
    requires b > 0.0 && d > 0.0
    ensures a / b > c / d <==> a * d > c * b
  {
    var x, y := a / b, c / d;
    assert x * b == a;
    assert y * d == c;
    assert x * (b * d) == a * d;
    assert y * (b * d) == c * b;
    if x > y {
      assert x * (b * d) > y * (b * d);
    } else {
      assert x * (b * d) <= y * (b * d);
    }
  }

  /** `a * (c / b) <= e` follows from `a * c <= e * b` for positive `b`. */
  lemma ScaledAtMost(a: real, b: real, c: real, e: real)
    requires b > 0.0 && a * c <= e * b
    ensures a * (c / b) <= e
  {
    var q := c / b;
    assert q * b == c;
    assert (a * q) * b == a * c;
    if a * q > e {
      assert (a * q) * b > e * b;
    }
  }

  lemma ScaledExact(a: real, c: real)
    requires a > 0.0
    ensures a * (c / a) == c
  {
  }

  /** Offset that centres `size` within `window` using integer division. */
  function Centre(window: int, size: int): (x: int)
    ensures -1 <= window - size - 2 * x <= 1
  {
    TruncDiv(window - size, 2)
  }

  /** The real-valued modes centre the rounded-up size, rounding the
      offset up as well. */
  function CentreCeil(window: real, size: real): (x: int)
    ensures (window - size) / 2.0 <= x as real < (window - size) / 2.0 + 1.0
  {
    Ceil((window - size) / 2.0)
  }

  lemma DivSign(a: real, b: real)
    requires a >= 0.0 && b > 0.0
    ensures a / b >= 0.0 && (a / b == 0.0 <==> a == 0.0)
  {
    var q := a / b;
    assert q * b == a;
  }

  /** `ShowAll`'s scale: the window-to-canvas ratio of the constraining
      axis. It is 0 exactly when the window has no area. */
  function ShowAllScale(iw: int, ih: int, ww: int, wh: int): (s: real)
    requires Sizes(iw, ih, ww, wh)
    ensures s >= 0.0 && (s == 0.0 <==> ww == 0 || wh == 0)
    ensures Wider(iw, ih, ww, wh) ==> s == ww as real / iw as real
    ensures !Wider(iw, ih, ww, wh) ==> s == wh as real / ih as real
  {
    DivSign(ww as real, iw as real);
    DivSign(wh as real, ih as real);
    WiderIffCross(iw, ih, ww, wh);
    if Wider(iw, ih, ww, wh) then ww as real / iw as real else wh as real / ih as real
  }

  /** `Crop`'s scale: the larger of the two axis ratios. */
  function CropScale(iw: int, ih: int, ww: int, wh: int): (s: real)
    requires Sizes(iw, ih, ww, wh)
    ensures s >= ww as real / iw as real && s >= wh as real / ih as real
    ensures s == ww as real / iw as real || s == wh as real / ih as real
    ensures s >= 0.0 && (s == 0.0 <==> ww == 0 && wh == 0)
  {
    DivSign(ww as real, iw as real);
    DivSign(wh as real, ih as real);
    MaxReal(ww as real / iw as real, wh as real / ih as real)
  }

  /** `ShowAllPixelPerfect`: the integer ratio of the constraining axis,
      raised to 1 when it is 0. */
  function PixelScale(iw: int, ih: int, ww: int, wh: int): (s: int)
    requires Sizes(iw, ih, ww, wh)
    ensures s >= 1
    ensures var t := if Wider(iw, ih, ww, wh) then ww / iw else wh / ih;
            s == if t == 0 then 1 else t
  {
    var s := if Wider(iw, ih, ww, wh) then TruncDiv(ww, iw) else TruncDiv(wh, ih);
    if s == 0 then 1 else s
  }

  /** `CropPixelPerfect`: the other axis's ratio rounded up, raised to 1
      when it is 0. */
  function CropPixelScale(iw: int, ih: int, ww: int, wh: int): (s: int)
    requires Sizes(iw, ih, ww, wh)
    ensures s >= 1
  {
    var s := Ceil(if Wider(iw, ih, ww, wh) then wh as real / ih as real else ww as real / iw as real);
    if s == 0 then 1 else s
  }

  /** A size scaled by a real factor, rounded up. */
  function Scaled(n: int, scale: real): (m: int)
    requires n > 0 && scale >= 0.0
    ensures n as real * scale <= m as real < n as real * scale + 1.0
    ensures m >= 0 && (m == 0 <==> scale == 0.0)
  {
    ProductSign(n as real, scale);
    Ceil(n as real * scale)
  }

  lemma ProductSign(a: real, b: real)
    requires a > 0.0 && b >= 0.0
    ensures a * b >= 0.0 && (a * b == 0.0 <==> b == 0.0)
  {
  }

  /** A real-valued scaled rectangle: sizes rounded up, offsets centred and
      rounded up. */
  function ScaledRect(iw: int, ih: int, ww: int, wh: int, scale: real): (r: Rect)
    requires scale >= 0.0 && iw > 0 && ih > 0
    ensures r.width >= 0.0 && r.height >= 0.0
    ensures NonEmpty(r) <==> scale > 0.0
  {
    var w := Scaled(iw, scale) as real;
    var h := Scaled(ih, scale) as real;
    Rectangle(CentreCeil(ww as real, w) as real, CentreCeil(wh as real, h) as real, w, h)
  }

  /** An integer-scaled rectangle, centred with integer division. */
  function PixelRect(iw: int, ih: int, ww: int, wh: int, scale: int): (r: Rect)
    requires scale >= 1 && iw > 0 && ih > 0
    ensures r.width > 0.0 && r.height > 0.0
  {
    Rectangle(Centre(ww, iw * scale) as real, Centre(wh, ih * scale) as real, (iw * scale) as real, (ih * scale) as real)
  }

  /** `ScalingMode::get_screen_rect`. Every mode gives a rectangle of
      non-negative size; only `Stretch`, `ShowAll` and `Crop` give an empty
      one, and only for a window with no area. */
  function ScreenRect(mode: ScalingMode, iw: int, ih: int, ww: int, wh: int): (r: Rect)
    requires Sizes(iw, ih, ww, wh)
    ensures r.width >= 0.0 && r.height >= 0.0
    ensures NonEmpty(r) <==> match mode
                             case Stretch | ShowAll => ww > 0 && wh > 0
                             case Crop => ww > 0 || wh > 0
                             case _ => true
  {
    match mode
    case Fixed => Rectangle(Centre(ww, iw) as real, Centre(wh, ih) as real, iw as real, ih as real)
    case Stretch => Rectangle(0.0, 0.0, ww as real, wh as real)
    case ShowAll => ScaledRect(iw, ih, ww, wh, ShowAllScale(iw, ih, ww, wh))
    case ShowAllPixelPerfect => PixelRect(iw, ih, ww, wh, PixelScale(iw, ih, ww, wh))
    case Crop => ScaledRect(iw, ih, ww, wh, CropScale(iw, ih, ww, wh))
    case CropPixelPerfect => PixelRect(iw, ih, ww, wh, CropPixelScale(iw, ih, ww, wh))
  }

  /** A minimised (0 by 0) window: `ShowAll`, `Crop` and `Stretch` shrink
      the canvas to nothing at the origin, and the pixel-perfect modes fall
      back to scale 1, centring the canvas on the origin. */
  lemma MinimisedWindow(iw: int, ih: int)
    requires iw > 0 && ih > 0
    ensures ScreenRect(ShowAll, iw, ih, 0, 0) == Rectangle(0.0, 0.0, 0.0, 0.0)
    ensures ScreenRect(Crop, iw, ih, 0, 0) == Rectangle(0.0, 0.0, 0.0, 0.0)
    ensures ScreenRect(Stretch, iw, ih, 0, 0) == Rectangle(0.0, 0.0, 0.0, 0.0)
    ensures PixelScale(iw, ih, 0, 0) == 1 && CropPixelScale(iw, ih, 0, 0) == 1
    ensures ScreenRect(ShowAllPixelPerfect, iw, ih, 0, 0)
         == Rectangle(Centre(0, iw) as real, Centre(0, ih) as real, iw as real, ih as real)
  {
    assert ShowAllScale(iw, ih, 0, 0) == 0.0;
    assert CropScale(iw, ih, 0, 0) == 0.0;
  }

  /** `Fixed` draws the canvas at its own size, centred to within a pixel;
      `Stretch` fills the window exactly. */
  lemma FixedCentresStretchFills(iw: int, ih: int, ww: int, wh: int)
    requires Sizes(iw, ih, ww, wh)
    ensures var r := ScreenRect(Fixed, iw, ih, ww, wh);
            && r.width == iw as real && r.height == ih as real
            && -1.0 <= (ww as real - (r.x + r.width)) - r.x <= 1.0
            && -1.0 <= (wh as real - (r.y + r.height)) - r.y <= 1.0
    ensures ScreenRect(Stretch, iw, ih, ww, wh) == Rectangle(0.0, 0.0, ww as real, wh as real)
  {
  }

  lemma ScaledAtMostInt(n: int, scale: real, m: int)
    requires n > 0 && scale >= 0.0 && n as real * scale <= m as real
    ensures Scaled(n, scale) <= m
  {
  }

  /** `ShowAll` shows the whole canvas: the rectangle fits in the window
      and fills it along one axis. */
  lemma ShowAllFits(iw: int, ih: int, ww: int, wh: int)
    requires Sizes(iw, ih, ww, wh)
    ensures var r := ScreenRect(ShowAll, iw, ih, ww, wh);
            r.width <= ww as real && r.height <= wh as real && (r.width == ww as real || r.height == wh as real)
  {
    var s := ShowAllScale(iw, ih, ww, wh);
    assert ScreenRect(ShowAll, iw, ih, ww, wh) == ScaledRect(iw, ih, ww, wh, s);
    WiderIffCross(iw, ih, ww, wh);
    if Wider(iw, ih, ww, wh) {
      FillsAxis(iw, ih, ww, wh);
    } else {
      FillsAxis(ih, iw, wh, ww);
    }
  }

  /** Scaling both sides by `c / a` makes the first exactly `c`, and the
      second at most `d` when `a : b` is at least `c : d`. */
  lemma FillsAxis(a: int, b: int, c: int, d: int)
    requires a > 0 && b > 0 && c >= 0 && d >= 0
    requires a as real * d as real >= c as real * b as real
    ensures var s := c as real / a as real;
            s >= 0.0 && Scaled(a, s) == c && Scaled(b, s) <= d
  {
    var s := c as real / a as real;
    DivSign(c as real, a as real);
    ScaledExact(a as real, c as real);
    ScaledAtMost(b as real, a as real, c as real, d as real);
    ScaledAtMostInt(b, s, d);
  }

  /** `Crop` fills the whole window: the rectangle covers it on both axes. */
  lemma CropCovers(iw: int, ih: int, ww: int, wh: int)
    requires Sizes(iw, ih, ww, wh)
    ensures var r := ScreenRect(Crop, iw, ih, ww, wh);
            r.width >= ww as real && r.height >= wh as real
  {
    var s := CropScale(iw, ih, ww, wh);
    assert ScreenRect(Crop, iw, ih, ww, wh) == ScaledRect(iw, ih, ww, wh, s);
    CoversAxis(iw, ww, s);
    CoversAxis(ih, wh, s);
  }

  lemma CoversAxis(a: int, c: int, s: real)
    requires a > 0 && s >= 0.0 && s >= c as real / a as real
    ensures Scaled(a, s) >= c
  {
    ScaledExact(a as real, c as real);
    ScaleMono(a as real, c as real / a as real, s);
  }

  lemma ScaleMono(a: real, x: real, y: real)
    requires a > 0.0 && x <= y
    ensures a * x <= a * y
  {
  }

  /** `ShowAllPixelPerfect` uses the largest whole scale that fits: when the
      window can hold the canvas at all, the scaled canvas fits on both
      axes and one more step of scale would not. */
  lemma PixelPerfectFits(iw: int, ih: int, ww: int, wh: int)
    requires Sizes(iw, ih, ww, wh)
    requires iw <= ww && ih <= wh
    ensures var s := PixelScale(iw, ih, ww, wh);
            iw * s <= ww && ih * s <= wh && (iw * (s + 1) > ww || ih * (s + 1) > wh)
  {
    WiderIffCross(iw, ih, ww, wh);
    if Wider(iw, ih, ww, wh) {
      LargestWholeScale(iw, ih, ww, wh);
    } else {
      LargestWholeScale(ih, iw, wh, ww);
    }
  }

  /** The whole ratio `c / a` is the largest scale with `a * s <= c`, and
      keeps `b * s <= d` when `a : b` is at least `c : d`. */
  lemma LargestWholeScale(a: int, b: int, c: int, d: int)
    requires a > 0 && b > 0 && c >= a && d > 0
    requires c * b <= a * d
    ensures var s := TruncDiv(c, a);
            s >= 1 && a * s <= c && a * (s + 1) > c && b * s <= d
  {
    var s := TruncDiv(c, a);
    DivBounds(c, a);
    assert s == c / a;
    OtherAxisBelow(a, b, c, d, s);
  }

  lemma OtherAxisBelow(a: int, b: int, c: int, d: int, s: int)
    requires a > 0 && b > 0 && s >= 0 && a * s <= c && c * b <= a * d
    ensures b * s <= d
  {
    MulLeftMono(b, a * s, c);
    assert b * (a * s) == a * (b * s);
    CancelLessEq(a, b * s, d);
  }

  /** `CropPixelPerfect` covers the whole window on both axes. */
  lemma CropPixelPerfectCovers(iw: int, ih: int, ww: int, wh: int)
    requires Sizes(iw, ih, ww, wh)
    ensures var s := CropPixelScale(iw, ih, ww, wh);
            iw * s >= ww && ih * s >= wh
  {
    WiderIffCross(iw, ih, ww, wh);
    if Wider(iw, ih, ww, wh) {
      SmallestWholeCover(ih, iw, wh, ww);
    } else {
      SmallestWholeCover(iw, ih, ww, wh);
    }
  }

  /** The ratio `c / a` rounded up covers `c` on its own axis, and `d` on
      the other when `a : b` is at most `c : d`. */
  lemma SmallestWholeCover(a: int, b: int, c: int, d: int)
    requires a > 0 && b > 0 && c >= 0 && d >= 0
    requires a * d <= c * b
    ensures var s := Ceil(c as real / a as real);
            s >= 0 && (c > 0 ==> s >= 1) && a * s >= c && b * s >= d
  {
    var q := c as real / a as real;
    var s := Ceil(q);
    DivSign(c as real, a as real);
    ScaledExact(a as real, c as real);
    ScaleMono(a as real, q, s as real);
    CastMul(a, s);
    OtherAxisAbove(a, b, c, d, s);
  }

  lemma OtherAxisAbove(a: int, b: int, c: int, d: int, s: int)
    requires a > 0 && b > 0 && a * s >= c && a * d <= c * b
    ensures b * s >= d
  {
    MulLeftMono(b, c, a * s);
    assert b * (a * s) == a * (b * s);
    CancelLessEq(a, d, b * s);
  }

  lemma MulLeftMono(k: int, a: int, b: int)
    requires k >= 0 && a <= b
    ensures k * a <= k * b
  {
  }

  lemma CancelLess(k: int, a: int, b: int)
    requires k > 0 && k * a < k * b
    ensures a < b
  {
    if a >= b { MulLeftMono(k, b, a); }
  }

  lemma CancelLessEq(k: int, a: int, b: int)
    requires k > 0 && k * a <= k * b
    ensures a <= b
  {
    if a > b { MulLeftMono(k, b + 1, a); }
  }

  /** `project_impl`: a window coordinate to a canvas coordinate. */
  function Project(windowPos: real, rectPos: real, rectSize: real, realSize: real): real
    requires rectSize != 0.0
  {
    (realSize * (windowPos - rectPos)) / rectSize
  }

  /** `unproject_impl`: a canvas coordinate to a window coordinate. */
  function Unproject(screenPos: real, rectPos: real, rectSize: real, realSize: real): real
    requires realSize != 0.0
  {
    rectPos + (rectSize * screenPos) / realSize
  }

  /** In exact arithmetic the two are inverse to each other. */
  lemma ProjectRoundTrip(p: real, rectPos: real, rectSize: real, realSize: real)
    requires rectSize != 0.0 && realSize != 0.0
    ensures Unproject(Project(p, rectPos, rectSize, realSize), rectPos, rectSize, realSize) == p
    ensures Project(Unproject(p, rectPos, rectSize, realSize), rectPos, rectSize, realSize) == p
  {
    var q := Project(p, rectPos, rectSize, realSize);
    assert rectSize * q == realSize * (p - rectPos);
    assert (rectSize * q) / realSize == p - rectPos;
    var u := Unproject(p, rectPos, rectSize, realSize);
    assert u - rectPos == (rectSize * p) / realSize;
    assert realSize * (u - rectPos) == rectSize * p;
  }

  /** `ScreenScaler`: the canvas size, the mode, the window size last seen
      and the rectangle computed from them. */
  datatype ScreenScaler = ScreenScaler(canvasWidth: int, canvasHeight: int, mode: ScalingMode,
                                       screenRect: Rect, windowWidth: int, windowHeight: int)

  /** The screen rectangle is the one the mode gives for the stored sizes. */
  ghost predicate Valid(s: ScreenScaler)
  {
    Sizes(s.canvasWidth, s.canvasHeight, s.windowWidth, s.windowHeight)
    && s.screenRect == ScreenRect(s.mode, s.canvasWidth, s.canvasHeight, s.windowWidth, s.windowHeight)
  }

  /** `ScreenScaler::new`, with the window size as a parameter. */
  function New(width: int, height: int, mode: ScalingMode, windowWidth: int, windowHeight: int): (s: ScreenScaler)
    requires Sizes(width, height, windowWidth, windowHeight)
    ensures Valid(s) && s.mode == mode && s.windowWidth == windowWidth && s.windowHeight == windowHeight
  {
    ScreenScaler(width, height, mode, ScreenRect(mode, width, height, windowWidth, windowHeight), windowWidth, windowHeight)
  }

  /** `update`: take the window's current size and recompute the rectangle. */
  function Update(s: ScreenScaler, windowWidth: int, windowHeight: int): (r: ScreenScaler)
    requires Sizes(s.canvasWidth, s.canvasHeight, windowWidth, windowHeight)
    ensures Valid(r) && r.windowWidth == windowWidth && r.windowHeight == windowHeight
    ensures r.mode == s.mode && r.canvasWidth == s.canvasWidth && r.canvasHeight == s.canvasHeight
  {
    s.(windowWidth := windowWidth, windowHeight := windowHeight,
       screenRect := ScreenRect(s.mode, s.canvasWidth, s.canvasHeight, windowWidth, windowHeight))
  }

  /** `set_mode`: switch mode and recompute with the stored window size. */
  function SetMode(s: ScreenScaler, mode: ScalingMode): (r: ScreenScaler)
    requires Valid(s)
    ensures Valid(r) && r.mode == mode
    ensures r.windowWidth == s.windowWidth && r.windowHeight == s.windowHeight
    ensures r.canvasWidth == s.canvasWidth && r.canvasHeight == s.canvasHeight
  {
    s.(mode := mode, screenRect := ScreenRect(mode, s.canvasWidth, s.canvasHeight, s.windowWidth, s.windowHeight))
  }

  /** `project`: window position to canvas position, axis by axis. The
      screen rectangle must have an area: for a minimised window `f32`
      division by its zero size gives infinity or NaN, which exact reals do
      not represent. */
  function ProjectPoint(s: ScreenScaler, p: Vec2): Vec2
    requires Valid(s) && NonEmpty(s.screenRect)
  {
    Vec2(Project(p.x, s.screenRect.x, s.screenRect.width, s.canvasWidth as real),
         Project(p.y, s.screenRect.y, s.screenRect.height, s.canvasHeight as real))
  }

  function UnprojectPoint(s: ScreenScaler, p: Vec2): Vec2
    requires Valid(s)
  {
    Vec2(Unproject(p.x, s.screenRect.x, s.screenRect.width, s.canvasWidth as real),
         Unproject(p.y, s.screenRect.y, s.screenRect.height, s.canvasHeight as real))
  }

  /** A valid scaler's `project` and `unproject` undo each other. */
  lemma ScalerRoundTrip(s: ScreenScaler, p: Vec2)
    requires Valid(s) && NonEmpty(s.screenRect)
    ensures UnprojectPoint(s, ProjectPoint(s, p)) == p
    ensures ProjectPoint(s, UnprojectPoint(s, p)) == p
  {
    ProjectRoundTrip(p.x, s.screenRect.x, s.screenRect.width, s.canvasWidth as real);
    ProjectRoundTrip(p.y, s.screenRect.y, s.screenRect.height, s.canvasHeight as real);
  }

  /** `mouse_x` / `mouse_y` take the mouse coordinates as parameters. */
  function MouseX(s: ScreenScaler, mouseX: real): real
    requires Valid(s) && NonEmpty(s.screenRect)
  {
    Project(mouseX, s.screenRect.x, s.screenRect.width, s.canvasWidth as real)
  }

  function MouseY(s: ScreenScaler, mouseY: real): real
    requires Valid(s) && NonEmpty(s.screenRect)
  {
    Project(mouseY, s.screenRect.y, s.screenRect.height, s.canvasHeight as real)
  }

  /** `mouse_x`, `mouse_y` and `mouse_position` agree with `project`, and
      `unproject` maps them back to the mouse. */
  lemma MouseAgreesWithProject(s: ScreenScaler, mouse: Vec2)
    requires Valid(s) && NonEmpty(s.screenRect)
    ensures Vec2(MouseX(s, mouse.x), MouseY(s, mouse.y)) == ProjectPoint(s, mouse)
    ensures UnprojectPoint(s, Vec2(MouseX(s, mouse.x), MouseY(s, mouse.y))) == mouse
  {
    ScalerRoundTrip(s, mouse);
  }
}

=== FILE: shader.dfy ===
/** `src/graphics/shader.rs`: a shader program plus the table of texture
    samplers bound to it. Each new sampler name is given the next free
    texture unit, starting from 1 (unit 0 is the one the renderer uses for
    the texture being drawn), and drawing rebinds every sampler's texture
    to its unit. */
module Shader {
  import opened Basics
  import opened Textures

  datatype Sampler = Sampler(texture: Texture, unit: nat)

  /** The shared data of a shader: the device program handle, the samplers
      by uniform name and the unit the next new sampler will get. */
  datatype Shader = Shader(handle: nat, samplers: map<string, Sampler>, nextUnit: nat)

  /** Two shaders are equal when they wrap the same program. */
  predicate SameShader(a: Shader, b: Shader) { a.handle == b.handle }

  /** Every sampler has a unit of its own in `1 .. nextUnit`. */
  ghost predicate Valid(s: Shader)
  {
    && 1 <= s.nextUnit
    && (forall n :: n in s.samplers ==> 1 <= s.samplers[n].unit < s.nextUnit)
    && (forall n, m :: n in s.samplers && m in s.samplers && n != m ==> s.samplers[n].unit != s.samplers[m].unit)
  }

  /** `with_device`: a compiled program with no samplers yet. */
  function New(handle: nat): (r: Shader)
    ensures Valid(r) && r.handle == handle && r.samplers == map[] && r.nextUnit == 1
  {
    Shader(handle, map[], 1)
  }

  /** The values `set_uniform` accepts. A colour is sent as a `vec4`. */
  datatype UniformValue =
    | I32(i: int)
    | U32(u: nat)
    | F32(f: real)
    | Vec(components: seq<real>)
    | Mat(entries: seq<real>)

  /** The device calls shaders make. */
  datatype Call =
    | SetUniform(program: nat, name: string, value: UniformValue)
    | AttachTexture(texture: nat, unit: nat)

  function ColorValue(c: Color): (r: UniformValue)
    ensures r.Vec? && r.components == [c.r, c.g, c.b, c.a]
  {
    Vec([c.r, c.g, c.b, c.a])
  }

  /** `set_uniform` for the plain value types: one call on this program. */
  function SetSimpleUniform(s: Shader, name: string, v: UniformValue): (r: seq<Call>)
    ensures r == [SetUniform(s.handle, name, v)]
  {
    [SetUniform(s.handle, name, v)]
  }

  /** `set_uniform` with a texture. A known name keeps its unit and only
      swaps its texture (no device call); a new name takes `nextUnit`, the
      sampler uniform is pointed at that unit, and the counter moves on. */
  function SetTextureUniform(s: Shader, name: string, t: Texture): (r: (Shader, seq<Call>))
    ensures r.0.handle == s.handle
    ensures r.0.samplers.Keys == s.samplers.Keys + {name}
    ensures name in r.0.samplers && SameTexture(r.0.samplers[name].texture, t)
    ensures forall n :: n in s.samplers && n != name ==> r.0.samplers[n] == s.samplers[n]
    ensures name in s.samplers ==>
              r.0.samplers[name].unit == s.samplers[name].unit && r.0.nextUnit == s.nextUnit && r.1 == []
    ensures name !in s.samplers ==>
              && r.0.samplers[name].unit == s.nextUnit && r.0.nextUnit == s.nextUnit + 1
              && r.1 == [SetUniform(s.handle, name, I32(s.nextUnit))]
  {
    if name in s.samplers then
      var old_ := s.samplers[name];
      if SameTexture(old_.texture, t) then (s, [])
      else (s.(samplers := s.samplers[name := Sampler(t, old_.unit)]), [])
    else
      (s.(samplers := s.samplers[name := Sampler(t, s.nextUnit)], nextUnit := s.nextUnit + 1),
       SetSimpleUniform(s, name, I32(s.nextUnit)))
  }

  /** Binding textures keeps every sampler on a unit of its own. */
  lemma SetTextureKeepsValid(s: Shader, name: string, t: Texture)
    requires Valid(s)
    ensures Valid(SetTextureUniform(s, name, t).0)
  {
    var r := SetTextureUniform(s, name, t).0;
    forall n, m | n in r.samplers && m in r.samplers && n != m
      ensures r.samplers[n].unit != r.samplers[m].unit
    {
      if name !in s.samplers && (n == name || m == name) {
        var other := if n == name then m else n;
        assert other in s.samplers;
        assert r.samplers[other].unit < s.nextUnit;
      }
    }
  }

  /** A sampler's unit, once given, never changes, whatever is bound later. */
  lemma UnitIsStable(s: Shader, name: string, other: string, t: Texture)
    requires name in s.samplers
    ensures SetTextureUniform(s, other, t).0.samplers[name].unit == s.samplers[name].unit
  {
  }

  /** The attachments of `set_default_uniforms`, visiting the samplers in
      `order` (the map's iteration order). The device may refuse a unit
      (`rejected`); the first refusal ends the loop with an error. */
  function Attach(s: Shader, order: seq<string>, rejected: set<nat>): (r: (seq<Call>, bool))
    requires forall i :: 0 <= i < |order| ==> order[i] in s.samplers
    ensures |r.0| <= |order|
    ensures r.1 <==> forall i :: 0 <= i < |order| ==> s.samplers[order[i]].unit !in rejected
    ensures r.1 ==> |r.0| == |order|
    ensures r.1 ==> forall i :: 0 <= i < |order| ==>
      r.0[i] == AttachTexture(s.samplers[order[i]].texture.handle, s.samplers[order[i]].unit)
  {
    if order == [] then ([], true)
    else
      var sampler := s.samplers[order[0]];
      var call := AttachTexture(sampler.texture.handle, sampler.unit);
      if sampler.unit in rejected then ([call], false)
      else
        var rest := Attach(s, order[1..], rejected);
        assert forall i :: 1 <= i < |order| ==> order[i] == order[1..][i - 1];
        ([call] + rest.0, rest.1)
  }

  /** `set_default_uniforms`: attach every sampler, then set the projection
      matrix and the diffuse colour. Returns the calls made and whether it
      succeeded. */
  function SetDefaultUniforms(s: Shader, order: seq<string>, rejected: set<nat>,
                              projection: seq<real>, diffuse: Color): (r: (seq<Call>, bool))
    requires forall i :: 0 <= i < |order| ==> order[i] in s.samplers
    ensures r.1 <==> forall i :: 0 <= i < |order| ==> s.samplers[order[i]].unit !in rejected
    ensures r.1 ==> |r.0| == |order| + 2
    ensures r.1 ==> r.0[..|order|] == Attach(s, order, rejected).0
    ensures r.1 ==> r.0[|order|..] == [SetUniform(s.handle, "u_projection", Mat(projection)),
                         SetUniform(s.handle, "u_diffuse", ColorValue(diffuse))]
    ensures !r.1 ==> |r.0| <= |order|
  {
    var (attached, ok) := Attach(s, order, rejected);
    if !ok then (attached, false)
    else (attached + SetSimpleUniform(s, "u_projection", Mat(projection))
                   + SetSimpleUniform(s, "u_diffuse", ColorValue(diffuse)), true)
  }

  /** When every sampler is visited once, a successful draw setup binds
      each sampler's texture, and no two bindings share a unit. */
  lemma DefaultUniformsBindEverySampler(s: Shader, order: seq<string>, rejected: set<nat>)
    requires Valid(s)
    requires forall i :: 0 <= i < |order| ==> order[i] in s.samplers
    requires forall i, j :: 0 <= i < j < |order| ==> order[i] != order[j]
    requires forall n :: n in s.samplers ==> n in order
    requires Attach(s, order, rejected).1
    ensures forall n :: n in s.samplers ==>
      AttachTexture(s.samplers[n].texture.handle, s.samplers[n].unit) in Attach(s, order, rejected).0
    ensures forall i, j :: 0 <= i < j < |order| ==>
      Attach(s, order, rejected).0[i].unit != Attach(s, order, rejected).0[j].unit
  {
    var calls := Attach(s, order, rejected).0;
    forall n | n in s.samplers
      ensures AttachTexture(s.samplers[n].texture.handle, s.samplers[n].unit) in calls
    {
      var i :| 0 <= i < |order| && order[i] == n;
      assert calls[i] == AttachTexture(s.samplers[n].texture.handle, s.samplers[n].unit);
    }
    forall i, j | 0 <= i < j < |order|
      ensures calls[i].unit != calls[j].unit
    {
      assert calls[i].unit == s.samplers[order[i]].unit;
      assert calls[j].unit == s.samplers[order[j]].unit;
    }
  }
}

=== FILE: sprite_batch.dfy ===
/** `SpriteBatch` of `src/spritebatch.rs`: an explicit begin/draw/end batch
    of untextured-coordinate sprites (each sprite shows the whole texture),
    seven floats per vertex (x, y, u, v, r, g, b). The batch never flushes on
    its own while drawing: the caller must stay within the capacity, which
    the vertex upload checks. GL calls are recorded in a log. */
module SpriteBatch {
  import opened Numeric
  import QuadIndices

  /** The most sprites a batch may hold so that every index addresses a
      vertex below 32767. */
  const MaxCapacity: nat := 8191
  const VertexFloats: nat := 7
  const SpriteFloats: nat := 4 * VertexFloats
  const DefaultCapacity: nat := 1024

  datatype GlCall =
    | SetProjectionUniform(program: nat)
    | UploadVertices(data: seq<real>)
    | DrawElements(program: nat, texture: nat, elements: nat)

  datatype Batch = Batch(
    capacity: nat,
    indices: seq<nat>,
    program: nat,
    texture: nat,
    drawing: bool,
    vertices: seq<real>,
    spriteCount: nat,
    log: seq<GlCall>)

  /** Vertex data and sprite count agree. */
  ghost predicate Valid(b: Batch)
  {
    |b.vertices| == SpriteFloats * b.spriteCount && |b.indices| == 6 * b.capacity
  }

  /** `with_capacity`: at most 8191 sprites; the index buffer is the quad
      pattern for `capacity` sprites; not drawing, nothing queued. */
  function WithCapacity(capacity: nat, program: nat, texture: nat): (b: Batch)
    requires capacity <= MaxCapacity
    ensures Valid(b) && !b.drawing && b.spriteCount == 0 && b.log == []
    ensures b.capacity == capacity && b.program == program && b.texture == texture
    ensures forall i :: 0 <= i < |b.indices| ==> b.indices[i] < 4 * capacity <= 32764
  {
    QuadIndices.IndicesBounded(capacity);
    Batch(capacity, QuadIndices.Generate(6 * capacity), program, texture, false, [], 0, [])
  }

  /** `new`: a batch of the default capacity. */
  function New(program: nat, texture: nat): (b: Batch)
    ensures b == WithCapacity(DefaultCapacity, program, texture)
    ensures b.capacity == 1024
  {
    WithCapacity(DefaultCapacity, program, texture)
  }

  /** `begin`: only when not already drawing. */
  function Begin(b: Batch): (r: Batch)
    requires !b.drawing
    ensures r.drawing && r.(drawing := false) == b
  {
    b.(drawing := true)
  }

  /** The 28 floats of one sprite: top-left, bottom-left, bottom-right,
      top-right, with the texture's corners and a white tint. */
  function SpriteVertices(x: real, y: real, width: real, height: real): (r: seq<real>)
    ensures |r| == SpriteFloats
  {
    [x, y, 0.0, 0.0, 1.0, 1.0, 1.0,
     x, y + height, 0.0, 1.0, 1.0, 1.0, 1.0,
     x + width, y + height, 1.0, 1.0, 1.0, 1.0, 1.0,
     x + width, y, 1.0, 0.0, 1.0, 1.0, 1.0]
  }

  /** `draw`: only while drawing; queues one sprite without any capacity
      check. */
  function Draw(b: Batch, x: real, y: real, width: real, height: real): (r: Batch)
    requires b.drawing
    ensures Valid(b) ==> Valid(r)
    ensures r.spriteCount == b.spriteCount + 1
    ensures |r.vertices| == |b.vertices| + SpriteFloats && r.vertices[..|b.vertices|] == b.vertices
    ensures r.log == b.log && r.drawing
  {
    b.(vertices := b.vertices + SpriteVertices(x, y, width, height), spriteCount := b.spriteCount + 1)
  }

  /** The vertex buffer holds `capacity` sprites of 28 floats: the upload
      in `flush` checks the queued data against that size. */
  predicate UploadFits(b: Batch)
  {
    |b.vertices| <= b.capacity * SpriteFloats
  }

  /** The upload fits exactly when no more sprites are queued than the
      batch's capacity. */
  lemma UploadFitsIffWithinCapacity(b: Batch)
    requires Valid(b)
    ensures UploadFits(b) <==> b.spriteCount <= b.capacity
  {
    if b.spriteCount > b.capacity {
      assert SpriteFloats * b.spriteCount >= SpriteFloats * (b.capacity + 1);
    }
  }

  /** `flush`: only while drawing and when the queued data fits the vertex
      buffer. Sets the projection, uploads every queued float, draws six
      elements per sprite, then empties the queue. */
  function Flush(b: Batch): (r: Batch)
    requires b.drawing && UploadFits(b)
    ensures r.vertices == [] && r.spriteCount == 0 && r.drawing
    ensures r.log == b.log + [SetProjectionUniform(b.program), UploadVertices(b.vertices),
                              DrawElements(b.program, b.texture, 6 * b.spriteCount)]
    ensures r.(vertices := b.vertices, spriteCount := b.spriteCount, log := b.log) == b
  {
    b.(vertices := [], spriteCount := 0,
       log := b.log + [SetProjectionUniform(b.program), UploadVertices(b.vertices),
                       DrawElements(b.program, b.texture, 6 * b.spriteCount)])
  }

  /** `end`: only while drawing; flushes only when sprites are queued, then
      stops drawing. */
  function End(b: Batch): (r: Batch)
    requires b.drawing && UploadFits(b)
    ensures !r.drawing && r.spriteCount == 0
    ensures Valid(b) ==> Valid(r) && r.vertices == []
    ensures b.spriteCount > 0 ==> r == Flush(b).(drawing := false)
    ensures b.spriteCount == 0 ==> r == b.(drawing := false)
  {
    var f := if b.spriteCount > 0 then Flush(b) else b;
    f.(drawing := false)
  }

  /** All vertex floats a log uploaded, in order. */
  function Uploaded(log: seq<GlCall>): seq<real>
  {
    if log == [] then []
    else (if log[0].UploadVertices? then log[0].data else []) + Uploaded(log[1..])
  }

  /** The total element count a log drew. */
  function Drawn(log: seq<GlCall>): nat
  {
    if log == [] then 0
    else (if log[0].DrawElements? then log[0].elements else 0) + Drawn(log[1..])
  }

  lemma {:induction false} LogAppend(a: seq<GlCall>, c: seq<GlCall>)
    ensures Uploaded(a + c) == Uploaded(a) + Uploaded(c)
    ensures Drawn(a + c) == Drawn(a) + Drawn(c)
    decreases |a|
  {
    if a == [] {
      assert a + c == c;
    } else {
      assert (a + c)[1..] == a[1..] + c;
      LogAppend(a[1..], c);
    }
  }

  /** A frame: `begin`, the sprites drawn, `end`. */
  datatype Sprite = Sprite(x: real, y: real, width: real, height: real)

  function DrawAll(b: Batch, sprites: seq<Sprite>): (r: Batch)
    requires b.drawing
    ensures r.drawing && r.log == b.log
    decreases |sprites|
  {
    if sprites == [] then b
    else
      var s := sprites[0];
      DrawAll(Draw(b, s.x, s.y, s.width, s.height), sprites[1..])
  }

  function AllVertices(sprites: seq<Sprite>): (r: seq<real>)
    ensures |r| == SpriteFloats * |sprites|
  {
    if sprites == [] then []
    else SpriteVertices(sprites[0].x, sprites[0].y, sprites[0].width, sprites[0].height) + AllVertices(sprites[1..])
  }

  lemma {:induction false} DrawAllQueues(b: Batch, sprites: seq<Sprite>)
    requires b.drawing && Valid(b)
    ensures var r := DrawAll(b, sprites);
      Valid(r) && r.vertices == b.vertices + AllVertices(sprites) && r.spriteCount == b.spriteCount + |sprites|
      && r.capacity == b.capacity && r.program == b.program && r.texture == b.texture
    decreases |sprites|
  {
    if sprites != [] {
      var s := sprites[0];
      var b1 := Draw(b, s.x, s.y, s.width, s.height);
      DrawAllQueues(b1, sprites[1..]);
      assert b1.vertices + AllVertices(sprites[1..])
          == b.vertices + (SpriteVertices(s.x, s.y, s.width, s.height) + AllVertices(sprites[1..]));
    }
  }

  /** A whole frame of at most `capacity` sprites: after `end` the batch is
      idle and empty, and the frame issued exactly one draw (or none for an
      empty frame) covering every sprite, in order, six elements each. */
  lemma FrameDrawsAll(b: Batch, sprites: seq<Sprite>)
    requires !b.drawing && Valid(b) && b.spriteCount == 0 && |sprites| <= b.capacity
    ensures var m := DrawAll(Begin(b), sprites);
      UploadFits(m) &&
      var r := End(m);
      && !r.drawing && r.vertices == [] && r.spriteCount == 0
      && Uploaded(r.log) == Uploaded(b.log) + AllVertices(sprites)
      && Drawn(r.log) == Drawn(b.log) + 6 * |sprites|
      && |r.log| == |b.log| + (if sprites == [] then 0 else 3)
  {
    var m := DrawAll(Begin(b), sprites);
    DrawAllQueues(Begin(b), sprites);
    assert m.vertices == AllVertices(sprites);
    UploadFitsIffWithinCapacity(m);
    if sprites != [] {
      var tail := [SetProjectionUniform(m.program), UploadVertices(m.vertices),
                   DrawElements(m.program, m.texture, 6 * m.spriteCount)];
      LogAppend(b.log, tail);
      assert Uploaded(tail[2..]) == [] + Uploaded(tail[3..]);
      assert Uploaded(tail[1..]) == m.vertices + Uploaded(tail[2..]);
      assert Drawn(tail[2..]) == 6 * m.spriteCount + Drawn(tail[3..]);
      assert Drawn(tail[1..]) == 0 + Drawn(tail[2..]);
    }
  }
}

=== FILE: strings.dfy ===
/** The few `str` operations the text code relies on, with Rust's meaning:
    `char::is_whitespace` (the Unicode White_Space property), `trim_start`,
    `find` of a character, `lines`, and integer `from_str`. */
module Strings {
  import opened Wrappers
  import opened Numeric

  /** `char::is_whitespace`: the Unicode White_Space code points. */
  predicate IsWhitespace(c: char)
  {
    || ('\U{9}' <= c <= '\U{D}') || c == ' ' || c == '\U{85}' || c == '\U{A0}'
    || c == '\U{1680}' || ('\U{2000}' <= c <= '\U{200A}') || c == '\U{2028}' || c == '\U{2029}'
    || c == '\U{202F}' || c == '\U{205F}' || c == '\U{3000}'
  }

  /** `trim_start`: the suffix after the leading whitespace. */
  function TrimStart(s: string): (r: string)
    ensures |r| <= |s| && r == s[|s| - |r|..]
    ensures r == [] || !IsWhitespace(r[0])
    ensures forall i :: 0 <= i < |s| - |r| ==> IsWhitespace(s[i])
  {
    if s == [] || !IsWhitespace(s[0]) then s else TrimStart(s[1..])
  }

  /** A string that starts with something other than whitespace is its own
      trim. */
  lemma TrimStartKeeps(s: string)
    requires s == [] || !IsWhitespace(s[0])
    ensures TrimStart(s) == s
  {
  }

  /** One space before text that starts with no whitespace is all that
      `trim_start` removes. */
  lemma TrimStartSpace(s: string)
    requires s == [] || !IsWhitespace(s[0])
    ensures TrimStart([' '] + s) == s
  {
    assert ([' '] + s)[1..] == s;
    TrimStartKeeps(s);
  }

  /** `find` of one character: the index of its first occurrence. */
  function Find(s: string, c: char): (r: Option<nat>)
    ensures r.None? <==> c !in s
    ensures r.Some? ==> r.value < |s| && s[r.value] == c && c !in s[..r.value]
  {
    if s == [] then None
    else if s[0] == c then Some(0)
    else match Find(s[1..], c)
      case None => None
      case Some(i) =>
        assert s[..i + 1] == [s[0]] + s[1..][..i];
        Some(i + 1)
  }

  /** The first occurrence of `c` in `a + [c] + b` when `a` lacks `c`. */
  lemma FindAfter(a: string, c: char, b: string)
    requires c !in a
    ensures Find(a + [c] + b, c) == Some(|a|)
    ensures (a + [c] + b)[..|a|] == a && (a + [c] + b)[|a| + 1..] == b && (a + [c] + b)[|a|..] == [c] + b
  {
    var s := a + [c] + b;
    assert s[|a|] == c;
    assert s[..|a|] == a;
    assert s[|a| + 1..] == b;
  }

  /** Splitting text that has no `c` before a `c` (or the end) gives the
      two parts back. */
  lemma SplitAtOf(a: string, c: char, b: string)
    requires c !in a && (b == [] || b[0] == c)
    ensures SplitAt(a + b, c) == (a, b)
  {
    if b == [] {
      assert a + b == a;
    } else {
      assert a + b == a + [c] + b[1..];
      FindAfter(a, c, b[1..]);
    }
  }

  /** Split before the first `c`: the part without `c`, and the rest
      starting at `c` (empty when there is none). */
  function SplitAt(s: string, c: char): (r: (string, string))
    ensures r.0 + r.1 == s
    ensures c !in r.0
    ensures r.1 == [] || r.1[0] == c
  {
    match Find(s, c)
    case None => (s, [])
    case Some(i) =>
      assert s[..i] + s[i..] == s;
      (s[..i], s[i..])
  }

  /** `lines`: split after each `'\n'`, dropping the newline and a `'\r'`
      just before it; a final newline does not start another line. */
  function Lines(s: string): (r: seq<string>)
    ensures forall i :: 0 <= i < |r| ==> '\n' !in r[i]
    decreases |s|
  {
    if s == [] then []
    else match Find(s, '\n')
      case None => [s]
      case Some(i) =>
        var line := s[..i];
        var line' := if |line| > 0 && line[|line| - 1] == '\r' then line[..|line| - 1] else line;
        assert forall k :: 0 <= k < |line'| ==> line'[k] == line[k];
        [line'] + Lines(s[i + 1..])
  }

  /** Text written as lines, each followed by a newline. */
  function Unlines(ls: seq<string>): string
  {
    if ls == [] then [] else ls[0] + "\n" + Unlines(ls[1..])
  }

  /** Splitting text written line by line gives the lines back, as long as
      no line holds a newline or ends in a carriage return. */
  lemma {:induction false} LinesUnlines(ls: seq<string>)
    requires forall i :: 0 <= i < |ls| ==> '\n' !in ls[i] && (ls[i] == [] || ls[i][|ls[i]| - 1] != '\r')
    ensures Lines(Unlines(ls)) == ls
  {
    if ls != [] {
      var s := Unlines(ls);
      assert s == ls[0] + ['\n'] + Unlines(ls[1..]);
      FindAfter(ls[0], '\n', Unlines(ls[1..]));
      assert s[..|ls[0]|] == ls[0];
      assert s[|ls[0]| + 1..] == Unlines(ls[1..]);
      LinesUnlines(ls[1..]);
      assert ls == [ls[0]] + ls[1..];
    }
  }

  // Integer parsing, as `FromStr` for `u32` and `i32`.

  predicate IsDigit(c: char) { '0' <= c <= '9' }

  predicate AllDigits(s: string) { forall i :: 0 <= i < |s| ==> IsDigit(s[i]) }

  /** The number a run of decimal digits spells. */
  function DigitsValue(s: string): nat
    requires AllDigits(s)
  {
    if s == [] then 0 else DigitsValue(s[..|s| - 1]) * 10 + (s[|s| - 1] as int - '0' as int)
  }

  /** The decimal digits of `n`, without leading zeros. */
  function Decimal(n: nat): (r: string)
    ensures |r| > 0 && AllDigits(r)
  {
    var d := [(('0' as int) + n % 10) as char];
    if n < 10 then d else Decimal(n / 10) + d
  }

  /** Reading back the digits of `n` gives `n`. */
  lemma {:induction false} DecimalRoundTrip(n: nat)
    ensures DigitsValue(Decimal(n)) == n
  {
    var s := Decimal(n);
    if n >= 10 {
      DecimalRoundTrip(n / 10);
      assert s[..|s| - 1] == Decimal(n / 10);
    }
  }

  /** Digits with an optional leading `+`, as unsigned `from_str` takes them. */
  function UnsignedValue(s: string, max: nat): (r: Option<nat>)
    ensures r.Some? ==> r.value <= max
  {
    var digits := if |s| > 0 && s[0] == '+' then s[1..] else s;
    if digits != [] && AllDigits(digits) && DigitsValue(digits) <= max then Some(DigitsValue(digits)) else None
  }

  /** `u32::from_str`. */
  function ParseU32(s: string): (r: Option<nat>)
    ensures r.Some? ==> r.value <= U32_MAX
    ensures r.Some? ==> s != [] && s[0] != '-'
  {
    UnsignedValue(s, U32_MAX)
  }

  /** `i32::from_str`: as unsigned, or a `-` followed by at most 2^31. */
  function ParseI32(s: string): (r: Option<int>)
    ensures r.Some? ==> -(I32_MAX + 1) <= r.value <= I32_MAX
  {
    if |s| > 0 && s[0] == '-' then
      var digits := s[1..];
      if digits != [] && AllDigits(digits) && DigitsValue(digits) <= I32_MAX + 1 then Some(0 - DigitsValue(digits) as int) else None
    else UnsignedValue(s, I32_MAX)
  }

  /** `i32`'s `to_string`. */
  function ShowInt(i: int): (r: string)
  {
    if i < 0 then "-" + Decimal(-i) else Decimal(i)
  }

  /** Every `u32` and `i32` survives printing and parsing. */
  lemma ParseRoundTrip(n: nat, i: int)
    requires n <= U32_MAX && -(I32_MAX + 1) <= i <= I32_MAX
    ensures ParseU32(Decimal(n)) == Some(n)
    ensures ParseI32(ShowInt(i)) == Some(i)
  {
    DecimalRoundTrip(n);
    if i < 0 {
      DecimalRoundTrip(-i);
      assert ShowInt(i)[1..] == Decimal(-i);
    } else {
      DecimalRoundTrip(i);
    }
  }
}

=== FILE: tetras.dfy ===
// The board logic of the `tetras` example game: a falling block of one of
// two shapes in four rotations, a 10 by 22 board of optional colours,
// collision, locking, line clears and the game-over test.

module Tetras {
  import opened Basics
  import opened Wrappers

  const Width: nat := 10
  const Height: nat := 22

  datatype Shape = I | J
  datatype Rotation = A | B | C | D

  /** The falling block: the board position of its 4 by 4 shape table. */
  datatype Block = Block(x: int, y: int, shape: Shape, rotation: Rotation, color: Color)

  type Row = seq<Option<Color>>
  type Board = seq<Row>

  predicate WellFormed(board: Board)
  {
    |board| == Height && forall y :: 0 <= y < |board| ==> |board[y]| == Width
  }

  const EmptyRow: Row := [None, None, None, None, None, None, None, None, None, None]

  /** The board the game starts with. */
  const EmptyBoard: Board := seq(Height, _ => EmptyRow)

  lemma EmptyBoardWellFormed()
    ensures WellFormed(EmptyBoard)
    ensures forall y, x :: 0 <= y < Height && 0 <= x < Width ==> EmptyBoard[y][x].None?
  {
  }

  // ---------------------------------------------------------------------
  // Rotation

  /** How many clockwise quarter turns a rotation is from `A`. */
  function Turns(r: Rotation): nat
  {
    match r case A => 0 case B => 1 case C => 2 case D => 3
  }

  function Cw(r: Rotation): (s: Rotation)
    ensures Turns(s) == (Turns(r) + 1) % 4
  {
    match r case A => B case B => C case C => D case D => A
  }

  function Ccw(r: Rotation): (s: Rotation)
    ensures Turns(s) == (Turns(r) + 3) % 4
  {
    match r case A => D case B => A case C => B case D => C
  }

  /** `rotate_cw`: one quarter turn clockwise, nothing else moves. */
  function RotateCw(b: Block): (r: Block)
    ensures Turns(r.rotation) == (Turns(b.rotation) + 1) % 4
    ensures r.(rotation := b.rotation) == b
  {
    b.(rotation := Cw(b.rotation))
  }

  /** `rotate_ccw`: one quarter turn counter-clockwise, nothing else moves. */
  function RotateCcw(b: Block): (r: Block)
    ensures Turns(r.rotation) == (Turns(b.rotation) + 3) % 4
    ensures r.(rotation := b.rotation) == b
  {
    b.(rotation := Ccw(b.rotation))
  }

  /** A rotation is determined by its number of turns. */
  lemma TurnsInjective(r: Rotation, s: Rotation)
    requires Turns(r) == Turns(s)
    ensures r == s
  {
  }

  /** The two rotations undo each other. */
  lemma RotationsInverse(b: Block)
    ensures RotateCcw(RotateCw(b)) == b && RotateCw(RotateCcw(b)) == b
  {
    TurnsInjective(RotateCcw(RotateCw(b)).rotation, b.rotation);
    TurnsInjective(RotateCw(RotateCcw(b)).rotation, b.rotation);
  }

  /** Four quarter turns either way bring a block back. */
  lemma FourTurnsIdentity(b: Block)
    ensures RotateCw(RotateCw(RotateCw(RotateCw(b)))) == b
    ensures RotateCcw(RotateCcw(RotateCcw(RotateCcw(b)))) == b
  {
    TurnsInjective(RotateCw(RotateCw(RotateCw(RotateCw(b)))).rotation, b.rotation);
    TurnsInjective(RotateCcw(RotateCcw(RotateCcw(RotateCcw(b)))).rotation, b.rotation);
  }

  // ---------------------------------------------------------------------
  // Shapes and segments

  /** Cell `(i, j)` (column, row) of the shape table of `shape` in
      `rotation`. */
  predicate Cell(shape: Shape, rotation: Rotation, i: int, j: int)
  {
    && 0 <= i < 4 && 0 <= j < 4
    && match shape
       case I => (match rotation
                  case A => j == 1
                  case B => i == 2
                  case C => j == 2
                  case D => i == 1)
       case J => (match rotation
                  case A => (j == 0 && i == 0) || (j == 1 && i <= 2)
                  case B => (j == 0 && i == 2) || (i == 1 && j <= 2)
                  case C => (j == 1 && i <= 2) || (j == 2 && i == 2)
                  case D => (i == 1 && j <= 2) || (j == 2 && i == 0))
  }

  /** `data`: the shape table of a shape in a rotation, rows top to bottom. */
  function Data(shape: Shape, rotation: Rotation): (r: seq<seq<bool>>)
    ensures |r| == 4 && forall j :: 0 <= j < 4 ==> |r[j]| == 4
  {
    seq(4, j => seq(4, i => Cell(shape, rotation, i, j)))
  }

  const IA: seq<seq<bool>> := [[false, false, false, false], [true, true, true, true], [false, false, false, false], [false, false, false, false]]
  const IB: seq<seq<bool>> := [[false, false, true, false], [false, false, true, false], [false, false, true, false], [false, false, true, false]]
  const IC: seq<seq<bool>> := [[false, false, false, false], [false, false, false, false], [true, true, true, true], [false, false, false, false]]
  const ID: seq<seq<bool>> := [[false, true, false, false], [false, true, false, false], [false, true, false, false], [false, true, false, false]]
  const JA: seq<seq<bool>> := [[true, false, false, false], [true, true, true, false], [false, false, false, false], [false, false, false, false]]
  const JB: seq<seq<bool>> := [[false, true, true, false], [false, true, false, false], [false, true, false, false], [false, false, false, false]]
  const JC: seq<seq<bool>> := [[false, false, false, false], [true, true, true, false], [false, false, true, false], [false, false, false, false]]
  const JD: seq<seq<bool>> := [[false, true, false, false], [false, true, false, false], [true, true, false, false], [false, false, false, false]]

  /** A table that agrees with `Cell` everywhere is the one `Data` builds. */
  lemma SameTable(shape: Shape, rotation: Rotation, t: seq<seq<bool>>)
    requires |t| == 4 && forall j :: 0 <= j < 4 ==> |t[j]| == 4
    requires forall j, i :: 0 <= j < 4 && 0 <= i < 4 ==> t[j][i] == Cell(shape, rotation, i, j)
    ensures Data(shape, rotation) == t
  {
    var d := Data(shape, rotation);
    forall j | 0 <= j < 4
      ensures d[j] == t[j]
    {
      assert forall i :: 0 <= i < 4 ==> d[j][i] == t[j][i];
    }
  }

  /** The tables `Data` builds are the eight static tables. */
  lemma DataIsStaticTables()
    ensures Data(I, A) == IA && Data(I, B) == IB && Data(I, C) == IC && Data(I, D) == ID
    ensures Data(J, A) == JA && Data(J, B) == JB && Data(J, C) == JC && Data(J, D) == JD
  {
    SameTable(I, A, IA);
    SameTable(I, B, IB);
    SameTable(I, C, IC);
    SameTable(I, D, ID);
    SameTable(J, A, JA);
    SameTable(J, B, JB);
    SameTable(J, C, JC);
    SameTable(J, D, JD);
  }

  /** Whether column `i` of row `j` of a table is set. */
  predicate Covers(t: seq<seq<bool>>, i: int, j: int)
  {
    0 <= j < |t| && 0 <= i < |t[j]| && t[j][i]
  }

  /** The cells of one table row, left to right, starting at column `x`. */
  function RowCells(row: seq<bool>, x: int, y: int): (r: seq<(int, int)>)
    ensures forall p :: p in r <==> p.1 == y && 0 <= p.0 - x < |row| && row[p.0 - x]
    decreases |row|
  {
    if row == [] then []
    else (if row[0] then [(x, y)] else []) + RowCells(row[1..], x + 1, y)
  }

  /** The cells of a table, row by row, its top-left corner at `(x, y)`. */
  function TableCells(rows: seq<seq<bool>>, x: int, y: int): (r: seq<(int, int)>)
    ensures forall p :: p in r <==> Covers(rows, p.0 - x, p.1 - y)
    decreases |rows|
  {
    if rows == [] then []
    else RowCells(rows[0], x, y) + TableCells(rows[1..], x, y + 1)
  }

  /** `segments`: the board cells the block covers — exactly the `true`
      entries of its table, moved by the block's position. */
  function Segments(b: Block): (r: seq<(int, int)>)
    ensures forall p :: p in r <==> Cell(b.shape, b.rotation, p.0 - b.x, p.1 - b.y)
  {
    var t := Data(b.shape, b.rotation);
    assert forall i, j :: Covers(t, i, j) <==> Cell(b.shape, b.rotation, i, j);
    TableCells(t, b.x, b.y)
  }

  // ---------------------------------------------------------------------
  // Collision and locking

  /** Whether a segment moved to `(x, y)` is blocked: rows above the board
      never are; otherwise the walls, the floor and occupied cells are. */
  predicate Blocked(board: Board, x: int, y: int)
    requires WellFormed(board)
  {
    y >= 0 && (x < 0 || x > 9 || y > 21 || board[y][x].Some?)
  }

  /** The loop of `collides` over a list of segments, stopping at the
      first blocked one. */
  function CollidesAt(board: Board, segs: seq<(int, int)>, mx: int, my: int): (r: bool)
    requires WellFormed(board)
    ensures r <==> exists k :: 0 <= k < |segs| && Blocked(board, segs[k].0 + mx, segs[k].1 + my)
    decreases |segs|
  {
    if segs == [] then false
    else
      var nx, ny := segs[0].0 + mx, segs[0].1 + my;
      if ny < 0 then CollidesAt(board, segs[1..], mx, my)
      else if nx < 0 || nx > 9 || ny > 21 || board[ny][nx].Some? then true
      else CollidesAt(board, segs[1..], mx, my)
  }

  /** `collides`: whether the block, moved by `(mx, my)`, would leave the
      board at the sides or bottom or overlap a locked cell. */
  function Collides(board: Board, b: Block, mx: int, my: int): (r: bool)
    requires WellFormed(board)
  {
    CollidesAt(board, Segments(b), mx, my)
  }

  /** A list of segments collides exactly when one of its members is
      blocked: the order the loop visits them in does not matter. */
  lemma CollidesIffBlocked(board: Board, segs: seq<(int, int)>, mx: int, my: int)
    requires WellFormed(board)
    ensures CollidesAt(board, segs, mx, my) <==> exists p :: p in segs && Blocked(board, p.0 + mx, p.1 + my)
  {
    if CollidesAt(board, segs, mx, my) {
      var k :| 0 <= k < |segs| && Blocked(board, segs[k].0 + mx, segs[k].1 + my);
      assert segs[k] in segs;
    }
  }

  /** Moving a block moves each of its segments by the same amount. */
  lemma SegmentsMoved(b: Block, mx: int, my: int, p: (int, int))
    ensures p in Segments(b) <==> (p.0 + mx, p.1 + my) in Segments(b.(x := b.x + mx, y := b.y + my))
  {
  }

  /** A blocked segment of the moving block is a blocked segment of the
      block already moved, and back. */
  lemma BlockedMoved(board: Board, b: Block, mx: int, my: int)
    requires WellFormed(board)
    ensures (exists p :: p in Segments(b) && Blocked(board, p.0 + mx, p.1 + my)) ==>
              exists q :: q in Segments(b.(x := b.x + mx, y := b.y + my)) && Blocked(board, q.0 + 0, q.1 + 0)
  {
    if exists p :: p in Segments(b) && Blocked(board, p.0 + mx, p.1 + my) {
      var p :| p in Segments(b) && Blocked(board, p.0 + mx, p.1 + my);
      SegmentsMoved(b, mx, my, p);
      var q := (p.0 + mx, p.1 + my);
      assert Blocked(board, q.0 + 0, q.1 + 0);
    }
  }

  lemma BlockedUnmoved(board: Board, b: Block, mx: int, my: int)
    requires WellFormed(board)
    ensures (exists q :: q in Segments(b.(x := b.x + mx, y := b.y + my)) && Blocked(board, q.0 + 0, q.1 + 0)) ==>
              exists p :: p in Segments(b) && Blocked(board, p.0 + mx, p.1 + my)
  {
    var m := b.(x := b.x + mx, y := b.y + my);
    if exists q :: q in Segments(m) && Blocked(board, q.0 + 0, q.1 + 0) {
      var q :| q in Segments(m) && Blocked(board, q.0 + 0, q.1 + 0);
      var p := (q.0 - mx, q.1 - my);
      assert (p.0 + mx, p.1 + my) == q;
      SegmentsMoved(b, mx, my, p);
      assert p in Segments(b);
    }
  }

  /** Testing a move is testing the block already moved there. */
  lemma CollidesMoved(board: Board, b: Block, mx: int, my: int)
    requires WellFormed(board)
    ensures Collides(board, b, mx, my) == Collides(board, b.(x := b.x + mx, y := b.y + my), 0, 0)
  {
    CollidesIffBlocked(board, Segments(b), mx, my);
    CollidesIffBlocked(board, Segments(b.(x := b.x + mx, y := b.y + my)), 0, 0);
    BlockedMoved(board, b, mx, my);
    BlockedUnmoved(board, b, mx, my);
  }

  /** The board with the block's colour in every cell under one of its
      segments, cell by cell. */
  function Locked(board: Board, b: Block): (r: Board)
    requires WellFormed(board)
  {
    seq(Height, y requires 0 <= y < Height =>
      seq(Width, x requires 0 <= x < Width =>
        if (x, y) in Segments(b) then Some(b.color) else board[y][x]))
  }

  /** `lock`: writes the block's colour into every segment cell that lies
      on the board and leaves every other cell as it was. */
  method Lock(board: Board, b: Block) returns (r: Board)
    requires WellFormed(board)
    ensures WellFormed(r)
    ensures forall y, x :: 0 <= y < Height && 0 <= x < Width ==>
              r[y][x] == if (x, y) in Segments(b) then Some(b.color) else board[y][x]
    ensures r == Locked(board, b)
  {
    var segs := Segments(b);
    r := board;
    var i := 0;
    while i < |segs|
      invariant 0 <= i <= |segs|
      invariant WellFormed(r)
      invariant forall y, x :: 0 <= y < Height && 0 <= x < Width ==>
                  r[y][x] == if (x, y) in segs[..i] then Some(b.color) else board[y][x]
    {
      var (x, y) := segs[i];
      if x >= 0 && x <= 9 && y >= 0 && y <= 21 {
        r := r[y := r[y][x := Some(b.color)]];
      }
      assert segs[..i + 1] == segs[..i] + [segs[i]];
      i := i + 1;
    }
    assert segs[..i] == segs;
    var l := Locked(board, b);
    forall y | 0 <= y < Height
      ensures r[y] == l[y]
    {
      assert |r[y]| == |l[y]| == Width;
    }
  }

  // ---------------------------------------------------------------------
  // Line clears

  predicate Full(row: Row)
  {
    forall x :: 0 <= x < |row| ==> row[x].Some?
  }

  /** The rows that are not full, in their order. */
  function Kept(rows: seq<Row>): (r: seq<Row>)
    ensures |r| <= |rows|
    ensures forall k :: 0 <= k < |r| ==> r[k] in rows && !Full(r[k])
    decreases |rows|
  {
    if rows == [] then []
    else
      var last := rows[|rows| - 1];
      Kept(rows[..|rows| - 1]) + (if Full(last) then [] else [last])
  }

  function Blank(n: nat): (r: seq<Row>)
  {
    seq(n, _ => EmptyRow)
  }

  /** What clearing is meant to leave: the rows that were not full, in
      order, dropped to the bottom, with empty rows filling the top. */
  function Cleared(board: Board): seq<Row>
  {
    Blank(|board| - |Kept(board)|) + Kept(board)
  }

  /** A cleared board keeps its shape and has no full row. */
  lemma ClearedHasNoFullRow(board: Board)
    requires WellFormed(board)
    ensures WellFormed(Cleared(board))
    ensures forall y :: 0 <= y < Height ==> !Full(Cleared(board)[y])
  {
    var k := Kept(board);
    var c := Cleared(board);
    forall y | 0 <= y < Height
      ensures |c[y]| == Width && !Full(c[y])
    {
      if y < |board| - |k| {
        assert c[y] == EmptyRow && EmptyRow[0].None?;
      } else {
        assert c[y] == k[y - (|board| - |k|)];
      }
    }
  }

  /** The inner loop of `check_for_clears`: every row from `y` up moves
      down by one, the top row is emptied, the rows below `y` stay. */
  method ShiftDown(board: seq<Row>, y: nat) returns (r: seq<Row>)
    requires y < |board|
    ensures r == [EmptyRow] + board[..y] + board[y + 1..]
  {
    r := board;
    var c := y;
    while c > 0
      invariant 0 <= c <= y && |r| == |board|
      invariant forall k :: 0 <= k <= c ==> r[k] == board[k]
      invariant forall k :: c < k <= y ==> r[k] == board[k - 1]
      invariant forall k :: y < k < |r| ==> r[k] == board[k]
    {
      r := r[c := r[c - 1]];
      c := c - 1;
    }
    r := r[0 := EmptyRow];
    assert forall k :: 0 <= k < |r| ==> r[k] == ([EmptyRow] + board[..y] + board[y + 1..])[k];
  }

  /** The inner scan of `check_for_clears`: a row is full when no cell
      of it is empty. */
  method RowFull(row: Row) returns (full: bool)
    ensures full <==> Full(row)
  {
    var x := 0;
    while x < |row|
      invariant 0 <= x <= |row|
      invariant forall i :: 0 <= i < x ==> row[i].Some?
    {
      if row[x].None? {
        return false;
      }
      x := x + 1;
    }
    return true;
  }

  /** One pass of the outer loop of `check_for_clears`: a full row `y` is
      removed as `ShiftDown` does it. */
  function ClearRow(r: seq<Row>, y: nat): (r': seq<Row>)
    requires y < |r|
    ensures |r'| == |r|
  {
    if Full(r[y]) then [EmptyRow] + r[..y] + r[y + 1..] else r
  }

  /** The board after the outer loop has looked at rows `0..y`: those
      rows cleared, laid over the rows not yet looked at. */
  ghost predicate ClearedUpTo(board: Board, r: seq<Row>, y: nat)
    requires y <= |board|
  {
    r == Blank(y - |Kept(board[..y])|) + Kept(board[..y]) + board[y..]
  }

  /** Before the loop nothing has been looked at. */
  lemma ClearStart(board: Board)
    ensures ClearedUpTo(board, board, 0)
  {
    assert Blank(0) + Kept(board[..0]) + board[0..] == board;
  }

  /** After the loop every row has been looked at. */
  lemma ClearEnd(board: Board, r: seq<Row>)
    requires ClearedUpTo(board, r, |board|)
    ensures r == Cleared(board)
  {
    assert board[..|board|] == board && board[|board|..] == [];
  }

  /** Looking at one more row keeps it exactly when it is not full. */
  lemma KeptStep(board: Board, y: nat)
    requires y < |board|
    ensures Kept(board[..y + 1]) == Kept(board[..y]) + (if Full(board[y]) then [] else [board[y]])
  {
    assert board[..y + 1][..y] == board[..y];
  }

  /** The parts of a board split around one row. */
  lemma AroundRow(front: seq<Row>, row: Row, back: seq<Row>)
    ensures var r := front + [row] + back;
            r[|front|] == row && r[..|front|] == front && r[|front| + 1..] == back
  {
  }

  /** One step of the outer loop keeps the board equal to the clears so
      far laid over the rows not yet looked at. */
  lemma ClearStep(board: Board, r: seq<Row>, y: nat)
    requires y < |board| && ClearedUpTo(board, r, y)
    ensures ClearedUpTo(board, ClearRow(r, y), y + 1)
  {
    var k := Kept(board[..y]);
    var m := y - |k|;
    var back := board[y + 1..];
    assert board[y..] == [board[y]] + back;
    assert r == Blank(m) + k + [board[y]] + back;
    ClearStepParts(m, k, board[y], back);
    KeptStep(board, y);
  }

  /** One row cleared or kept, over a board already split into blank rows,
      kept rows, the row and the rows below it. */
  lemma ClearStepParts(m: nat, k: seq<Row>, row: Row, back: seq<Row>)
    ensures ClearRow(Blank(m) + k + [row] + back, m + |k|)
         == if Full(row) then Blank(m + 1) + k + back else Blank(m) + (k + [row]) + back
  {
    ClearRowAt(Blank(m) + k, row, back);
    if Full(row) {
      BlankGrows(m, k, back);
    } else {
      assert Blank(m) + k + [row] + back == Blank(m) + (k + [row]) + back;
    }
  }

  /** Clearing the row between `front` and `back`. */
  lemma ClearRowAt(front: seq<Row>, row: Row, back: seq<Row>)
    ensures ClearRow(front + [row] + back, |front|)
         == if Full(row) then [EmptyRow] + front + back else front + [row] + back
  {
    AroundRow(front, row, back);
  }

  /** A cleared row becomes one more blank row on top. */
  lemma BlankGrows(m: nat, k: seq<Row>, back: seq<Row>)
    ensures [EmptyRow] + (Blank(m) + k) + back == Blank(m + 1) + k + back
  {
    assert [EmptyRow] + Blank(m) == Blank(m + 1);
  }

  /** The board after the outer loop of `check_for_clears` has looked at
      rows `0..y`. */
  function ClearRows(board: seq<Row>, y: nat): (r: seq<Row>)
    requires y <= |board|
    ensures |r| == |board|
    decreases y
  {
    if y == 0 then board else ClearRow(ClearRows(board, y - 1), y - 1)
  }

  /** Row by row, the loop computes the reference clearing. */
  lemma {:induction false} ClearRowsCleared(board: Board, y: nat)
    requires y <= |board|
    ensures ClearedUpTo(board, ClearRows(board, y), y)
    decreases y
  {
    if y == 0 {
      ClearStart(board);
    } else {
      ClearRowsCleared(board, y - 1);
      ClearStep(board, ClearRows(board, y - 1), y - 1);
    }
  }

  /** `check_for_clears`: scans the rows top to bottom; each full row is
      removed by moving every row above it down one and emptying the top
      row. The result is the reference clearing. */
  method CheckForClears(board: Board) returns (r: Board)
    requires WellFormed(board)
    ensures r == Cleared(board)
    ensures WellFormed(r) && forall y :: 0 <= y < Height ==> !Full(r[y])
  {
    r := board;
    var y := 0;
    while y < Height
      invariant 0 <= y <= Height
      invariant r == ClearRows(board, y)
    {
      var full := RowFull(r[y]);
      if full {
        r := ShiftDown(r, y);
      }
      y := y + 1;
    }
    ClearRowsCleared(board, Height);
    ClearEnd(board, r);
    ClearedHasNoFullRow(board);
  }

  // ---------------------------------------------------------------------
  // Game over

  /** `iter().any(is_some)` over one row. */
  function Any(row: Row): (r: bool)
    ensures r <==> exists x :: 0 <= x < |row| && row[x].Some?
    decreases |row|
  {
    if row == [] then false
    else row[0].Some? || Any(row[1..])
  }

  /** `check_for_game_over`: some cell of the top two rows is occupied. */
  function GameOver(board: Board): (r: bool)
    requires WellFormed(board)
    ensures r <==> exists y, x :: 0 <= y < 2 && 0 <= x < Width && board[y][x].Some?
  {
    Any(board[0]) || Any(board[1])
  }

  // ---------------------------------------------------------------------
  // Dropping

  /** The drop step of `update`: a block that can move down one row does;
      otherwise it is locked, full rows are cleared, the game-over test is
      taken on the result and `next` (the randomly chosen new block) takes
      its place. */
  method Fall(board: Board, b: Block, next: Block) returns (board': Board, b': Block, over: bool)
    requires WellFormed(board)
    ensures WellFormed(board')
    ensures !Collides(board, b, 0, 1) ==> board' == board && b' == b.(y := b.y + 1) && !over
    ensures Collides(board, b, 0, 1) ==>
              && b' == next
              && board' == Cleared(Locked(board, b))
              && (forall y :: 0 <= y < Height ==> !Full(board'[y]))
              && (over <==> exists y, x :: 0 <= y < 2 && 0 <= x < Width && board'[y][x].Some?)
  {
    if Collides(board, b, 0, 1) {
      var locked := Lock(board, b);
      board' := CheckForClears(locked);
      over := GameOver(board');
      b' := next;
    } else {
      board', b', over := board, b.(y := b.y + 1), false;
    }
  }
}

=== FILE: text.dfy ===
/** `src/graphics/text.rs`: a piece of text with its font and the layout
    last computed for it. The font's glyph cache is shared by every text
    using the font, so it is passed in and handed back rather than owned. */
module Text {
  import opened Wrappers
  import opened Rectangles
  import opened Textures
  import FC = FontCache

  /** `font` names the shared cache; `geometry` is the cached layout. */
  datatype Text = Text(content: string, font: nat, geometry: Option<FC.TextGeometry>)

  /** `Text::new`: nothing laid out yet. */
  function New(content: string, font: nat): (t: Text)
    ensures t.content == content && t.font == font && t.geometry.None?
  {
    Text(content, font, None)
  }

  /** `set_content`. */
  function SetContent(t: Text, content: string): (r: Text)
    ensures r.content == content && r.font == t.font && r.geometry.None?
  {
    t.(content := content, geometry := None)
  }

  /** `set_font`. */
  function SetFont(t: Text, font: nat): (r: Text)
    ensures r.font == font && r.content == t.content && r.geometry.None?
  {
    t.(font := font, geometry := None)
  }

  /** `push`: one more character at the end. */
  function Push(t: Text, ch: char): (r: Text)
    ensures r.content == t.content + [ch] && r.font == t.font && r.geometry.None?
  {
    t.(content := t.content + [ch], geometry := None)
  }

  /** `push_str`. */
  function PushStr(t: Text, s: string): (r: Text)
    ensures r.content == t.content + s && r.font == t.font && r.geometry.None?
  {
    t.(content := t.content + s, geometry := None)
  }

  /** `pop`: the last character, removed; `None` for empty content. The
      layout is dropped either way. */
  function Pop(t: Text): (r: (Option<char>, Text))
    ensures r.1.font == t.font && r.1.geometry.None?
    ensures t.content == [] ==> r.0.None? && r.1.content == []
    ensures t.content != [] ==> r.0 == Some(t.content[|t.content| - 1])
                                && r.1.content + [r.0.value] == t.content
  {
    if t.content == [] then (None, t.(geometry := None))
    else (Some(t.content[|t.content| - 1]), t.(content := t.content[..|t.content| - 1], geometry := None))
  }

  /** `pop` undoes `push`. */
  lemma PopUndoesPush(t: Text, ch: char)
    ensures Pop(Push(t, ch)) == (Some(ch), t.(geometry := None))
  {
    assert (t.content + [ch])[..|t.content|] == t.content;
  }

  /** `push` applied to each character of a string in turn (the stale
      layout is dropped even when the string is empty, as `push_str` does). */
  function PushEach(t: Text, s: string): Text
    decreases |s|
  {
    if s == [] then t.(geometry := None) else PushEach(Push(t, s[0]), s[1..])
  }

  /** Pushing the characters of a string one by one is `push_str`. */
  lemma {:induction false} PushEachIsPushStr(t: Text, s: string)
    ensures PushEach(t, s) == PushStr(t, s)
    decreases |s|
  {
    if s != [] {
      PushEachIsPushStr(Push(t, s[0]), s[1..]);
      assert t.content + [s[0]] + s[1..] == t.content + s;
    }
  }

  /** The layout is stale when there is none or the atlas was rebuilt
      since it was made. */
  predicate NeedsRender(t: Text, cache: FC.FontCache)
  {
    match t.geometry
    case None => true
    case Some(g) => g.resizeCount != cache.resizeCount
  }

  /** `get_latest_geometry`: reuse the layout if it is current, otherwise
      lay the text out again (growing the atlas as often as needed, each
      time with the next texture handle). `None` when the handles run out. */
  function LatestGeometry(t: Text, cache: FC.FontCache, handles: seq<nat>): (r: Option<(FC.TextGeometry, Text, FC.FontCache, seq<DeviceCall>)>)
    requires FC.Sized(cache)
    ensures !NeedsRender(t, cache) ==> r == Some((t.geometry.value, t, cache, []))
    ensures NeedsRender(t, cache) ==>
              match FC.Render(cache, t.content, handles)
              case None => r.None?
              case Some((g, c, calls)) => r == Some((g, t.(geometry := Some(g)), c, calls))
    ensures r.Some? ==> r.value.1.geometry == Some(r.value.0) && !NeedsRender(r.value.1, r.value.2)
    ensures r.Some? ==> r.value.1.content == t.content && r.value.1.font == t.font && FC.Sized(r.value.2)
  {
    if !NeedsRender(t, cache) then Some((t.geometry.value, t, cache, []))
    else match FC.Render(cache, t.content, handles)
      case None => None
      case Some((g, c, calls)) => Some((g, t.(geometry := Some(g)), c, calls))
  }

  /** Asking again straight away changes nothing and lays nothing out. */
  lemma LatestGeometryIsStable(t: Text, cache: FC.FontCache, handles: seq<nat>, more: seq<nat>)
    requires FC.Sized(cache) && LatestGeometry(t, cache, handles).Some?
    ensures var (g, t', c, _) := LatestGeometry(t, cache, handles).value;
            FC.Sized(c) && LatestGeometry(t', c, more) == Some((g, t', c, []))
  {
  }

  /** `get_bounds`. */
  function GetBounds(t: Text, cache: FC.FontCache, handles: seq<nat>): (r: Option<(Option<Rect>, Text, FC.FontCache)>)
    requires FC.Sized(cache)
    ensures r.Some? <==> LatestGeometry(t, cache, handles).Some?
    ensures r.Some? ==> r.value.0 == LatestGeometry(t, cache, handles).value.0.bounds
    ensures r.Some? ==> r.value.1.geometry.Some? && r.value.1.geometry.value.bounds == r.value.0
  {
    match LatestGeometry(t, cache, handles)
    case None => None
    case Some((g, t', c, _)) => Some((g.bounds, t', c))
  }

  /** The quad a glyph is drawn on: its screen box and its atlas box. */
  function GlyphQuad(q: FC.TextQuad): Quad
  {
    Quad(q.position.x, q.position.y, Right(q.position), Bottom(q.position),
         q.uv.x, q.uv.y, Right(q.uv), Bottom(q.uv))
  }

  /** `draw`: the atlas once, then every quad of the current layout in
      order, all with the same parameters. */
  function Draw<P>(t: Text, cache: FC.FontCache, handles: seq<nat>, params: P): (r: Option<(seq<Command<P>>, Text, FC.FontCache)>)
    requires FC.Sized(cache)
    ensures r.Some? <==> LatestGeometry(t, cache, handles).Some?
    ensures r.Some? ==>
              var (g, _, c, _) := LatestGeometry(t, cache, handles).value;
              && |r.value.0| == |g.quads| + 1
              && r.value.0[0] == Command.SetTexture(c.packer.texture)
              && forall i :: 0 <= i < |g.quads| ==>
                   r.value.0[i + 1] == PushQuad(Quad(g.quads[i].position.x, g.quads[i].position.y,
                                                     Right(g.quads[i].position), Bottom(g.quads[i].position),
                                                     g.quads[i].uv.x, g.quads[i].uv.y, Right(g.quads[i].uv), Bottom(g.quads[i].uv)),
                                                params)
  {
    match LatestGeometry(t, cache, handles)
    case None => None
    case Some((g, t', c, _)) =>
      Some(([Command.SetTexture(c.packer.texture)] + seq(|g.quads|, i requires 0 <= i < |g.quads| => PushQuad(GlyphQuad(g.quads[i]), params)), t', c))
  }
}

=== FILE: texture.dfy ===
/** `src/graphics/texture.rs`: pixel formats, and how a texture turns a
    draw call into quads for the renderer. The renderer and the device are
    outside this file; they are seen here only as the commands a texture
    sends them. */
module Textures {
  import opened Wrappers
  import opened Rectangles

  datatype TextureFormat = Rgba8 | R8 | Rg8 | Rgba16F

  datatype FilterMode = Nearest | Linear

  /** Bytes per pixel. */
  function Stride(format: TextureFormat): (r: nat)
    ensures r == Channels(format) * ChannelBytes(format)
    ensures r in {1, 2, 4, 8}
  {
    match format
    case Rgba8 => 4
    case R8 => 1
    case Rg8 => 2
    case Rgba16F => 8
  }

  /** Independent description of each format: how many channels it stores
      and how wide each one is. */
  function Channels(format: TextureFormat): nat
  {
    match format
    case Rgba8 => 4
    case R8 => 1
    case Rg8 => 2
    case Rgba16F => 4
  }

  function ChannelBytes(format: TextureFormat): nat
  {
    if format == Rgba16F then 2 else 1
  }

  /** The stride tells the formats apart. */
  lemma StrideInjective(a: TextureFormat, b: TextureFormat)
    ensures Stride(a) == Stride(b) <==> a == b
  {
  }

  /** A texture as the renderer sees it: the device handle and its size. */
  datatype Texture = Texture(handle: nat, width: nat, height: nat, format: TextureFormat)

  /** Two texture values are the same texture when their handles are. */
  predicate SameTexture(a: Texture, b: Texture) { a.handle == b.handle }

  /** One `push_quad`: the corners of the quad in local space and the
      matching texture coordinates. */
  datatype Quad = Quad(x1: real, y1: real, x2: real, y2: real, u1: real, v1: real, u2: real, v2: real)

  datatype Command<P> = SetTexture(texture: Texture) | PushQuad(quad: Quad, params: P)

  /** `draw`: the whole texture on a quad of its own size. */
  function Draw<P>(t: Texture, params: P): (r: seq<Command<P>>)
    ensures |r| == 2 && r[0] == SetTexture(t)
    ensures r[1].PushQuad? && r[1].params == params
    ensures r[1].quad == Quad(0.0, 0.0, t.width as real, t.height as real, 0.0, 0.0, 1.0, 1.0)
  {
    [SetTexture(t), PushQuad(Quad(0.0, 0.0, t.width as real, t.height as real, 0.0, 0.0, 1.0, 1.0), params)]
  }

  /** `draw_region`: a quad the size of the region, sampling that region. */
  function DrawRegion<P>(t: Texture, region: Rect, params: P): (r: seq<Command<P>>)
    requires t.width > 0 && t.height > 0
    ensures |r| == 2 && r[0] == SetTexture(t) && r[1].PushQuad? && r[1].params == params
    ensures var q := r[1].quad;
            q.x1 == 0.0 && q.y1 == 0.0 && q.x2 == region.width && q.y2 == region.height
            && q.u1 * t.width as real == region.x && q.v1 * t.height as real == region.y
            && q.u2 * t.width as real == Right(region) && q.v2 * t.height as real == Bottom(region)
  {
    var tw, th := t.width as real, t.height as real;
    [SetTexture(t), PushQuad(Quad(0.0, 0.0, region.width, region.height,
                                  region.x / tw, region.y / th, Right(region) / tw, Bottom(region) / th), params)]
  }

  /** Drawing the whole texture as a region is drawing the texture. */
  lemma FullRegionIsDraw<P>(t: Texture, params: P)
    requires t.width > 0 && t.height > 0
    ensures DrawRegion(t, Rectangle(0.0, 0.0, t.width as real, t.height as real), params) == Draw(t, params)
  {
    var tw, th := t.width as real, t.height as real;
    assert tw / tw == 1.0 && th / th == 1.0 && 0.0 / tw == 0.0 && 0.0 / th == 0.0;
    assert Right(Rectangle(0.0, 0.0, tw, th)) == tw && Bottom(Rectangle(0.0, 0.0, tw, th)) == th;
  }

  datatype NineSlice = NineSlice(region: Rect, left: real, right: real, top: real, bottom: real)

  function NewNineSlice(region: Rect, left: real, right: real, top: real, bottom: real): (r: NineSlice)
    ensures r.region == region && r.left == left && r.right == right && r.top == top && r.bottom == bottom
  {
    NineSlice(region, left, right, top, bottom)
  }

  /** `with_border`: the same border on all four sides. */
  function WithBorder(region: Rect, border: real): (r: NineSlice)
    ensures r == NewNineSlice(region, border, border, border, border)
  {
    NineSlice(region, border, border, border, border)
  }

  /** The nine cells of a grid with column breakpoints `xs`/`us` and row
      breakpoints `ys`/`vs`, in row-major order: cell `3 * row + col` spans
      column `col` and row `row`. This is the reference layout that both
      nine-slice renderers are proved to follow. */
  function Grid(xs: seq<real>, ys: seq<real>, us: seq<real>, vs: seq<real>): (r: seq<Quad>)
    requires |xs| == 4 && |ys| == 4 && |us| == 4 && |vs| == 4
    ensures |r| == 9
  {
    seq(9, i requires 0 <= i < 9 =>
      Quad(xs[i % 3], ys[i / 3], xs[i % 3 + 1], ys[i / 3 + 1],
           us[i % 3], vs[i / 3], us[i % 3 + 1], vs[i / 3 + 1]))
  }

  /** Neighbouring cells share their edges, both on screen and in the
      texture, so the nine quads leave no gap and do not overlap. */
  lemma GridCellsShareEdges(xs: seq<real>, ys: seq<real>, us: seq<real>, vs: seq<real>, i: nat)
    requires |xs| == 4 && |ys| == 4 && |us| == 4 && |vs| == 4 && i < 9
    ensures var g := Grid(xs, ys, us, vs);
            (i % 3 < 2 ==> g[i].x2 == g[i + 1].x1 && g[i].u2 == g[i + 1].u1 && g[i].y1 == g[i + 1].y1)
            && (i < 6 ==> g[i].y2 == g[i + 3].y1 && g[i].v2 == g[i + 3].v1 && g[i].x1 == g[i + 3].x1)
  {
    if i % 3 < 2 {
      assert (i + 1) % 3 == i % 3 + 1 && (i + 1) / 3 == i / 3;
    }
    if i < 6 {
      assert (i + 3) % 3 == i % 3 && (i + 3) / 3 == i / 3 + 1;
    }
  }

  /** Screen breakpoints of `draw_nine_slice`. */
  function NineSliceXs(config: NineSlice, width: real): (r: seq<real>)
    ensures |r| == 4 && r[0] == 0.0 && r[1] == config.left && r[3] == width && r[3] - r[2] == config.right
  {
    [0.0, config.left, width - config.right, width]
  }

  function NineSliceYs(config: NineSlice, height: real): (r: seq<real>)
    ensures |r| == 4 && r[0] == 0.0 && r[1] == config.top && r[3] == height && r[3] - r[2] == config.bottom
  {
    [0.0, config.top, height - config.bottom, height]
  }

  /** Texture breakpoints: the region's edges and the borders inside it,
      as fractions of the texture size. */
  function NineSliceUs(config: NineSlice, tw: real): (r: seq<real>)
    requires tw > 0.0
    ensures |r| == 4
    ensures r[0] * tw == config.region.x && r[1] * tw == config.region.x + config.left
    ensures r[2] * tw == Right(config.region) - config.right && r[3] * tw == Right(config.region)
  {
    [config.region.x / tw, (config.region.x + config.left) / tw,
     (config.region.x + config.region.width - config.right) / tw, (config.region.x + config.region.width) / tw]
  }

  function NineSliceVs(config: NineSlice, th: real): (r: seq<real>)
    requires th > 0.0
    ensures |r| == 4
    ensures r[0] * th == config.region.y && r[1] * th == config.region.y + config.top
    ensures r[2] * th == Bottom(config.region) - config.bottom && r[3] * th == Bottom(config.region)
  {
    [config.region.y / th, (config.region.y + config.top) / th,
     (config.region.y + config.region.height - config.bottom) / th, (config.region.y + config.region.height) / th]
  }

  /** `draw_nine_slice`, written out quad by quad as the renderer receives
      it: top-left, top, top-right, left, centre, right, bottom-left,
      bottom, bottom-right. */
  function DrawNineSlice<P>(t: Texture, config: NineSlice, width: real, height: real, params: P): (r: seq<Command<P>>)
    requires t.width > 0 && t.height > 0
    ensures |r| == 10 && r[0] == SetTexture(t)
    ensures forall i :: 1 <= i < 10 ==> r[i].PushQuad? && r[i].params == params
  {
    var tw, th := t.width as real, t.height as real;
    var x1, y1, x2, y2, x3, y3, x4, y4 := 0.0, 0.0, config.left, config.top, width - config.right, height - config.bottom, width, height;
    var u1, v1 := config.region.x / tw, config.region.y / th;
    var u2, v2 := (config.region.x + config.left) / tw, (config.region.y + config.top) / th;
    var u3 := (config.region.x + config.region.width - config.right) / tw;
    var v3 := (config.region.y + config.region.height - config.bottom) / th;
    var u4, v4 := (config.region.x + config.region.width) / tw, (config.region.y + config.region.height) / th;
    [SetTexture(t),
     PushQuad(Quad(x1, y1, x2, y2, u1, v1, u2, v2), params),
     PushQuad(Quad(x2, y1, x3, y2, u2, v1, u3, v2), params),
     PushQuad(Quad(x3, y1, x4, y2, u3, v1, u4, v2), params),
     PushQuad(Quad(x1, y2, x2, y3, u1, v2, u2, v3), params),
     PushQuad(Quad(x2, y2, x3, y3, u2, v2, u3, v3), params),
     PushQuad(Quad(x3, y2, x4, y3, u3, v2, u4, v3), params),
     PushQuad(Quad(x1, y3, x2, y4, u1, v3, u2, v4), params),
     PushQuad(Quad(x2, y3, x3, y4, u2, v3, u3, v4), params),
     PushQuad(Quad(x3, y3, x4, y4, u3, v3, u4, v4), params)]
  }

  /** The nine quads are exactly the grid cells over the nine-slice
      breakpoints, in row-major order. */
  lemma NineSliceIsGrid<P>(t: Texture, config: NineSlice, width: real, height: real, params: P)
    requires t.width > 0 && t.height > 0
    ensures var r := DrawNineSlice(t, config, width, height, params);
            var g := Grid(NineSliceXs(config, width), NineSliceYs(config, height),
                          NineSliceUs(config, t.width as real), NineSliceVs(config, t.height as real));
            forall i :: 0 <= i < 9 ==> r[i + 1].quad == g[i]
  {
  }

  /** The device work of `with_device`: create the texture, then upload the
      data over its whole area. */
  datatype DeviceCall = NewTexture(width: int, height: int, format: TextureFormat, filter: FilterMode)
                      | SetTextureData(data: seq<int>, x: int, y: int, width: int, height: int)

  /** The failures of image and texture data: too little data for the
      block (tetra's `NotEnoughData` error), or a block outside the texture
      (a panic in the device). */
  datatype TetraError = NotEnoughData(expected: nat, actual: nat) | BlockOutside

  /** The bytes a block of texels of `format` occupies. */
  function BlockBytes(width: nat, height: nat, format: TextureFormat): nat
  {
    width * height * Stride(format)
  }

  /** The device upload `set_data` and `with_device` rely on: too little data
      is `NotEnoughData`; otherwise exactly the block's bytes are sent, and
      any extra bytes are dropped. */
  function Upload(data: seq<int>, x: int, y: int, width: nat, height: nat, format: TextureFormat): (r: Result<DeviceCall, TetraError>)
    ensures r.Err? <==> |data| < BlockBytes(width, height, format)
    ensures r.Err? ==> r.error == NotEnoughData(BlockBytes(width, height, format), |data|)
    ensures r.Ok? ==> && r.value.SetTextureData?
                      && (r.value.x, r.value.y, r.value.width, r.value.height) == (x, y, width, height)
                      && |r.value.data| == BlockBytes(width, height, format)
                      && r.value.data <= data
  {
    var bytes := BlockBytes(width, height, format);
    if |data| < bytes then Err(NotEnoughData(bytes, |data|))
    else Ok(SetTextureData(data[..bytes], x, y, width, height))
  }

  /** Bytes past the block never reach the device. */
  lemma UploadIgnoresExtra(data: seq<int>, extra: seq<int>, x: int, y: int, width: nat, height: nat, format: TextureFormat)
    requires |data| >= BlockBytes(width, height, format)
    ensures Upload(data + extra, x, y, width, height, format) == Upload(data, x, y, width, height, format)
  {
    var bytes := BlockBytes(width, height, format);
    assert (data + extra)[..bytes] == data[..bytes];
  }

  /** `with_device`: create the texture, then upload the data over its whole
      area; the upload's error is passed on. */
  function WithDevice(width: nat, height: nat, data: seq<int>, format: TextureFormat, filter: FilterMode)
    : (r: Result<seq<DeviceCall>, TetraError>)
    ensures r.Err? <==> |data| < BlockBytes(width, height, format)
    ensures r.Err? ==> r.error == NotEnoughData(BlockBytes(width, height, format), |data|)
    ensures r.Ok? ==> && |r.value| == 2 && r.value[0] == NewTexture(width, height, format, filter)
                      && Upload(data, 0, 0, width, height, format) == Ok(r.value[1])
  {
    var upload :- Upload(data, 0, 0, width, height, format);
    Ok([NewTexture(width, height, format, filter), upload])
  }

  /** `with_device_empty`: an RGBA8 texture filled with zero bytes, four per
      pixel. It always has enough data. */
  function WithDeviceEmpty(width: nat, height: nat, filter: FilterMode): (r: Result<seq<DeviceCall>, TetraError>)
    ensures r.Ok? && |r.value| == 2 && r.value[0] == NewTexture(width, height, Rgba8, filter)
    ensures r.Ok? && r.value[1].SetTextureData? && r.value[1].width == width && r.value[1].height == height
    ensures r.Ok? && |r.value[1].data| == width * height * Stride(Rgba8)
    ensures r.Ok? && forall i :: 0 <= i < |r.value[1].data| ==> r.value[1].data[i] == 0
  {
    WithDevice(width, height, seq(width * height * 4, _ => 0), Rgba8, filter)
  }

  /** The block lies inside the texture. */
  predicate BlockInside(t: Texture, x: int, y: int, width: int, height: int)
  {
    0 <= x && 0 <= y && 0 <= width && 0 <= height && x + width <= t.width && y + height <= t.height
  }

  /** `set_data`: upload a block of texels. A block outside the texture
      panics; too little data is `NotEnoughData`; too much is cut to the
      block. */
  function SetData(t: Texture, x: int, y: int, width: int, height: int, data: seq<int>): (r: Result<DeviceCall, TetraError>)
    ensures r == Err(BlockOutside) <==> !BlockInside(t, x, y, width, height)
    ensures BlockInside(t, x, y, width, height) ==>
      && (r.Err? <==> |data| < BlockBytes(width, height, t.format))
      && (r.Err? ==> r.error == NotEnoughData(BlockBytes(width, height, t.format), |data|))
      && (r.Ok? ==> r.value == SetTextureData(data[..BlockBytes(width, height, t.format)], x, y, width, height))
  {
    if !BlockInside(t, x, y, width, height) then Err(BlockOutside)
    else Upload(data, x, y, width, height, t.format)
  }

  /** `replace_data` is `set_data` over the whole texture, from the origin:
      it never leaves the texture, and fails only for too little data. */
  function ReplaceData(t: Texture, data: seq<int>): (r: Result<DeviceCall, TetraError>)
    ensures r == SetData(t, 0, 0, t.width, t.height, data)
    ensures r.Err? <==> |data| < BlockBytes(t.width, t.height, t.format)
    ensures r.Err? ==> r.error == NotEnoughData(BlockBytes(t.width, t.height, t.format), |data|)
    ensures r.Ok? ==> r.value.x == 0 && r.value.y == 0 && r.value.width == t.width && r.value.height == t.height
  {
    SetData(t, 0, 0, t.width, t.height, data)
  }
}

=== FILE: time.dfy ===
/** `src/time.rs`: the timestep configuration, the blend factor between
    fixed updates, and the frame-time tracker behind `get_fps`. Durations
    are real numbers of seconds; `Duration`'s nanosecond rounding is not
    modelled. */
module Time {
  import opened Wrappers

  /** `Fixed(tps)` updates `tps` times a second; `Variable` once a frame. */
  datatype Timestep = Fixed(tps: real) | Variable

  /** `Duration::from_secs_f64(1.0 / tps)` panics unless `tps` is positive
      (a negative or infinite duration), so fixed timesteps are positive. */
  predicate Allowed(t: Timestep)
  {
    t.Fixed? ==> t.tps > 0.0
  }

  const FpsWindow: nat := 200

  /** The last (at most 200) frame times, oldest first. */
  datatype FpsTracker = FpsTracker(buffer: seq<real>)

  datatype TimeContext = TimeContext(fps: FpsTracker, ticksPerSecond: Option<real>, tickRate: Option<real>,
                                     deltaTime: real, accumulator: real)

  /** The two derived fields agree with the timestep: both absent, or the
      tick rate is the reciprocal of the ticks per second. */
  ghost predicate Valid(c: TimeContext)
  {
    && c.ticksPerSecond.Some? == c.tickRate.Some?
    && (c.ticksPerSecond.Some? ==> c.ticksPerSecond.value > 0.0 && c.tickRate.value * c.ticksPerSecond.value == 1.0)
    && |c.fps.buffer| <= FpsWindow
  }

  function TicksPerSecond(t: Timestep): Option<real>
  {
    match t
    case Fixed(tps) => Some(tps)
    case Variable => None
  }

  function TickRate(t: Timestep): Option<real>
    requires Allowed(t)
  {
    match t
    case Fixed(tps) => Some(1.0 / tps)
    case Variable => None
  }

  /** `TimeContext::new`. */
  function New(t: Timestep): (c: TimeContext)
    requires Allowed(t)
    ensures Valid(c) && GetTimestep(c) == t
    ensures c.fps.buffer == [] && c.deltaTime == 0.0 && c.accumulator == 0.0
  {
    TimeContext(FpsTracker([]), TicksPerSecond(t), TickRate(t), 0.0, 0.0)
  }

  /** `reset`: zero the delta time and the accumulator, nothing else. */
  function Reset(c: TimeContext): (r: TimeContext)
    ensures r.deltaTime == 0.0 && r.accumulator == 0.0
    ensures r.fps == c.fps && r.ticksPerSecond == c.ticksPerSecond && r.tickRate == c.tickRate
  {
    c.(deltaTime := 0.0, accumulator := 0.0)
  }

  /** `get_timestep`: read back from the ticks per second. */
  function GetTimestep(c: TimeContext): Timestep
  {
    match c.ticksPerSecond
    case Some(tps) => Fixed(tps)
    case None => Variable
  }

  /** `set_timestep`. */
  function SetTimestep(c: TimeContext, t: Timestep): (r: TimeContext)
    requires Allowed(t)
    ensures Valid(c) ==> Valid(r)
    ensures r.fps == c.fps && r.deltaTime == c.deltaTime && r.accumulator == c.accumulator
  {
    c.(ticksPerSecond := TicksPerSecond(t), tickRate := TickRate(t))
  }

  /** `get_timestep` returns what `set_timestep` set, and a valid context's
      tick rate is one over the timestep's ticks per second. */
  lemma TimestepRoundTrip(c: TimeContext, t: Timestep)
    requires Allowed(t)
    ensures GetTimestep(SetTimestep(c, t)) == t
    ensures t.Fixed? ==> SetTimestep(c, t).tickRate == Some(1.0 / t.tps)
    ensures t.Variable? ==> SetTimestep(c, t).tickRate == None
  {
  }

  /** `get_blend_factor` (and `_precise`, identical over the reals). */
  function BlendFactor(c: TimeContext): (f: real)
    requires Valid(c)
    ensures c.tickRate.None? ==> f == 0.0
    ensures c.tickRate.Some? ==> f * c.tickRate.value == c.accumulator
  {
    match c.tickRate
    case Some(rate) => c.accumulator / rate
    case None => 0.0
  }

  /** With an accumulator short of one tick (what the loop leaves after
      running the ready updates), the blend factor lies in [0, 1). */
  lemma BlendFactorInUnitRange(c: TimeContext)
    requires Valid(c) && c.tickRate.Some?
    requires 0.0 <= c.accumulator < c.tickRate.value
    ensures 0.0 <= BlendFactor(c) < 1.0
  {
    var f := BlendFactor(c);
    var rate := c.tickRate.value;
    assert rate > 0.0;
    assert f * rate == c.accumulator;
  }

  /** `FpsTracker::push`: drop the oldest time when 200 are held, then
      append. */
  function Push(t: FpsTracker, frameTime: real): (r: FpsTracker)
    ensures |t.buffer| <= FpsWindow ==> |r.buffer| <= FpsWindow && r.buffer == Last(t.buffer + [frameTime], FpsWindow)
    ensures |r.buffer| > 0 && r.buffer[|r.buffer| - 1] == frameTime
  {
    if |t.buffer| == FpsWindow then FpsTracker(t.buffer[1..] + [frameTime])
    else FpsTracker(t.buffer + [frameTime])
  }

  function PushAll(t: FpsTracker, times: seq<real>): FpsTracker
    decreases |times|
  {
    if times == [] then t else PushAll(Push(t, times[0]), times[1..])
  }

  /** The last `n` elements of `s` (all of them if there are fewer). */
  function Last<T>(s: seq<T>, n: nat): (r: seq<T>)
    ensures |r| == if |s| < n then |s| else n
  {
    if |s| <= n then s else s[|s| - n..]
  }

  /** However many frames are pushed, the tracker holds exactly the 200
      most recent ones, oldest first. */
  lemma {:induction false} PushAllKeepsLatest(t: FpsTracker, times: seq<real>)
    requires |t.buffer| <= FpsWindow
    ensures PushAll(t, times).buffer == Last(t.buffer + times, FpsWindow)
    decreases |times|
  {
    if times == [] {
      assert t.buffer + times == t.buffer;
    } else {
      var t1 := Push(t, times[0]);
      assert t1.buffer == Last(t.buffer + [times[0]], FpsWindow);
      PushAllKeepsLatest(t1, times[1..]);
      LastAppend(t.buffer + [times[0]], times[1..], FpsWindow);
      assert t.buffer + [times[0]] + times[1..] == t.buffer + times;
    }
  }

  lemma LastAppend<T>(a: seq<T>, b: seq<T>, n: nat)
    ensures Last(Last(a, n) + b, n) == Last(a + b, n)
  {
    if |a| > n {
      var la := a[|a| - n..];
      if |la + b| > n {
        assert (la + b)[|la + b| - n..] == (a + b)[|a + b| - n..];
      }
    }
  }

  function Sum(s: seq<real>): real
  {
    if s == [] then 0.0 else s[0] + Sum(s[1..])
  }

  /** `get_fps`: one over the mean frame time. With no frames (or frames
      of zero length) the source's division gives a non-finite value;
      here that is `None`. */
  function GetFps(t: FpsTracker): (fps: Option<real>)
    ensures fps.Some? <==> |t.buffer| > 0 && Sum(t.buffer) != 0.0
    ensures fps.Some? ==> fps.value * (Sum(t.buffer) / |t.buffer| as real) == 1.0
  {
    if |t.buffer| == 0 || Sum(t.buffer) == 0.0 then None
    else
      var mean := Sum(t.buffer) / |t.buffer| as real;
      assert mean != 0.0;
      Some(1.0 / mean)
  }
}

=== FILE: ui.dfy ===
/** `src/graphics/ui.rs`: a nine-slice panel that stretches a texture to
    any size while keeping its border cells unscaled. The fill rectangle
    marks the stretchable centre of the texture; the border is taken to be
    as wide on the right and bottom as on the left and top. */
module Ui {
  import opened Basics
  import opened Wrappers
  import opened Rectangles
  import Textures
  import opened Drawable

  datatype NineSlice = NineSlice(texture: Textures.Texture, width: real, height: real, fillRect: Rect)

  function New(texture: Textures.Texture, width: real, height: real, fillRect: Rect): (r: NineSlice)
    ensures r.texture == texture && r.width == width && r.height == height && r.fillRect == fillRect
  {
    NineSlice(texture, width, height, fillRect)
  }

  /** `build_matrix()` kept symbolic: the product of a translation to
      `position`, a rotation, a scaling and a translation by `-origin`. */
  datatype Transform = Transform(position: Vec2, rotation: real, scale: Vec2, origin: Vec2)

  function BuildMatrix(p: DrawParams): (t: Transform)
    ensures t.position == p.position && t.rotation == p.rotation && t.scale == p.scale && t.origin == p.origin
  {
    Transform(p.position, p.rotation, p.scale, p.origin)
  }

  /** What each `push_quad` of this version receives beside the quad. */
  datatype QuadArgs = QuadArgs(transform: Transform, color: Color)

  function Xs(n: NineSlice): (r: seq<real>)
    ensures |r| == 4 && r[0] == 0.0 && r[1] == n.fillRect.x && r[3] == n.width && r[3] - r[2] == r[1]
  {
    [0.0, n.fillRect.x, n.width - n.fillRect.x, n.width]
  }

  function Ys(n: NineSlice): (r: seq<real>)
    ensures |r| == 4 && r[0] == 0.0 && r[1] == n.fillRect.y && r[3] == n.height && r[3] - r[2] == r[1]
  {
    [0.0, n.fillRect.y, n.height - n.fillRect.y, n.height]
  }

  /** Texture breakpoints: the texture's edges and the fill rectangle's,
      as fractions of the texture size. */
  function Us(n: NineSlice): (r: seq<real>)
    requires n.texture.width > 0
    ensures |r| == 4 && r[0] == 0.0 && r[3] == 1.0
    ensures r[1] * n.texture.width as real == n.fillRect.x && r[2] * n.texture.width as real == Right(n.fillRect)
  {
    var tw := n.texture.width as real;
    [0.0, n.fillRect.x / tw, (n.fillRect.x + n.fillRect.width) / tw, 1.0]
  }

  function Vs(n: NineSlice): (r: seq<real>)
    requires n.texture.height > 0
    ensures |r| == 4 && r[0] == 0.0 && r[3] == 1.0
    ensures r[1] * n.texture.height as real == n.fillRect.y && r[2] * n.texture.height as real == Bottom(n.fillRect)
  {
    var th := n.texture.height as real;
    [0.0, n.fillRect.y / th, (n.fillRect.y + n.fillRect.height) / th, 1.0]
  }

  /** `draw`: set the texture once, then the nine cells from top-left to
      bottom-right, each with the same transform and colour. */
  function Draw(n: NineSlice, params: DrawParams): (r: seq<Textures.Command<QuadArgs>>)
    requires n.texture.width > 0 && n.texture.height > 0
    ensures |r| == 10 && r[0] == Textures.SetTexture(n.texture)
    ensures forall i :: 1 <= i < 10 ==> r[i].PushQuad? && r[i].params == QuadArgs(BuildMatrix(params), params.color)
  {
    var args := QuadArgs(BuildMatrix(params), params.color);
    var tw, th := n.texture.width as real, n.texture.height as real;
    var x1, y1, x2, y2 := 0.0, 0.0, n.fillRect.x, n.fillRect.y;
    var x3, y3, x4, y4 := n.width - n.fillRect.x, n.height - n.fillRect.y, n.width, n.height;
    var u1, v1, u2, v2 := 0.0, 0.0, n.fillRect.x / tw, n.fillRect.y / th;
    var u3, v3 := (n.fillRect.x + n.fillRect.width) / tw, (n.fillRect.y + n.fillRect.height) / th;
    var u4, v4 := 1.0, 1.0;
    [Textures.SetTexture(n.texture),
     Textures.PushQuad(Textures.Quad(x1, y1, x2, y2, u1, v1, u2, v2), args),
     Textures.PushQuad(Textures.Quad(x2, y1, x3, y2, u2, v1, u3, v2), args),
     Textures.PushQuad(Textures.Quad(x3, y1, x4, y2, u3, v1, u4, v2), args),
     Textures.PushQuad(Textures.Quad(x1, y2, x2, y3, u1, v2, u2, v3), args),
     Textures.PushQuad(Textures.Quad(x2, y2, x3, y3, u2, v2, u3, v3), args),
     Textures.PushQuad(Textures.Quad(x3, y2, x4, y3, u3, v2, u4, v3), args),
     Textures.PushQuad(Textures.Quad(x1, y3, x2, y4, u1, v3, u2, v4), args),
     Textures.PushQuad(Textures.Quad(x2, y3, x3, y4, u2, v3, u3, v4), args),
     Textures.PushQuad(Textures.Quad(x3, y3, x4, y4, u3, v3, u4, v4), args)]
  }

  /** The nine quads are the grid cells over the panel's breakpoints, in
      row-major order. */
  lemma DrawIsGrid(n: NineSlice, params: DrawParams)
    requires n.texture.width > 0 && n.texture.height > 0
    ensures var r := Draw(n, params);
            var g := Textures.Grid(Xs(n), Ys(n), Us(n), Vs(n));
            forall i :: 0 <= i < 9 ==> r[i + 1].quad == g[i]
  {
  }

  /** The transform depends on the placement only: the colour and clip of
      the parameters do not change it. */
  lemma TransformIgnoresColorAndClip(p: DrawParams, c: Color, clip: Option<Rect>)
    ensures BuildMatrix(p.(color := c, clip := clip)) == BuildMatrix(p)
  {
  }
}

=== FILE: vertex_batcher.dfy ===
/** The older quad renderer of `src/graphics/mod.rs`. Vertices are pushed one
    at a time through an affine transform; the batch renders into an
    internal-resolution back buffer that `present` letterboxes into the
    window. GL calls are recorded in a log. */
module VertexBatcher {
  import opened Basics
  import opened Wrappers
  import opened Numeric
  import opened Rectangles
  import QuadIndices

  const MaxSprites: nat := 2048
  const MaxVertices: nat := MaxSprites * 4
  const MaxIndices: nat := MaxSprites * 6
  /** Each vertex is eight consecutive `f32`s in the buffer: position, texture
      coordinates, colour. The model keeps them as one `Vertex` record. */
  const VertexStride: nat := 8
  /** The largest vertex count a 16-bit signed index can address. */
  const MaxAddressableVertices: nat := 32767

  datatype ActiveTexture = FramebufferTexture | FontCacheTexture | UserTexture(texture: nat)
  datatype ActiveShader = DefaultShader | TextShader
  datatype ActiveProjection = InternalProjection | WindowProjection
  datatype ActiveFramebuffer = Backbuffer | WindowFramebuffer

  /** A 2D affine transform (a `Mat3` whose last row is `0 0 1`): a point
      `(x, y)` maps to `(m00*x + m01*y + m02, m10*x + m11*y + m12)`. */
  datatype Affine = Affine(m00: real, m01: real, m02: real, m10: real, m11: real, m12: real)

  const Identity := Affine(1.0, 0.0, 0.0, 0.0, 1.0, 0.0)
  const Black := Color(0.0, 0.0, 0.0, 1.0)

  function Transform(t: Affine, x: real, y: real): (p: Vec2)
  {
    Vec2(t.m00 * x + t.m01 * y + t.m02, t.m10 * x + t.m11 * y + t.m12)
  }

  datatype GlCall =
    | SetProjectionUniform(shader: ActiveShader, width: int, height: int)
    | UploadVertices(data: seq<Vertex>)
    | DrawElements(texture: ActiveTexture, shader: ActiveShader, count: int)
    | BindBackbuffer
    | BindDefaultFramebuffer
    | Viewport(x: int, y: int, width: int, height: int)
    | Clear(color: Color)
    | SwapWindow

  datatype Graphics = Graphics(
    indices: seq<nat>,
    texture: Option<ActiveTexture>,
    shader: ActiveShader,
    projection: ActiveProjection,
    framebuffer: ActiveFramebuffer,
    vertexData: seq<Vertex>,
    vertexCapacity: int,
    vertexCount: int,
    elementCount: int,
    internalWidth: int,
    internalHeight: int,
    windowWidth: int,
    windowHeight: int,
    letterbox: Rect,
    log: seq<GlCall>)

  /** The batch invariant between quads: the queue holds whole quads, within
      capacity, with six elements per four vertices. */
  ghost predicate Valid(g: Graphics)
  {
    && g.vertexCapacity == MaxVertices
    && 0 <= g.vertexCount <= g.vertexCapacity
    && g.vertexCount % 4 == 0
    && g.elementCount == g.vertexCount / 4 * 6
    && |g.vertexData| == g.vertexCount
  }

  /** What the corrected letterbox needs: it divides by both internal
      sides, so neither may be 0. */
  predicate LetterboxArgs(internalWidth: int, internalHeight: int)
  {
    internalWidth != 0 && internalHeight != 0
  }

  /** What `letterbox` as written needs: it divides only by the internal
      side its branch picks, so only that one may not be 0. */
  predicate LetterboxAsWrittenArgs(internalWidth: int, internalHeight: int, windowWidth: int, windowHeight: int)
  {
    if windowWidth <= windowHeight then internalWidth != 0 else internalHeight != 0
  }

  /** `GraphicsContext::new`: no texture yet, default shader, internal
      projection, drawing into the back buffer, whose viewport is set. */
  function New(internalWidth: int, internalHeight: int, windowWidth: int, windowHeight: int): (g: Graphics)
    requires LetterboxArgs(internalWidth, internalHeight)
    ensures Valid(g) && g.vertexData == [] && g.texture == None
    ensures g.framebuffer == Backbuffer && g.projection == InternalProjection && g.shader == DefaultShader
    ensures g.log == [Viewport(0, 0, internalWidth, internalHeight)]
    ensures g.letterbox == Letterbox(internalWidth, internalHeight, windowWidth, windowHeight)
    ensures |g.indices| == MaxIndices
    ensures forall i :: 0 <= i < MaxIndices ==> g.indices[i] < MaxVertices <= MaxAddressableVertices
  {
    var indices := QuadIndices.Generate(6 * MaxSprites);
    QuadIndices.IndicesBounded(MaxSprites);
    Graphics(indices, None, DefaultShader, InternalProjection, Backbuffer, [], MaxVertices, 0, 0,
             internalWidth, internalHeight, windowWidth, windowHeight,
             Letterbox(internalWidth, internalHeight, windowWidth, windowHeight),
             [Viewport(0, 0, internalWidth, internalHeight)])
  }

  function ProjectionSize(g: Graphics): (int, int)
  {
    match g.projection
    case InternalProjection => (g.internalWidth, g.internalHeight)
    case WindowProjection => (g.windowWidth, g.windowHeight)
  }

  /** `flush`: with queued data and a texture, draw it and empty the queue.
      Without a texture the queue is left as it is. */
  function Flush(g: Graphics): Graphics
  {
    if g.vertexData == [] then g
    else match g.texture
      case None => g
      case Some(t) =>
        var size := ProjectionSize(g);
        g.(vertexData := [], vertexCount := 0, elementCount := 0,
           log := g.log + [SetProjectionUniform(g.shader, size.0, size.1),
                           UploadVertices(g.vertexData),
                           DrawElements(t, g.shader, g.elementCount)])
  }

  datatype Vertex = Vertex(position: Vec2, u: real, v: real, color: Color)

  /** The eight floats a vertex occupies in the buffer. */
  function Floats(v: Vertex): (r: seq<real>)
    ensures |r| == VertexStride
  {
    [v.position.x, v.position.y, v.u, v.v, v.color.r, v.color.g, v.color.b, v.color.a]
  }

  /** `push_vertex`: flush if the vertex buffer is full, then queue one
      vertex (already transformed, see `QuadVertices`). */
  function PushVertex(g: Graphics, vertex: Vertex): Graphics
  {
    var pre := Room(g);
    pre.(vertexData := pre.vertexData + [vertex], vertexCount := pre.vertexCount + 1)
  }

  /** The batch `push_vertex` appends to: flushed first when full. */
  function Room(g: Graphics): Graphics
  {
    if g.vertexCount >= g.vertexCapacity then Flush(g) else g
  }

  /** `push_vertex` applied to each vertex in turn. */
  function PushVertices(g: Graphics, vertices: seq<Vertex>): Graphics
    decreases |vertices|
  {
    if vertices == [] then g else PushVertices(PushVertex(g, vertices[0]), vertices[1..])
  }

  /** The four vertices of a quad: the corners normalised (swapping the
      matching texture coordinates) and transformed, in drawing order. */
  function QuadVertices(x1: real, y1: real, x2: real, y2: real,
                        u1: real, v1: real, u2: real, v2: real, t: Affine, c: Color): (r: seq<Vertex>)
    ensures |r| == 4
  {
    var x := Ordered(x1, x2, u1, u2);
    var y := Ordered(y1, y2, v1, v2);
    [Vertex(Transform(t, x.lo, y.lo), x.tlo, y.tlo, c), Vertex(Transform(t, x.lo, y.hi), x.tlo, y.thi, c),
     Vertex(Transform(t, x.hi, y.hi), x.thi, y.thi, c), Vertex(Transform(t, x.hi, y.lo), x.thi, y.tlo, c)]
  }

  /** Under the identity transform the quad runs from its smaller to its
      larger corner, each corner keeps the texture coordinates given with it,
      and naming the corners in the other order queues the same quad. */
  lemma QuadVerticesNormalised(x1: real, y1: real, x2: real, y2: real,
                               u1: real, v1: real, u2: real, v2: real, c: Color)
    ensures var r := QuadVertices(x1, y1, x2, y2, u1, v1, u2, v2, Identity, c);
      && r[0].position.x <= r[2].position.x && r[0].position.y <= r[2].position.y
      && (forall i :: 0 <= i < 4 ==>
            && ((r[i].position.x, r[i].u) == (x1, u1) || (r[i].position.x, r[i].u) == (x2, u2))
            && ((r[i].position.y, r[i].v) == (y1, v1) || (r[i].position.y, r[i].v) == (y2, v2)))
    ensures x1 != x2 && y1 != y2 ==>
      QuadVertices(x2, y2, x1, y1, u2, v2, u1, v1, Identity, c) == QuadVertices(x1, y1, x2, y2, u1, v1, u2, v2, Identity, c)
  {
  }

  /** `push_quad`: push the quad's four vertices, count six elements. */
  function PushQuad(g: Graphics, x1: real, y1: real, x2: real, y2: real,
                    u1: real, v1: real, u2: real, v2: real, t: Affine, c: Color): Graphics
  {
    var r := PushVertices(g, QuadVertices(x1, y1, x2, y2, u1, v1, u2, v2, t, c));
    r.(elementCount := r.elementCount + 6)
  }

  /** While the buffer has room, pushing vertices appends them and changes
      nothing else: no flush happens. */
  lemma {:induction false} PushVerticesRoom(g: Graphics, vertices: seq<Vertex>)
    requires g.vertexCount + |vertices| <= g.vertexCapacity
    ensures PushVertices(g, vertices)
         == g.(vertexData := g.vertexData + vertices, vertexCount := g.vertexCount + |vertices|)
    decreases |vertices|
  {
    if vertices != [] {
      var g1 := PushVertex(g, vertices[0]);
      PushVerticesRoom(g1, vertices[1..]);
      assert g1.vertexData + vertices[1..] == g.vertexData + vertices;
    }
  }

  /** With a texture bound, making room in a valid batch leaves a valid batch
      with space for a whole quad. */
  lemma RoomValid(g: Graphics)
    requires Valid(g) && g.texture.Some?
    ensures Valid(Room(g)) && Room(g).vertexCount <= MaxVertices - 4
  {
  }

  /** A quad is never split across a flush: with a texture bound, pushing a
      quad onto a valid batch flushes at most once, before its first vertex,
      appends its four vertices and keeps the batch valid. */
  lemma PushQuadWhole(g: Graphics, x1: real, y1: real, x2: real, y2: real,
                      u1: real, v1: real, u2: real, v2: real, t: Affine, c: Color)
    requires Valid(g) && g.texture.Some?
    ensures var r := PushQuad(g, x1, y1, x2, y2, u1, v1, u2, v2, t, c);
      && Valid(r)
      && r == Room(g).(vertexData := Room(g).vertexData + QuadVertices(x1, y1, x2, y2, u1, v1, u2, v2, t, c),
                       vertexCount := Room(g).vertexCount + 4, elementCount := Room(g).elementCount + 6)
  {
    var q := QuadVertices(x1, y1, x2, y2, u1, v1, u2, v2, t, c);
    var pre := Room(g);
    RoomValid(g);
    assert PushVertex(g, q[0]) == PushVertex(pre, q[0]);
    PushVerticesRoom(pre, q);
    assert (pre.vertexCount + 4) / 4 == pre.vertexCount / 4 + 1;
  }

  /** Without a texture a flush is skipped, so the queue is never emptied. */
  lemma FlushNeedsTexture(g: Graphics)
    requires g.texture == None
    ensures Flush(g) == g
  {
  }

  /** `set_texture_ex`: flush and switch only when the texture differs. */
  function SetTexture(g: Graphics, texture: ActiveTexture): (r: Graphics)
    ensures r.texture == Some(texture)
    ensures g.texture == Some(texture) ==> r == g
    ensures g.texture != Some(texture) ==> r == Flush(g).(texture := Some(texture))
    ensures g.texture != Some(texture) && g.vertexData != [] && g.texture.Some? ==>
      && r.vertexData == [] && r.vertexCount == 0 && r.elementCount == 0
      && r.log == g.log + [SetProjectionUniform(g.shader, ProjectionSize(g).0, ProjectionSize(g).1),
                           UploadVertices(g.vertexData), DrawElements(g.texture.value, g.shader, g.elementCount)]
  {
    if Some(texture) != g.texture then Flush(g).(texture := Some(texture)) else g
  }

  /** `set_shader_ex`: flush and switch only when the shader differs. */
  function SetShader(g: Graphics, shader: ActiveShader): (r: Graphics)
    ensures r.shader == shader
    ensures g.shader == shader ==> r == g
    ensures g.shader != shader ==> r == Flush(g).(shader := shader)
    ensures g.shader != shader && g.vertexData != [] && g.texture.Some? ==>
      && r.vertexData == [] && r.vertexCount == 0 && r.elementCount == 0
      && r.log == g.log + [SetProjectionUniform(g.shader, ProjectionSize(g).0, ProjectionSize(g).1),
                           UploadVertices(g.vertexData), DrawElements(g.texture.value, g.shader, g.elementCount)]
  {
    if shader != g.shader then Flush(g).(shader := shader) else g
  }

  /** `set_projection_ex`: flush and switch only when the projection differs. */
  function SetProjection(g: Graphics, projection: ActiveProjection): (r: Graphics)
    ensures r.projection == projection
    ensures g.projection == projection ==> r == g
    ensures g.projection != projection ==> r == Flush(g).(projection := projection)
    ensures g.projection != projection && g.vertexData != [] && g.texture.Some? ==>
      && r.vertexData == [] && r.vertexCount == 0 && r.elementCount == 0
      && r.log == g.log + [SetProjectionUniform(g.shader, ProjectionSize(g).0, ProjectionSize(g).1),
                           UploadVertices(g.vertexData), DrawElements(g.texture.value, g.shader, g.elementCount)]
  {
    if projection != g.projection then Flush(g).(projection := projection) else g
  }

  /** `set_framebuffer_ex`: on a change, flush, switch, bind the target and
      set the viewport to its size. */
  function SetFramebuffer(g: Graphics, framebuffer: ActiveFramebuffer): (r: Graphics)
    ensures r.framebuffer == framebuffer
    ensures g.framebuffer == framebuffer ==> r == g
    ensures g.framebuffer != framebuffer ==>
      && r == Flush(g).(framebuffer := framebuffer, log := r.log)
      && r.log == Flush(g).log + (if framebuffer == Backbuffer
                                  then [BindBackbuffer, Viewport(0, 0, g.internalWidth, g.internalHeight)]
                                  else [BindDefaultFramebuffer, Viewport(0, 0, g.windowWidth, g.windowHeight)])
  {
    if framebuffer != g.framebuffer then
      var f := Flush(g).(framebuffer := framebuffer);
      match framebuffer
      case Backbuffer => f.(log := f.log + [BindBackbuffer, Viewport(0, 0, g.internalWidth, g.internalHeight)])
      case WindowFramebuffer => f.(log := f.log + [BindDefaultFramebuffer, Viewport(0, 0, g.windowWidth, g.windowHeight)])
    else g
  }

  /** `present`: switch to the window, draw the back buffer's texture as one
      quad over the letterbox (flipped vertically), switch back to the back
      buffer and swap. */
  function Present(g: Graphics): Graphics
  {
    PresentFinish(PushLetterbox(PresentSetup(g)))
  }

  /** Queue the letterbox quad. */
  function PushLetterbox(g: Graphics): Graphics
  {
    var lb := g.letterbox;
    PushQuad(g, lb.x, lb.y, lb.x + lb.width, lb.y + lb.height, 0.0, 1.0, 1.0, 0.0, Identity, White)
  }

  /** The quad `present` draws over the letterbox, with the texture flipped
      vertically (the back buffer is stored upside down). */
  function LetterboxQuad(lb: Rect): (r: seq<Vertex>)
    ensures |r| == 4
  {
    QuadVertices(lb.x, lb.y, lb.x + lb.width, lb.y + lb.height, 0.0, 1.0, 1.0, 0.0, Identity, White)
  }

  function PresentFinish(g: Graphics): Graphics
  {
    var g7 := SetFramebuffer(g, Backbuffer);
    var g8 := SetProjection(g7, InternalProjection);
    g8.(log := g8.log + [SwapWindow])
  }

  /** The state changes `present` makes before drawing the letterbox quad. */
  function PresentSetup(g: Graphics): (r: Graphics)
    ensures r.framebuffer == WindowFramebuffer && r.projection == WindowProjection
    ensures r.texture == Some(FramebufferTexture) && r.shader == DefaultShader
  {
    var g1 := SetFramebuffer(g, WindowFramebuffer);
    var g2 := SetProjection(g1, WindowProjection);
    var g3 := SetTexture(g2, FramebufferTexture);
    var g4 := SetShader(g3, DefaultShader);
    g4.(log := g4.log + [Clear(Black)])
  }

  /** The sizes and the letterbox, which only `set_window_size` changes. */
  ghost predicate SameScreen(a: Graphics, b: Graphics)
  {
    && a.letterbox == b.letterbox
    && a.internalWidth == b.internalWidth && a.internalHeight == b.internalHeight
    && a.windowWidth == b.windowWidth && a.windowHeight == b.windowHeight
  }

  /** A state switch keeps the screen and the validity of the batch. */
  lemma SwitchKeepsScreen(g: Graphics)
    requires Valid(g)
    ensures Valid(Flush(g)) && SameScreen(g, Flush(g))
    ensures forall f :: Valid(SetFramebuffer(g, f)) && SameScreen(g, SetFramebuffer(g, f))
    ensures forall p :: Valid(SetProjection(g, p)) && SameScreen(g, SetProjection(g, p))
    ensures forall t :: Valid(SetTexture(g, t)) && SameScreen(g, SetTexture(g, t))
    ensures forall s :: Valid(SetShader(g, s)) && SameScreen(g, SetShader(g, s))
  {
  }

  /** The state changes before the letterbox quad keep the screen and the
      validity of the batch. */
  lemma PresentSetupValid(g: Graphics)
    requires Valid(g)
    ensures Valid(PresentSetup(g)) && SameScreen(g, PresentSetup(g))
  {
    var g1 := SetFramebuffer(g, WindowFramebuffer);
    SwitchKeepsScreen(g);
    var g2 := SetProjection(g1, WindowProjection);
    SwitchKeepsScreen(g1);
    var g3 := SetTexture(g2, FramebufferTexture);
    SwitchKeepsScreen(g2);
    SwitchKeepsScreen(g3);
  }

  /** A log ending the way `present` ends it for a context `g`: upload the
      queue (whose last quad is `g`'s letterbox), draw it with the back
      buffer's texture under the window projection, bind the back buffer
      with its viewport, swap. */
  ghost predicate EndsPresenting(log: seq<GlCall>, g: Graphics)
  {
    && |log| >= 6
    && log[|log| - 6] == SetProjectionUniform(DefaultShader, g.windowWidth, g.windowHeight)
    && log[|log| - 5].UploadVertices? && |log[|log| - 5].data| >= 4
    && FinalQuad(log[|log| - 5].data) == LetterboxQuad(g.letterbox)
    && log[|log| - 4] == DrawElements(FramebufferTexture, DefaultShader, |log[|log| - 5].data| / 4 * 6)
    && log[|log| - 3..] == [BindBackbuffer, Viewport(0, 0, g.internalWidth, g.internalHeight), SwapWindow]
  }

  /** After `present` the context is back on the back buffer with the
      internal projection and an empty queue, and the frame ends by drawing
      the queued quads, the letterbox quad last, with the back buffer's
      texture into the window, then swapping. */
  lemma PresentDrawsLetterbox(g: Graphics)
    requires Valid(g)
    ensures var r := Present(g);
      && Valid(r) && r.vertexData == []
      && r.framebuffer == Backbuffer && r.projection == InternalProjection
      && r.texture == Some(FramebufferTexture) && r.shader == DefaultShader
      && EndsPresenting(r.log, g)
  {
    PresentSetupValid(g);
    WindowPassDrawsLetterbox(PresentSetup(g));
  }

  /** The part of `present` after the switch to the window. */
  lemma WindowPassDrawsLetterbox(g: Graphics)
    requires Valid(g)
    requires g.framebuffer == WindowFramebuffer && g.projection == WindowProjection
    requires g.texture == Some(FramebufferTexture) && g.shader == DefaultShader
    ensures var r := PresentFinish(PushLetterbox(g));
      && Valid(r) && r.vertexData == []
      && r.framebuffer == Backbuffer && r.projection == InternalProjection
      && r.texture == Some(FramebufferTexture) && r.shader == DefaultShader
      && EndsPresenting(r.log, g)
  {
    PushLetterboxWhole(g);
    FinishEndsPresenting(PushLetterbox(g), g);
  }

  /** Queuing the letterbox quad keeps the batch valid and the state, and
      leaves the quad last in the queue. */
  lemma PushLetterboxWhole(g: Graphics)
    requires Valid(g) && g.texture.Some?
    ensures var r := PushLetterbox(g);
      && Valid(r) && |r.vertexData| >= 4
      && FinalQuad(r.vertexData) == LetterboxQuad(g.letterbox)
      && r.texture == g.texture && r.shader == g.shader
      && r.projection == g.projection && r.framebuffer == g.framebuffer
      && SameScreen(g, r)
  {
    var lb := g.letterbox;
    PushQuadWhole(g, lb.x, lb.y, lb.x + lb.width, lb.y + lb.height, 0.0, 1.0, 1.0, 0.0, Identity, White);
    FinalQuadOf(Room(g).vertexData, LetterboxQuad(lb));
  }

  /** Leaving the window after queuing the letterbox quad ends the frame as
      `present` does. */
  lemma FinishEndsPresenting(g6: Graphics, g: Graphics)
    requires Valid(g6) && |g6.vertexData| >= 4
    requires FinalQuad(g6.vertexData) == LetterboxQuad(g.letterbox)
    requires g6.texture == Some(FramebufferTexture) && g6.shader == DefaultShader
    requires g6.framebuffer == WindowFramebuffer && g6.projection == WindowProjection
    requires SameScreen(g, g6)
    ensures var r := PresentFinish(g6);
      && Valid(r) && r.vertexData == []
      && r.framebuffer == Backbuffer && r.projection == InternalProjection
      && r.texture == Some(FramebufferTexture) && r.shader == DefaultShader
      && EndsPresenting(r.log, g)
  {
    assert g6.elementCount == |g6.vertexData| / 4 * 6;
    PresentFinishFlushes(g6);
  }

  /** Leaving the window with a non-empty queue draws it, binds the back
      buffer with its viewport, restores the internal projection and
      swaps. */
  lemma PresentFinishFlushes(g: Graphics)
    requires Valid(g) && g.vertexData != [] && g.texture.Some?
    requires g.framebuffer == WindowFramebuffer && g.projection == WindowProjection
    ensures var r := PresentFinish(g);
      && Valid(r) && r.vertexData == []
      && r.framebuffer == Backbuffer && r.projection == InternalProjection
      && r.texture == g.texture && r.shader == g.shader
      && r.log == g.log + [SetProjectionUniform(g.shader, g.windowWidth, g.windowHeight),
                           UploadVertices(g.vertexData),
                           DrawElements(g.texture.value, g.shader, g.elementCount),
                           BindBackbuffer, Viewport(0, 0, g.internalWidth, g.internalHeight), SwapWindow]
  {
    var g7 := SetFramebuffer(g, Backbuffer);
    assert g7.vertexData == [] && Valid(g7);
  }

  /** The last quad's floats in a vertex upload. */
  function FinalQuad(data: seq<Vertex>): (r: seq<Vertex>)
    requires |data| >= 4
    ensures |r| == 4
  {
    data[|data| - 4..]
  }

  lemma FinalQuadOf(queued: seq<Vertex>, quad: seq<Vertex>)
    requires |quad| == 4
    ensures FinalQuad(queued + quad) == quad
  {
  }

  /** `set_window_size`: store the size and recompute the letterbox. */
  function SetWindowSize(g: Graphics, width: int, height: int): (r: Graphics)
    requires LetterboxArgs(g.internalWidth, g.internalHeight)
    ensures r.windowWidth == width && r.windowHeight == height
    ensures r.letterbox == Letterbox(g.internalWidth, g.internalHeight, width, height)
    ensures r.(windowWidth := g.windowWidth, windowHeight := g.windowHeight, letterbox := g.letterbox) == g
  {
    g.(windowWidth := width, windowHeight := height,
       letterbox := Letterbox(g.internalWidth, g.internalHeight, width, height))
  }

  /** `letterbox` as written: the scale is chosen by comparing the window's
      width with its height, not the two aspect ratios. */
  function LetterboxAsWritten(internalWidth: int, internalHeight: int, windowWidth: int, windowHeight: int): (r: Rect)
    requires LetterboxAsWrittenArgs(internalWidth, internalHeight, windowWidth, windowHeight)
    ensures var scale := if windowWidth <= windowHeight then TruncDiv(windowWidth, internalWidth)
                         else TruncDiv(windowHeight, internalHeight);
      r.width == (internalWidth * scale) as real && r.height == (internalHeight * scale) as real
  {
    var scale := if windowWidth <= windowHeight then TruncDiv(windowWidth, internalWidth)
                 else TruncDiv(windowHeight, internalHeight);
    Centered(internalWidth * scale, internalHeight * scale, windowWidth, windowHeight)
  }

  function Centered(width: int, height: int, windowWidth: int, windowHeight: int): (r: Rect)
    ensures r.width == width as real && r.height == height as real
  {
    Rectangle(TruncDiv(windowWidth - width, 2) as real, TruncDiv(windowHeight - height, 2) as real,
              width as real, height as real)
  }

  /** A tall internal resolution in a landscape window: the width decides
      the scale, and the letterbox ends up taller than the window. */
  lemma LetterboxAsWrittenOverflows()
    ensures LetterboxAsWritten(100, 300, 400, 500).height > 500.0
  {
    assert TruncDiv(400, 100) == 4;
  }

  /** The side the branch does not pick may be 0: a 100 by 0 canvas in a
      400 by 500 window is scaled by 4 from the width alone. */
  lemma LetterboxAsWrittenZeroHeight()
    ensures LetterboxAsWritten(100, 0, 400, 500) == Rectangle(0.0, 250.0, 400.0, 0.0)
  {
    assert TruncDiv(400, 100) == 4;
    assert TruncDiv(500 - 0, 2) == 250;
    assert TruncDiv(400 - 400, 2) == 0;
  }

  /** The corrected letterbox: the largest integer scale at which the
      internal resolution fits the window on both axes. `New` and
      `SetWindowSize` store this one in place of `LetterboxAsWritten`. */
  function Letterbox(internalWidth: int, internalHeight: int, windowWidth: int, windowHeight: int): (r: Rect)
    requires LetterboxArgs(internalWidth, internalHeight)
  {
    var scale := LetterboxScale(internalWidth, internalHeight, windowWidth, windowHeight);
    Centered(internalWidth * scale, internalHeight * scale, windowWidth, windowHeight)
  }

  function LetterboxScale(internalWidth: int, internalHeight: int, windowWidth: int, windowHeight: int): int
    requires LetterboxArgs(internalWidth, internalHeight)
  {
    Min(TruncDiv(windowWidth, internalWidth), TruncDiv(windowHeight, internalHeight))
  }

  function Min(a: int, b: int): int { if a <= b then a else b }

  /** For a window of non-negative size the letterbox scale is the largest
      integer at which the internal resolution fits on both axes. */
  lemma LetterboxScaleLargest(internalWidth: int, internalHeight: int, windowWidth: int, windowHeight: int)
    requires internalWidth > 0 && internalHeight > 0 && windowWidth >= 0 && windowHeight >= 0
    ensures var s := LetterboxScale(internalWidth, internalHeight, windowWidth, windowHeight);
      && s >= 0
      && internalWidth * s <= windowWidth && internalHeight * s <= windowHeight
      && (internalWidth * (s + 1) > windowWidth || internalHeight * (s + 1) > windowHeight)
  {
    var sw, sh := windowWidth / internalWidth, windowHeight / internalHeight;
    DivBounds(windowWidth, internalWidth);
    DivBounds(windowHeight, internalHeight);
    var s := Min(sw, sh);
    assert s == LetterboxScale(internalWidth, internalHeight, windowWidth, windowHeight);
    MulMono(internalWidth, s, sw);
    MulMono(internalHeight, s, sh);
    if s == sw {
      assert internalWidth * (s + 1) == (sw + 1) * internalWidth;
    } else {
      assert internalHeight * (s + 1) == (sh + 1) * internalHeight;
    }
  }

  /** For a window of non-negative size the letterbox lies inside the window,
      centred (to within rounding), at the largest integer scale that fits. */
  lemma LetterboxFits(internalWidth: int, internalHeight: int, windowWidth: int, windowHeight: int)
    requires internalWidth > 0 && internalHeight > 0 && windowWidth >= 0 && windowHeight >= 0
    ensures var r := Letterbox(internalWidth, internalHeight, windowWidth, windowHeight);
      var s := LetterboxScale(internalWidth, internalHeight, windowWidth, windowHeight);
      && r.width == (internalWidth * s) as real && r.height == (internalHeight * s) as real
      && 0.0 <= r.x && r.x + r.width <= windowWidth as real
      && 0.0 <= r.y && r.y + r.height <= windowHeight as real
      && windowWidth as real - (r.x + r.width) - r.x <= 1.0
      && windowHeight as real - (r.y + r.height) - r.y <= 1.0
      && (internalWidth * (s + 1) > windowWidth || internalHeight * (s + 1) > windowHeight)
  {
    LetterboxScaleLargest(internalWidth, internalHeight, windowWidth, windowHeight);
    var s := LetterboxScale(internalWidth, internalHeight, windowWidth, windowHeight);
    var w, h := internalWidth * s, internalHeight * s;
    var dx, dy := windowWidth - w, windowHeight - h;
    assert TruncDiv(dx, 2) == dx / 2 && TruncDiv(dy, 2) == dy / 2;
  }

  lemma MulMono(k: nat, a: int, b: int)
    requires a <= b
    ensures k * a <= k * b
  {
    assert k * b - k * a == k * (b - a);
  }
}

=== FILE: wrappers.dfy ===
/** Optional values and fallible results, the two shapes Rust's `Option` and
    `Result` take throughout the framework. */
module Wrappers {

  datatype Option<+T> = None | Some(value: T) {
    predicate IsSome() { Some? }

    function UnwrapOr(default: T): T
    {
      match this
      case Some(v) => v
      case None => default
    }
  }

  datatype Result<+T, +E> = Ok(value: T) | Err(error: E) {
    predicate IsOk() { Ok? }

    // What `:-` needs to behave like Rust's `?`.
    predicate IsFailure() { Err? }

    function PropagateFailure<U>(): Result<U, E>
      requires Err?
    {
      Err(error)
    }

    function Extract(): T
      requires Ok?
    {
      value
    }
  }
}
